=== FILE: README.md ===
# Bug report analyzer: a verified model of the ingestion and search core

This project models, in Dafny, the part of the bug report analyzer that turns an uploaded Android bug report archive into a searchable project. It proves properties of that model. It covers two implementations.

The Java desktop application:
- `FileMetadata` and `ProjectManifest`: the per-project record of extracted files.
- `FileSplitter`: cuts a large bug report into 10 to 100 byte-contiguous parts through an 8 KiB buffer.
- `ZipExtractor`: walks an archive and its nested archives, keeps bug reports and videos under collision-free names, and splits large reports.
- `SearchEngine`: the line-by-line search with 1-based line numbers.
- `KeywordManager`: keyword categories in an insertion-ordered map, with migration from the legacy text file.
- `RecentProjectsManager`: the ten most recently used projects.
- The rules behind the windows:
  - `SearchWindow`: result list, wrap-around find next and previous, range selection.
  - `TextViewer`: which file is shown, the UTF-8 to ISO-8859-1 fallback, keyword queries.
  - `KeywordDialog`: the ';'-separated keyword editor.
  - `CategorySelectionDialog`.
  - `WelcomeView`: project directory resolution, display names, the deletion guard.
  - `ProjectView`: parts list, tab reuse.

The Electron prototype:
- `text-splitter.js`: line-preserving chunks.
- `search-engine.js`: regex escaping, logcat query composition, line search.
- `cache-manager.js`: the saved project list and recursive directory removal.
- `file-processor.js`: nested archive unpacking, file discovery, chunk lookup.

Pure rules are written as functions with lemmas about them. The loops and the objects whose fields the source updates are written as methods and classes. A method's `ensures` either states the property outright or ties its result and new state to a specification function; the properties of those functions are proved as lemmas. The nested-archive walk of `file-processor.js`, for instance, is proved equal to the step functions `Unpacked`, `EntryStep`, `DirStep` and `UnpackStep`, and `UnpackedCanon` then characterizes their result.

The file system appears as a map from paths to contents. An archive appears as the tree of entries it unpacks to. Regular expression evaluation, character decoding, clocks and identifiers enter as parameters.

Modules, one file each:
- Shared: `Wrappers`, `Seqs`, `Strings`, `Paths`, `Lines`, `Patterns`.
- Java: `Model`, `FileSplitter`, `ZipExtractor`, `SearchEngine`, `KeywordManager`, `RecentProjects`, `SearchWindow`, `TextViewer`, `CategorySelection`, `KeywordDialog`, `WelcomeView`, `ProjectView`.
- Prototype: `TextSplitterJs`, `SearchEngineJs`, `CacheManagerJs`, `FileProcessorJs`.

## Model

| member | source | states |
|---|---|---|
| Model.FileMetadata.constructor | src/main/java/com/buganalyzer/model/FileMetadata.java:19-25 | the object holds the five given fields and no split parts (Java `null`) |
| Model.FileMetadata.SetFileName | src/main/java/com/buganalyzer/model/FileMetadata.java:28 | only `fileName` changes, to the given value |
| Model.FileMetadata.SetFileSize | src/main/java/com/buganalyzer/model/FileMetadata.java:31 | only `fileSize` changes, to the given value |
| Model.FileMetadata.SetRelativePath | src/main/java/com/buganalyzer/model/FileMetadata.java:34 | only `relativePath` changes, to the given value |
| Model.FileMetadata.SetOriginalPath | src/main/java/com/buganalyzer/model/FileMetadata.java:37 | only `originalPath` changes, to the given value |
| Model.FileMetadata.SetType | src/main/java/com/buganalyzer/model/FileMetadata.java:40 | only `type` changes, to the given value |
| Model.FileMetadata.SetSplitParts | src/main/java/com/buganalyzer/model/FileMetadata.java:43 | only `splitParts` changes, to the given list or `null` |
| Model.ProjectManifest.constructor | src/main/java/com/buganalyzer/model/ProjectManifest.java:15-19 | name and archive path as given, creation time the clock reading, no alias, no files |
| Model.ProjectManifest.AddFile | src/main/java/com/buganalyzer/model/ProjectManifest.java:36-38 | the file is appended to `files`; every other field is unchanged |
| Model.ValuesAppend | src/main/java/com/buganalyzer/model/ProjectManifest.java:36-38 | the values of the file list after an append are the old values followed by the new file's value |
| Model.ProjectManifest.SetDisplayName | src/main/java/com/buganalyzer/model/ProjectManifest.java:25 | only the alias changes; the project name that names the directory and JSON file stays |
| Model.ProjectManifest.SetFiles | src/main/java/com/buganalyzer/model/ProjectManifest.java:34 | only the file list changes, to the given list |
| FileSplitter.JavaIntCast | src/main/java/com/buganalyzer/core/FileSplitter.java:23 | the `(int)` cast keeps a value in the 32-bit range that is congruent to its argument modulo 2^32 |
| FileSplitter.PartCount | src/main/java/com/buganalyzer/core/FileSplitter.java:17-25 | between 10 and 100 parts: 10 below 110 MiB, 100 from 1010 MiB, a tenth of the whole MiB in between |
| FileSplitter.PartCountAgrees | src/main/java/com/buganalyzer/core/FileSplitter.java:23-25 | below 2^31 * 10 MiB the cast changes nothing and the code's count is the intended one |
| FileSplitter.PartCountWraps | src/main/java/com/buganalyzer/core/FileSplitter.java:23-25 | a file of (2^32 + 50) * 10 MiB is cut into 50 parts by the code as written instead of 100 |
| FileSplitter.SplitName | src/main/java/com/buganalyzer/core/FileSplitter.java:34-36 | name part and extension rebuild the file name; the extension starts at the last '.', or is empty without one |
| FileSplitter.PartName | src/main/java/com/buganalyzer/core/FileSplitter.java:41 | a part name is never the source file's name |
| FileSplitter.PartNames | src/main/java/com/buganalyzer/core/FileSplitter.java:40-43 | one name per part, `<name>_sub<i><ext>` for i = 1..parts, in order |
| FileSplitter.PartNamesDistinct | src/main/java/com/buganalyzer/core/FileSplitter.java:41-42 | two parts with the same name have the same number, so no part file overwrites another |
| FileSplitter.LimitBounds | src/main/java/com/buganalyzer/core/FileSplitter.java:28-48 | every part but the last gets `bytesPerPart`; the last gets less than `parts` bytes more; each part ends where the next starts and the last at the reported size |
| FileSplitter.ConcatPrefix | src/main/java/com/buganalyzer/core/FileSplitter.java:40-58 | the first k parts together are the source up to where part k ends (or the stream ended) |
| FileSplitter.SegmentsConcat | src/main/java/com/buganalyzer/core/FileSplitter.java:40-58 | all parts in order are the source, without gaps or overlaps, up to the reported size or the end of the stream |
| FileSplitter.SegmentSizes | src/main/java/com/buganalyzer/core/FileSplitter.java:48-56 | no part exceeds its limit, and every part reaches it when the stream delivers the reported size |
| FileSplitter.CopyStep | src/main/java/com/buganalyzer/core/FileSplitter.java:50-56 | however the copy loop stops (limit reached or end of stream), it has copied exactly the part's segment and the stream sits where the next part begins |
| FileSplitter.SplitRoundTrip | src/main/java/com/buganalyzer/core/FileSplitter.java:11-62 | when the stream delivers the reported size, concatenating the parts gives the file back |
| FileSplitter.CopyPart | src/main/java/com/buganalyzer/core/FileSplitter.java:46-56 | the loop copies the stream from the start position until `limit` bytes are written or the stream ends, reading at most 8192 bytes at a time |
| FileSplitter.WritePart | src/main/java/com/buganalyzer/core/FileSplitter.java:41-57 | one part file receives exactly its segment of the stream |
| FileSplitter.SplitFile | src/main/java/com/buganalyzer/core/FileSplitter.java:11-62 | `null` and nothing written below 10 MiB; otherwise the part names in order, each part file holding its segment |
| ZipExtractor.ClassifyMatchesPatterns | src/main/java/com/buganalyzer/core/ZipExtractor.java:62-67 | the classifier keeps a name exactly when `Matcher.matches()` accepts it: bug reports must start with "bugreport" and end with ".txt", videos end with ".mp4", case ignored, no line break in between |
| ZipExtractor.BugreportShapeMatches | src/main/java/com/buganalyzer/core/ZipExtractor.java:18 | "bugreport", a middle that `.` accepts, ".txt" is exactly what the whole-string match of the bug report pattern accepts |
| ZipExtractor.FirstFree | src/main/java/com/buganalyzer/core/ZipExtractor.java:80-85 | the first free index from k on: every index before it is taken, it is not, and it is at most k + (number of names taken) |
| ZipExtractor.TargetName | src/main/java/com/buganalyzer/core/ZipExtractor.java:78-85 | the stored name is never taken: the entry's own name when free, else `base_k.ext` for the least k >= 1 that is free |
| ZipExtractor.TempName | src/main/java/com/buganalyzer/core/ZipExtractor.java:52 | the temporary copy of a nested archive gets a free name `nested_<k>.zip` |
| ZipExtractor.WriteParts | src/main/java/com/buganalyzer/core/ZipExtractor.java:101-103 | writing the part files adds exactly their names, and leaves every other file as it was |
| ZipExtractor.Store | src/main/java/com/buganalyzer/core/ZipExtractor.java:87-104 | the kept file holds the entry's bytes |
| ZipExtractor.RecordOf | src/main/java/com/buganalyzer/core/ZipExtractor.java:92-104 | the metadata: stored name as file name and relative path, the entry's size, the path inside the outermost archive, the type, and for a bug report the splitter's part names |
| ZipExtractor.PartsAvoidTarget | src/main/java/com/buganalyzer/core/ZipExtractor.java:101-103 | the part names never include the bug report's own name, and there is one per part |
| ZipExtractor.Extract | src/main/java/com/buganalyzer/core/ZipExtractor.java:62-107 | an unclassified entry changes nothing; a kept one appends exactly its record and is written under a name that was free |
| ZipExtractor.IngestFailedStays | src/main/java/com/buganalyzer/core/ZipExtractor.java:37-40 | once an exception is thrown, the rest of the archive changes nothing |
| ZipExtractor.IngestRecordsLeaves | src/main/java/com/buganalyzer/core/ZipExtractor.java:37-110 | a successful ingestion appends one record per kept file, depth first in entry order, with its path from the outermost archive and its type; nested archives themselves are never recorded |
| ZipExtractor.IngestRecordsLeavesAt | src/main/java/com/buganalyzer/core/ZipExtractor.java:40-108 | the same from one entry on: that entry's kept files, then the rest |
| ZipExtractor.StepRecordsLeaves | src/main/java/com/buganalyzer/core/ZipExtractor.java:41-107 | one pass of the loop appends exactly the kept files of that entry |
| ZipExtractor.ExtractSummaries | src/main/java/com/buganalyzer/core/ZipExtractor.java:62-107 | extracting a plain entry appends its path and type when it classifies and nothing otherwise |
| ZipExtractor.IngestExtends | src/main/java/com/buganalyzer/core/ZipExtractor.java:37-110 | records already in the manifest are never changed, even when the ingestion fails part way |
| ZipExtractor.StepExtends | src/main/java/com/buganalyzer/core/ZipExtractor.java:41-107 | one pass of the loop only appends records |
| ZipExtractor.ExtractExtends | src/main/java/com/buganalyzer/core/ZipExtractor.java:69-107 | extracting one entry only appends records |
| ZipExtractor.ProcessZip | src/main/java/com/buganalyzer/core/ZipExtractor.java:37-110 | the walk leaves the manifest holding exactly the records of the reference ingestion, the directory it produces, and reports the exception; the manifest's other fields are unchanged |
| ZipExtractor.ProcessEntry | src/main/java/com/buganalyzer/core/ZipExtractor.java:41-107 | one pass: a directory is skipped, a nested archive is copied to a temporary file, processed and the copy removed only on success, an archive that will not open throws, anything else is extracted |
| ZipExtractor.ExtractEntry | src/main/java/com/buganalyzer/core/ZipExtractor.java:62-107 | an entry that is neither directory nor nested archive changes manifest and directory as the reference extraction does |
| ZipExtractor.StoreEntry | src/main/java/com/buganalyzer/core/ZipExtractor.java:78-104 | a kept file is written under its target name with a fresh metadata object whose value is its record; a bug report's parts are written beside it |
| ZipExtractor.ProjectDirOf | src/main/java/com/buganalyzer/core/ZipExtractor.java:22-24 | the project directory is the zip's sibling named after the zip without its extension |
| ZipExtractor.ExtractProject | src/main/java/com/buganalyzer/core/ZipExtractor.java:21-35 | a fresh manifest named after the zip, with its absolute path, the clock reading and no alias, holding the records of the reference ingestion; an archive that does not open is an exception |
| ZipExtractor.LeavesFilesChain | src/main/java/com/buganalyzer/core/ZipExtractor.java:40-108 | the files left by two successive passes are those the two passes' records name together |
| ZipExtractor.IngestFiles | src/main/java/com/buganalyzer/core/ZipExtractor.java:37-110 | files are only ever added; after a success every new file is a kept file or a split part it recorded, every recorded one is present, and so no temporary copy made on the way is left; after a failure a temporary `nested_<k>.zip` copy that was not there before stays |
| ZipExtractor.StepFiles | src/main/java/com/buganalyzer/core/ZipExtractor.java:41-107 | one pass of the loop adds exactly files its new records name, all present afterwards, or leaves a temporary copy behind when it fails |
| ZipExtractor.ExtractFiles | src/main/java/com/buganalyzer/core/ZipExtractor.java:62-107 | extracting one entry adds exactly the files its new records name (the kept file and any part files), none of which looks like a temporary copy |
| ZipExtractor.ExtractedFiles | src/main/java/com/buganalyzer/core/ZipExtractor.java:21-35 | ingesting into an existing directory keeps every file already there; on success the directory is exactly the old files plus the recorded ones, so no temporary copy is left; on a failure inside an archive a temporary copy that was not there before is left |
| ZipExtractor.TempNotKept | src/main/java/com/buganalyzer/core/ZipExtractor.java:52 | a temporary copy's name, ending in ".zip", never has the shape of a kept file's name |
| ZipExtractor.ClassifiedShape | src/main/java/com/buganalyzer/core/ZipExtractor.java:62-67 | every name that classifies as a bug report or a video ends in ".txt" or ".mp4", in either case |
| ZipExtractor.TargetShape | src/main/java/com/buganalyzer/core/ZipExtractor.java:78-85 | a renamed target `base_k.ext` ends like the name it replaces |
| ZipExtractor.PartShape | src/main/java/com/buganalyzer/core/FileSplitter.java:34-41 | a split part `<name>_sub<i><ext>` keeps its file's extension |
| ZipExtractor.RecordShape | src/main/java/com/buganalyzer/core/ZipExtractor.java:92-104 | every file a kept record names, the file and its parts, ends like a kept file |
| ZipExtractor.NestedFiles | src/main/java/com/buganalyzer/core/ZipExtractor.java:52-58 | the temporary copy of a nested archive is deleted after the nested walk returns normally, and stays behind when it throws |
| Paths.Parent | src/main/java/com/buganalyzer/ui/WelcomeView.java:279-283 | `getParentFile()` is null exactly for the root and a one-component relative path; otherwise the path is its parent's child of its own name |
| Paths.ParentOfChild | src/main/java/com/buganalyzer/ui/WelcomeView.java:283 | the parent of `new File(dir, name)` is `dir` and its name is `name` |
| Paths.NodeBaseName | src/main/file-processor.js:18 | `path.basename(p, ext)`: a last component ending in `ext` (and longer) loses it; any other is kept |
| Paths.LastIndexWhere | src/main/java/com/buganalyzer/core/ZipExtractor.java:63 | the last position holding a separator, or -1, with no separator after it |
| Paths.EntryBaseName | src/main/java/com/buganalyzer/core/ZipExtractor.java:63 | the base name of an entry holds no '/' and ends the entry's name |
| Paths.FuName | src/main/java/com/buganalyzer/core/ZipExtractor.java:82 | the name part holds neither separator and ends the input |
| Paths.FuExtension | src/main/java/com/buganalyzer/core/ZipExtractor.java:83 | the extension holds no '.' and ends the name part |
| Paths.FuBaseNameExtension | src/main/java/com/buganalyzer/core/ZipExtractor.java:82-84 | when the name part has a '.', base name, '.' and extension rebuild it |
| Strings.ContainsEmpty | src/main/java/com/buganalyzer/core/SearchEngine.java:48 | every line contains the empty string |
| Strings.LowerStrAppend | src/main/java/com/buganalyzer/core/ZipExtractor.java:50 | ASCII lower-casing distributes over concatenation |
| Strings.NatToString | src/main/java/com/buganalyzer/core/FileSplitter.java:41 | a counter renders as at least one digit |
| Strings.ParseNatToString | src/main/java/com/buganalyzer/core/FileSplitter.java:41 | reading back the decimal rendering of a counter gives the counter |
| Strings.NatToStringInjective | src/main/java/com/buganalyzer/core/FileSplitter.java:41 | different counters render differently |
| Strings.NumberedInjective | src/main/java/com/buganalyzer/core/ZipExtractor.java:84 | names built from one prefix and suffix around different counters differ |
| Strings.TrimLeft | src/main/java/com/buganalyzer/ui/KeywordDialog.java:171 | what is left after dropping leading removable characters is a suffix of the input that starts with a kept character, or is empty |
| Strings.TrimRight | src/main/java/com/buganalyzer/ui/KeywordDialog.java:171 | what is left after dropping trailing removable characters is a prefix of the input that ends with a kept character |
| Strings.TrimLeftSpaces | src/main/java/com/buganalyzer/ui/KeywordDialog.java:171 | everything the left trim drops is removable |
| Strings.TrimRightSpaces | src/main/java/com/buganalyzer/ui/KeywordDialog.java:171 | everything the right trim drops is removable |
| Strings.TrimBySlice | src/main/java/com/buganalyzer/ui/KeywordDialog.java:171 | the trimmed string is a slice of the input with only removable characters cut at either end |
| Strings.TrimByProperties | src/main/java/com/buganalyzer/ui/KeywordDialog.java:171 | the trimmed string starts and ends with a kept character and is the input minus removable runs at both ends |
| Strings.TrimPadded | src/main/java/com/buganalyzer/ui/KeywordDialog.java:171 | trimming removable padding in front of an already trimmed string gives that string back |
| Strings.TrimOfTrimmed | src/main/java/com/buganalyzer/ui/KeywordDialog.java:171 | trim is idempotent |
| Strings.Split | src/main/java/com/buganalyzer/ui/KeywordDialog.java:170 | a split yields at least one piece |
| Strings.SplitPiecesFree | src/main/java/com/buganalyzer/ui/KeywordDialog.java:170 | no piece of a split contains the separator |
| Strings.SplitNoSep | src/main/java/com/buganalyzer/ui/KeywordDialog.java:170 | a string without the separator splits into itself |
| Strings.SplitCons | src/main/java/com/buganalyzer/ui/KeywordDialog.java:170 | a piece, the separator and a rest split into that piece followed by the rest's pieces |
| Strings.SplitJoin | src/main/java/com/buganalyzer/ui/KeywordDialog.java:170 | splitting a join on a separator no piece contains gives the pieces back |
| Strings.LastIndexOf | src/main/java/com/buganalyzer/core/FileSplitter.java:34 | `lastIndexOf` is the position of the last occurrence, or -1, with no occurrence after it |
| Paths.FilesIn | src/main/java/com/buganalyzer/ui/WelcomeView.java:250-251 | the files directly inside a directory, by name, each with its bytes |
| Paths.FilesInWrite | src/main/java/com/buganalyzer/ui/WelcomeView.java:251 | writing one file into a directory adds or replaces exactly that name in its listing |
| Paths.WithDir | src/main/java/com/buganalyzer/ui/WelcomeView.java:247-251 | replacing a directory's files gives it exactly the new listing and leaves every file outside it unchanged |
| Lines.LineEnd | src/main/java/com/buganalyzer/core/SearchEngine.java:41 | the first line stops before the first "\n" or "\r" and holds neither |
| Lines.AfterLine | src/main/java/com/buganalyzer/core/SearchEngine.java:41 | each `readLine` consumes at least one character of a non-empty text, so reading ends |
| Lines.ReadLinesNoBreak | src/main/java/com/buganalyzer/core/SearchEngine.java:41 | no line that `readLine` returns holds a line terminator |
| Lines.ReadUnlines | src/main/text-splitter.js:44-57 | reading back lines written each followed by "\n" gives the same lines, when none holds a terminator |
| Lines.LineEndOf | src/main/java/com/buganalyzer/core/SearchEngine.java:41 | a terminator-free line followed by a terminator ends exactly at that terminator |
| Patterns.MatchesLits | src/main/java/com/buganalyzer/core/ZipExtractor.java:18 | a literal prefix, case ignored, matches exactly the strings that start with it, and the rest of the pattern then matches the rest |
| Patterns.EndsWithAfterFreeStep | src/main/java/com/buganalyzer/core/ZipExtractor.java:19 | "ends with the word after a terminator-free stretch" unfolds one character at a time |
| Patterns.MatchesDotStarLits | src/main/java/com/buganalyzer/core/ZipExtractor.java:19 | `.*` followed by a word matches exactly the strings that end with the word, case ignored, with no line terminator before it |
| SearchEngine.EmptyQueryMatchesAll | src/main/java/com/buganalyzer/core/SearchEngine.java:47-51 | an empty plain query matches every line, whatever the case setting |
| SearchEngine.HitsSound | src/main/java/com/buganalyzer/core/SearchEngine.java:41-56 | every hit names the file, carries a line number from 1 to the line count and that line untrimmed, and the line matches |
| SearchEngine.HitsComplete | src/main/java/com/buganalyzer/core/SearchEngine.java:41-56 | every matching line is reported, with its 1-based number |
| SearchEngine.HitsIncreasing | src/main/java/com/buganalyzer/core/SearchEngine.java:41-56 | hits come in strictly increasing line order, so no line is reported twice |
| SearchEngine.SearchFile | src/main/java/com/buganalyzer/core/SearchEngine.java:26-60 | an invalid regular expression fails before the file is opened; a missing file fails; otherwise the result is exactly the hits over all lines, by regex `find()` or lower-cased substring test as configured |
| KeywordManager.Get | src/main/java/com/buganalyzer/core/KeywordManager.java:74-76 | a category's list is found exactly when its name is a key, and it is the list stored under that name |
| KeywordManager.Put | src/main/java/com/buganalyzer/core/KeywordManager.java:91 | `put` keeps an existing name's place or appends a new name at the end, and the name then maps to the new list |
| KeywordManager.PutOthers | src/main/java/com/buganalyzer/core/KeywordManager.java:91 | `put` leaves every other category's list unchanged |
| KeywordManager.PutKeepsDistinct | src/main/java/com/buganalyzer/core/KeywordManager.java:91 | `put` keeps the names distinct |
| KeywordManager.AppendNew | src/main/java/com/buganalyzer/core/KeywordManager.java:79-80 | putting a name not yet present appends exactly one category at the end |
| KeywordManager.Remove | src/main/java/com/buganalyzer/core/KeywordManager.java:86 | `remove` drops exactly that name, keeps the others in order with their lists, and keeps names distinct |
| KeywordManager.Rename | src/main/java/com/buganalyzer/core/KeywordManager.java:95-101 | an absent old name changes nothing; otherwise the old list moves to the new name (the new name keeps its place if present, else goes last), the old name disappears and every other category is unchanged |
| KeywordManager.Flatten | src/main/java/com/buganalyzer/core/KeywordManager.java:68-69 | the flattened list holds exactly the keywords of all categories |
| KeywordManager.Distinct | src/main/java/com/buganalyzer/core/KeywordManager.java:70 | `distinct()` keeps every element and drops all repeats |
| KeywordManager.DistinctFirstOccurrences | src/main/java/com/buganalyzer/core/KeywordManager.java:70 | `distinct()` keeps elements in the order of their first occurrences |
| KeywordManager.Keywords | src/main/java/com/buganalyzer/core/KeywordManager.java:67-72 | `getKeywords()` holds every keyword of every category exactly once |
| KeywordManager.NonBlank | src/main/java/com/buganalyzer/core/KeywordManager.java:40-42 | the migration keeps exactly the lines that are not blank after trimming |
| KeywordManager.MigrationKeepsNonBlankLines | src/main/java/com/buganalyzer/core/KeywordManager.java:37-48 | without `keywords.json`, the legacy file's non-blank lines become the keywords, under distinct names, and the result is saved |
| KeywordManager.KeywordManager.constructor | src/main/java/com/buganalyzer/core/KeywordManager.java:21-27 | a new manager holds what loading gives from an empty map: the JSON map, an empty map if it is unreadable or both files are absent, or the migrated legacy lines (then saved) |
| KeywordManager.KeywordManager.LoadKeywords | src/main/java/com/buganalyzer/core/KeywordManager.java:29-56 | reloading replaces the map as loading says; an unreadable legacy file leaves the map and the saved file as they were |
| KeywordManager.KeywordManager.AddCategory | src/main/java/com/buganalyzer/core/KeywordManager.java:78-83 | a new name is appended with an empty list and saved; an existing name changes nothing and saves nothing |
| KeywordManager.KeywordManager.RemoveCategory | src/main/java/com/buganalyzer/core/KeywordManager.java:85-88 | the category is removed (if present) and the map saved |
| KeywordManager.KeywordManager.UpdateCategory | src/main/java/com/buganalyzer/core/KeywordManager.java:90-93 | the category gets the new list (appended if new) and the map is saved |
| KeywordManager.KeywordManager.RenameCategory | src/main/java/com/buganalyzer/core/KeywordManager.java:95-101 | renaming moves the list and saves only when the old name is present |
| KeywordManager.Without | src/main/java/com/buganalyzer/core/KeywordManager.java:97 | the names kept are all but the one removed, and stay distinct when they were |
| KeywordManager.WithoutAppend | src/main/java/com/buganalyzer/ui/ProjectView.java:126-130 | filtering goes piece by piece, so what is kept keeps its order |
| KeywordManager.WithoutAbsent | src/main/java/com/buganalyzer/ui/ProjectView.java:126-130 | a list that does not hold the name is kept in full |
| KeywordManager.KeywordManager.GetKeywords | src/main/java/com/buganalyzer/core/KeywordManager.java:67-72 | the flattened list holds every keyword of every category exactly once and nothing else |
| RecentProjects.WithoutPath | src/main/java/com/buganalyzer/core/RecentProjectsManager.java:42 | `removeIf` on the path keeps exactly the entries with another path |
| RecentProjects.WithoutPathAppend | src/main/java/com/buganalyzer/core/RecentProjectsManager.java:42 | removal by path keeps the survivors in their relative order |
| RecentProjects.WithoutAbsentPath | src/main/java/com/buganalyzer/core/RecentProjectsManager.java:53 | removing a path no entry has leaves the list as it is |
| RecentProjects.Added | src/main/java/com/buganalyzer/core/RecentProjectsManager.java:40-48 | after `addProject` the new entry is first, no other entry has its path, the rest is the old list without that path in order, and the list is cut to at most 10 |
| RecentProjects.Existing | src/main/java/com/buganalyzer/core/RecentProjectsManager.java:67-72 | validation keeps exactly the entries whose path exists, in order, and the list is unchanged exactly when all exist |
| RecentProjects.Load | src/main/java/com/buganalyzer/core/RecentProjectsManager.java:26-38 | a missing or unreadable `project_list.json` gives an empty list |
| RecentProjects.RecentProjectsManager.constructor | src/main/java/com/buganalyzer/core/RecentProjectsManager.java:18-24 | a new manager holds the loaded list and has saved nothing |
| RecentProjects.RecentProjectsManager.AddProject | src/main/java/com/buganalyzer/core/RecentProjectsManager.java:40-50 | the list becomes the added list and is saved |
| RecentProjects.RecentProjectsManager.RemoveProject | src/main/java/com/buganalyzer/core/RecentProjectsManager.java:52-55 | every entry with that path goes and the list is saved |
| RecentProjects.RecentProjectsManager.RenameProject | src/main/java/com/buganalyzer/core/RecentProjectsManager.java:57-65 | only the first entry with that path is renamed; with none the list is unchanged; it is saved either way |
| RecentProjects.RecentProjectsManager.ValidateProjects | src/main/java/com/buganalyzer/core/RecentProjectsManager.java:67-77 | entries whose path no longer exists are dropped, and the list is saved only if one was dropped |
| SearchWindow.ExistingPartsMembers | src/main/java/com/buganalyzer/ui/SearchWindow.java:229-235 | the parts collected are exactly the existing files named by a split part under the project directory |
| SearchWindow.FilesToSearch | src/main/java/com/buganalyzer/ui/SearchWindow.java:227-263 | at least one file is searched; without split parts only the resolved main file; with existing parts exactly those; the main file only when no part exists |
| SearchWindow.CollectFiles | src/main/java/com/buganalyzer/ui/SearchWindow.java:224-263 | the loop over the split parts collects exactly the files to search |
| SearchWindow.FormattedHitsSound | src/main/java/com/buganalyzer/ui/SearchWindow.java:268-271 | every item a file adds is "[Line n] " and the trimmed text of one of its matching lines |
| SearchWindow.FormattedHitsComplete | src/main/java/com/buganalyzer/ui/SearchWindow.java:268-271 | every matching line of a file appears as an item |
| SearchWindow.FileItemsComplete | src/main/java/com/buganalyzer/ui/SearchWindow.java:266-271 | every matching line of an existing file appears among that file's items, with its 1-based number |
| SearchWindow.FailedFileAddsNothing | src/main/java/com/buganalyzer/ui/SearchWindow.java:266-275 | a missing file or a bad pattern adds no item, and the files before and after it still add theirs |
| SearchWindow.ConcatAppend | src/main/java/com/buganalyzer/ui/SearchWindow.java:265-275 | items of consecutive files are laid end to end, ordered by file and then by line |
| SearchWindow.SearchFiles | src/main/java/com/buganalyzer/ui/SearchWindow.java:265-275 | the loop over the files builds exactly the per-file items laid end to end, a failed search adding nothing |
| SearchWindow.NextOrder | src/main/java/com/buganalyzer/ui/SearchWindow.java:320-336 | `findNext` visits indices in the cyclic order cur+1, …, size-1, 0, …, cur |
| SearchWindow.PrevOrder | src/main/java/com/buganalyzer/ui/SearchWindow.java:338-356 | `findPrev` visits indices cur-1 down to 0 and then size-1 down to cur, or size-1 down to 0 when cur is at most 0 |
| SearchWindow.OrdersVisitAll | src/main/java/com/buganalyzer/ui/SearchWindow.java:320-356 | both orders visit every index exactly once, and the current index last |
| SearchWindow.FirstPos | src/main/java/com/buganalyzer/ui/SearchWindow.java:323-334 | the position found is the first in the order whose item matches, or -1 when none does |
| SearchWindow.ScanUp | src/main/java/com/buganalyzer/ui/SearchWindow.java:323-328 | an upward scan returns the lowest matching index in the range, or -1 |
| SearchWindow.ScanDown | src/main/java/com/buganalyzer/ui/SearchWindow.java:343-348 | a downward scan returns the highest matching index in the range, or -1 |
| SearchWindow.ScanNext | src/main/java/com/buganalyzer/ui/SearchWindow.java:320-336 | the two upward scans find the first match in the `findNext` order, or -1 |
| SearchWindow.ScanPrev | src/main/java/com/buganalyzer/ui/SearchWindow.java:338-356 | the two downward scans find the first match in the `findPrev` order, or -1 |
| SearchWindow.SearchWindow.constructor | src/main/java/com/buganalyzer/ui/SearchWindow.java:46-52 | a new window has no items, nothing current, nothing selected and no drag |
| SearchWindow.SearchWindow.RunSearch | src/main/java/com/buganalyzer/ui/SearchWindow.java:223-281 | the items gained are exactly the search results of the chosen files, and nothing else changes |
| SearchWindow.SearchWindow.SelectAndScroll | src/main/java/com/buganalyzer/ui/SearchWindow.java:386-392 | the index becomes current and the only one selected |
| SearchWindow.SearchWindow.FindNext | src/main/java/com/buganalyzer/ui/SearchWindow.java:320-336 | no text changes nothing; otherwise the first matching item in the `findNext` order becomes current and solely selected, and with no match nothing changes |
| SearchWindow.SearchWindow.FindPrev | src/main/java/com/buganalyzer/ui/SearchWindow.java:338-356 | the same in the `findPrev` order |
| SearchWindow.SearchWindow.MousePressed | src/main/java/com/buganalyzer/ui/SearchWindow.java:114-122 | a primary press anchors a drag at the row and, without Ctrl or Shift, selects only that row |
| SearchWindow.SearchWindow.DragEntered | src/main/java/com/buganalyzer/ui/SearchWindow.java:130-148 | dragging onto a row selects exactly the inclusive range between anchor and row, plus the old selection only when Ctrl is held |
| TextViewer.Resolve | src/main/java/com/buganalyzer/ui/TextViewer.java:127-136 | the file keeps the name; the project copy wins when it exists; the result exists exactly when the project or the parent copy does; otherwise the project path is returned anyway |
| TextViewer.Target | src/main/java/com/buganalyzer/ui/TextViewer.java:138-154 | a requested part is resolved; otherwise the first split part when it resolves to an existing file, else the main file, so something exists exactly when either does |
| TextViewer.Latin1 | src/main/java/com/buganalyzer/ui/TextViewer.java:171 | ISO-8859-1 decoding gives one character per byte, with that byte's code |
| TextViewer.Latin1RoundTrip | src/main/java/com/buganalyzer/ui/TextViewer.java:171 | ISO-8859-1 decoding loses nothing: encoding back gives the bytes |
| TextViewer.Decode | src/main/java/com/buganalyzer/ui/TextViewer.java:164-172 | the UTF-8 text when the bytes decode; otherwise the whole file re-read as ISO-8859-1, keeping no partial UTF-8 result |
| TextViewer.TextViewer.constructor | src/main/java/com/buganalyzer/ui/TextViewer.java:33-118 | a new viewer shows no lines and is ready, before its first load |
| TextViewer.TextViewer.LoadContent | src/main/java/com/buganalyzer/ui/TextViewer.java:120-185 | a target that does not exist gives the "File not found" status and leaves the list as it was; otherwise the list holds the decoded file's lines and the status their count |
| TextViewer.PerformSearch | src/main/java/com/buganalyzer/ui/TextViewer.java:187-190 | a search is opened exactly when the query is present and not empty, with that query and mode |
| TextViewer.CollectedMembers | src/main/java/com/buganalyzer/ui/TextViewer.java:70-76 | a keyword is collected exactly when a selected category held in the map lists it; absent names contribute nothing |
| TextViewer.KeywordSearch | src/main/java/com/buganalyzer/ui/TextViewer.java:58-87 | an empty map alerts; a cancelled or empty selection does nothing; no collected keyword alerts; otherwise a regex search for the keywords, in selection order, joined by vertical bars |
| TextViewer.KeywordQueryAlternatives | src/main/java/com/buganalyzer/ui/TextViewer.java:84 | when no keyword holds a vertical bar, the query splits back into exactly the collected keywords |
| KeywordDialog.DropTrailingEmpty | src/main/java/com/buganalyzer/ui/KeywordDialog.java:170 | the result is a prefix of the pieces, ends in a non-empty piece, and only empty pieces were dropped |
| KeywordDialog.JavaSplit | src/main/java/com/buganalyzer/ui/KeywordDialog.java:170 | no piece of `split(";")` holds a ';' |
| KeywordDialog.NonEmpty | src/main/java/com/buganalyzer/ui/KeywordDialog.java:172 | the filter keeps only non-empty pieces, all from the input, and keeps everything when nothing is empty |
| KeywordDialog.NonEmptyAppend | src/main/java/com/buganalyzer/ui/KeywordDialog.java:172 | filtering works piece by piece, preserving order |
| KeywordDialog.ParsedWellFormed | src/main/java/com/buganalyzer/ui/KeywordDialog.java:170-173 | every parsed keyword is non-empty, free of ';', and has no leading or trailing blank |
| KeywordDialog.ParseDropsTrailing | src/main/java/com/buganalyzer/ui/KeywordDialog.java:170-173 | dropping trailing empty pieces does not change the parse, since they are filtered anyway |
| KeywordDialog.ParseBySplit | src/main/java/com/buganalyzer/ui/KeywordDialog.java:170-173 | the parse is the full split on ';', trimmed and filtered, in order |
| KeywordDialog.DisplayRoundTrip | src/main/java/com/buganalyzer/ui/KeywordDialog.java:170-173 | parsing the displayed "; "-joined keywords gives them back, when every keyword is trimmed, non-empty and free of ';' |
| KeywordDialog.RemoveAll | src/main/java/com/buganalyzer/ui/KeywordDialog.java:158-160 | removing the checked names one by one drops exactly those names and leaves every other category's list |
| KeywordDialog.RowOf | src/main/java/com/buganalyzer/ui/KeywordDialog.java:133-138 | the row found is the first one with that name |
| KeywordDialog.KeywordDialog.constructor | src/main/java/com/buganalyzer/ui/KeywordDialog.java:36-101 | the dialog opens with one unchecked row per category, in key order, and nothing selected |
| KeywordDialog.KeywordDialog.Refresh | src/main/java/com/buganalyzer/ui/KeywordDialog.java:181-187 | the rows mirror the map's keys in order, and the selection is cleared |
| KeywordDialog.KeywordDialog.Select | src/main/java/com/buganalyzer/ui/KeywordDialog.java:104-120 | selecting a category shows its keywords joined by "; " (nothing for an unknown name); clearing the selection shows nothing |
| KeywordDialog.KeywordDialog.AddCategory | src/main/java/com/buganalyzer/ui/KeywordDialog.java:123-141 | a cancelled or blank name changes nothing: categories, their saved copy, rows, selection and the text shown stay; otherwise the trimmed name is added and saved if new, the rows are rebuilt and that category selected |
| KeywordDialog.KeywordDialog.SelectRow | src/main/java/com/buganalyzer/ui/KeywordDialog.java:133-138 | the row with that name becomes the selection |
| KeywordDialog.KeywordDialog.DeleteChecked | src/main/java/com/buganalyzer/ui/KeywordDialog.java:144-164 | with nothing checked or no confirmation nothing changes: categories, their saved copy, rows, selection and the text shown stay; otherwise exactly the checked categories are removed and saved, the rows rebuilt and the selection and its text cleared |
| KeywordDialog.KeywordDialog.RemoveEach | src/main/java/com/buganalyzer/ui/KeywordDialog.java:158-160 | the removal loop removes every checked name, and the list is saved after each removal |
| KeywordDialog.KeywordDialog.Save | src/main/java/com/buganalyzer/ui/KeywordDialog.java:167-178 | with a category selected its list becomes the parsed text; and the categories are saved; otherwise nothing changes, the saved copy included |
| KeywordDialog.KeywordDialog.SetChecked | src/main/java/com/buganalyzer/ui/KeywordDialog.java:59-69 | ticking or clearing a row's box changes only that row's check state |
| CategorySelection.ItemsFor | src/main/java/com/buganalyzer/ui/CategorySelectionDialog.java:69-72 | one unchecked row per category name, in the map's key order |
| CategorySelection.CheckedNames | src/main/java/com/buganalyzer/ui/CategorySelectionDialog.java:76-79 | the result holds exactly the names of the checked rows |
| CategorySelection.CheckedNamesAppend | src/main/java/com/buganalyzer/ui/CategorySelectionDialog.java:76-79 | checked names come in list order |
| CategorySelection.CheckedNamesAll | src/main/java/com/buganalyzer/ui/CategorySelectionDialog.java:58-79 | after "select all" every name is returned in list order; after clearing it, none |
| CategorySelection.CategorySelectionDialog.constructor | src/main/java/com/buganalyzer/ui/CategorySelectionDialog.java:68-72 | the dialog lists the map's categories in key order, unchecked |
| CategorySelection.CategorySelectionDialog.SetSelected | src/main/java/com/buganalyzer/ui/CategorySelectionDialog.java:45-54 | ticking or clearing a box changes only that row |
| CategorySelection.CategorySelectionDialog.SelectAll | src/main/java/com/buganalyzer/ui/CategorySelectionDialog.java:57-63 | every row takes the "select all" state, and nothing else changes |
| CategorySelection.CategorySelectionDialog.Result | src/main/java/com/buganalyzer/ui/CategorySelectionDialog.java:74-82 | Search returns exactly the checked names; any other button returns nothing |
| WelcomeView.NonEmptyPieces | src/main/java/com/buganalyzer/ui/WelcomeView.java:393 | the pieces kept are exactly the non-empty ones |
| WelcomeView.ParsePath | src/main/java/com/buganalyzer/ui/WelcomeView.java:393 | a path string is absolute exactly when it starts with "/", and its components are non-empty and free of "/" |
| WelcomeView.ParsePathString | src/main/java/com/buganalyzer/ui/WelcomeView.java:393 | the absolute path stored in the recent list parses back to the same path |
| WelcomeView.LoadProjectDir | src/main/java/com/buganalyzer/ui/WelcomeView.java:276-284 | the project directory is named after the project; it is the JSON's parent exactly when that parent bears the project name, otherwise the sibling of that name |
| WelcomeView.DisplayName | src/main/java/com/buganalyzer/ui/WelcomeView.java:286-289 | the shown name is the display name, or the project name when that is missing or empty |
| WelcomeView.DeleteDirAsWrittenMissesRenamed | src/main/java/com/buganalyzer/ui/WelcomeView.java:396-405 | as written, a renamed project in the `P/P.json` layout has `P/P` chosen for deletion instead of its directory `P` |
| WelcomeView.DeleteDir | src/main/java/com/buganalyzer/ui/WelcomeView.java:396-405 | a directory is deleted exactly when the JSON's name ends in ".json", case ignored |
| WelcomeView.DeleteDirIsLoadDir | src/main/java/com/buganalyzer/ui/WelcomeView.java:396-405 | deletion picks the very directory loading uses, in both layouts |
| WelcomeView.RemoveTree | src/main/java/com/buganalyzer/ui/WelcomeView.java:456-458 | deleting a directory removes exactly the files under it and keeps the rest unchanged |
| WelcomeView.AcceptDrop | src/main/java/com/buganalyzer/ui/WelcomeView.java:191-203 | a drop is taken exactly when the first file's name ends in ".zip", case-sensitively, and then it is that file |
| WelcomeView.IngestedJson | src/main/java/com/buganalyzer/ui/WelcomeView.java:250-256 | ingestion's JSON lies in a directory |
| WelcomeView.IngestedJsonLoadsBack | src/main/java/com/buganalyzer/ui/WelcomeView.java:250-258 | a freshly ingested project loads from, and deletes, the directory ingestion filled |
| WelcomeView.AbsoluteZip | src/main/java/com/buganalyzer/ui/WelcomeView.java:250 | the absolute zip path keeps the zip's name and has a parent |
| WelcomeView.WelcomeView.constructor | src/main/java/com/buganalyzer/ui/WelcomeView.java:35-38 | a new start screen opens no project and first drops from the recent list every entry whose JSON file no longer exists, keeping the others in order |
| WelcomeView.WelcomeView.ProcessZipFile | src/main/java/com/buganalyzer/ui/WelcomeView.java:240-270 | the project directory next to the zip ends up holding what ingestion wrote into it, files elsewhere are untouched; on success the manifest JSON is also written, its path goes to the front of the recent list and the project opens; the recent list is saved after the change; on failure the recent list, its saved copy and the view are unchanged |
| WelcomeView.WelcomeView.OpenIngested | src/main/java/com/buganalyzer/ui/WelcomeView.java:253-259 | the success half: the manifest JSON is written at `dir/P/P.json`, that path goes first in the recent list, the list is saved and the project opens |
| WelcomeView.WelcomeView.LoadProject | src/main/java/com/buganalyzer/ui/WelcomeView.java:272-312 | a readable manifest opens the project from its directory and goes first in the recent list under its shown name; otherwise the JSON's path leaves the list; either way the recent list is saved |
| WelcomeView.WelcomeView.Rename | src/main/java/com/buganalyzer/ui/WelcomeView.java:101-137 | a blank name does nothing, and nothing is saved; otherwise the first entry with that path takes the name as typed and the recent list is saved, and a readable manifest is written back with that display name under its project name |
| WelcomeView.WelcomeView.Delete | src/main/java/com/buganalyzer/ui/WelcomeView.java:380-478 | an unconfirmed, failed or blocked request changes nothing on disk or in the recent list and saves nothing; a protected directory blocks everything; otherwise the directory tree and the JSON are removed, and the entry leaves the recent list, which is saved |
| WelcomeView.IngestedDirectory | src/main/java/com/buganalyzer/ui/WelcomeView.java:248-256 | after ingestion and the manifest save, the project directory lists the ingested files plus `P.json` |
| WelcomeView.DeleteDirAsWritten | src/main/java/com/buganalyzer/ui/WelcomeView.java:396-405 | the directory chosen is the JSON's own directory when that is named after the entry, and otherwise a sibling of the JSON |
| WelcomeView.IsProtected | src/main/java/com/buganalyzer/ui/WelcomeView.java:410-417 | the file-system root and the home directory are always refused for deletion |
| ProjectView.PartsFor | src/main/java/com/buganalyzer/ui/ProjectView.java:123-132 | the parts listed are exactly the split parts other than the file's own name; none without split parts |
| ProjectView.NewTab | src/main/java/com/buganalyzer/ui/ProjectView.java:110-117 | a new tab is titled with the file's name and is a video player exactly for a video |
| ProjectView.OpenAgainFindsTab | src/main/java/com/buganalyzer/ui/ProjectView.java:101-121 | opening is idempotent: after a file is opened, opening it again finds the tab that was selected |
| ProjectView.ProjectView.constructor | src/main/java/com/buganalyzer/ui/ProjectView.java:39-40 | a new project window has no parts listed, no tabs and nothing selected |
| ProjectView.ProjectView.UpdatePartsList | src/main/java/com/buganalyzer/ui/ProjectView.java:123-132 | the list is cleared, then holds exactly the parts for the file, in order; tabs are untouched |
| ProjectView.ProjectView.OpenFile | src/main/java/com/buganalyzer/ui/ProjectView.java:101-121 | a tab already titled with the file's name is selected and nothing is added; otherwise one new tab is appended and selected; titles stay distinct |
| ProjectView.ProjectView.TabSelected | src/main/java/com/buganalyzer/ui/ProjectView.java:90-98 | switching tabs lists the parts of the file the tab shows |
| ProjectView.ProjectView.FileSelected | src/main/java/com/buganalyzer/ui/ProjectView.java:73-78 | choosing a file opens it and lists its parts |
| ProjectView.ProjectView.PartSelected | src/main/java/com/buganalyzer/ui/ProjectView.java:80-87 | a chosen part is loaded into the selected tab's text viewer, as `loadContent(part)` says; a cleared selection, no tab or a video tab leaves the viewer unchanged |
| TextSplitterJs.SplitCount | src/main/text-splitter.js:11-22 | the chunk count is always between 10 and 100 |
| TextSplitterJs.SplitCountAgrees | src/main/text-splitter.js:11-22 | the prototype's chunk count equals the Java splitter's part count for every size |
| TextSplitterJs.ChunkSizeIsCeiling | src/main/text-splitter.js:23 | the chunk size is the smallest size of which that many chunks hold the whole file |
| TextSplitterJs.Utf8Length | src/main/text-splitter.js:58 | a string's UTF-8 byte length lies between its length and four times it |
| TextSplitterJs.Utf8LengthAppend | src/main/text-splitter.js:58 | byte lengths add up over concatenation, so the running size is the byte length of the chunk's text |
| TextSplitterJs.Group | src/main/text-splitter.js:44-59 | the lines fall into at least one and at most the chunk count of chunks |
| TextSplitterJs.GroupFlatten | src/main/text-splitter.js:44-59 | the chunks hold the lines in order: none is lost, repeated or moved |
| TextSplitterJs.GroupClosedChunksFull | src/main/text-splitter.js:48 | every chunk but the last holds at least the chunk size in bytes |
| TextSplitterJs.LaterChunksNonEmpty | src/main/text-splitter.js:48-55 | every chunk after the first starts with a line, and the first is empty only when the chunk size is 0 |
| TextSplitterJs.ChunksHoldLines | src/main/text-splitter.js:45-57 | the chunk files read one after the other hold the input lines in order, each followed by "\n": no line is cut |
| TextSplitterJs.BaseName | src/main/text-splitter.js:9 | a trailing ".txt" is removed from the name (case-sensitively) and any other name is kept |
| TextSplitterJs.ChunkPaths | src/main/text-splitter.js:30-51 | chunk k is named `<base>_sub<k>.txt` in the output directory, counting from 1 |
| TextSplitterJs.ChunkPathsDistinct | src/main/text-splitter.js:30-51 | chunk files have pairwise different paths |
| TextSplitterJs.SplitFile | src/main/text-splitter.js:6-67 | the files written hold exactly the chunk texts of the grouping, and the returned paths name exactly those chunks |
| TextSplitterJs.WriteChunks | src/main/text-splitter.js:25-65 | the line loop produces the texts and paths of the grouping of all lines |
| TextSplitterJs.ReadLine | src/main/text-splitter.js:44-59 | one pass of the loop takes the state for the lines read so far to the state for one more line |
| TextSplitterJs.NextChunk | src/main/text-splitter.js:48-55 | a line that starts a chunk adds the next chunk path; otherwise the paths stay |
| TextSplitterJs.WriteLine | src/main/text-splitter.js:45-58 | the line and "\n" go to a new chunk or to the end of the current one, and the byte count follows |
| TextSplitterJs.GroupNext | src/main/text-splitter.js:48 | the loop's test on the running byte count and chunk number decides the grouping step exactly |
| SearchEngineJs.EscapeRegex | src/main/search-engine.js:83-85 | escaping adds exactly one backslash per metacharacter |
| SearchEngineJs.EscapeIsLiteral | src/main/search-engine.js:83-85 | escaped text is a pattern of literal atoms only, and taking the backslashes out gives the text back |
| SearchEngineJs.EscapeInjective | src/main/search-engine.js:83-85 | different texts escape to different patterns |
| SearchEngineJs.RunEnd | src/main/search-engine.js:48-51 | a filter's value runs as far as characters of its class go |
| SearchEngineJs.FindFrom | src/main/search-engine.js:58 | the search finds the leftmost position where the filter's key, a colon and a value character start, case ignored |
| SearchEngineJs.FindFilter | src/main/search-engine.js:47-58 | a match starts with `key:` and its value is the text after the colon up to its end |
| SearchEngineJs.FindFilterProperties | src/main/search-engine.js:47-58 | the match is the leftmost one, its value a non-empty run of the filter's class taken in full, one letter for `level` |
| SearchEngineJs.IndexOfFrom | src/main/search-engine.js:61 | the occurrence found is the first at or after the start, or none |
| SearchEngineJs.RemoveMatch | src/main/search-engine.js:61 | `replace(match[0], '')` cuts out exactly the matched text, since no earlier occurrence exists |
| SearchEngineJs.OccurrenceMatches | src/main/search-engine.js:58-61 | any occurrence of the matched text is itself a match of the filter |
| SearchEngineJs.ScanStepFound | src/main/search-engine.js:57-63 | a round records nothing, or one good value for its own filter |
| SearchEngineJs.ScanOrdered | src/main/search-engine.js:46-63 | values are recorded in filter order, at most one per filter, each a non-empty run of its class |
| SearchEngineJs.ScanShrinks | src/main/search-engine.js:61 | each round removes what its filter matched, so the query only shrinks, by at least `key:` and a value character per value |
| SearchEngineJs.ScanPlain | src/main/search-engine.js:57-63 | a query in which no filter matches is scanned unchanged |
| SearchEngineJs.ParseLogcatQuery | src/main/search-engine.js:45-71 | the loop builds exactly the lookaheads of the filters found, in filter order, then the one for the trimmed free text |
| SearchEngineJs.ParseRound | src/main/search-engine.js:58-62 | one round records the filter's lookahead and removes its match, exactly as the scan step does |
| SearchEngineJs.JoinEmptyAppend | src/main/search-engine.js:70 | joining with "" lays the parts end to end |
| SearchEngineJs.PlainQueryPattern | src/main/search-engine.js:65-70 | a query with no filter becomes the lookahead for its escaped trimmed text, or nothing when blank |
| SearchEngineJs.BlankQueryPattern | src/main/search-engine.js:65-70 | an empty or blank query gives the empty pattern |
| SearchEngineJs.LogcatPatternShape | src/main/search-engine.js:60-70 | the pattern is the filter lookaheads followed by the free-text lookahead, whose text is matched literally |
| SearchEngineJs.CreateSearchPattern | src/main/search-engine.js:73-81 | case is ignored unless matchCase; regex mode uses the query as it is; otherwise the escaped query stands for the query literally, bracketed by `\b` for whole words |
| SearchEngineJs.SearchPatternFor | src/main/search-engine.js:6-19 | logcat composition by default, `createSearchPattern` when logcat syntax is off |
| SearchEngineJs.SearchInFile | src/main/search-engine.js:5-43 | without logcat syntax a query that does not compile as a regular expression rejects before the file is opened (75); a missing or unreadable file rejects (21-31); with logcat syntax a pattern that does not compile rejects at the first line read; otherwise the results are exactly the hits of the line scan with the pattern's test, as in the Java search |
| SearchEngineJs.SearchInFileHits | src/main/search-engine.js:31-40 | hits are the matching lines numbered from 1 with the path given, in file order, and every matching line is reported |
| CacheManagerJs.Prune | src/main/cache-manager.js:60-72 | removing a directory tree leaves exactly the entries not at or under it, unchanged |
| CacheManagerJs.AncestorOnDisk | src/main/cache-manager.js:61-70 | on a disk every entry of which sits in a directory, every prefix of an entry's path is a directory on the disk |
| CacheManagerJs.AbsentHasNothingInside | src/main/cache-manager.js:61 | removing a path that does not exist changes nothing |
| CacheManagerJs.FileHasNothingInside | src/main/cache-manager.js:67 | unlinking a file removes only that file |
| CacheManagerJs.PruneClosed | src/main/cache-manager.js:60-72 | removing a tree keeps every remaining entry's directory on the disk |
| CacheManagerJs.PruneAllChildren | src/main/cache-manager.js:62-70 | removing every listed child and then the directory removes exactly its tree |
| CacheManagerJs.ChildWithinFewer | src/main/cache-manager.js:65 | a subdirectory holds fewer entries than its parent, so the recursion ends |
| CacheManagerJs.ChildOnDisk | src/main/cache-manager.js:62-64 | each listed child is still on the disk when its turn comes |
| CacheManagerJs.Disk.ReadDir | src/main/cache-manager.js:62 | `readdirSync` lists every name in the directory exactly once |
| CacheManagerJs.DeleteFolderRecursive | src/main/cache-manager.js:60-72 | an existing directory is removed with everything in it; a missing path is left alone; for a file listing throws and nothing changes |
| Seqs.FirstIndex | src/main/cache-manager.js:29 | the position found is the first element whose key is the one sought, or -1 when none has it; the project lookup here, the entry lookup of `file-processor.js` (76-77), the recent-entry lookup of `RecentProjectsManager.java` (58-63) and the tab lookup of `ProjectView.java` (103-108) are this search |
| CacheManagerJs.FindProject | src/main/cache-manager.js:29 | `find` gives nothing exactly when no project has the id, and otherwise the first listed project with that id |
| CacheManagerJs.FindProjectCons | src/main/cache-manager.js:29 | `find` answers with the first project when it has the id, and otherwise with what the rest of the list finds |
| CacheManagerJs.RemoveId | src/main/cache-manager.js:48 | `filter` keeps exactly the projects with another id |
| CacheManagerJs.RemoveIdAppend | src/main/cache-manager.js:48 | filtering keeps the survivors in their order |
| CacheManagerJs.RemoveIdAbsent | src/main/cache-manager.js:48 | a list without the id is kept in full |
| CacheManagerJs.LoadAfterSave | src/main/cache-manager.js:20-30 | after a save, loading an id gives the earliest project with it: the new one only when none had that id before |
| CacheManagerJs.LoadAfterDelete | src/main/cache-manager.js:27-49 | after a delete the id loads as nothing and every other id loads as before |
| CacheManagerJs.RemoveIdFind | src/main/cache-manager.js:29-48 | removing one id does not change what any other id finds |
| CacheManagerJs.CacheManager.constructor | src/main/cache-manager.js:5-18 | the cache directory and an empty project list are created when missing; an existing list file is kept as it is; nothing else on disk changes; a directory in the list file's place leaves the manager unusable and its list reading as empty (36-44) |
| CacheManagerJs.CacheManager.SaveProject | src/main/cache-manager.js:20-25 | the save resolves exactly when the list file can be written (the cache directory is there and the file is not a directory); then the project is appended to the list read back, earlier entries stay and the file holds the new text; otherwise the promise rejects and nothing changes |
| CacheManagerJs.CacheManager.DeleteProject | src/main/cache-manager.js:46-58 | when the list file cannot be written the promise rejects and nothing changes; otherwise the file holds the new text, the list loses exactly the projects with that id, an existing project directory goes with everything in it, a missing one is left alone, and a file at that path makes the removal fail after the write |
| CacheManagerJs.CacheManager.WriteClosed | src/main/cache-manager.js:22 | writing the list file inside the cache directory keeps every entry's directory on the disk |
| CacheManagerJs.NewCacheManager | src/main/cache-manager.js:5-18 | `new CacheManager()` throws exactly when `cache` is a file, with the disk unchanged; otherwise the manager gets its directory, is usable exactly when `projects.json` is not a directory, and its list reads as empty unless `projects.json` is a regular file |
| CacheManagerJs.CacheManager.ListProjects | src/main/cache-manager.js:32-44 | the list stored in `projects.json`, or the empty list when reading or parsing fails |
| CacheManagerJs.CacheManager.LoadProject | src/main/cache-manager.js:27-30 | nothing exactly when no listed project has the id, otherwise the first listed project with it |
| FileProcessorJs.ExtName | src/main/file-processor.js:81 | `path.extname` of a name is empty or a suffix of it that starts with '.' and is shorter than the name |
| FileProcessorJs.ZipNameLosesSuffix | src/main/file-processor.js:81-82 | a name "x.zip" passes the archive test and unpacks into "x" |
| FileProcessorJs.UpperZipKeepsName | src/main/file-processor.js:81-82 | "logs.ZIP" passes the archive test, yet the directory to unpack into keeps the archive's own name |
| FileProcessorJs.UnpackDirName | src/main/file-processor.js:81-82 | the unpack directory is the archive's name without the extension the test accepted, so it never equals the archive's name |
| FileProcessorJs.UnpackDirNameAgrees | src/main/file-processor.js:82 | for a lower-case ".zip" name the corrected directory name is the one the code computes |
| FileProcessorJs.BugreportJsIsSearch | src/main/file-processor.js:98 | a name is a bug report exactly when some suffix of it matches `bugreport.*\.txt$` whole, ignoring case |
| FileProcessorJs.Mp4JsIsSearch | src/main/file-processor.js:104 | a name is a video exactly when some suffix of it matches `\.mp4$` whole, ignoring case |
| FileProcessorJs.JavaBugreportIsJs | src/main/file-processor.js:98 | every name the Java extractor takes for a bug report is one here too |
| FileProcessorJs.PrefixedBugreportOnlyJs | src/main/file-processor.js:98 | "my_bugreport.txt" is a bug report here but not to the Java extractor, whose pattern is anchored at the start |
| FileProcessorJs.WalkFound | src/main/file-processor.js:108-121 | the files found below a directory are exactly its files, at any depth, whose names pass the test |
| FileProcessorJs.WalkNodeFound | src/main/file-processor.js:112-119 | an entry yields exactly itself when it is a file passing the test, and the files below it when it is a directory |
| FileProcessorJs.MergeIntoWellFormed | src/main/file-processor.js:57-70 | extracting into a directory keeps names unique within every directory |
| FileProcessorJs.MergeIntoWs | src/main/file-processor.js:57-70 | extracting into a directory adds no more than the archive holds |
| FileProcessorJs.MergeIntoFresh | src/main/file-processor.js:57-70 | extracting into an empty directory, or one holding none of the archive's names, leaves exactly the old entries followed by the archive's |
| FileProcessorJs.PlaceWellFormed | src/main/file-processor.js:61 | placing one extracted entry keeps names unique |
| FileProcessorJs.PlaceWs | src/main/file-processor.js:61 | placing one extracted entry grows the directory by at most that entry |
| FileProcessorJs.RemoveKeeps | src/main/file-processor.js:88 | unlinking an entry leaves exactly the entries with other names |
| FileProcessorJs.ReplaceThenRemove | src/main/file-processor.js:82-88 | unpacking into an existing sibling directory and deleting the archive keeps names unique and drops only the archive |
| FileProcessorJs.RemoveThenAppend | src/main/file-processor.js:82-88 | unpacking into a new sibling directory and deleting the archive keeps names unique and drops only the archive |
| FileProcessorJs.SplitReports | src/main/file-processor.js:33-41 | every bug report found is split, in order, each into the chunks the text splitter makes of its file |
| FileProcessorJs.SplitReport | src/main/file-processor.js:36-40 | one bug report comes back with the chunk paths planned for its size and lines |
| FileProcessorJs.FileProcessor.constructor | src/main/file-processor.js:10-14 | the project map starts empty |
| FileProcessorJs.FileProcessor.ProcessZipFile | src/main/file-processor.js:16-55 | the promise resolves exactly when the upload is a readable archive and unpacking its nested archives succeeds; the tree is then what `Unpacked` makes of the archive's entries, holds no archive, and the project carries the new id, the upload's base name without ".zip", the project directory, the time stamp, every video below the directory and every bug report split into chunks |
| FileProcessorJs.FileProcessor.FindBugreportFiles | src/main/file-processor.js:96-100 | the paths are every file below the directory whose name matches the bug report pattern, in listing order |
| FileProcessorJs.FileProcessor.FindMp4Files | src/main/file-processor.js:102-106 | the paths are every file below the directory whose name ends in ".mp4" in any case, in listing order |
| FileProcessorJs.FileProcessor.ChunkPath | src/main/file-processor.js:124-139 | a missing project fails with "Project not found"; otherwise the path exists exactly when the project has a first bug report with that chunk |
| FileProcessorJs.FileProcessor.SearchInChunk | src/main/file-processor.js:123-131 | an unknown project fails with "Project not found"; otherwise the rejections of `searchInFile` pass through, and a compiled pattern over a readable chunk gives the hits of searching its lines |
| FileProcessorJs.FileProcessor.GetChunkContent | src/main/file-processor.js:133-141 | an unknown project fails with "Project not found"; otherwise the content is what reading the chunk's path gives, and a read failure fails |
| FileProcessorJs.FileProcessor.FindFilesByPattern | src/main/file-processor.js:108-121 | the array passed in comes back with every matching file below the directory appended, depth first in listing order |
| FileProcessorJs.FileProcessor.ProcessNestedZips | src/main/file-processor.js:72-94 | the result is `Unpacked` of the listing; on success no archive is left anywhere below the directory, every file of the top listing that is not an archive stays, and every file taken for an archive was a readable one |
| FileProcessorJs.FileProcessor.ProcessEntry | src/main/file-processor.js:75-92 | the result is `EntryStep`: a missing name fails, a directory is processed, a file without the ".zip" extension is left alone and an archive unpacked |
| FileProcessorJs.FileProcessor.ProcessDirAt | src/main/file-processor.js:79-80 | the result is `DirStep`: the sub-directory is replaced by itself with its listing unpacked, and the other entries stay |
| FileProcessorJs.FileProcessor.UnpackAt | src/main/file-processor.js:81-91 | the result is `UnpackStep`: unreadable bytes or a file in the way fail; otherwise the archive's entries are merged into the sibling directory named after it (made when missing), that directory is processed and the archive is gone |
| FileProcessorJs.Pass | src/main/file-processor.js:75-92 | each pass of the `for` loop over the names never makes the tree heavier |
| FileProcessorJs.EntryStep | src/main/file-processor.js:76-91 | handling one name never makes the tree heavier |
| FileProcessorJs.DirStep | src/main/file-processor.js:79-80 | processing a sub-directory never makes the tree heavier |
| FileProcessorJs.UnpackStep | src/main/file-processor.js:82-91 | unpacking one archive and processing its directory never makes the tree heavier |
| FileProcessorJs.Unpacked | src/main/file-processor.js:72-94 | unpacking a listing never makes the tree heavier, which is why the recursion of `processNestedZips` ends |
| FileProcessorJs.UnpackedCanon | src/main/file-processor.js:72-94 | in a tree where no archive's directory name is taken, unpacking succeeds exactly when every archive at any depth is readable, and then yields the canonical listing |
| FileProcessorJs.PassCanon | src/main/file-processor.js:75-92 | from the state reached after the first names, the rest of the loop succeeds exactly when the rest of the entries are readable, ending in the canonical listing |
| FileProcessorJs.EntryStepCanon | src/main/file-processor.js:76-91 | handling one entry moves the listing to the next canonical midway point, and fails exactly when the entry holds an unreadable archive |
| FileProcessorJs.DirEntryCanon | src/main/file-processor.js:79-80 | a directory entry is replaced in place by its canonical self, or the pass fails when something below it is unreadable |
| FileProcessorJs.FileEntryCanon | src/main/file-processor.js:81 | a file without the ".zip" extension is left where it is |
| FileProcessorJs.ArchiveEntryCanon | src/main/file-processor.js:81-91 | an archive entry is removed and its directory appended after the other unpacked directories, or the pass fails when the archive or one inside it is unreadable |
| FileProcessorJs.DirStepAt | src/main/file-processor.js:79-80 | processing a directory in the middle of a listing changes that entry only |
| FileProcessorJs.UnpackStepAt | src/main/file-processor.js:82-91 | unpacking an archive whose directory is not there yet removes it and appends the new directory at the end |
| FileProcessorJs.MidwayFinds | src/main/file-processor.js:76-77 | the name read at the start still finds its own entry when its turn comes |
| FileProcessorJs.MidwayFree | src/main/file-processor.js:82-85 | when an archive's turn comes nothing carries the name of its directory, so `mkdirSync` makes it |
| FileProcessorJs.CanonPlaces | src/main/file-processor.js:72-94 | in the canonical listing a file that is no archive stays as it is, a directory stays with its listing unpacked, and a readable archive becomes the directory named after it holding its unpacked entries; at any depth and inside archives by recursion |
| FileProcessorJs.UnpackInputWeight | src/main/file-processor.js:82-87 | what extraction starts from weighs less than the listing |
| FileProcessorJs.UnpackOutputWeight | src/main/file-processor.js:87-88 | the weight of the listing after unpacking is the old weight with the archive and the old directory exchanged for the new directory |

## Left out

- JSON reading and writing (Jackson, `JSON.parse`/`JSON.stringify`) is not modelled. Each store keeps the value it last wrote, and a file that does not parse is the error path the source takes. The text the prototype's cache manager writes is a parameter.
- `ProjectManager.java`, `SettingsManager.java` and `VideoPlayer.java` are not part of this model. They are persistence plumbing, a single setting with OS-dependent defaults, and media playback with floating-point time arithmetic.
- Zip decoding is not modelled. An archive is the sequence of entries it unpacks to, and bytes that do not form a readable archive are `None`, which fails the operation as the library would.
- Clocks, `uuidv4`, `process.cwd()` and the user's answers to dialogs are parameters.
- ZipExtractor.TempName: `File.createTempFile("nested_", ".zip", projectDir)` picks a free name with random digits. The model picks, deterministically, the least free `nested_<k>.zip`. Only "free, of that form" is promised either way.
- Desktop trash and `FileUtils.deleteDirectory` are abstracted as the removal of the directory's entries from the file map.
- Regular expression evaluation (`java.util.regex`, `RegExp`) enters as the predicate a compiled pattern's `find`/`test` computes. This covers the regex and whole-word branches of `SearchWindow.matches` (`FindMode`) and every `RegExp` of the prototype. Only the pattern strings are built and proved about.
- UTF-8 decoding is a partial function given as a parameter. ISO-8859-1 is modelled exactly. Node's `readline` and Java's `readLine` are modelled by `Lines`, on already decoded text.
- Asynchronous work (`CompletableFuture`, `Platform.runLater`, `async`/`await`, streams) is modelled as running to completion in order. Concurrent interleavings are not modelled.
- JavaFX and DOM rendering are not modelled. This includes styling, the clipboard copy and scrolling, and the mouse-released and drag auto-scroll of `SearchWindow`. Selection state that the modelled handlers change is kept.
- Listing order of `readdirSync`, `File.listFiles` and zip enumeration is taken as given by the input sequence. The model does not claim any particular order.
- SearchEngine.LineMatches: case-insensitive plain search lowers ASCII letters only, while `String.toLowerCase` folds all of Unicode. The result is the same for ASCII text.
- FileSplitter.SplitFile: the bytes read are those the stream delivers, which may fall short of the reported size if the file changes while it is split. The contract states the parts for what was delivered.
- A recent project (`RecentProject`) is a value. The Java objects are shared with the UI list, and that aliasing is not modelled.
- TextSplitterJs.SplitFile: the variable `remaining` in `text-splitter.js` is never set to anything but '' before it is read, so it adds nothing and is not modelled. The chunk files written are not added to the directory tree that `FileProcessorJs` searches afterwards.
- SearchEngineJs.SearchInFile: when `options.useLogcatSyntax` is left to its default, `searchInFile` builds the logcat pattern string, but `matchLine` reads the raw option, finds it undefined, and calls `test` on a string, which throws a `TypeError`. The model searches with the predicate the pattern computes and does not model that exception.
- CacheManagerJs.CacheManager.DeleteProject: requires the project id to be a plain file name: not empty, no '/', not "." and not "..". With other ids `path.join` would leave the cache directory, and the model does not follow that.
- FileProcessorJs.FileProcessor.ProcessNestedZips: unpacks into the directory named by the corrected `UnpackDirName`. For an upper-case ".ZIP" the code as written names the directory after the archive itself (see Findings), and the model does not follow that path. An archive named "..zip" or "...zip" unpacks, in the source, into "." or "..", that is, into the directory itself or its parent. Such archives are outside the trees the model accepts (`WellFormedNode` requires the unpack directory name to be a plain name), so that behaviour is not covered.
- FileProcessorJs.FileProcessor.ProcessNestedZips: the outcome is characterized as a canonical listing (`UnpackedCanon`) only for tidy trees, where no archive's directory name is already taken by a sibling. Elsewhere archives merge into existing directories in listing order, and the result is stated only as equal to the step functions `Unpacked`/`EntryStep`.
- WelcomeView.WelcomeView.Delete: deletes the directory chosen by the corrected `DeleteDir`, not by `DeleteDirAsWritten`. For a renamed project in the `P/P.json` layout the source picks `P/P` instead, which is normally not there, so only the JSON file is removed and the project directory `P` stays (see Findings); the method does not model that.
- FileSplitter.SplitFile: cuts the file into `PartCount` parts, the corrected count. For sizes of 2^31 * 10 MiB and more the source's `int` cast wraps (`PartCountAsWritten`, see Findings); the method does not model that.
- ZipExtractor.ProcessZip: the copy of a nested archive to its temporary file (ZipExtractor.java:53-55), the writing of a kept file (87-90) and the splitter's `IOException` (101-103) never fail in the model. Only an unreadable archive fails.
- ZipExtractor.ProcessEntry: a failed copy of a nested archive to its temporary file (ZipExtractor.java:53-55) is not modelled.
- ZipExtractor.ExtractEntry: a failed write of the kept file (ZipExtractor.java:87-90) and an `IOException` from `FileSplitter.splitFile` (101-103) are not modelled.
- ZipExtractor.ExtractProject: `mkdirs` and the writes below it are taken to succeed; only an unreadable archive makes the extraction throw.
- WelcomeView.WelcomeView.ProcessZipFile: the manifest's JSON bytes are a parameter, and `ProjectManager.saveProject` is taken to succeed. A failure to write the JSON, which the source reports like a failed ingestion, is not modelled.
- CacheManagerJs.CacheManager.constructor: requires `process.cwd()` to be an existing directory; `mkdirSync(..., { recursive: true })` would also create it, and the model does not follow that. A `cache` that is a file is taken as present, so `mkdirSync` is skipped and `writeFileSync` then throws; `NewCacheManager` models that throw.
- The `projects` map of the prototype's `FileProcessor` is created empty and nothing in the source adds to it. Every `searchInChunk` and `getChunkContent` on a real run therefore fails with "Project not found". The model keeps the general lookup so that the guard is stated for any map.

## Findings

| source | as written | input that shows it | evidently intended | confidence | as-written member | corrected member |
|---|---|---|---|---|---|---|
| src/main/java/com/buganalyzer/ui/WelcomeView.java:396-405 | the directory to delete is chosen by comparing the JSON file's parent directory name with the recent entry's display name, which a rename changes | project JSON `/home/u/P/P.json` whose recent entry was renamed to "Foo": `/home/u/P/P` is chosen, and the project directory `/home/u/P` stays | delete the directory that loading the project uses, whatever the display name | not executed | WelcomeView.DeleteDirAsWrittenMissesRenamed | WelcomeView.DeleteDirIsLoadDir |
| src/main/java/com/buganalyzer/core/FileSplitter.java:23-25 | the part count casts `sizeMB / 10` to `int`, which wraps for sizes of 2^31 * 10 MiB and more | a file of (2^32 + 50) * 10 MiB bytes is cut into 50 parts, not 100 | clamp the exact tenth of the size in MiB to 10..100 | not executed | FileSplitter.PartCountWraps | FileSplitter.PartCount |
| src/main/file-processor.js:81-82 | the archive test lower-cases the extension, but the unpack directory strips only a lower-case ".zip" | "logs.ZIP": `nestedDir` is the archive's own path, so `existsSync` is true and no directory is made; extracting into a file then fails, or `readdirSync` on it throws, and either way `processZipFile` rejects | unpack into "logs", the name without the extension the test accepted | not executed | FileProcessorJs.UpperZipKeepsName | FileProcessorJs.UnpackDirName |

=== FILE: cache_manager_js.dfy ===
/** `CacheManager` of the Electron prototype: the list of saved projects
    kept in `cache/projects.json` under the working directory, and the
    removal of a project's cache directory. The list is kept as the value
    the file reads as (its JSON text is not modelled); the disk is a map
    from paths to files and directories. */
module CacheManagerJs {
  import opened Wrappers
  import opened Seqs
  import opened Paths

  // ------------------------------------------------------------------ disk

  /** What is at a path: a regular file with its bytes, or a directory. */
  datatype Entry = FileEntry(data: seq<bv8>) | DirEntry

  type DiskMap = map<Path, Entry>

  /** The directory holding `q`. */
  function Up(q: Path): Path
    requires |q.parts| > 0
  {
    Path(q.absolute, q.parts[..|q.parts| - 1])
  }

  /** Every entry below a root lies in a directory of the disk. */
  predicate Closed(d: DiskMap) {
    forall q {:trigger Up(q)} :: q in d && |q.parts| > 0 ==> Up(q) in d && d[Up(q)].DirEntry?
  }

  /** `q` is `p` or lies inside it. */
  predicate AtOrUnder(q: Path, p: Path) {
    q == p || Under(q, p)
  }

  /** The disk without `p` and everything inside it. */
  function Prune(d: DiskMap, p: Path): (r: DiskMap)
    ensures forall q :: q in r <==> q in d && !AtOrUnder(q, p)
    ensures forall q :: q in r ==> r[q] == d[q]
  {
    map q | q in d && !AtOrUnder(q, p) :: d[q]
  }

  /** The paths of `p` and of everything inside it. */
  function Within(d: DiskMap, p: Path): set<Path> {
    set q | q in d && AtOrUnder(q, p)
  }

  /** The names listed in directory `p`. */
  function ChildNames(d: DiskMap, p: Path): set<string> {
    set q | q in d && Under(q, p) && |q.parts| == |p.parts| + 1 :: q.parts[|p.parts|]
  }

  /** Every directory on the way down to an entry is on the disk. */
  lemma {:induction false} AncestorOnDisk(d: DiskMap, q: Path, k: nat)
    requires Closed(d) && q in d && k < |q.parts|
    ensures Path(q.absolute, q.parts[..k]) in d && d[Path(q.absolute, q.parts[..k])].DirEntry?
    decreases |q.parts| - k
  {
    var u := Up(q);
    if k < |q.parts| - 1 {
      AncestorOnDisk(d, u, k);
      assert u.parts[..k] == q.parts[..k];
    }
  }

  /** Nothing lies inside a path that is not on the disk. */
  lemma AbsentHasNothingInside(d: DiskMap, p: Path)
    requires Closed(d) && p !in d
    ensures Prune(d, p) == d
  {
    forall q | q in d && Under(q, p) ensures false {
      assert Path(q.absolute, q.parts[..|p.parts|]) == p;
      AncestorOnDisk(d, q, |p.parts|);
    }
  }

  /** Nothing lies inside a file. */
  lemma FileHasNothingInside(d: DiskMap, c: Path)
    requires Closed(d) && c in d && d[c].FileEntry?
    ensures Prune(d, c) == d - {c}
  {
    forall q | q in d && Under(q, c) ensures false {
      assert Path(q.absolute, q.parts[..|c.parts|]) == c;
      AncestorOnDisk(d, q, |c.parts|);
    }
  }

  /** Removing a whole subtree leaves no entry without its directory. */
  lemma PruneClosed(d: DiskMap, p: Path)
    requires Closed(d)
    ensures Closed(Prune(d, p))
  {
    var r := Prune(d, p);
    forall q | q in r && |q.parts| > 0 ensures Up(q) in r && r[Up(q)].DirEntry? {
      UpUnder(q, p);
    }
  }

  /** What holds the directory above `q` holds `q`. */
  lemma UpUnder(q: Path, p: Path)
    requires |q.parts| > 0
    ensures AtOrUnder(Up(q), p) ==> Under(q, p)
  {
    var u := Up(q);
    assert q.parts[..|u.parts|] == u.parts;
    if Under(u, p) {
      assert q.parts[..|p.parts|] == u.parts[..|p.parts|];
    }
  }

  lemma {:induction false} SubsetCard<T>(a: set<T>, b: set<T>)
    requires a <= b
    ensures |a| <= |b|
    decreases a
  {
    if a != {} {
      var x :| x in a;
      SubsetCard(a - {x}, b - {x});
    }
  }

  /** The file system. */
  class Disk {
    var entries: DiskMap

    constructor (entries: DiskMap)
      ensures this.entries == entries
    {
      this.entries := entries;
    }

    /** `fs.readdirSync(p)`: the names in directory `p`, each once, in the
        order the operating system lists them. */
    method ReadDir(p: Path) returns (names: seq<string>)
      ensures forall n :: n in names <==> n in ChildNames(entries, p)
      ensures forall i, j :: 0 <= i < j < |names| ==> names[i] != names[j]
    {
      names := [];
      var left := ChildNames(entries, p);
      while left != {}
        invariant forall n :: n in names || n in left <==> n in ChildNames(entries, p)
        invariant forall n :: n in names ==> n !in left
        invariant forall i, j :: 0 <= i < j < |names| ==> names[i] != names[j]
        decreases |left|
      {
        var n :| n in left;
        names := names + [n];
        left := left - {n};
      }
    }
  }

  /** The disk after `fs.unlinkSync` or `fs.rmdirSync` on the first `i`
      names of `names` in `p`: those children with all they hold are gone. */
  function PruneChildren(d: DiskMap, p: Path, names: seq<string>): (r: DiskMap)
    ensures forall q :: q in r ==> q in d && r[q] == d[q]
  {
    map q | q in d && !(Under(q, p) && q.parts[|p.parts|] in names) :: d[q]
  }

  /** Removing one more child is pruning its subtree. */
  lemma PruneChildrenStep(d: DiskMap, p: Path, names: seq<string>, n: string)
    ensures PruneChildren(d, p, names + [n]) == Prune(PruneChildren(d, p, names), Child(p, n))
  {
    var c := Child(p, n);
    var a := PruneChildren(d, p, names + [n]);
    var b := Prune(PruneChildren(d, p, names), c);
    forall q ensures q in a <==> q in b {
      ChildSubtree(q, p, n);
      assert Under(q, p) ==> (q.parts[|p.parts|] in names + [n] <==> q.parts[|p.parts|] in names || q.parts[|p.parts|] == n);
    }
    assert a.Keys == b.Keys;
  }

  /** The subtree of child `n` of `p` is what lies under `p` through `n`. */
  lemma ChildSubtree(q: Path, p: Path, n: string)
    ensures AtOrUnder(q, Child(p, n)) <==> Under(q, p) && q.parts[|p.parts|] == n
  {
    var c := Child(p, n);
    if Under(q, p) && q.parts[|p.parts|] == n {
      if |q.parts| == |c.parts| {
        assert q.parts == q.parts[..|p.parts|] + [n];
      } else {
        assert q.parts[..|c.parts|] == q.parts[..|p.parts|] + [n];
      }
    }
    if Under(q, c) {
      assert q.parts[..|p.parts|] == c.parts[..|p.parts|];
    }
  }

  /** Once every child is removed, what is left inside `p` is `p` alone. */
  lemma PruneAllChildren(d: DiskMap, p: Path, names: seq<string>)
    requires Closed(d) && p in d
    requires forall n :: n in ChildNames(d, p) ==> n in names
    ensures PruneChildren(d, p, names) - {p} == Prune(d, p)
  {
    var a := PruneChildren(d, p, names) - {p};
    var b := Prune(d, p);
    forall q ensures q in a <==> q in b {
      if q in d && Under(q, p) {
        InChildNames(d, p, q);
      }
    }
    assert a.Keys == b.Keys;
    forall q | q in a ensures a[q] == b[q] {
    }
  }

  /** An entry inside `p` is reached through one of `p`'s listed names. */
  lemma InChildNames(d: DiskMap, p: Path, q: Path)
    requires Closed(d) && q in d && Under(q, p)
    ensures q.parts[|p.parts|] in ChildNames(d, p)
  {
    var c := Path(q.absolute, q.parts[..|p.parts| + 1]);
    if |q.parts| > |p.parts| + 1 {
      AncestorOnDisk(d, q, |p.parts| + 1);
    } else {
      assert c == q;
    }
    assert c.parts[..|p.parts|] == p.parts;
    assert c in d && Under(c, p) && |c.parts| == |p.parts| + 1;
    assert c.parts[|p.parts|] in ChildNames(d, p);
  }

  /** The child the recursion descends into holds fewer entries than `p`. */
  lemma ChildWithinFewer(d0: DiskMap, d: DiskMap, p: Path, n: string)
    requires p in d0 && d.Keys <= d0.Keys
    ensures |Within(d, Child(p, n))| < |Within(d0, p)|
  {
    var c := Child(p, n);
    forall q | q in Within(d, c) ensures q in Within(d0, p) - {p} {
      if q != c {
        assert q.parts[..|p.parts|] == c.parts[..|p.parts|];
      }
    }
    SubsetCard(Within(d, c), Within(d0, p) - {p});
  }

  /** `deleteFolderRecursive(path)`: every file in the directory is
      unlinked and every subdirectory deleted the same way, then the
      directory itself is removed. A path that does not exist is left
      alone; for a file `readdirSync` throws (`false`) and nothing changes. */
  method DeleteFolderRecursive(disk: Disk, p: Path) returns (ok: bool)
    requires Closed(disk.entries)
    modifies disk
    ensures Closed(disk.entries)
    ensures ok <==> !(p in old(disk.entries) && old(disk.entries)[p].FileEntry?)
    ensures disk.entries == if ok then Prune(old(disk.entries), p) else old(disk.entries)
    decreases |Within(disk.entries, p)|
  {
    if p !in disk.entries {
      AbsentHasNothingInside(disk.entries, p);
      return true;
    }
    if disk.entries[p].FileEntry? {
      return false;
    }
    ghost var d0 := disk.entries;
    var names := disk.ReadDir(p);
    var i := 0;
    while i < |names|
      invariant 0 <= i <= |names|
      invariant disk.entries == PruneChildren(d0, p, names[..i])
      invariant Closed(disk.entries)
    {
      var c := Child(p, names[i]);
      ChildOnDisk(d0, p, names, i);
      PruneChildrenStep(d0, p, names[..i], names[i]);
      TakeSnoc(names, i);
      if disk.entries[c].DirEntry? {
        ChildWithinFewer(d0, disk.entries, p, names[i]);
        var _ := DeleteFolderRecursive(disk, c);
      } else {
        FileHasNothingInside(disk.entries, c);
        PruneClosed(disk.entries, c);
        disk.entries := disk.entries - {c};
      }
      i := i + 1;
    }
    assert names[..i] == names;
    PruneAllChildren(d0, p, names);
    PruneClosed(d0, p);
    disk.entries := disk.entries - {p};
    ok := true;
  }

  /** The `i`-th listed child is still on the disk when its turn comes. */
  lemma ChildOnDisk(d0: DiskMap, p: Path, names: seq<string>, i: nat)
    requires i < |names|
    requires forall n :: n in names <==> n in ChildNames(d0, p)
    requires forall a, b :: 0 <= a < b < |names| ==> names[a] != names[b]
    ensures Child(p, names[i]) in PruneChildren(d0, p, names[..i])
  {
    assert names[i] in names;
    var q :| q in d0 && Under(q, p) && |q.parts| == |p.parts| + 1 && q.parts[|p.parts|] == names[i];
    assert q.parts == p.parts + [names[i]];
    assert q == Child(p, names[i]);
    assert names[i] !in names[..i];
  }

  // --------------------------------------------------------- project list

  /** A saved project: its `id` and the rest of its fields, which the cache
      manager never looks into. */
  datatype Project = Project(id: string, fields: string)

  /** What `projects.json` reads as: a list of projects, or nothing usable
      (the file cannot be read, or is not JSON). */
  datatype ProjectsFile = Unreadable | Stored(projects: seq<Project>)

  /** The position of the first project with that id, or -1. */
  function FindIndex(ps: seq<Project>, id: string): int {
    FirstIndex(ps, (p: Project) => p.id, id)
  }

  /** `projects.find(p => p.id === projectId)`: the first project with that
      id. */
  function FindProject(ps: seq<Project>, id: string): (r: Option<Project>)
    ensures r.None? <==> forall i :: 0 <= i < |ps| ==> ps[i].id != id
    ensures r.Some? ==> r.value in ps && r.value.id == id
    ensures r.Some? ==> exists i :: 0 <= i < |ps| && ps[i] == r.value && forall j :: 0 <= j < i ==> ps[j].id != id
  {
    var k := FindIndex(ps, id);
    if k < 0 then None else Some(ps[k])
  }

  /** `projects.filter(p => p.id !== projectId)`. */
  function RemoveId(ps: seq<Project>, id: string): (r: seq<Project>)
    ensures forall p :: p in r <==> p in ps && p.id != id
    ensures |r| <= |ps|
    decreases |ps|
  {
    if |ps| == 0 then []
    else
      var init := ps[..|ps| - 1];
      var last := ps[|ps| - 1];
      assert ps == init + [last];
      RemoveId(init, id) + (if last.id == id then [] else [last])
  }

  /** Filtering goes entry by entry, so the kept projects keep their order. */
  lemma {:induction false} RemoveIdAppend(a: seq<Project>, b: seq<Project>, id: string)
    ensures RemoveId(a + b, id) == RemoveId(a, id) + RemoveId(b, id)
    decreases |b|
  {
    if |b| == 0 {
      assert a + b == a;
    } else {
      var init, last := b[..|b| - 1], b[|b| - 1];
      AppendInit(a, b);
      RemoveIdAppend(a, init, id);
      AppendAssoc(RemoveId(a, id), RemoveId(init, id), if last.id == id then [] else [last]);
    }
  }

  /** A list without the id is kept as it is. */
  lemma {:induction false} RemoveIdAbsent(ps: seq<Project>, id: string)
    requires forall i :: 0 <= i < |ps| ==> ps[i].id != id
    ensures RemoveId(ps, id) == ps
    decreases |ps|
  {
    if |ps| > 0 {
      var init := ps[..|ps| - 1];
      assert ps == init + [ps[|ps| - 1]];
      RemoveIdAbsent(init, id);
    }
  }

  /** After a save, loading an id finds the earliest project with it: the
      new one when none was saved with that id before; other ids load as
      before. */
  lemma LoadAfterSave(ps: seq<Project>, p: Project, id: string)
    ensures FindProject(ps + [p], id) ==
      if FindProject(ps, id).Some? then FindProject(ps, id)
      else if p.id == id then Some(p) else None
  {
    var all := ps + [p];
    var k0 := FindIndex(ps, id);
    var k := FindIndex(all, id);
    assert forall j :: 0 <= j < |ps| ==> all[j] == ps[j];
    assert all[|ps|] == p;
    if k0 >= 0 {
      assert k == k0;
    } else if p.id == id {
      assert k == |ps|;
    }
  }

  /** After a delete, the id loads as nothing, and every other id loads as
      before. */
  lemma LoadAfterDelete(ps: seq<Project>, id: string, other: string)
    ensures FindProject(RemoveId(ps, id), id) == None
    ensures other != id ==> FindProject(RemoveId(ps, id), other) == FindProject(ps, other)
  {
    var r := RemoveId(ps, id);
    assert forall i :: 0 <= i < |r| ==> r[i] in r;
    if other != id {
      RemoveIdFind(ps, id, other);
    }
  }

  /** `find` looks at the head first. */
  lemma FindProjectCons(x: Project, t: seq<Project>, id: string)
    ensures FindProject([x] + t, id) == if x.id == id then Some(x) else FindProject(t, id)
  {
    var s := [x] + t;
    assert s[0] == x && s[1..] == t;
  }

  lemma {:induction false} RemoveIdFind(ps: seq<Project>, id: string, other: string)
    requires other != id
    ensures FindProject(RemoveId(ps, id), other) == FindProject(ps, other)
    decreases |ps|
  {
    if |ps| > 0 {
      var x, t := ps[0], ps[1..];
      assert ps == [x] + t;
      RemoveIdAppend([x], t, id);
      RemoveIdFind(t, id, other);
      FindProjectCons(x, t, other);
      assert [x][..0] == [];
      if x.id == id {
        assert RemoveId([x], id) == [];
        assert RemoveId(ps, id) == RemoveId(t, id);
      } else {
        assert RemoveId([x], id) == [x];
        FindProjectCons(x, RemoveId(t, id), other);
      }
    }
  }

  /** `new CacheManager()`: `None` when the constructor throws, which it
      does when `cwd/cache` is a file (`cache/projects.json` then does not
      exist and `writeFileSync` fails); the disk is then unchanged. */
  method NewCacheManager(cwd: Path, disk: Disk, existing: ProjectsFile) returns (m: Option<CacheManager>)
    requires Closed(disk.entries) && cwd in disk.entries && disk.entries[cwd].DirEntry?
    modifies disk
    ensures var cache := Child(cwd, "cache");
      m.None? <==> cache in old(disk.entries) && old(disk.entries)[cache].FileEntry?
    ensures m.None? ==> disk.entries == old(disk.entries)
    ensures m.Some? ==> fresh(m.value) && m.value.cacheDir == Child(cwd, "cache") && m.value.Tracks(disk)
    ensures m.Some? ==>
      (m.value.Valid(disk) <==> !(m.value.projectsFile in old(disk.entries) && old(disk.entries)[m.value.projectsFile].DirEntry?))
  {
    var cache := Child(cwd, "cache");
    if cache in disk.entries && disk.entries[cache].FileEntry? {
      return None;
    }
    var c := new CacheManager(cwd, disk, existing);
    m := Some(c);
  }

  /** The manager: where the cache and its project list are, and what the
      list file holds. */
  class CacheManager {
    const cacheDir: Path
    const projectsFile: Path
    /** What `projects.json` reads as. */
    var stored: ProjectsFile

    /** The list file lies in the cache directory. */
    predicate Layout() {
      projectsFile == Child(cacheDir, "projects.json")
    }

    /** The cache directory and the list file are on the disk. */
    predicate Valid(disk: Disk)
      reads this, disk
    {
      Closed(disk.entries)
      && cacheDir in disk.entries && disk.entries[cacheDir].DirEntry?
      && projectsFile in disk.entries && disk.entries[projectsFile].FileEntry?
      && Layout()
    }

    /** The list reads as nothing unless `projects.json` is a regular file:
        `readFileSync` throws on a missing file and on a directory. */
    predicate Tracks(disk: Disk)
      reads this, disk
    {
      !(projectsFile in disk.entries && disk.entries[projectsFile].FileEntry?) ==> stored == Unreadable
    }

    /** `writeFileSync(projectsFile, …)` succeeds on `d`: the cache
        directory is there and the list file is not a directory (a missing
        file is created). */
    predicate Writable(d: DiskMap) {
      cacheDir in d && d[cacheDir].DirEntry?
      && !(projectsFile in d && d[projectsFile].DirEntry?)
    }

    /** The constructor creates `cwd/cache` when it is missing and writes
        an empty list to `cache/projects.json` when that is missing; a list
        file that exists is kept, and reads as `existing`. Nothing else on
        the disk changes. A directory in the list file's place is kept as
        well; the manager is then not valid and its list reads as nothing.
        When `cwd/cache` is a file the constructor throws instead; see
        `NewCacheManager`. */
    constructor (cwd: Path, disk: Disk, existing: ProjectsFile)
      requires Closed(disk.entries) && cwd in disk.entries && disk.entries[cwd].DirEntry?
      requires !(Child(cwd, "cache") in disk.entries && disk.entries[Child(cwd, "cache")].FileEntry?)
      modifies disk
      ensures cacheDir == Child(cwd, "cache") && Layout() && Tracks(disk)
      ensures Closed(disk.entries) && cacheDir in disk.entries && disk.entries[cacheDir].DirEntry?
      ensures Valid(disk) <==> !(projectsFile in old(disk.entries) && old(disk.entries)[projectsFile].DirEntry?)
      ensures forall q :: q != cacheDir && q != projectsFile ==>
        (q in disk.entries <==> q in old(disk.entries)) && (q in disk.entries ==> disk.entries[q] == old(disk.entries)[q])
      ensures cacheDir in old(disk.entries) ==> disk.entries[cacheDir] == old(disk.entries)[cacheDir]
      ensures projectsFile in old(disk.entries) ==> disk.entries == old(disk.entries)
      ensures projectsFile in old(disk.entries) && old(disk.entries)[projectsFile].FileEntry? ==> stored == existing
      ensures projectsFile in old(disk.entries) && old(disk.entries)[projectsFile].DirEntry? ==> stored == Unreadable
      ensures projectsFile !in old(disk.entries) ==>
        disk.entries[projectsFile] == FileEntry(['[' as bv8, ']' as bv8]) && stored == Stored([])
    {
      cacheDir := Child(cwd, "cache");
      projectsFile := Child(Child(cwd, "cache"), "projects.json");
      new;
      var cache := Child(cwd, "cache");
      var file := Child(cache, "projects.json");
      assert Up(cache) == cwd && Up(file) == cache;
      if cache !in disk.entries {
        AbsentHasNothingInside(disk.entries, cache);
        assert file !in disk.entries;
        disk.entries := disk.entries[cache := DirEntry];
      }
      if file !in disk.entries {
        disk.entries := disk.entries[file := FileEntry(['[' as bv8, ']' as bv8])];
        stored := Stored([]);
      } else if disk.entries[file].DirEntry? {
        stored := Unreadable;
      } else {
        stored := existing;
      }
    }

    /** `listProjectsSync()` (and `listProjects()`): the stored list, or
        the empty list when the file does not read as one. */
    function ListProjects(): (r: seq<Project>)
      reads this
      ensures stored.Stored? ==> r == stored.projects
      ensures !stored.Stored? ==> r == []
    {
      if stored.Stored? then stored.projects else []
    }

    /** `loadProject(projectId)`. */
    function LoadProject(id: string): (r: Option<Project>)
      reads this
      ensures r.None? <==> forall p :: p in ListProjects() ==> p.id != id
      ensures r.Some? ==> r.value in ListProjects() && r.value.id == id
      ensures r.Some? ==>
        exists i :: 0 <= i < |ListProjects()| && ListProjects()[i] == r.value &&
          forall j :: 0 <= j < i ==> ListProjects()[j].id != id
    {
      FindProject(ListProjects(), id)
    }

    /** Writing `text` as the list file keeps the disk closed. */
    lemma WriteClosed(d: DiskMap, text: seq<bv8>)
      requires Closed(d) && Layout() && Writable(d)
      ensures Closed(d[projectsFile := FileEntry(text)])
    {
      var w := d[projectsFile := FileEntry(text)];
      assert Up(projectsFile) == cacheDir;
      forall q {:trigger Up(q)} | q in w && |q.parts| > 0
        ensures Up(q) in w && w[Up(q)].DirEntry?
      {
        if q != projectsFile {
          assert Up(q) in d && d[Up(q)].DirEntry?;
        }
      }
    }

    /** `saveProject(projectData)`: the list read back gets the project
        appended and is written as `text` (its JSON, whose serialisation
        is not modelled); earlier entries, with the same id or not, stay.
        The promise rejects, with nothing changed, when `writeFileSync`
        throws. */
    method SaveProject(disk: Disk, p: Project, text: seq<bv8>) returns (done: bool)
      requires Closed(disk.entries) && Layout()
      modifies this, disk
      ensures Closed(disk.entries)
      ensures done <==> Writable(old(disk.entries))
      ensures done ==> (stored == Stored(old(ListProjects()) + [p])
        && disk.entries == old(disk.entries)[projectsFile := FileEntry(text)] && Valid(disk))
      ensures !done ==> stored == old(stored) && disk.entries == old(disk.entries)
      ensures old(Tracks(disk)) ==> Tracks(disk)
    {
      var projects := ListProjects();
      projects := projects + [p];
      if !Writable(disk.entries) {
        return false;
      }
      WriteClosed(disk.entries, text);
      disk.entries := disk.entries[projectsFile := FileEntry(text)];
      stored := Stored(projects);
      done := true;
    }

    /** `deleteProject(projectId)`: the list without the id is written as
        `text`, then the project's cache directory is deleted with all it
        holds. The promise rejects with nothing changed when the list
        cannot be written, and after the write when the deletion throws. */
    method DeleteProject(disk: Disk, id: string, text: seq<bv8>) returns (ok: bool)
      requires Closed(disk.entries) && Layout() && IsPlainName(id)
      modifies this, disk
      ensures Closed(disk.entries)
      ensures !Writable(old(disk.entries)) ==>
        !ok && stored == old(stored) && disk.entries == old(disk.entries)
      ensures Writable(old(disk.entries)) ==>
        Valid(disk) && stored == Stored(RemoveId(old(ListProjects()), id))
      ensures Writable(old(disk.entries)) ==>
        var written := old(disk.entries)[projectsFile := FileEntry(text)];
        var dir := Child(cacheDir, id);
        (ok <==> !(dir in written && written[dir].FileEntry?))
        && disk.entries == if ok then Prune(written, dir) else written
      ensures old(Tracks(disk)) ==> Tracks(disk)
    {
      var projects := ListProjects();
      var filtered := RemoveId(projects, id);
      if !Writable(disk.entries) {
        return false;
      }
      WriteClosed(disk.entries, text);
      disk.entries := disk.entries[projectsFile := FileEntry(text)];
      stored := Stored(filtered);
      var projectDir := Child(cacheDir, id);
      if projectDir in disk.entries {
        ok := DeleteFolderRecursive(disk, projectDir);
      } else {
        AbsentHasNothingInside(disk.entries, projectDir);
        ok := true;
      }
    }
  }
}

=== FILE: category_selection.dfy ===
/** The check-box list of category names that `KeywordDialog` and
    `CategorySelectionDialog` both show, and `CategorySelectionDialog`
    itself: pick keyword categories to search for. */
module CategorySelection {
  import opened Wrappers
  import opened KeywordManager

  /** A list row: the category's name and whether its box is checked. */
  datatype CategoryItem = CategoryItem(name: string, selected: bool)

  /** One unchecked row per name, in the order given. */
  function ItemsFor(names: seq<string>): (r: seq<CategoryItem>)
    ensures |r| == |names|
    ensures forall i :: 0 <= i < |r| ==> r[i].name == names[i] && !r[i].selected
  {
    seq(|names|, i requires 0 <= i < |names| => CategoryItem(names[i], false))
  }

  /** `filter(CategoryItem::isSelected).map(CategoryItem::getName)`. */
  function CheckedNames(items: seq<CategoryItem>): (r: seq<string>)
    ensures |r| <= |items|
    ensures forall n :: n in r <==> exists i :: 0 <= i < |items| && items[i].selected && items[i].name == n
    decreases |items|
  {
    if |items| == 0 then []
    else
      var t := CheckedNames(items[1..]);
      assert forall i :: 1 <= i < |items| ==> items[i] == items[1..][i - 1];
      if items[0].selected then [items[0].name] + t else t
  }

  /** The checked names come in list order. */
  lemma {:induction false} CheckedNamesAppend(a: seq<CategoryItem>, b: seq<CategoryItem>)
    ensures CheckedNames(a + b) == CheckedNames(a) + CheckedNames(b)
    decreases |a|
  {
    if |a| == 0 {
      assert a + b == b;
    } else {
      assert (a + b)[1..] == a[1..] + b;
      CheckedNamesAppend(a[1..], b);
    }
  }

  /** With every box checked, the result is every name in list order; with
      none checked, it is empty. */
  lemma {:induction false} CheckedNamesAll(items: seq<CategoryItem>, selected: bool)
    requires forall i :: 0 <= i < |items| ==> items[i].selected == selected
    ensures selected ==> CheckedNames(items) == seq(|items|, i requires 0 <= i < |items| => items[i].name)
    ensures !selected ==> CheckedNames(items) == []
    decreases |items|
  {
    if |items| > 0 {
      CheckedNamesAll(items[1..], selected);
    }
  }

  /** The dialog's two buttons. */
  datatype Button = Search | Cancel

  class CategorySelectionDialog {
    var items: seq<CategoryItem>

    /** Lists the map's categories in key order, unchecked. */
    constructor (m: Categories)
      ensures items == ItemsFor(Names(m))
    {
      var names := Names(m);
      var loaded := [];
      var i := 0;
      while i < |names|
        invariant 0 <= i <= |names|
        invariant loaded == ItemsFor(names[..i])
      {
        loaded := loaded + [CategoryItem(names[i], false)];
        i := i + 1;
      }
      assert names[..i] == names;
      items := loaded;
    }

    /** The user ticks or clears the box of row `i`. */
    method SetSelected(i: nat, selected: bool)
      requires i < |items|
      modifies this
      ensures items == old(items)[i := old(items)[i].(selected := selected)]
    {
      items := items[i := items[i].(selected := selected)];
    }

    /** The "select all" box: every row takes its state. */
    method SelectAll(selected: bool)
      modifies this
      ensures |items| == |old(items)|
      ensures forall i :: 0 <= i < |items| ==> items[i] == old(items)[i].(selected := selected)
    {
      var i := 0;
      while i < |items|
        invariant 0 <= i <= |items| == |old(items)|
        invariant forall j :: 0 <= j < i ==> items[j] == old(items)[j].(selected := selected)
        invariant forall j :: i <= j < |items| ==> items[j] == old(items)[j]
      {
        items := items[i := items[i].(selected := selected)];
        i := i + 1;
      }
    }

    /** The result converter: the checked names on Search, `null` on any
        other button. */
    function Result(button: Button): (r: Option<seq<string>>)
      reads this
      ensures r.Some? <==> button == Search
      ensures r.Some? ==> forall n :: n in r.value <==> exists i :: 0 <= i < |items| && items[i].selected && items[i].name == n
    {
      if button == Search then Some(CheckedNames(items)) else None
    }
  }
}

=== FILE: file_processor_js.dfy ===
/** `FileProcessor` of the Electron prototype: it unpacks an uploaded
    archive into a fresh project directory, keeps unpacking the archives
    found inside it, lists the bug reports and videos by name, and splits
    every bug report into chunks.

    A directory is the sequence of its entries in listing order. A file
    carries what `fs.statSync` reports as its size and what `readline`
    delivers as its lines; a file whose bytes form a readable zip archive
    also carries the entries that unpacking it yields. */
module FileProcessorJs {
  import opened Wrappers
  import opened Seqs
  import opened Strings
  import opened Paths
  import opened Patterns
  import ZipExtractor
  import TextSplitterJs
  import SearchEngineJs
  import SearchEngine

  /** What reading a file gives: its size in bytes and its lines. */
  datatype Text = Text(size: nat, lines: seq<string>)

  /** A directory entry: a file, a file that is a readable zip archive, or
      a sub-directory. */
  datatype Node =
    | Regular(name: string, text: Text)
    | Zip(name: string, text: Text, entries: seq<Node>)
    | Directory(name: string, children: seq<Node>)

  // ------------------------------------------------------------------ names

  /** Node's `path.extname` of a bare file name: from the last '.' on, or
      "" when there is no '.', when the only '.' opens the name, or for
      "..". */
  function ExtName(name: string): (e: string)
    ensures e == "" || (e[0] == '.' && EndsWith(name, e) && |e| < |name|)
  {
    var k := LastIndexOf(name, '.');
    if k < 1 || name == ".." then "" else name[k..]
  }

  /** `path.extname(file).toLowerCase() === '.zip'`. No character outside
      ASCII lower-cases to '.', 'z', 'i' or 'p', so ASCII folding decides
      it exactly. */
  predicate IsZipExt(name: string) {
    LowerStr(ExtName(name)) == ".zip"
  }

  /** `path.basename(file, '.zip')`: the suffix is compared
      case-sensitively. */
  function NestedName(name: string): string {
    NodeBaseName(Path(false, [name]), ".zip")
  }

  /** The extension of "x.zip" is ".zip". */
  lemma ZipExtName(x: string)
    requires |x| > 0 && x != "."
    ensures ExtName(x + ".zip") == ".zip"
  {
    var n := x + ".zip";
    assert n[|n| - 4] == '.';
    assert forall j :: |n| - 4 < j < |n| ==> n[j] != '.';
    var k := LastIndexOf(n, '.');
    assert k == |n| - 4;
    assert n[k..] == ".zip";
  }

  /** A name of the form "x.zip" with a non-empty "x" is an archive name
      and loses exactly its suffix. */
  lemma ZipNameLosesSuffix(x: string)
    requires |x| > 0 && x != "."
    ensures IsZipExt(x + ".zip")
    ensures NestedName(x + ".zip") == x
  {
    ZipExtName(x);
    var n := x + ".zip";
    assert EndsWith(n, ".zip") by {
      assert n[|n| - 4..] == ".zip";
    }
    assert n[..|n| - 4] == x;
  }

  /** An upper-case suffix passes the archive test but is not stripped:
      the directory to unpack into is the archive itself. */
  lemma UpperZipKeepsName()
    ensures IsZipExt("logs.ZIP")
    ensures NestedName("logs.ZIP") == "logs.ZIP"
  {
    var n := "logs.ZIP";
    assert n[4] == '.' && forall j :: 4 < j < |n| ==> n[j] != '.';
    assert LastIndexOf(n, '.') == 4;
    assert n[4..] == ".ZIP";
    assert !EndsWith(n, ".zip");
  }

  /** The directory an archive is unpacked into: its name without the
      extension the archive test accepted, whatever its case. This is
      `path.basename(file, path.extname(file))`; the code passes '.zip',
      which leaves "logs.ZIP" whole (see `UpperZipKeepsName`). */
  function UnpackDirName(name: string): (d: string)
    requires IsZipExt(name)
    ensures d + ExtName(name) == name
    ensures d != name
  {
    name[..|name| - |ExtName(name)|]
  }

  /** Where the code's name is right, the two agree. */
  lemma UnpackDirNameAgrees(name: string)
    requires IsZipExt(name) && EndsWith(name, ".zip")
    ensures UnpackDirName(name) == NestedName(name)
  {
    assert |ExtName(name)| == 4;
  }

  // ----------------------------------------------------------- classifiers

  /** `/bugreport.*\.txt$/i.test(name)`: somewhere in the name,
      "bugreport", then anything without a line terminator, then ".txt" at
      the very end, ignoring case. */
  predicate IsBugreportJs(name: string) {
    exists i :: 0 <= i <= |name| && ZipExtractor.IsBugreportShape(name[i..], IsJsLineTerminator)
  }

  /** `/\.mp4$/i.test(name)`. */
  predicate IsMp4Js(name: string) {
    EndsWithIgnoreCase(name, ".mp4")
  }

  /** A regular expression without a start anchor and with `$` at its end
      finds a match exactly when some suffix of the name matches it whole. */
  predicate SearchMatches(p: seq<Token>, name: string) {
    exists i :: 0 <= i <= |name| && Matches(p, name[i..], IsJsLineTerminator)
  }

  /** The bug report test agrees with the search of its regular
      expression. */
  lemma BugreportJsIsSearch(name: string)
    ensures IsBugreportJs(name) <==> SearchMatches(ZipExtractor.BugreportPattern(), name)
  {
    forall i | 0 <= i <= |name|
      ensures ZipExtractor.IsBugreportShape(name[i..], IsJsLineTerminator)
        <==> Matches(ZipExtractor.BugreportPattern(), name[i..], IsJsLineTerminator)
    {
      ZipExtractor.BugreportShapeMatches(name[i..], IsJsLineTerminator);
    }
  }

  /** The video test agrees with the search of `\.mp4$`. */
  lemma Mp4JsIsSearch(name: string)
    ensures IsMp4Js(name) <==> SearchMatches(Lits(".mp4"), name)
  {
    assert Lits(".mp4") + [] == Lits(".mp4");
    forall i | 0 <= i <= |name|
      ensures Matches(Lits(".mp4"), name[i..], IsJsLineTerminator)
        <==> |name| - i == 4 && StartsWith(LowerStr(name[i..]), LowerStr(".mp4"))
    {
      MatchesLits(".mp4", [], name[i..], IsJsLineTerminator);
    }
    if |name| >= 4 {
      assert LowerStr(name[|name| - 4..]) == LowerStr(name)[|name| - 4..];
    }
  }

  /** Every name the Java classifier keeps as a bug report, the prototype
      keeps too: the Java pattern is anchored at the start and its `.` also
      refuses U+0085. */
  lemma JavaBugreportIsJs(name: string)
    ensures ZipExtractor.IsBugreportName(name) ==> IsBugreportJs(name)
  {
    if ZipExtractor.IsBugreportName(name) {
      assert name[0..] == name;
      var mid := name[9..|name| - 4];
      assert NoTerminator(mid, IsJavaLineTerminator);
      assert forall j :: 0 <= j < |mid| ==> !IsJsLineTerminator(mid[j]);
    }
  }

  /** The converse fails: a name with text before "bugreport" is a bug
      report only for the prototype. */
  lemma PrefixedBugreportOnlyJs()
    ensures IsBugreportJs("my_bugreport.txt")
    ensures !ZipExtractor.IsBugreportName("my_bugreport.txt")
  {
    var n := "my_bugreport.txt";
    assert n[3..] == "bugreport.txt";
    assert ZipExtractor.IsBugreportShape(n[3..], IsJsLineTerminator);
    assert LowerStr(n)[0] == 'm' && LowerStr("bugreport")[0] == 'b';
  }

  // -------------------------------------------------------------- listing

  /** The first entry named `name`, or -1. */
  function FindName(ns: seq<Node>, name: string): int {
    FirstIndex(ns, (n: Node) => n.name, name)
  }

  /** No two entries of a directory share a name. */
  predicate Distinct(ns: seq<Node>) {
    forall i, j :: 0 <= i < j < |ns| ==> ns[i].name != ns[j].name
  }

  /** The node a relative path leads to in a listing, looking names up
      level by level. */
  function Lookup(ns: seq<Node>, rel: seq<string>): Option<Node>
    decreases |rel|, 1
  {
    if |rel| == 0 then None
    else
      var k := FindName(ns, rel[0]);
      if k < 0 then None else LookupNode(ns[k], rel)
  }

  /** The node a relative path leads to, starting at the entry `n`. */
  function LookupNode(n: Node, rel: seq<string>): Option<Node>
    decreases |rel|, 0
  {
    if |rel| == 0 || rel[0] != n.name then None
    else if |rel| == 1 then Some(n)
    else match n
      case Directory(_, cs) => Lookup(cs, rel[1..])
      case _ => None
  }

  /** The paths `_findFilesByPattern(dir, pattern, results)` pushes, in
      order: depth first in listing order, sub-directories in place, each
      file whose name passes `test`. */
  function Walk(dir: Path, ns: seq<Node>, test: string -> bool): seq<Path>
    decreases ns
  {
    if |ns| == 0 then []
    else Walk(dir, ns[..|ns| - 1], test) + WalkNode(dir, ns[|ns| - 1], test)
  }

  function WalkNode(dir: Path, n: Node, test: string -> bool): seq<Path>
    decreases n
  {
    match n
    case Directory(name, cs) => Walk(Child(dir, name), cs, test)
    case _ => if test(n.name) then [Child(dir, n.name)] else []
  }

  /** `p` names, below `dir`, a file of the listing whose name passes
      `test`. */
  predicate FoundIn(dir: Path, ns: seq<Node>, test: string -> bool, p: Path) {
    Under(p, dir) && IsHit(Lookup(ns, p.parts[|dir.parts|..]), test)
  }

  predicate FoundInNode(dir: Path, n: Node, test: string -> bool, p: Path) {
    Under(p, dir) && IsHit(LookupNode(n, p.parts[|dir.parts|..]), test)
  }

  /** A file, not a directory, whose name passes `test`. */
  predicate IsHit(o: Option<Node>, test: string -> bool) {
    o.Some? && !o.value.Directory? && test(o.value.name)
  }

  /** What a real directory, or the contents of an archive, can look
      like: at every level, entries are named by single path components,
      no two alike. Left aside: archives whose unpacking directory would
      be "." or ".." (names such as "..zip" and "...zip"). */
  predicate WellFormed(ns: seq<Node>)
    decreases ns
  {
    Distinct(ns) && forall i :: 0 <= i < |ns| ==> WellFormedNode(ns[i])
  }

  predicate WellFormedNode(n: Node)
    decreases n
  {
    IsPlainName(n.name)
    && match n
       case Regular(_, _) => true
       case Zip(name, _, es) => (IsZipExt(name) ==> IsPlainName(UnpackDirName(name))) && WellFormed(es)
       case Directory(_, cs) => WellFormed(cs)
  }

  /** Looking a name up after appending an entry. */
  lemma FindNameSnoc(init: seq<Node>, last: Node, name: string)
    ensures var k := FindName(init, name);
      FindName(init + [last], name) == if k >= 0 then k else if last.name == name then |init| else -1
  {
    var ns := init + [last];
    var k := FindName(init, name);
    var k2 := FindName(ns, name);
    assert forall j :: 0 <= j < |init| ==> ns[j] == init[j];
    if k >= 0 {
      assert ns[k].name == name;
      assert k2 == k;
    } else if last.name == name {
      assert ns[|init|].name == name;
    }
  }

  /** What `Walk` lists is exactly the files below `dir` whose names pass
      `test`: nothing else, and none left out. */
  lemma {:induction false} WalkFound(dir: Path, ns: seq<Node>, test: string -> bool, p: Path)
    requires WellFormed(ns)
    ensures p in Walk(dir, ns, test) <==> FoundIn(dir, ns, test, p)
    decreases ns
  {
    if |ns| == 0 {
    } else {
      var init, last := ns[..|ns| - 1], ns[|ns| - 1];
      assert ns == init + [last];
      assert WellFormed(init) by {
        forall i | 0 <= i < |init| ensures WellFormedNode(init[i]) {
          assert init[i] == ns[i];
        }
      }
      assert WellFormedNode(last);
      WalkFound(dir, init, test, p);
      WalkNodeFound(dir, last, test, p);
      if Under(p, dir) {
        var rel := p.parts[|dir.parts|..];
        FindNameSnoc(init, last, rel[0]);
      }
    }
  }

  lemma {:induction false} WalkNodeFound(dir: Path, n: Node, test: string -> bool, p: Path)
    requires WellFormedNode(n)
    ensures p in WalkNode(dir, n, test) <==> FoundInNode(dir, n, test, p)
    decreases n
  {
    match n
    case Directory(name, cs) =>
      WalkFound(Child(dir, name), cs, test, p);
      DirFound(dir, name, cs, test, p);
    case _ =>
      LeafFound(dir, n, test, p);
  }

  /** Below a directory entry, a hit is a hit in its listing. */
  lemma DirFound(dir: Path, name: string, cs: seq<Node>, test: string -> bool, p: Path)
    ensures FoundIn(Child(dir, name), cs, test, p) <==> FoundInNode(dir, Directory(name, cs), test, p)
  {
    var sub := Child(dir, name);
    if Under(p, dir) {
      var rel := p.parts[|dir.parts|..];
      if Under(p, sub) {
        assert rel[1..] == p.parts[|sub.parts|..];
        assert rel[0] == name;
      }
      if rel[0] == name && |rel| > 1 {
        assert p.parts[..|sub.parts|] == dir.parts + [name];
        assert rel[1..] == p.parts[|sub.parts|..];
      }
    }
  }

  /** A file entry is a hit at its own path only, when its name passes. */
  lemma LeafFound(dir: Path, n: Node, test: string -> bool, p: Path)
    requires !n.Directory?
    ensures p in WalkNode(dir, n, test) <==> FoundInNode(dir, n, test, p)
  {
    var sub := Child(dir, n.name);
    if p == sub {
      assert p.parts[..|dir.parts|] == dir.parts;
      assert p.parts[|dir.parts|..] == [n.name];
    }
    if FoundInNode(dir, n, test, p) {
      var rel := p.parts[|dir.parts|..];
      assert p.parts == p.parts[..|dir.parts|] + rel;
      assert rel == [n.name];
    }
  }

  // ------------------------------------------------------------- unpacking

  /** A measure of a tree: one per entry, with the contents of archives
      counted as well as those of directories. Unpacking never makes it
      grow, which is why `processNestedZips` comes to an end. */
  function W(n: Node): nat
    decreases n
  {
    match n
    case Regular(_, _) => 1
    case Zip(_, _, es) => 1 + Ws(es)
    case Directory(_, cs) => 1 + Ws(cs)
  }

  function Ws(ns: seq<Node>): nat
    decreases ns
  {
    if |ns| == 0 then 0 else W(ns[0]) + Ws(ns[1..])
  }

  lemma {:induction false} WsAppend(a: seq<Node>, b: seq<Node>)
    ensures Ws(a + b) == Ws(a) + Ws(b)
    decreases |a|
  {
    if |a| == 0 {
      assert a + b == b;
    } else {
      assert (a + b)[1..] == a[1..] + b;
      WsAppend(a[1..], b);
    }
  }

  /** The entries before `k`, entry `k` and the entries after it. */
  lemma WsSplit(ns: seq<Node>, k: nat)
    requires k < |ns|
    ensures Ws(ns) == Ws(ns[..k]) + W(ns[k]) + Ws(ns[k + 1..])
  {
    assert ns == ns[..k] + ([ns[k]] + ns[k + 1..]);
    WsAppend(ns[..k], [ns[k]] + ns[k + 1..]);
    assert ([ns[k]] + ns[k + 1..])[1..] == ns[k + 1..];
  }

  /** `ns` without entry `k`. */
  function Remove(ns: seq<Node>, k: nat): (r: seq<Node>)
    requires k < |ns|
    ensures |r| == |ns| - 1
  {
    ns[..k] + ns[k + 1..]
  }

  lemma WsRemove(ns: seq<Node>, k: nat)
    requires k < |ns|
    ensures Ws(Remove(ns, k)) + W(ns[k]) == Ws(ns)
  {
    WsSplit(ns, k);
    WsAppend(ns[..k], ns[k + 1..]);
  }

  lemma WsUpdate(ns: seq<Node>, k: nat, d: Node)
    requires k < |ns|
    ensures Ws(ns[k := d]) + W(ns[k]) == Ws(ns) + W(d)
  {
    var u := ns[k := d];
    WsSplit(ns, k);
    WsSplit(u, k);
    assert u[..k] == ns[..k] && u[k + 1..] == ns[k + 1..];
  }

  /** Two different entries weigh no more than the listing. */
  lemma WsTwo(ns: seq<Node>, j: nat, k: nat)
    requires j < |ns| && k < |ns| && j != k
    ensures W(ns[j]) + W(ns[k]) <= Ws(ns)
  {
    WsRemove(ns, k);
    var r := Remove(ns, k);
    var j' := if j < k then j else j - 1;
    assert r[j'] == ns[j];
    WsRemove(r, j');
  }

  /** What unpacking an archive into a directory holding `acc` leaves
      there: sub-directories are merged, a file overwrites a file of the
      same name, and a file against a directory (either way round) makes
      the extraction fail. */
  function MergeInto(acc: seq<Node>, incoming: seq<Node>): Option<seq<Node>>
    decreases incoming
  {
    if |incoming| == 0 then Some(acc)
    else match Place(acc, incoming[0])
      case None => None
      case Some(acc') => MergeInto(acc', incoming[1..])
  }

  function Place(acc: seq<Node>, e: Node): Option<seq<Node>>
    decreases e
  {
    var k := FindName(acc, e.name);
    if k < 0 then Some(acc + [e])
    else match (acc[k], e)
      case (Directory(_, cs), Directory(name, es)) =>
        (match MergeInto(cs, es)
         case None => None
         case Some(m) => Some(acc[k := Directory(name, m)]))
      case (Directory(_, _), _) => None
      case (_, Directory(_, _)) => None
      case _ => Some(acc[k := e])
  }

  lemma WellFormedUpdate(ns: seq<Node>, k: nat, d: Node)
    requires WellFormed(ns) && k < |ns| && WellFormedNode(d) && d.name == ns[k].name
    ensures WellFormed(ns[k := d])
  {
    var u := ns[k := d];
    forall i | 0 <= i < |u| ensures WellFormedNode(u[i]) {
      if i != k {
        assert u[i] == ns[i];
      }
    }
  }

  lemma WellFormedRemove(ns: seq<Node>, k: nat)
    requires WellFormed(ns) && k < |ns|
    ensures WellFormed(Remove(ns, k))
  {
    var r := Remove(ns, k);
    forall i | 0 <= i < |r|
      ensures r[i] == ns[if i < k then i else i + 1]
    {
    }
    forall i, j | 0 <= i < j < |r|
      ensures r[i].name != r[j].name
    {
      assert r[i] == ns[if i < k then i else i + 1];
      assert r[j] == ns[if j < k then j else j + 1];
    }
    forall i | 0 <= i < |r|
      ensures WellFormedNode(r[i])
    {
      assert r[i] == ns[if i < k then i else i + 1];
    }
  }

  lemma WellFormedAppend(ns: seq<Node>, d: Node)
    requires WellFormed(ns) && WellFormedNode(d) && FindName(ns, d.name) < 0
    ensures WellFormed(ns + [d])
  {
    var a := ns + [d];
    assert forall i :: 0 <= i < |ns| ==> a[i] == ns[i];
  }

  /** Unpacking adds no more than the archive holds. */
  lemma {:induction false} MergeIntoWs(acc: seq<Node>, incoming: seq<Node>)
    ensures var r := MergeInto(acc, incoming);
      r.Some? ==> Ws(r.value) <= Ws(acc) + Ws(incoming)
    decreases incoming
  {
    if |incoming| > 0 {
      PlaceWs(acc, incoming[0]);
      var p := Place(acc, incoming[0]);
      if p.Some? {
        MergeIntoWs(p.value, incoming[1..]);
      }
    }
  }

  lemma {:induction false} PlaceWs(acc: seq<Node>, e: Node)
    ensures var r := Place(acc, e);
      r.Some? ==> Ws(r.value) <= Ws(acc) + W(e)
    decreases e
  {
    var k := FindName(acc, e.name);
    if k < 0 {
      WsAppend(acc, [e]);
      assert Ws([e]) == W(e) by {
        assert [e][1..] == [];
      }
    } else {
      WsUpdate(acc, k, e);
      match (acc[k], e)
      case (Directory(_, cs), Directory(name, es)) =>
        MergeIntoWs(cs, es);
        var m := MergeInto(cs, es);
        if m.Some? {
          WsUpdate(acc, k, Directory(name, m.value));
        }
      case _ =>
    }
  }

  /** Unpacking keeps listings well formed. */
  lemma {:induction false} MergeIntoWellFormed(acc: seq<Node>, incoming: seq<Node>)
    requires WellFormed(acc) && WellFormed(incoming)
    ensures var r := MergeInto(acc, incoming);
      r.Some? ==> WellFormed(r.value)
    decreases incoming
  {
    if |incoming| > 0 {
      assert WellFormedNode(incoming[0]);
      PlaceWellFormed(acc, incoming[0]);
      var p := Place(acc, incoming[0]);
      if p.Some? {
        assert WellFormed(incoming[1..]) by {
          assert forall i :: 0 <= i < |incoming| - 1 ==> incoming[1..][i] == incoming[i + 1];
        }
        MergeIntoWellFormed(p.value, incoming[1..]);
      }
    }
  }

  lemma {:induction false} PlaceWellFormed(acc: seq<Node>, e: Node)
    requires WellFormed(acc) && WellFormedNode(e)
    ensures var r := Place(acc, e);
      r.Some? ==> WellFormed(r.value)
    decreases e
  {
    var k := FindName(acc, e.name);
    if k < 0 {
      WellFormedAppend(acc, e);
    } else {
      match (acc[k], e)
      case (Directory(_, cs), Directory(name, es)) =>
        assert WellFormedNode(acc[k]);
        MergeIntoWellFormed(cs, es);
        var m := MergeInto(cs, es);
        if m.Some? {
          WellFormedUpdate(acc, k, Directory(name, m.value));
        }
      case (Directory(_, _), _) =>
      case (_, Directory(_, _)) =>
      case _ =>
        WellFormedUpdate(acc, k, e);
    }
  }

  /** Unpacking into an empty directory, or one holding none of the
      archive's names, adds the archive's entries after the others. */
  lemma {:induction false} MergeIntoFresh(acc: seq<Node>, incoming: seq<Node>)
    requires Distinct(acc + incoming)
    ensures MergeInto(acc, incoming) == Some(acc + incoming)
    decreases |incoming|
  {
    if |incoming| > 0 {
      var all := acc + incoming;
      var e := incoming[0];
      assert all[|acc|] == e;
      forall j | 0 <= j < |acc| ensures acc[j].name != e.name {
        assert all[j] == acc[j];
      }
      assert FindName(acc, e.name) < 0;
      assert Place(acc, e) == Some(acc + [e]);
      assert acc + [e] + incoming[1..] == all;
      MergeIntoFresh(acc + [e], incoming[1..]);
      assert MergeInto(acc, incoming) == MergeInto(acc + [e], incoming[1..]);
    } else {
      assert acc + incoming == acc;
    }
  }

  /** No archive name is left anywhere in the tree (an archive's own
      entries are not part of it). */
  predicate Clean(ns: seq<Node>)
    decreases ns
  {
    forall x :: x in ns ==> CleanNode(x)
  }

  predicate CleanNode(n: Node)
    decreases n
  {
    match n
    case Directory(_, cs) => Clean(cs)
    case _ => !IsZipExt(n.name)
  }

  /** The names of a listing, as `fs.readdirSync` returns them. */
  function Names(ns: seq<Node>): (r: seq<string>)
    ensures |r| == |ns| && forall i :: 0 <= i < |ns| ==> r[i] == ns[i].name
  {
    seq(|ns|, i requires 0 <= i < |ns| => ns[i].name)
  }

  /** A name missing from a listing is missing from any part of it. */
  lemma FindNameInPart(part: seq<Node>, ns: seq<Node>, name: string)
    requires FindName(ns, name) < 0
    requires forall x :: x in part ==> x in ns
    ensures FindName(part, name) < 0
  {
    forall i | 0 <= i < |part| ensures part[i].name != name {
      assert part[i] in ns;
    }
  }

  /** Unpacking into an existing directory: the directory `ns[j]` is
      replaced by `d`, then the archive `ns[k]` deleted. */
  lemma ReplaceThenRemove(ns: seq<Node>, j: nat, k: nat, d: Node)
    requires WellFormed(ns) && j < |ns| && k < |ns| && j != k
    requires WellFormedNode(d) && d.name == ns[j].name
    ensures var after := Remove(ns[j := d], k);
      WellFormed(after) && Ws(after) + W(ns[j]) + W(ns[k]) == Ws(ns) + W(d)
      && (forall x :: x in after ==> x == d || (x in ns && x.name != ns[k].name))
      && (forall x :: x in ns && x.name != ns[j].name && x.name != ns[k].name ==> x in after)
  {
    var u := ns[j := d];
    WsUpdate(ns, j, d);
    WellFormedUpdate(ns, j, d);
    UpdateKeeps(ns, j, d);
    assert u[k] == ns[k];
    WsRemove(u, k);
    WellFormedRemove(u, k);
    RemoveKeeps(u, k);
  }

  /** Unpacking into a new directory: the archive `ns[k]` is deleted and
      the directory `d` added. */
  lemma RemoveThenAppend(ns: seq<Node>, k: nat, d: Node)
    requires WellFormed(ns) && k < |ns| && WellFormedNode(d) && FindName(ns, d.name) < 0
    ensures var after := Remove(ns, k) + [d];
      WellFormed(after) && Ws(after) + W(ns[k]) == Ws(ns) + W(d)
      && (forall x :: x in after ==> x == d || (x in ns && x.name != ns[k].name))
      && (forall x :: x in ns && x.name != ns[k].name ==> x in after)
  {
    WsRemove(ns, k);
    WellFormedRemove(ns, k);
    RemoveKeeps(ns, k);
    var rest := Remove(ns, k);
    FindNameInPart(rest, ns, d.name);
    WellFormedAppend(rest, d);
    WsAppend(rest, [d]);
    assert Ws([d]) == W(d) by {
      assert [d][1..] == [];
    }
  }

  // ------------------------------------------- unpacking, step by step

  /** What `processNestedZips` makes of a directory listing: `None` when a
      call in it throws. The names are read once, at the start. */
  function Unpacked(entries: seq<Node>): (r: Option<seq<Node>>)
    ensures r.Some? ==> Ws(r.value) <= Ws(entries)
    decreases Ws(entries), 3, 0
  {
    Pass(entries, Names(entries))
  }

  /** The loop of `processNestedZips` over the names still to handle. */
  function Pass(current: seq<Node>, names: seq<string>): (r: Option<seq<Node>>)
    ensures r.Some? ==> Ws(r.value) <= Ws(current)
    decreases Ws(current), 2, |names|
  {
    if |names| == 0 then Some(current)
    else match EntryStep(current, names[0])
      case None => None
      case Some(next) => Pass(next, names[1..])
  }

  /** One pass of that loop: a missing entry makes `fs.statSync` throw, a
      directory is processed, a file without the ".zip" extension is left,
      and an archive is unpacked. */
  function EntryStep(current: seq<Node>, name: string): (r: Option<seq<Node>>)
    ensures r.Some? ==> Ws(r.value) <= Ws(current)
    decreases Ws(current), 1, 0
  {
    var k := FindName(current, name);
    if k < 0 then None
    else if current[k].Directory? then DirStep(current, k)
    else if !IsZipExt(name) then Some(current)
    else UnpackStep(current, k)
  }

  /** The directory `current[k]` after its own listing is processed. */
  function DirStep(current: seq<Node>, k: nat): (r: Option<seq<Node>>)
    requires k < |current| && current[k].Directory?
    ensures r.Some? ==> Ws(r.value) <= Ws(current)
    decreases Ws(current), 0, 0
  {
    var n := current[k];
    WsSplit(current, k);
    match Unpacked(n.children)
    case None => None
    case Some(sub) =>
      WsUpdate(current, k, Directory(n.name, sub));
      Some(current[k := Directory(n.name, sub)])
  }

  /** The archive `current[k]` extracted into the sibling directory named
      after it (made when missing), that directory processed, and the
      archive deleted. Bytes that are no readable archive, a file in the
      way of the directory, or a clash while extracting make it fail. */
  function UnpackStep(current: seq<Node>, k: nat): (r: Option<seq<Node>>)
    requires k < |current| && !current[k].Directory? && IsZipExt(current[k].name)
    ensures r.Some? ==> Ws(r.value) <= Ws(current)
    decreases Ws(current), 0, 0
  {
    var n := current[k];
    var nested := UnpackDirName(n.name);
    var j := FindName(current, nested);
    if !n.Zip? || (j >= 0 && !current[j].Directory?) then None
    else
      var base := if j >= 0 then current[j].children else [];
      UnpackInputWeight(current, k, j);
      MergeIntoWs(base, n.entries);
      match MergeInto(base, n.entries)
      case None => None
      case Some(m) =>
        match Unpacked(m)
        case None => None
        case Some(sub) =>
          var d := Directory(nested, sub);
          UnpackOutputWeight(current, k, j, d);
          Some(if j >= 0 then Remove(current[j := d], k) else Remove(current, k) + [d])
  }

  /** What the extraction of `ns[k]` starts from weighs less than the
      listing. */
  lemma UnpackInputWeight(ns: seq<Node>, k: nat, j: int)
    requires k < |ns| && ns[k].Zip? && IsZipExt(ns[k].name)
    requires j == FindName(ns, UnpackDirName(ns[k].name)) && (j >= 0 ==> ns[j].Directory?)
    ensures j >= 0 ==> j != k && Ws(ns[j].children) + Ws(ns[k].entries) < Ws(ns)
    ensures j < 0 ==> Ws(ns[k].entries) < Ws(ns)
  {
    if j >= 0 {
      WsTwo(ns, j, k);
    } else {
      WsSplit(ns, k);
    }
  }

  /** The weight of the listing once `ns[k]` is unpacked into `d`. */
  lemma UnpackOutputWeight(ns: seq<Node>, k: nat, j: int, d: Node)
    requires k < |ns| && j < |ns| && j != k
    ensures j >= 0 ==> Ws(Remove(ns[j := d], k)) + W(ns[j]) + W(ns[k]) == Ws(ns) + W(d)
    ensures j < 0 ==> Ws(Remove(ns, k) + [d]) + W(ns[k]) == Ws(ns) + W(d)
  {
    if j >= 0 {
      WsUpdate(ns, j, d);
      assert ns[j := d][k] == ns[k];
      WsRemove(ns[j := d], k);
    } else {
      WsRemove(ns, k);
      WsAppend(Remove(ns, k), [d]);
      assert Ws([d]) == W(d) by {
        assert [d][1..] == [];
      }
    }
  }

  // --------------------------------------- unpacking, what it comes to

  /** An entry `processNestedZips` unpacks. */
  predicate IsArchive(n: Node) {
    !n.Directory? && IsZipExt(n.name)
  }

  /** A listing is readable when its first entry and the rest are. */
  lemma AllReadableCons(ns: seq<Node>)
    requires |ns| > 0
    ensures AllReadable(ns) <==> Readable(ns[0]) && AllReadable(ns[1..])
  {
    assert forall j :: 0 < j < |ns| ==> ns[j] == ns[1..][j - 1];
  }

  /** Every archive in the tree, at any depth and inside other archives,
      is readable. */
  predicate AllReadable(ns: seq<Node>)
    decreases ns
  {
    forall i :: 0 <= i < |ns| ==> Readable(ns[i])
  }

  predicate Readable(n: Node)
    decreases n
  {
    match n
    case Regular(name, _) => !IsZipExt(name)
    case Zip(name, _, es) => IsZipExt(name) ==> AllReadable(es)
    case Directory(_, cs) => AllReadable(cs)
  }

  /** No listing in the tree, nor in any archive in it, holds an entry
      named like the directory an archive in it unpacks to, and no two
      archives in one listing unpack to the same directory. */
  predicate Tidy(ns: seq<Node>)
    decreases ns
  {
    Apart(ns) && forall i :: 0 <= i < |ns| ==> TidyNode(ns[i])
  }

  predicate TidyNode(n: Node)
    decreases n
  {
    match n
    case Regular(_, _) => true
    case Zip(_, _, es) => Tidy(es)
    case Directory(_, cs) => Tidy(cs)
  }

  predicate Apart(ns: seq<Node>) {
    forall i, j :: 0 <= i < |ns| && 0 <= j < |ns| && IsArchive(ns[i]) ==>
      ns[j].name != UnpackDirName(ns[i].name)
      && (i != j && IsArchive(ns[j]) ==> UnpackDirName(ns[j].name) != UnpackDirName(ns[i].name))
  }

  /** What a listing is meant to become: the entries that are not
      archives in their order, directories with their own listings
      unpacked, followed by one directory per archive, named after it and
      holding its unpacked entries, in the order of the archives. */
  function Canon(ns: seq<Node>): seq<Node>
    decreases ns, 2
  {
    Kept(ns) + Unpacks(ns)
  }

  function Kept(ns: seq<Node>): seq<Node>
    decreases ns, 1
  {
    if |ns| == 0 then [] else Kept(ns[..|ns| - 1]) + KeptOne(ns[|ns| - 1])
  }

  function KeptOne(n: Node): seq<Node>
    decreases n, 1
  {
    if IsArchive(n) then [] else [CanonNode(n)]
  }

  function CanonNode(n: Node): (r: Node)
    ensures r.name == n.name
    decreases n, 0
  {
    match n
    case Directory(name, cs) => Directory(name, Canon(cs))
    case _ => n
  }

  function Unpacks(ns: seq<Node>): seq<Node>
    decreases ns, 1
  {
    if |ns| == 0 then [] else Unpacks(ns[..|ns| - 1]) + UnpackOne(ns[|ns| - 1])
  }

  function UnpackOne(n: Node): seq<Node>
    decreases n, 1
  {
    if IsArchive(n) && n.Zip? then [Directory(UnpackDirName(n.name), Canon(n.entries))] else []
  }

  /** No entry of a listing carries `name`. */
  predicate NoneNamed(ns: seq<Node>, name: string) {
    forall j :: 0 <= j < |ns| ==> ns[j].name != name
  }

  /** Keeping entries keeps their names. */
  lemma {:induction false} KeptAvoids(ns: seq<Node>, name: string)
    requires NoneNamed(ns, name)
    ensures NoneNamed(Kept(ns), name)
    decreases |ns|
  {
    if |ns| > 0 {
      var init := ns[..|ns| - 1];
      assert forall j :: 0 <= j < |init| ==> init[j] == ns[j];
      KeptAvoids(init, name);
      assert ns[|ns| - 1].name != name;
    }
  }

  /** The directories added are named after archives of the listing. */
  lemma {:induction false} UnpacksAvoid(ns: seq<Node>, name: string)
    requires forall j :: 0 <= j < |ns| && IsArchive(ns[j]) ==> UnpackDirName(ns[j].name) != name
    ensures NoneNamed(Unpacks(ns), name)
    decreases |ns|
  {
    if |ns| > 0 {
      var init := ns[..|ns| - 1];
      assert forall j :: 0 <= j < |init| ==> init[j] == ns[j];
      UnpacksAvoid(init, name);
    }
  }

  /** The listing once the first `i` names were handled without failure. */
  function Midway(ns: seq<Node>, i: nat): seq<Node>
    requires i <= |ns|
  {
    Kept(ns[..i]) + ns[i..] + Unpacks(ns[..i])
  }

  /** Around entry `i`: what was handled before it, the entry, what is
      still to handle, and what the earlier archives became. */
  lemma MidwayShape(ns: seq<Node>, i: nat)
    requires i < |ns|
    ensures Midway(ns, i) == Kept(ns[..i]) + [ns[i]] + ns[i + 1..] + Unpacks(ns[..i])
    ensures Midway(ns, i + 1) == Kept(ns[..i]) + KeptOne(ns[i]) + ns[i + 1..] + (Unpacks(ns[..i]) + UnpackOne(ns[i]))
  {
    assert ns[..i + 1][..i] == ns[..i];
    assert ns[..i + 1][i] == ns[i];
    assert ns[i..] == [ns[i]] + ns[i + 1..];
  }

  /** At the midway point before entry `i`, looking its name up finds it
      right after the entries handled. */
  lemma MidwayFinds(ns: seq<Node>, i: nat)
    requires Distinct(ns) && i < |ns|
    ensures FindName(Midway(ns, i), ns[i].name) == |Kept(ns[..i])|
  {
    MidwayShape(ns, i);
    var K := Kept(ns[..i]);
    var pre := ns[..i];
    forall j | 0 <= j < |pre| ensures pre[j].name != ns[i].name {
      assert pre[j] == ns[j];
    }
    KeptAvoids(pre, ns[i].name);
    assert Midway(ns, i)[|K|] == ns[i];
    assert forall j :: 0 <= j < |K| ==> Midway(ns, i)[j] == K[j];
  }

  /** At the midway point before the archive `ns[i]`, nothing carries
      the name of the directory it unpacks to. */
  lemma MidwayFree(ns: seq<Node>, i: nat)
    requires Apart(ns) && i < |ns| && IsArchive(ns[i])
    ensures FindName(Midway(ns, i), UnpackDirName(ns[i].name)) < 0
  {
    var nested := UnpackDirName(ns[i].name);
    var pre, post := ns[..i], ns[i..];
    ApartAvoids(ns, i);
    KeptAvoids(pre, nested);
    UnpacksAvoid(pre, nested);
    NoneNamedAppend(Kept(pre), post, nested);
    NoneNamedAppend(Kept(pre) + post, Unpacks(pre), nested);
  }

  /** In a tidy listing no entry, and no directory another archive unpacks
      to, carries the name archive `ns[i]` unpacks to. */
  lemma ApartAvoids(ns: seq<Node>, i: nat)
    requires Apart(ns) && i < |ns| && IsArchive(ns[i])
    ensures NoneNamed(ns[..i], UnpackDirName(ns[i].name))
    ensures NoneNamed(ns[i..], UnpackDirName(ns[i].name))
    ensures forall j :: 0 <= j < i && IsArchive(ns[..i][j]) ==> UnpackDirName(ns[..i][j].name) != UnpackDirName(ns[i].name)
  {
    var nested := UnpackDirName(ns[i].name);
    var pre, post := ns[..i], ns[i..];
    forall j | 0 <= j < |pre| ensures pre[j].name != nested {
      assert pre[j] == ns[j];
    }
    forall j | 0 <= j < |post| ensures post[j].name != nested {
      assert post[j] == ns[i + j];
    }
    forall j | 0 <= j < i && IsArchive(pre[j]) ensures UnpackDirName(pre[j].name) != nested {
      assert pre[j] == ns[j];
    }
  }

  lemma NoneNamedAppend(a: seq<Node>, b: seq<Node>, name: string)
    requires NoneNamed(a, name) && NoneNamed(b, name)
    ensures NoneNamed(a + b, name)
  {
    forall j | 0 <= j < |a + b| ensures (a + b)[j].name != name {
      if j < |a| {
        assert (a + b)[j] == a[j];
      } else {
        assert (a + b)[j] == b[j - |a|];
      }
    }
  }

  /** Handling entry `i` moves the listing on to the next midway point,
      and fails exactly when the entry holds an unreadable archive. */
  lemma {:induction false} EntryStepCanon(ns: seq<Node>, i: nat)
    requires WellFormed(ns) && Tidy(ns) && i < |ns|
    ensures EntryStep(Midway(ns, i), ns[i].name) == if Readable(ns[i]) then Some(Midway(ns, i + 1)) else None
    decreases ns, 2, 0
  {
    if ns[i].Directory? {
      DirEntryCanon(ns, i);
    } else if !IsZipExt(ns[i].name) {
      FileEntryCanon(ns, i);
    } else {
      ArchiveEntryCanon(ns, i);
    }
  }

  lemma {:induction false} DirEntryCanon(ns: seq<Node>, i: nat)
    requires WellFormed(ns) && Tidy(ns) && i < |ns| && ns[i].Directory?
    ensures EntryStep(Midway(ns, i), ns[i].name) == if Readable(ns[i]) then Some(Midway(ns, i + 1)) else None
    decreases ns, 1, 0
  {
    var x := ns[i];
    MidwayShape(ns, i);
    MidwayFinds(ns, i);
    var cur := Midway(ns, i);
    assert cur[|Kept(ns[..i])|] == x;
    DirStepCanon(ns, i);
    assert KeptOne(x) == [CanonNode(x)] && UnpackOne(x) == [];
    assert Unpacks(ns[..i]) + [] == Unpacks(ns[..i]);
    assert EntryStep(cur, x.name) == DirStep(cur, |Kept(ns[..i])|);
  }

  lemma FileEntryCanon(ns: seq<Node>, i: nat)
    requires Distinct(ns) && i < |ns| && !ns[i].Directory? && !IsZipExt(ns[i].name)
    ensures EntryStep(Midway(ns, i), ns[i].name) == Some(Midway(ns, i + 1)) && Readable(ns[i])
  {
    var x := ns[i];
    MidwayShape(ns, i);
    MidwayFinds(ns, i);
    var cur := Midway(ns, i);
    assert cur[|Kept(ns[..i])|] == x;
    assert KeptOne(x) == [x] && UnpackOne(x) == [];
    assert Unpacks(ns[..i]) + [] == Unpacks(ns[..i]);
    assert Midway(ns, i + 1) == cur;
  }

  lemma {:induction false} ArchiveEntryCanon(ns: seq<Node>, i: nat)
    requires WellFormed(ns) && Tidy(ns) && i < |ns| && IsArchive(ns[i])
    ensures EntryStep(Midway(ns, i), ns[i].name) == if Readable(ns[i]) then Some(Midway(ns, i + 1)) else None
    decreases ns, 1, 0
  {
    var x := ns[i];
    MidwayShape(ns, i);
    MidwayFinds(ns, i);
    var cur := Midway(ns, i);
    assert cur[|Kept(ns[..i])|] == x;
    assert EntryStep(cur, x.name) == UnpackStep(cur, |Kept(ns[..i])|);
    if x.Zip? {
      MidwayFree(ns, i);
      UnpackStepCanon(ns, i);
      assert KeptOne(x) == [];
      assert Kept(ns[..i]) + [] == Kept(ns[..i]);
    }
  }

  /** Processing a directory entry in the middle of a listing. */
  lemma DirStepAt(K: seq<Node>, x: Node, rest: seq<Node>, U: seq<Node>)
    requires x.Directory?
    ensures DirStep(K + [x] + rest + U, |K|) ==
      match Unpacked(x.children)
      case None => None
      case Some(sub) => Some(K + [Directory(x.name, sub)] + rest + U)
  {
    var cur := K + [x] + rest + U;
    assert cur[|K|] == x;
    match Unpacked(x.children)
    case None =>
    case Some(sub) =>
      assert cur[|K| := Directory(x.name, sub)] == K + [Directory(x.name, sub)] + rest + U;
  }

  /** Unpacking an archive in the middle of a listing where nothing
      carries the name of its directory. */
  lemma UnpackStepAt(K: seq<Node>, x: Node, rest: seq<Node>, U: seq<Node>)
    requires x.Zip? && IsZipExt(x.name)
    requires FindName(K + [x] + rest + U, UnpackDirName(x.name)) < 0
    requires MergeInto([], x.entries) == Some(x.entries)
    ensures UnpackStep(K + [x] + rest + U, |K|) ==
      match Unpacked(x.entries)
      case None => None
      case Some(sub) => Some(K + rest + (U + [Directory(UnpackDirName(x.name), sub)]))
  {
    var cur := K + [x] + rest + U;
    assert cur[|K|] == x;
    match Unpacked(x.entries)
    case None =>
    case Some(sub) =>
      var d := Directory(UnpackDirName(x.name), sub);
      assert Remove(cur, |K|) + [d] == K + rest + (U + [d]);
  }

  lemma {:induction false} DirStepCanon(ns: seq<Node>, i: nat)
    requires WellFormed(ns) && Tidy(ns) && i < |ns| && ns[i].Directory?
    ensures DirStep(Kept(ns[..i]) + [ns[i]] + ns[i + 1..] + Unpacks(ns[..i]), |Kept(ns[..i])|)
      == if Readable(ns[i]) then Some(Kept(ns[..i]) + [CanonNode(ns[i])] + ns[i + 1..] + Unpacks(ns[..i])) else None
    decreases ns, 0, 0
  {
    var x := ns[i];
    assert WellFormedNode(x) && TidyNode(x);
    UnpackedCanon(x.children);
    DirStepAt(Kept(ns[..i]), x, ns[i + 1..], Unpacks(ns[..i]));
  }

  lemma {:induction false} UnpackStepCanon(ns: seq<Node>, i: nat)
    requires WellFormed(ns) && Tidy(ns) && i < |ns| && ns[i].Zip? && IsZipExt(ns[i].name)
    requires FindName(Kept(ns[..i]) + [ns[i]] + ns[i + 1..] + Unpacks(ns[..i]), UnpackDirName(ns[i].name)) < 0
    ensures UnpackStep(Kept(ns[..i]) + [ns[i]] + ns[i + 1..] + Unpacks(ns[..i]), |Kept(ns[..i])|)
      == if Readable(ns[i]) then Some(Kept(ns[..i]) + ns[i + 1..] + (Unpacks(ns[..i]) + UnpackOne(ns[i]))) else None
    decreases ns, 0, 0
  {
    var x := ns[i];
    assert WellFormedNode(x) && TidyNode(x);
    assert WellFormed(x.entries) && Tidy(x.entries);
    MergeIntoFresh([], x.entries);
    assert [] + x.entries == x.entries;
    UnpackedCanon(x.entries);
    UnpackStepFinish(Kept(ns[..i]), x, ns[i + 1..], Unpacks(ns[..i]));
  }

  /** `UnpackStepAt` with the nested listing's outcome known. */
  lemma UnpackStepFinish(K: seq<Node>, x: Node, rest: seq<Node>, U: seq<Node>)
    requires x.Zip? && IsZipExt(x.name)
    requires FindName(K + [x] + rest + U, UnpackDirName(x.name)) < 0
    requires MergeInto([], x.entries) == Some(x.entries)
    requires Unpacked(x.entries).Some? <==> AllReadable(x.entries)
    requires AllReadable(x.entries) ==> Unpacked(x.entries) == Some(Canon(x.entries))
    ensures UnpackStep(K + [x] + rest + U, |K|)
      == if Readable(x) then Some(K + rest + (U + UnpackOne(x))) else None
  {
    assert Readable(x) == AllReadable(x.entries);
    assert UnpackOne(x) == [Directory(UnpackDirName(x.name), Canon(x.entries))];
    UnpackStepAt(K, x, rest, U);
  }

  /** Where each entry of a listing ends up once it is unpacked: a file
      that is no archive stays as it is, a directory stays with its own
      listing unpacked, and a readable archive becomes the directory named
      after it, holding its own entries unpacked. */
  lemma CanonPlaces(ns: seq<Node>, i: nat)
    requires i < |ns|
    ensures !IsArchive(ns[i]) && !ns[i].Directory? ==> ns[i] in Canon(ns)
    ensures ns[i].Directory? ==> Directory(ns[i].name, Canon(ns[i].children)) in Canon(ns)
    ensures IsArchive(ns[i]) && ns[i].Zip? ==> Directory(UnpackDirName(ns[i].name), Canon(ns[i].entries)) in Canon(ns)
  {
    KeptHas(ns, i);
    UnpacksHave(ns, i);
    var x := ns[i];
    if !IsArchive(x) {
      assert CanonNode(x) in KeptOne(x);
    } else if x.Zip? {
      assert Directory(UnpackDirName(x.name), Canon(x.entries)) in UnpackOne(x);
    }
  }

  lemma {:induction false} KeptHas(ns: seq<Node>, i: nat)
    requires i < |ns|
    ensures forall y :: y in KeptOne(ns[i]) ==> y in Kept(ns)
    decreases |ns|
  {
    var init := ns[..|ns| - 1];
    if i < |ns| - 1 {
      assert init[i] == ns[i];
      KeptHas(init, i);
    }
  }

  lemma {:induction false} UnpacksHave(ns: seq<Node>, i: nat)
    requires i < |ns|
    ensures forall y :: y in UnpackOne(ns[i]) ==> y in Unpacks(ns)
    decreases |ns|
  {
    var init := ns[..|ns| - 1];
    if i < |ns| - 1 {
      assert init[i] == ns[i];
      UnpacksHave(init, i);
    }
  }

  /** The rest of the loop, from the midway point after `i` names. */
  lemma {:induction false} PassCanon(ns: seq<Node>, i: nat)
    requires WellFormed(ns) && Tidy(ns) && i <= |ns|
    ensures Pass(Midway(ns, i), Names(ns)[i..]) == if AllReadable(ns[i..]) then Some(Canon(ns)) else None
    decreases ns, 3, |ns| - i
  {
    if i == |ns| {
      PassCanonEnd(ns, i);
    } else {
      EntryStepCanon(ns, i);
      PassCanon(ns, i + 1);
      PassCanonStep(ns, i);
    }
  }

  lemma PassCanonEnd(ns: seq<Node>, i: nat)
    requires i == |ns|
    ensures Pass(Midway(ns, i), Names(ns)[i..]) == Some(Canon(ns)) && AllReadable(ns[i..])
  {
    assert ns[..i] == ns;
    assert ns[i..] == [];
    var names := Names(ns)[i..];
    assert names == [];
    assert Midway(ns, i) == Canon(ns);
  }

  /** One more name of the loop, given where the entry moves the listing
      and where the rest of the loop ends. */
  lemma PassCanonStep(ns: seq<Node>, i: nat)
    requires i < |ns|
    requires EntryStep(Midway(ns, i), ns[i].name) == if Readable(ns[i]) then Some(Midway(ns, i + 1)) else None
    requires Pass(Midway(ns, i + 1), Names(ns)[i + 1..]) == if AllReadable(ns[i + 1..]) then Some(Canon(ns)) else None
    ensures Pass(Midway(ns, i), Names(ns)[i..]) == if AllReadable(ns[i..]) then Some(Canon(ns)) else None
  {
    var names := Names(ns);
    assert names[i..][0] == ns[i].name;
    assert names[i..][1..] == names[i + 1..];
    AllReadableCons(ns[i..]);
    assert ns[i..][1..] == ns[i + 1..];
  }

  /** `processNestedZips` in a tidy tree succeeds exactly when every
      archive in it is readable, and then leaves the canonical listing:
      every file that is no archive, at any depth and inside archives,
      ends up at the path the directories it was unpacked into give. */
  lemma {:induction false} UnpackedCanon(ns: seq<Node>)
    requires WellFormed(ns) && Tidy(ns)
    ensures Unpacked(ns).Some? <==> AllReadable(ns)
    ensures AllReadable(ns) ==> Unpacked(ns) == Some(Canon(ns))
    decreases ns, 4, 0
  {
    assert ns[..0] == [] && ns[0..] == ns;
    assert Kept([]) == [] && Unpacks([]) == [];
    assert Midway(ns, 0) == ns;
    PassCanon(ns, 0);
    assert Names(ns)[0..] == Names(ns);
  }

  /** The names still to visit after entry `i`, and those visited. */
  lemma NamesAhead(entries: seq<Node>, i: nat)
    requires Distinct(entries) && i < |entries|
    ensures var names := Names(entries);
      names[i..] == [names[i]] + names[i + 1..] && names[i] !in names[i + 1..]
      && names[..i + 1] == names[..i] + [names[i]]
  {
    var names := Names(entries);
    forall j | i < j < |names| ensures names[j] != names[i] {
      assert entries[j].name != entries[i].name;
    }
  }

  /** In a listing, the entry named like `ns[k]` is `ns[k]`. */
  lemma NameIsEntry(ns: seq<Node>, k: nat)
    requires Distinct(ns) && k < |ns|
    ensures forall x :: x in ns && x.name == ns[k].name ==> x == ns[k]
  {
    forall x | x in ns && x.name == ns[k].name ensures x == ns[k] {
      var y :| 0 <= y < |ns| && ns[y] == x;
    }
  }

  /** In a listing, the name of a directory belongs to no file. */
  lemma DirectoryNameTaken(ns: seq<Node>, j: nat)
    requires Distinct(ns) && j < |ns| && ns[j].Directory?
    ensures forall x :: x in ns && !x.Directory? ==> x.name != ns[j].name
  {
    forall x | x in ns && !x.Directory? ensures x.name != ns[j].name {
      var y :| 0 <= y < |ns| && ns[y] == x;
      assert y != j;
    }
  }

  /** Replacing an entry by one of the same name leaves the others. */
  lemma UpdateKeeps(ns: seq<Node>, k: nat, d: Node)
    requires Distinct(ns) && k < |ns|
    ensures forall x :: x in ns[k := d] ==> x == d || (x in ns && x.name != ns[k].name)
    ensures forall x :: x in ns && x.name != ns[k].name ==> x in ns[k := d]
  {
    forall x | x in ns[k := d] ensures x == d || (x in ns && x.name != ns[k].name) {
      var y :| 0 <= y < |ns| && ns[k := d][y] == x;
      if y != k {
        assert x == ns[y];
      }
    }
    forall x | x in ns && x.name != ns[k].name ensures x in ns[k := d] {
      var y :| 0 <= y < |ns| && ns[y] == x;
      assert ns[k := d][y] == x;
    }
  }

  lemma RemoveKeeps(ns: seq<Node>, k: nat)
    requires Distinct(ns) && k < |ns|
    ensures forall x :: x in Remove(ns, k) ==> x in ns && x.name != ns[k].name
    ensures forall x :: x in ns && x.name != ns[k].name ==> x in Remove(ns, k)
  {
    var r := Remove(ns, k);
    forall x | x in r ensures x in ns && x.name != ns[k].name {
      var y :| 0 <= y < |r| && r[y] == x;
      var z := if y < k then y else y + 1;
      assert r[y] == ns[z];
    }
    forall x | x in ns && x.name != ns[k].name ensures x in r {
      var y :| 0 <= y < |ns| && ns[y] == x;
      assert y != k;
      assert x == r[if y < k then y else y - 1];
    }
  }

  // ------------------------------------------------------------- projects

  /** A bug report and the chunk files it was split into. */
  datatype ProcessedFile = ProcessedFile(originalPath: Path, chunks: seq<Path>)

  /** What `processZipFile` resolves with. */
  datatype ProjectInfo = ProjectInfo(
    id: string, name: string, originalPath: Path, cacheDir: Path,
    bugreportFiles: seq<ProcessedFile>, mp4Files: seq<Path>, createdAt: string)

  /** `path.join(process.cwd(), 'cache', projectId)`. */
  function ProjectDir(cwd: Path, projectId: string): Path {
    Child(Child(cwd, "cache"), projectId)
  }

  /** The chunk paths `splitFile(p, dir)` returns for a file with text `t`. */
  function ChunkPlan(dir: Path, p: Path, t: Text): seq<Path> {
    var count := TextSplitterJs.SplitCount(t.size);
    var g := TextSplitterJs.Group(t.lines, TextSplitterJs.ChunkSize(t.size, count), count);
    TextSplitterJs.ChunkPaths(dir, TextSplitterJs.BaseName(p), |g|)
  }

  /** The file a listed path names, below `dir`. */
  function FileAt(dir: Path, ns: seq<Node>, p: Path): Option<Node>
    requires |dir.parts| <= |p.parts|
  {
    Lookup(ns, p.parts[|dir.parts|..])
  }

  /** `pf` is bug report `p` with the chunks `splitFile` makes of it. */
  predicate SplitOf(dir: Path, tree: seq<Node>, p: Path, pf: ProcessedFile) {
    pf.originalPath == p && Under(p, dir)
    && IsHit(FileAt(dir, tree, p), IsBugreportJs)
    && pf.chunks == ChunkPlan(dir, p, FileAt(dir, tree, p).value.text)
  }

  predicate SplitsAll(dir: Path, tree: seq<Node>, files: seq<Path>, processed: seq<ProcessedFile>) {
    |processed| == |files| && forall k :: 0 <= k < |files| ==> SplitOf(dir, tree, files[k], processed[k])
  }

  /** The loop of `processZipFile` that splits every bug report found, in
      order. */
  method SplitReports(dir: Path, tree: seq<Node>, files: seq<Path>) returns (processed: seq<ProcessedFile>)
    requires WellFormed(tree) && forall p :: p in files ==> p in Walk(dir, tree, IsBugreportJs)
    ensures SplitsAll(dir, tree, files, processed)
  {
    processed := [];
    var i := 0;
    while i < |files|
      invariant 0 <= i <= |files| && SplitsAll(dir, tree, files[..i], processed)
    {
      var pf := SplitReport(dir, tree, files[i]);
      TakeSnoc(files, i);
      SplitsAllSnoc(dir, tree, files[..i], processed, files[i], pf);
      processed := processed + [pf];
      i := i + 1;
    }
    assert files[..i] == files;
  }

  lemma SplitsAllSnoc(dir: Path, tree: seq<Node>, files: seq<Path>, processed: seq<ProcessedFile>, file: Path, pf: ProcessedFile)
    requires SplitsAll(dir, tree, files, processed) && SplitOf(dir, tree, file, pf)
    ensures SplitsAll(dir, tree, files + [file], processed + [pf])
  {
    var fs, ps := files + [file], processed + [pf];
    forall k | 0 <= k < |fs|
      ensures SplitOf(dir, tree, fs[k], ps[k])
    {
      if k < |files| {
        assert fs[k] == files[k] && ps[k] == processed[k];
      }
    }
  }

  /** One turn of that loop: bug report `file` and its chunks. */
  method SplitReport(dir: Path, tree: seq<Node>, file: Path) returns (pf: ProcessedFile)
    requires WellFormed(tree) && file in Walk(dir, tree, IsBugreportJs)
    ensures SplitOf(dir, tree, file, pf)
  {
    WalkFound(dir, tree, IsBugreportJs, file);
    var t := FileAt(dir, tree, file).value.text;
    var chunks, _ := TextSplitterJs.SplitFile(file, t.size, t.lines, dir);
    pf := ProcessedFile(file, chunks);
  }

  class FileProcessor {
    /** The projects by id. Nothing ever adds to it. */
    var projects: map<string, ProjectInfo>

    constructor ()
      ensures projects == map[]
    {
      projects := map[];
    }

    /** `processZipFile(filePath)`, with the fresh `uuidv4()` as
        `projectId`, `process.cwd()` as `cwd`, the ISO time stamp as
        `createdAt`, and `archive` what the uploaded file unpacks to
        (`None` when it is not a readable zip archive). `None` means the
        promise rejects; otherwise `tree` is the project directory after
        nested archives have been unpacked. */
    method ProcessZipFile(filePath: Path, cwd: Path, projectId: string, createdAt: string, archive: Option<seq<Node>>)
      returns (r: Option<ProjectInfo>, tree: seq<Node>)
      requires archive.Some? ==> WellFormed(archive.value)
      ensures r.Some? <==> archive.Some? && Unpacked(archive.value).Some?
      ensures r.Some? ==> tree == Unpacked(archive.value).value && WellFormed(tree) && Clean(tree)
      ensures r.Some? ==>
        var info, dir := r.value, ProjectDir(cwd, projectId);
        var reports := Walk(dir, tree, IsBugreportJs);
        info.id == projectId && info.name == NodeBaseName(filePath, ".zip")
        && info.originalPath == filePath && info.cacheDir == dir && info.createdAt == createdAt
        && info.mp4Files == Walk(dir, tree, IsMp4Js)
        && SplitsAll(dir, tree, reports, info.bugreportFiles)
    {
      tree := [];
      var projectName := NodeBaseName(filePath, ".zip");
      var projectDir := ProjectDir(cwd, projectId);
      if archive.None? {
        return None, tree;
      }
      assert [] + archive.value == archive.value;
      MergeIntoFresh([], archive.value);
      var extracted := MergeInto([], archive.value);
      if extracted.None? {
        return None, tree;
      }
      var processed := ProcessNestedZips(extracted.value);
      if processed.None? {
        return None, tree;
      }
      tree := processed.value;
      var bugreportFiles := FindBugreportFiles(projectDir, tree);
      var processedFiles := SplitReports(projectDir, tree, bugreportFiles);
      var mp4Files := FindMp4Files(projectDir, tree);
      r := Some(ProjectInfo(projectId, projectName, filePath, projectDir, processedFiles, mp4Files, createdAt));
    }

    /** `findBugreportFiles(dir)`. */
    method FindBugreportFiles(dir: Path, ns: seq<Node>) returns (results: seq<Path>)
      ensures results == Walk(dir, ns, IsBugreportJs)
    {
      results := FindFilesByPattern(dir, ns, IsBugreportJs, []);
    }

    /** `findMp4Files(dir)`. */
    method FindMp4Files(dir: Path, ns: seq<Node>) returns (results: seq<Path>)
      ensures results == Walk(dir, ns, IsMp4Js)
    {
      results := FindFilesByPattern(dir, ns, IsMp4Js, []);
    }

    /** The path of chunk `chunkIndex` of the project's first bug report;
        every way `this.projects.get(projectId)` and the two indexings
        after it can fail is a rejection, the first with "Project not
        found". */
    function ChunkPath(projectId: string, chunkIndex: int): (r: Result<Path, string>)
      reads this
      ensures projectId !in projects <==> r == Err("Project not found")
      ensures r.Ok? <==> (projectId in projects && |projects[projectId].bugreportFiles| > 0
                          && 0 <= chunkIndex < |projects[projectId].bugreportFiles[0].chunks|)
      ensures r.Ok? ==> r.value == projects[projectId].bugreportFiles[0].chunks[chunkIndex]
    {
      if projectId !in projects then Err("Project not found")
      else
        var project := projects[projectId];
        if |project.bugreportFiles| == 0 then Err("bugreportFiles[0] is undefined")
        else if !(0 <= chunkIndex < |project.bugreportFiles[0].chunks|) then Err("chunk path is undefined")
        else Ok(project.bugreportFiles[0].chunks[chunkIndex])
    }

    /** `searchInChunk(projectId, chunkIndex, query, options)`, with `test`
        what compiling the search pattern built from `query` and `options`
        gives and `lines` what reading the chunk delivers, as for
        `SearchEngineJs.SearchInFile`, whose rejections pass through. */
    method SearchInChunk(projectId: string, chunkIndex: int, options: SearchEngineJs.Options,
                         test: Option<string -> bool>, lines: Option<seq<string>>)
      returns (r: Result<seq<SearchEngine.SearchResult>, string>)
      ensures projectId !in projects ==> r == Err("Project not found")
      ensures r.Ok? ==> ChunkPath(projectId, chunkIndex).Ok?
      ensures ChunkPath(projectId, chunkIndex).Ok? && (lines.None? || (!options.useLogcatSyntax && test.None?)) ==> r.Err?
      ensures ChunkPath(projectId, chunkIndex).Ok? && options.useLogcatSyntax && test.None? && lines.Some? ==>
        (r.Ok? <==> lines.value == [])
      ensures ChunkPath(projectId, chunkIndex).Ok? && test.Some? && lines.Some? ==>
        r == Ok(SearchEngine.Hits(PathString(ChunkPath(projectId, chunkIndex).value),
                                  lines.value, SearchEngine.RegexFind(test.value), |lines.value|))
    {
      var chunkPath := ChunkPath(projectId, chunkIndex);
      if chunkPath.Err? {
        return Err(chunkPath.error);
      }
      var found := SearchEngineJs.SearchInFile(PathString(chunkPath.value), options, test, lines);
      if found.Ok? {
        r := Ok(found.value);
      } else if found.error.InvalidPattern? {
        r := Err("Invalid regular expression");
      } else {
        r := Err("File could not be read");
      }
    }

    /** `getChunkContent(projectId, chunkIndex)`, with `read` what reading
        a file as UTF-8 gives (`None` when it fails). */
    method GetChunkContent(projectId: string, chunkIndex: int, read: Path -> Option<string>)
      returns (r: Result<string, string>)
      ensures projectId !in projects ==> r == Err("Project not found")
      ensures r.Ok? <==> ChunkPath(projectId, chunkIndex).Ok? && read(ChunkPath(projectId, chunkIndex).value).Some?
      ensures r.Ok? ==> r.value == read(ChunkPath(projectId, chunkIndex).value).value
    {
      var chunkPath := ChunkPath(projectId, chunkIndex);
      if chunkPath.Err? {
        return Err(chunkPath.error);
      }
      var content := read(chunkPath.value);
      if content.None? {
        return Err("cannot read chunk");
      }
      return Ok(content.value);
    }

    /** `_findFilesByPattern(dir, pattern, results)`: `results` is the
        array so far, returned with the files of `ns` appended. */
    method FindFilesByPattern(dir: Path, ns: seq<Node>, test: string -> bool, results: seq<Path>)
      returns (out: seq<Path>)
      ensures out == results + Walk(dir, ns, test)
      decreases ns
    {
      out := results;
      var i := 0;
      while i < |ns|
        invariant 0 <= i <= |ns|
        invariant out == results + Walk(dir, ns[..i], test)
      {
        assert ns[..i + 1][..i] == ns[..i];
        var n := ns[i];
        if n.Directory? {
          out := FindFilesByPattern(Child(dir, n.name), n.children, test, out);
        } else if test(n.name) {
          out := out + [Child(dir, n.name)];
        }
        i := i + 1;
      }
      assert ns[..i] == ns;
    }

    /** `processNestedZips(dir)` on a directory listing `entries`: the new
        listing, or `None` when a call in it throws. Each name read at the
        start is handled in turn: a directory is processed recursively; a
        file with a ".zip" extension is unpacked into the sibling
        directory named by `path.basename(file, '.zip')`, deleted, and the
        directory processed. On success no archive is left anywhere. */
    method ProcessNestedZips(entries: seq<Node>) returns (r: Option<seq<Node>>)
      requires WellFormed(entries)
      ensures r == Unpacked(entries)
      ensures r.Some? ==> WellFormed(r.value) && Clean(r.value) && Ws(r.value) <= Ws(entries)
      ensures r.Some? ==> forall x :: x in entries && !x.Directory? && IsZipExt(x.name) ==> x.Zip?
      ensures r.Some? ==> forall x :: x in entries && !x.Directory? && !IsZipExt(x.name) ==> x in r.value
      decreases Ws(entries), 2
    {
      var names := Names(entries);
      var current := entries;
      var i := 0;
      while i < |names|
        invariant 0 <= i <= |names|
        invariant Pass(current, names[i..]) == Unpacked(entries)
        invariant WellFormed(current) && Ws(current) <= Ws(entries)
        invariant forall x :: x in current ==> CleanNode(x) || x.name in names[i..]
        invariant forall x :: x in entries && !x.Directory? && (x.name in names[i..] || !IsZipExt(x.name)) ==> x in current
        invariant forall x :: x in entries && !x.Directory? && IsZipExt(x.name) && x.name in names[..i] ==> x.Zip?
      {
        var next := ProcessEntry(current, names[i]);
        assert names[i..][1..] == names[i + 1..];
        if next.None? {
          return None;
        }
        NamesAhead(entries, i);
        current := next.value;
        i := i + 1;
      }
      assert names[..i] == names && names[i..] == [];
      forall x | x in entries ensures x.name in names {
        var y :| 0 <= y < |entries| && entries[y] == x;
        assert names[y] == x.name;
      }
      return Some(current);
    }

    /** One pass of the loop of `processNestedZips`, for the entry `name`.
        Afterwards every entry is clean, or was there before under another
        name. */
    method ProcessEntry(current: seq<Node>, name: string) returns (r: Option<seq<Node>>)
      requires WellFormed(current)
      ensures r == EntryStep(current, name)
      ensures r.Some? ==> WellFormed(r.value) && Ws(r.value) <= Ws(current)
      ensures r.Some? ==> forall x :: x in r.value ==> CleanNode(x) || (x in current && x.name != name)
      ensures r.Some? ==> forall x :: x in current && !x.Directory? && (x.name != name || !IsZipExt(name)) ==> x in r.value
      ensures r.Some? ==> forall x :: x in current && !x.Directory? && x.name == name && IsZipExt(name) ==> x.Zip?
      decreases Ws(current), 1
    {
      var k := FindName(current, name);
      if k < 0 {
        // `fs.statSync` throws on a missing entry.
        return None;
      }
      NameIsEntry(current, k);
      if current[k].Directory? {
        DirectoryNameTaken(current, k);
        r := ProcessDirAt(current, k);
      } else if !IsZipExt(name) {
        r := Some(current);
      } else {
        r := UnpackAt(current, k);
      }
    }

    /** The directory `current[k]` is processed recursively. */
    method ProcessDirAt(current: seq<Node>, k: nat) returns (r: Option<seq<Node>>)
      requires WellFormed(current) && k < |current| && current[k].Directory?
      ensures r == DirStep(current, k)
      ensures r.Some? ==> WellFormed(r.value) && Ws(r.value) <= Ws(current)
      ensures r.Some? ==> forall x :: x in r.value ==> CleanNode(x) || (x in current && x.name != current[k].name)
      ensures r.Some? ==> forall x :: x in current && x.name != current[k].name ==> x in r.value
      decreases Ws(current), 0
    {
      var n := current[k];
      assert WellFormedNode(n);
      WsSplit(current, k);
      var sub := ProcessNestedZips(n.children);
      if sub.None? {
        return None;
      }
      var d := Directory(n.name, sub.value);
      WsUpdate(current, k, d);
      WellFormedUpdate(current, k, d);
      UpdateKeeps(current, k, d);
      return Some(current[k := d]);
    }

    /** The archive `current[k]` (a file with a ".zip" extension) is
        unpacked into its sibling directory, which is then processed, and
        deleted. */
    method UnpackAt(current: seq<Node>, k: nat) returns (r: Option<seq<Node>>)
      requires WellFormed(current) && k < |current| && !current[k].Directory? && IsZipExt(current[k].name)
      ensures r == UnpackStep(current, k)
      ensures r.Some? ==> WellFormed(r.value) && Ws(r.value) <= Ws(current)
      ensures r.Some? ==> forall x :: x in r.value ==> CleanNode(x) || (x in current && x.name != current[k].name)
      ensures r.Some? ==> forall x :: x in current && !x.Directory? && x.name != current[k].name ==> x in r.value
      ensures r.Some? ==> current[k].Zip?
      decreases Ws(current), 0
    {
      var n := current[k];
      var name := n.name;
      assert WellFormedNode(n);
      if !n.Zip? {
        // The bytes are not a readable archive: the extraction rejects.
        return None;
      }
      var nested := UnpackDirName(name);
      var j := FindName(current, nested);
      if j >= 0 && !current[j].Directory? {
        // Unpacking under a path that is a file fails.
        return None;
      }
      var base := if j >= 0 then current[j].children else [];
      if j >= 0 {
        WsTwo(current, j, k);
        assert WellFormedNode(current[j]);
      } else {
        WsSplit(current, k);
      }
      MergeIntoWs(base, n.entries);
      MergeIntoWellFormed(base, n.entries);
      var m := MergeInto(base, n.entries);
      if m.None? {
        return None;
      }
      var sub := ProcessNestedZips(m.value);
      if sub.None? {
        return None;
      }
      var d := Directory(nested, sub.value);
      var after;
      if j >= 0 {
        ReplaceThenRemove(current, j, k, d);
        DirectoryNameTaken(current, j);
        after := Remove(current[j := d], k);
      } else {
        RemoveThenAppend(current, k, d);
        after := Remove(current, k) + [d];
      }
      return Some(after);
    }
  }
}

=== FILE: file_splitter.dfy ===
/** The size-based splitter of the Java application: a bug report of at least
    10 MiB is cut into 10 to 100 byte-contiguous part files named
    `<name>_sub<i><ext>`, copied through an 8 KiB buffer.

    The source file is given by the length the file system reports (`size`)
    and by the bytes its input stream actually delivers (`content`); the two
    agree unless the file changes while it is split. */
module FileSplitter {
  import opened Wrappers
  import opened Strings

  const MiB: nat := 1024 * 1024
  /** Files below this size are not split. */
  const Threshold: nat := 10 * MiB
  const BufferSize: nat := 8192
  const MinParts: nat := 10
  const MaxParts: nat := 100

  // ------------------------------------------------------------ part count

  /** Java's `(int)` cast of a `long`: keep the low 32 bits, two's complement. */
  function JavaIntCast(x: int): (r: int)
    ensures -0x8000_0000 <= r < 0x8000_0000
    ensures (r - x) % 0x1_0000_0000 == 0
  {
    var m := x % 0x1_0000_0000;
    if m >= 0x8000_0000 then m - 0x1_0000_0000 else m
  }

  function Clamp(x: int, lo: int, hi: int): int
    requires lo <= hi
  {
    if x < lo then lo else if x > hi then hi else x
  }

  /** The part count as the code computes it, with the `(int)` cast of
      `sizeMB / 10`. */
  function PartCountAsWritten(size: nat): int {
    Clamp(JavaIntCast(size / MiB / 10), MinParts, MaxParts)
  }

  /** The part count: a tenth of the size in whole MiB, clamped to 10..100.
      This is the rule the model uses. */
  function PartCount(size: nat): (p: nat)
    ensures MinParts <= p <= MaxParts
    ensures size < 110 * MiB ==> p == MinParts
    ensures size >= 1010 * MiB ==> p == MaxParts
    ensures 110 * MiB <= size < 1010 * MiB ==> p == size / MiB / 10
  {
    Clamp(size / MiB / 10, MinParts, MaxParts)
  }

  /** Up to 20 PiB the cast changes nothing. */
  lemma PartCountAgrees(size: nat)
    requires size / MiB / 10 < 0x8000_0000
    ensures PartCountAsWritten(size) == PartCount(size)
  {
  }

  /** Above that, the cast can wrap: a file of (2^32 + 50) * 10 MiB bytes is
      cut into 50 parts instead of 100. */
  lemma PartCountWraps()
    ensures PartCountAsWritten((0x1_0000_0000 + 50) * 10 * MiB) == 50
    ensures PartCount((0x1_0000_0000 + 50) * 10 * MiB) == MaxParts
  {
    var size := (0x1_0000_0000 + 50) * 10 * MiB;
    assert size / MiB == (0x1_0000_0000 + 50) * 10;
    assert size / MiB / 10 == 0x1_0000_0000 + 50;
  }

  // ---------------------------------------------------------------- naming

  /** `name.lastIndexOf('.')` splits the name into `nameOnly` and the
      extension, dot included; with no dot the extension is empty. */
  function SplitName(name: string): (r: (string, string))
    ensures r.0 + r.1 == name
    ensures '.' in name ==> |r.1| > 0 && r.1[0] == '.' && '.' !in r.1[1..]
    ensures '.' !in name ==> r.1 == ""
  {
    var d := LastIndexOf(name, '.');
    if d == -1 then (name, "") else (name[..d], name[d..])
  }

  function PartName(name: string, i: nat): (r: string)
    ensures r != name
  {
    var (nameOnly, ext) := SplitName(name);
    Numbered(nameOnly + "_sub", i, ext)
  }

  /** The names the splitter returns, `<name>_sub1<ext>` first. */
  function PartNames(name: string, parts: nat): (r: seq<string>)
    ensures |r| == parts
    ensures forall i :: 0 <= i < parts ==> r[i] == PartName(name, i + 1)
  {
    seq(parts, i requires 0 <= i < parts => PartName(name, i + 1))
  }

  /** Different part numbers give different names, so no part file
      overwrites another, and none overwrites the source. */
  lemma PartNamesDistinct(name: string, i: nat, j: nat)
    requires PartName(name, i) == PartName(name, j)
    ensures i == j
  {
    var (nameOnly, ext) := SplitName(name);
    NumberedInjective(nameOnly + "_sub", ext, i, j);
  }

  // ------------------------------------------------------------- segments

  function BytesPerPart(size: nat): nat {
    size / PartCount(size)
  }

  /** How many bytes part `i` (1-based) is allowed: `bytesPerPart`, and
      everything that is left for the last part. */
  function Limit(size: nat, i: nat): int
    requires 1 <= i <= PartCount(size)
  {
    var parts, bpp := PartCount(size), BytesPerPart(size);
    if i == parts then size - bpp * (parts - 1) else bpp
  }

  /** Where part `i` starts in the source. */
  function Offset(size: nat, i: nat): nat
    requires 1 <= i <= PartCount(size)
  {
    BytesPerPart(size) * (i - 1)
  }

  /** The last part gets at least as much as the others and less than
      `parts` bytes more; each part ends where the next begins, and the last
      one at the reported size. */
  lemma LimitBounds(size: nat, i: nat)
    requires 1 <= i <= PartCount(size)
    ensures var bpp, parts := BytesPerPart(size), PartCount(size);
      bpp <= Limit(size, i) < bpp + parts
      && (i < parts ==> Limit(size, i) == bpp)
      && Offset(size, i) + Limit(size, i) == (if i == parts then size else Offset(size, i + 1))
      && Offset(size, i) + Limit(size, i) <= size
  {
    var bpp, parts := BytesPerPart(size), PartCount(size);
    assert size == bpp * parts + size % parts;
    assert bpp * (parts - 1) == bpp * parts - bpp;
    assert bpp * i == bpp * (i - 1) + bpp;
    if i < parts {
      MulMono(bpp, i, parts);
    }
  }

  lemma MulMono(a: nat, b: nat, c: nat)
    requires b <= c
    ensures a * b <= a * c
  {
    assert a * c == a * b + a * (c - b);
  }

  function Min(a: int, b: int): int { if a <= b then a else b }

  /** What part `i` receives from a stream delivering `content`: its share
      of the file, cut short where the stream ends. */
  function Segment(content: seq<bv8>, size: nat, i: nat): seq<bv8>
    requires 1 <= i <= PartCount(size)
  {
    LimitBounds(size, i);
    var lo := Min(Offset(size, i), |content|);
    var hi := Min(Offset(size, i) + Limit(size, i), |content|);
    content[lo..hi]
  }

  function Segments(content: seq<bv8>, size: nat): seq<seq<bv8>> {
    seq(PartCount(size), k requires 0 <= k < PartCount(size) => Segment(content, size, k + 1))
  }

  function Concat(ss: seq<seq<bv8>>): seq<bv8>
    decreases |ss|
  {
    if |ss| == 0 then [] else Concat(ss[..|ss| - 1]) + ss[|ss| - 1]
  }

  lemma {:induction false} ConcatPrefix(content: seq<bv8>, size: nat, k: nat)
    requires k <= PartCount(size)
    ensures Concat(Segments(content, size)[..k])
      == content[..Min(if k == PartCount(size) then size else Offset(size, k + 1), |content|)]
    decreases k
  {
    var ss := Segments(content, size);
    if k == 0 {
      assert Offset(size, 1) == 0;
    } else {
      ConcatPrefix(content, size, k - 1);
      ConcatStep(content, size, k);
    }
  }

  /** Appending part `k` to the parts before it extends the covered prefix
      to where part `k` ends. */
  lemma ConcatStep(content: seq<bv8>, size: nat, k: nat)
    requires 1 <= k <= PartCount(size)
    requires Concat(Segments(content, size)[..k - 1]) == content[..Min(Offset(size, k), |content|)]
    ensures Concat(Segments(content, size)[..k])
      == content[..Min(if k == PartCount(size) then size else Offset(size, k + 1), |content|)]
  {
    var ss := Segments(content, size);
    assert ss[..k][..k - 1] == ss[..k - 1];
    assert Concat(ss[..k]) == Concat(ss[..k - 1]) + ss[k - 1];
    LimitBounds(size, k);
    var off, end := Offset(size, k), Offset(size, k) + Limit(size, k);
    assert ss[k - 1] == content[Min(off, |content|)..Min(end, |content|)];
    SliceJoin(content, off, end);
  }

  lemma SliceJoin(c: seq<bv8>, a: int, b: int)
    requires 0 <= a <= b
    ensures c[..Min(a, |c|)] + c[Min(a, |c|)..Min(b, |c|)] == c[..Min(b, |c|)]
  {
  }

  /** The parts, in list order, are the source without gaps or overlaps, up
      to the reported size or to where the stream ended. */
  lemma SegmentsConcat(content: seq<bv8>, size: nat)
    ensures Concat(Segments(content, size)) == content[..Min(size, |content|)]
  {
    var ss := Segments(content, size);
    ConcatPrefix(content, size, PartCount(size));
    assert ss[..PartCount(size)] == ss;
  }

  /** A stream that delivers the reported size fills every part to its limit;
      a shorter one never overfills one. */
  lemma SegmentSizes(content: seq<bv8>, size: nat, i: nat)
    requires 1 <= i <= PartCount(size)
    ensures |Segment(content, size, i)| <= Limit(size, i)
    ensures size <= |content| ==> |Segment(content, size, i)| == Limit(size, i)
  {
    LimitBounds(size, i);
    var off, lim := Offset(size, i), Limit(size, i);
    assert |Segment(content, size, i)| == Min(off + lim, |content|) - Min(off, |content|);
  }

  /** One part's copy loop, whichever way it ended (limit reached or end of
      stream), has taken exactly that part's segment. */
  lemma CopyStep(content: seq<bv8>, size: nat, i: nat, start: nat, pos: nat)
    requires 1 <= i <= PartCount(size)
    requires start == Min(Offset(size, i), |content|)
    requires start <= pos <= |content| && pos - start <= Limit(size, i)
    requires pos - start == Limit(size, i) || pos == |content|
    ensures content[start..pos] == Segment(content, size, i)
    ensures pos == Min(if i == PartCount(size) then size else Offset(size, i + 1), |content|)
  {
    LimitBounds(size, i);
    var off, lim := Offset(size, i), Limit(size, i);
    assert Segment(content, size, i) == content[Min(off, |content|)..Min(off + lim, |content|)];
  }

  /** When the stream delivers exactly the reported size, splitting and then
      concatenating gives the file back. */
  lemma SplitRoundTrip(content: seq<bv8>)
    ensures Concat(Segments(content, |content|)) == content
  {
    SegmentsConcat(content, |content|);
  }

  // ------------------------------------------------------------------ copy

  /** The copy loop of one part: reads of at most the buffer size, each
      delivering at least one byte, until `limit` bytes are copied or the
      stream ends. */
  method CopyPart(content: seq<bv8>, start: nat, limit: int, buffer: array<bv8>)
    returns (part: seq<bv8>, pos: nat)
    requires start <= |content| && 0 <= limit
    requires buffer.Length == BufferSize
    modifies buffer
    ensures start <= pos <= |content| && pos - start <= limit
    ensures pos - start == limit || pos == |content|
    ensures part == content[start..pos]
  {
    part := [];
    pos := start;
    var bytesWritten := 0;
    while bytesWritten < limit
      invariant 0 <= bytesWritten <= limit
      invariant start <= pos <= |content| && pos - start == bytesWritten
      invariant part == content[start..pos]
    {
      var maxRead := Min(BufferSize, limit - bytesWritten);
      if pos == |content| {
        break;
      }
      var read :| 1 <= read <= maxRead && pos + read <= |content|;
      forall k | 0 <= k < read {
        buffer[k] := content[pos + k];
      }
      assert buffer[..read] == content[pos..pos + read];
      part := part + buffer[..read];
      pos := pos + read;
      bytesWritten := bytesWritten + read;
    }
  }

  /** One part file: `limit` is the part's share, and the copy takes
      exactly the part's segment of the stream. */
  method WritePart(content: seq<bv8>, size: nat, i: nat, limit: int, start: nat, buffer: array<bv8>)
    returns (part: seq<bv8>, pos: nat)
    requires 1 <= i <= PartCount(size)
    requires limit == Limit(size, i)
    requires start == Min(Offset(size, i), |content|)
    requires buffer.Length == BufferSize
    modifies buffer
    ensures part == Segment(content, size, i)
    ensures pos == Min(if i == PartCount(size) then size else Offset(size, i + 1), |content|)
  {
    LimitBounds(size, i);
    part, pos := CopyPart(content, start, limit, buffer);
    CopyStep(content, size, i, start, pos);
  }

  /** `FileSplitter.splitFile`: `None` below the threshold (nothing written),
      otherwise the part names, with `written[k]` the bytes of the part
      file `names[k]`. Each step reads at most the buffer size and at most
      what the part still needs; how much a read delivers is up to the
      stream, which ends where `content` ends. */
  method SplitFile(name: string, size: nat, content: seq<bv8>)
    returns (result: Option<seq<string>>, written: seq<seq<bv8>>)
    ensures size < Threshold ==> result == None && written == []
    ensures size >= Threshold ==> result == Some(PartNames(name, PartCount(size)))
    ensures size >= Threshold ==> written == Segments(content, size)
  {
    if size < Threshold {
      return None, [];
    }
    var parts := PartCount(size);
    var bytesPerPart := size / parts;
    var (nameOnly, extension) := SplitName(name);
    var buffer := new bv8[BufferSize];
    var generated: seq<string> := [];
    written := [];
    var pos := 0;  // bytes consumed from the stream
    var i := 1;
    while i <= parts
      invariant 1 <= i <= parts + 1
      invariant generated == PartNames(name, i - 1)
      invariant written == Segments(content, size)[..i - 1]
      invariant pos == Min(if i == parts + 1 then size else Offset(size, i), |content|)
    {
      generated := generated + [Numbered(nameOnly + "_sub", i, extension)];
      var limit := if i == parts then size - bytesPerPart * (parts - 1) else bytesPerPart;
      var part;
      part, pos := WritePart(content, size, i, limit, pos, buffer);
      written := written + [part];
      assert Segments(content, size)[..i] == Segments(content, size)[..i - 1] + [Segment(content, size, i)];
      i := i + 1;
    }
    assert Segments(content, size)[..parts] == Segments(content, size);
    return Some(generated), written;
  }
}

=== FILE: keyword_dialog.dfy ===
/** `KeywordDialog` of the Java application: the category list with its
    check boxes, and the keyword text of the selected category, shown as the
    keywords joined by "; " and saved by splitting on ';', trimming and
    dropping empty pieces. */
module KeywordDialog {
  import opened Wrappers
  import opened Strings
  import opened KeywordManager
  import opened CategorySelection

  // ---------------------------------------------------------------- parsing

  /** The list without its trailing empty strings. */
  function DropTrailingEmpty(xs: seq<string>): (r: seq<string>)
    ensures |r| <= |xs| && r == xs[..|r|]
    ensures |r| == 0 || r[|r| - 1] != ""
    ensures forall i :: |r| <= i < |xs| ==> xs[i] == ""
    decreases |xs|
  {
    if |xs| > 0 && xs[|xs| - 1] == "" then DropTrailingEmpty(xs[..|xs| - 1]) else xs
  }

  /** Java's `s.split(";")`: the input itself when the separator does not
      occur, otherwise the pieces without the trailing empty ones. */
  function JavaSplit(s: string, sep: char): (r: seq<string>)
    ensures forall i :: 0 <= i < |r| ==> sep !in r[i]
  {
    if sep !in s then [s]
    else
      SplitPiecesFree(s, sep);
      DropTrailingEmpty(Split(s, sep))
  }

  function TrimAll(xs: seq<string>): (r: seq<string>)
    ensures |r| == |xs| && forall i :: 0 <= i < |xs| ==> r[i] == Trim(xs[i])
  {
    seq(|xs|, i requires 0 <= i < |xs| => Trim(xs[i]))
  }

  /** `filter(s -> !s.isEmpty())`. */
  function NonEmpty(xs: seq<string>): (r: seq<string>)
    ensures forall i :: 0 <= i < |r| ==> r[i] != "" && r[i] in xs
    ensures (forall i :: 0 <= i < |xs| ==> xs[i] != "") ==> r == xs
    decreases |xs|
  {
    if |xs| == 0 then []
    else
      var t := NonEmpty(xs[1..]);
      assert forall i :: 1 <= i < |xs| ==> xs[i] == xs[1..][i - 1];
      if xs[0] != "" then [xs[0]] + t else t
  }

  lemma {:induction false} NonEmptyAppend(a: seq<string>, b: seq<string>)
    ensures NonEmpty(a + b) == NonEmpty(a) + NonEmpty(b)
    decreases |a|
  {
    if |a| == 0 {
      assert a + b == b;
    } else {
      assert (a + b)[1..] == a[1..] + b;
      NonEmptyAppend(a[1..], b);
    }
  }

  lemma {:induction false} NonEmptyOfEmpties(xs: seq<string>)
    requires forall i :: 0 <= i < |xs| ==> xs[i] == ""
    ensures NonEmpty(xs) == []
    decreases |xs|
  {
    if |xs| > 0 {
      NonEmptyOfEmpties(xs[1..]);
    }
  }

  /** The save button's parse: split on ';', trim every piece, drop the
      empty ones. */
  function ParseKeywords(text: string): seq<string> {
    NonEmpty(TrimAll(JavaSplit(text, ';')))
  }

  lemma TrimKeepsFree(p: string)
    requires ';' !in p
    ensures ';' !in Trim(p) && IsTrimmed(Trim(p), IsJavaSpace)
  {
    TrimByProperties(p, IsJavaSpace);
    var a, b :| TrimCut(p, IsJavaSpace, a, b);
    SliceWithout(p, ';', a, b);
  }

  /** The pieces of the displayed text hold no ';'. */
  lemma PiecesWithout(ks: seq<string>, ps: seq<string>)
    requires |ks| > 0 && forall i :: 0 <= i < |ks| ==> ';' !in ks[i]
    requires ps == [ks[0]] + Padded(ks[1..])
    ensures forall i :: 0 <= i < |ps| ==> ';' !in ps[i]
  {
    forall i | 0 <= i < |ps| ensures ';' !in ps[i] {
      if i > 0 {
        assert ps[i] == " " + ks[i];
      }
    }
  }

  /** A slice of a string without `c` is without `c`. */
  lemma SliceWithout(s: string, c: char, i: int, j: int)
    requires c !in s && 0 <= i <= j <= |s|
    ensures c !in s[i..j]
  {
    forall k | 0 <= k < j - i ensures s[i..j][k] != c {
      assert s[i..j][k] == s[i + k];
    }
  }

  /** Every keyword the parse yields is non-empty, free of ';' and
      trimmed. */
  lemma ParsedWellFormed(text: string)
    ensures forall k :: k in ParseKeywords(text) ==> k != "" && ';' !in k && IsTrimmed(k, IsJavaSpace)
  {
    var pieces := JavaSplit(text, ';');
    var trimmed := TrimAll(pieces);
    forall i | 0 <= i < |pieces| ensures ';' !in trimmed[i] && IsTrimmed(trimmed[i], IsJavaSpace) {
      TrimKeepsFree(pieces[i]);
    }
  }

  lemma TrimAllAppend(a: seq<string>, b: seq<string>)
    ensures TrimAll(a + b) == TrimAll(a) + TrimAll(b)
  {
  }

  lemma DroppedPiecesVanish(dropped: seq<string>)
    requires forall i :: 0 <= i < |dropped| ==> dropped[i] == ""
    ensures NonEmpty(TrimAll(dropped)) == []
  {
    assert Trim("") == "";
    NonEmptyOfEmpties(TrimAll(dropped));
  }

  lemma DropSplit(all: seq<string>)
    ensures var kept := DropTrailingEmpty(all);
      all == kept + all[|kept|..] && forall i :: 0 <= i < |all| - |kept| ==> all[|kept|..][i] == ""
  {
    var kept := DropTrailingEmpty(all);
    assert all == kept + all[|kept|..];
  }

  lemma ParseDropsTrailing(all: seq<string>)
    ensures NonEmpty(TrimAll(DropTrailingEmpty(all))) == NonEmpty(TrimAll(all))
  {
    var kept := DropTrailingEmpty(all);
    var dropped := all[|kept|..];
    DropSplit(all);
    TrimAllAppend(kept, dropped);
    NonEmptyAppend(TrimAll(kept), TrimAll(dropped));
    DroppedPiecesVanish(dropped);
    assert NonEmpty(TrimAll(kept)) + [] == NonEmpty(TrimAll(kept));
  }

  /** Trailing empty pieces would be dropped by the filter anyway, so the
      parse is the same over the plain split. */
  lemma ParseBySplit(text: string)
    ensures ParseKeywords(text) == NonEmpty(TrimAll(Split(text, ';')))
  {
    if ';' !in text {
      SplitNoSep(text, ';');
    } else {
      ParseDropsTrailing(Split(text, ';'));
    }
  }

  /** Each keyword with a space in front, as it sits after a ';' in the
      displayed text. */
  function Padded(xs: seq<string>): (r: seq<string>)
    ensures |r| == |xs| && forall i :: 0 <= i < |xs| ==> r[i] == " " + xs[i]
  {
    seq(|xs|, i requires 0 <= i < |xs| => " " + xs[i])
  }

  lemma {:induction false} JoinPadded(xs: seq<string>)
    requires |xs| >= 1
    ensures " " + Join(xs, "; ") == Join(Padded(xs), ";")
    decreases |xs|
  {
    if |xs| >= 2 {
      JoinPadded(xs[1..]);
      assert Padded(xs)[1..] == Padded(xs[1..]);
    }
  }

  /** The displayed text is the keywords, the later ones padded, joined by
      ';' alone. */
  lemma JoinCons(xs: seq<string>, sep: string)
    requires |xs| >= 2
    ensures Join(xs, sep) == xs[0] + sep + Join(xs[1..], sep)
  {
  }

  lemma JoinAsPadded(ks: seq<string>)
    requires |ks| >= 1
    ensures Join(ks, "; ") == Join([ks[0]] + Padded(ks[1..]), ";")
  {
    var ps := [ks[0]] + Padded(ks[1..]);
    if |ks| >= 2 {
      var rest := Join(ks[1..], "; ");
      JoinPadded(ks[1..]);
      assert ps[1..] == Padded(ks[1..]);
      JoinCons(ps, ";");
      JoinCons(ks, "; ");
      Regroup(ks[0], rest);
    }
  }

  lemma Regroup(a: string, r: string)
    ensures a + "; " + r == a + ";" + (" " + r)
  {
    assert "; " == ";" + " ";
  }

  lemma TrimAllPadded(ks: seq<string>)
    requires |ks| >= 1
    requires forall i :: 0 <= i < |ks| ==> IsTrimmed(ks[i], IsJavaSpace)
    ensures TrimAll([ks[0]] + Padded(ks[1..])) == ks
  {
    var ts := TrimAll([ks[0]] + Padded(ks[1..]));
    TrimPieces(ks, ts);
    SameElements(ts, ks);
  }

  lemma TrimPieces(ks: seq<string>, ts: seq<string>)
    requires |ks| >= 1 && ts == TrimAll([ks[0]] + Padded(ks[1..]))
    requires forall i :: 0 <= i < |ks| ==> IsTrimmed(ks[i], IsJavaSpace)
    ensures |ts| == |ks| && forall i :: 0 <= i < |ts| ==> ts[i] == ks[i]
  {
    forall i | 0 <= i < |ts| ensures ts[i] == ks[i] {
      TrimPiece(ks, i);
    }
  }

  lemma SameElements(a: seq<string>, b: seq<string>)
    requires |a| == |b| && forall i :: 0 <= i < |a| ==> a[i] == b[i]
    ensures a == b
  {
  }

  lemma TrimPiece(ks: seq<string>, i: nat)
    requires 1 <= |ks| && i < |ks|
    requires IsTrimmed(ks[i], IsJavaSpace)
    ensures Trim(([ks[0]] + Padded(ks[1..]))[i]) == ks[i]
  {
    var ps := [ks[0]] + Padded(ks[1..]);
    if i == 0 {
      TrimOfTrimmed(ks[0], IsJavaSpace);
    } else {
      assert ps[i] == " " + ks[i];
      TrimPadded(" ", ks[i], IsJavaSpace);
    }
  }

  /** Saving the text the dialog displays for a category gives back its
      keywords, whenever each is non-empty, trimmed and free of ';'. */
  lemma DisplayRoundTrip(ks: seq<string>)
    requires forall i :: 0 <= i < |ks| ==> ks[i] != "" && ';' !in ks[i] && IsTrimmed(ks[i], IsJavaSpace)
    ensures ParseKeywords(Join(ks, "; ")) == ks
  {
    ParseBySplit(Join(ks, "; "));
    if |ks| == 0 {
      assert Split("", ';') == [""];
      assert Trim("") == "";
    } else {
      var text := Join(ks, "; ");
      var ps := [ks[0]] + Padded(ks[1..]);
      JoinAsPadded(ks);
      PiecesWithout(ks, ps);
      SplitJoin(ps, ';');
      assert Split(text, ';') == ps;
      TrimAllPadded(ks);
      assert NonEmpty(TrimAll(ps)) == ks;
    }
  }

  /** What the keyword area shows for a selection: the keywords joined by
      "; ", or nothing. */
  function DisplayText(m: Categories, selection: Option<string>): string {
    if selection.None? then ""
    else match Get(m, selection.value)
      case Some(ks) => Join(ks, "; ")
      case None => ""
  }

  // --------------------------------------------------------------- removal

  /** Removing the names one after the other. */
  function RemoveAll(m: Categories, names: seq<string>): (r: Categories)
    ensures forall n :: Get(r, n) == if n in names then None else Get(m, n)
    ensures DistinctNames(m) ==> DistinctNames(r)
    decreases |names|
  {
    if |names| == 0 then m
    else
      var init := names[..|names| - 1];
      assert names == init + [names[|names| - 1]];
      Remove(RemoveAll(m, init), names[|names| - 1])
  }

  // ----------------------------------------------------------------- dialog

  /** The first row named `name`; `k` is a row known to carry it. */
  method RowOf(rows: seq<CategoryItem>, name: string, ghost k: nat) returns (i: nat)
    requires k < |rows| && rows[k].name == name
    ensures i <= k && rows[i].name == name
    ensures forall j :: 0 <= j < i ==> rows[j].name != name
  {
    i := 0;
    while i < |rows|
      invariant i <= k
      invariant forall j :: 0 <= j < i ==> rows[j].name != name
    {
      if rows[i].name == name {
        break;
      }
      i := i + 1;
    }
  }

  class KeywordDialog {
    const manager: KeywordManager
    /** The category rows. */
    var items: seq<CategoryItem>
    /** `currentCategory`: the selected category, if any. */
    var current: Option<string>
    /** The keyword area's text. */
    var shown: string

    predicate Valid()
      reads this, manager
    {
      manager.Valid()
    }

    constructor (manager: KeywordManager)
      requires manager.Valid()
      ensures this.manager == manager && Valid()
      ensures items == ItemsFor(Names(manager.categories)) && current == None && shown == ""
    {
      this.manager := manager;
      items := ItemsFor(Names(manager.categories));
      current := None;
      shown := "";
    }

    /** `refreshCategories()`: one unchecked row per category, in key
        order. Rebuilding the list clears its selection, which the
        selection listener turns into no current category and an empty
        text. */
    method Refresh()
      modifies this
      ensures items == ItemsFor(Names(manager.categories)) && current == None && shown == ""
    {
      var loaded := [];
      var names := Names(manager.categories);
      var i := 0;
      while i < |names|
        invariant 0 <= i <= |names|
        invariant loaded == ItemsFor(names[..i])
      {
        loaded := loaded + [CategoryItem(names[i], false)];
        i := i + 1;
      }
      assert names[..i] == names;
      items := loaded;
      Select(None);
    }

    /** The user ticks or clears the check box of row `i`. */
    method SetChecked(i: nat, checked: bool)
      requires i < |items|
      modifies this
      ensures items == old(items)[i := old(items)[i].(selected := checked)]
      ensures current == old(current) && shown == old(shown)
    {
      items := items[i := items[i].(selected := checked)];
    }

    /** The selection listener. */
    method Select(selection: Option<string>)
      modifies this
      ensures items == old(items)
      ensures current == selection && shown == DisplayText(manager.categories, selection)
    {
      current := selection;
      if selection.None? {
        shown := "";
      } else {
        var keywords := Get(manager.categories, selection.value);
        shown := if keywords.Some? then Join(keywords.value, "; ") else "";
      }
    }

    /** The "+" button, with what the name prompt returned (`None`: it was
        cancelled). A blank name does nothing; otherwise the trimmed name is
        added, the list rebuilt and the new row selected. */
    method AddCategory(input: Option<string>)
      requires Valid()
      modifies this, manager
      ensures Valid()
      ensures input.None? || Trim(input.value) == "" ==>
        manager.categories == old(manager.categories) && manager.saved == old(manager.saved)
        && items == old(items) && current == old(current) && shown == old(shown)
      ensures input.Some? && Trim(input.value) != "" ==>
        var name := Trim(input.value);
        (name in Names(old(manager.categories)) ==>
           manager.categories == old(manager.categories) && manager.saved == old(manager.saved))
        && (name !in Names(old(manager.categories)) ==>
              manager.categories == old(manager.categories) + [Category(name, [])]
              && manager.saved == Some(manager.categories))
        && items == ItemsFor(Names(manager.categories))
        && current == Some(name) && shown == DisplayText(manager.categories, Some(name))
    {
      if input.None? || Trim(input.value) == "" {
        return;
      }
      var name := Trim(input.value);
      manager.AddCategory(name);
      assert name in Names(manager.categories);
      Refresh();
      SelectRow(name);
    }

    /** The loop over the rows that selects the one named `name`. */
    method SelectRow(name: string)
      requires items == ItemsFor(Names(manager.categories)) && name in Names(manager.categories)
      modifies this
      ensures items == old(items)
      ensures current == Some(name) && shown == DisplayText(manager.categories, Some(name))
    {
      ghost var names := Names(manager.categories);
      ghost var k :| 0 <= k < |names| && names[k] == name;
      assert items[k].name == name;
      var i := RowOf(items, name, k);
      Select(Some(items[i].name));
    }

    /** The "-" button, with the answer to the confirmation (`true`: OK).
        With no row checked nothing happens; otherwise, once confirmed,
        every checked category is removed and the list rebuilt. */
    method DeleteChecked(confirmed: bool)
      requires Valid()
      modifies this, manager
      ensures Valid()
      ensures var names := CheckedNames(old(items));
        if |names| == 0 || !confirmed then
          manager.categories == old(manager.categories) && manager.saved == old(manager.saved)
          && items == old(items) && current == old(current) && shown == old(shown)
        else
          manager.categories == RemoveAll(old(manager.categories), names)
          && manager.saved == Some(manager.categories)
          && items == ItemsFor(Names(manager.categories)) && current == None && shown == ""
    {
      var toRemove := CheckedNames(items);
      if |toRemove| == 0 || !confirmed {
        return;
      }
      RemoveEach(toRemove);
      Refresh();
    }

    /** The removal loop of the "-" button. */
    method RemoveEach(toRemove: seq<string>)
      requires Valid()
      modifies manager
      ensures Valid()
      ensures manager.categories == RemoveAll(old(manager.categories), toRemove)
      ensures manager.saved == if toRemove == [] then old(manager.saved) else Some(manager.categories)
    {
      var i := 0;
      while i < |toRemove|
        invariant 0 <= i <= |toRemove|
        invariant manager.Valid()
        invariant manager.categories == RemoveAll(old(manager.categories), toRemove[..i])
        invariant manager.saved == if i == 0 then old(manager.saved) else Some(manager.categories)
      {
        manager.RemoveCategory(toRemove[i]);
        assert toRemove[..i + 1][..i] == toRemove[..i];
        i := i + 1;
      }
      assert toRemove[..i] == toRemove;
    }

    /** The save button: the current category's list becomes the parsed
        text; with no category selected nothing happens. */
    method Save(text: string)
      requires Valid()
      modifies manager
      ensures Valid()
      ensures current.None? ==>
        manager.categories == old(manager.categories) && manager.saved == old(manager.saved)
      ensures current.Some? ==>
        manager.categories == Put(old(manager.categories), current.value, ParseKeywords(text))
        && manager.saved == Some(manager.categories)
    {
      if current.Some? {
        manager.UpdateCategory(current.value, ParseKeywords(text));
      }
    }
  }
}

=== FILE: keyword_manager.dfy ===
/** `KeywordManager` of the Java application: keyword lists grouped by
    category in an insertion-ordered map (a `LinkedHashMap`), persisted as
    JSON, with a one-time migration from the legacy one-keyword-per-line text
    file. The map is an association list whose names are distinct; what the
    manager last wrote to `keywords.json` is kept as `saved`. */
module KeywordManager {
  import opened Wrappers
  import opened Seqs
  import opened Strings

  /** One category and its keywords. */
  datatype Category = Category(name: string, keywords: seq<string>)

  /** A `LinkedHashMap<String, List<String>>`: categories in insertion order. */
  type Categories = seq<Category>

  /** `keySet()`, in iteration order. */
  function Names(m: Categories): (r: seq<string>)
    ensures |r| == |m| && forall i :: 0 <= i < |m| ==> r[i] == m[i].name
    decreases |m|
  {
    if |m| == 0 then [] else [m[0].name] + Names(m[1..])
  }

  predicate NoDuplicates(xs: seq<string>) {
    forall i, j :: 0 <= i < j < |xs| ==> xs[i] != xs[j]
  }

  /** The map's invariant: no name occurs twice. */
  predicate DistinctNames(m: Categories) {
    NoDuplicates(Names(m))
  }

  lemma NoDuplicatesAppend(xs: seq<string>, x: string)
    requires NoDuplicates(xs) && x !in xs
    ensures NoDuplicates(xs + [x])
  {
  }

  /** `get(name)`, with `null` as `None`. */
  function Get(m: Categories, name: string): (r: Option<seq<string>>)
    ensures r.Some? <==> name in Names(m)
    ensures r.Some? ==> Category(name, r.value) in m
    decreases |m|
  {
    if |m| == 0 then None
    else if m[0].name == name then Some(m[0].keywords)
    else
      assert Names(m) == [m[0].name] + Names(m[1..]);
      Get(m[1..], name)
  }

  /** The names of `xs` other than `x`, in order. */
  function Without(xs: seq<string>, x: string): (r: seq<string>)
    ensures x !in r && |r| <= |xs|
    ensures forall y :: y != x ==> (y in r <==> y in xs)
    ensures NoDuplicates(xs) ==> NoDuplicates(r)
    decreases |xs|
  {
    if |xs| == 0 then []
    else if xs[0] == x then Without(xs[1..], x)
    else
      var t := Without(xs[1..], x);
      assert NoDuplicates(xs) ==> xs[0] !in xs[1..];
      [xs[0]] + t
  }

  /** Filtering goes piece by piece, so what is kept keeps its order. */
  lemma {:induction false} WithoutAppend(a: seq<string>, b: seq<string>, x: string)
    ensures Without(a + b, x) == Without(a, x) + Without(b, x)
    decreases |a|
  {
    if |a| == 0 {
      assert a + b == b;
    } else {
      assert (a + b)[0] == a[0];
      assert (a + b)[1..] == a[1..] + b;
      WithoutAppend(a[1..], b, x);
    }
  }

  /** A list that does not hold `x` is kept in full. */
  lemma {:induction false} WithoutAbsent(xs: seq<string>, x: string)
    requires x !in xs
    ensures Without(xs, x) == xs
    decreases |xs|
  {
    if |xs| > 0 {
      WithoutAbsent(xs[1..], x);
    }
  }

  /** `put(name, keywords)`: an existing category keeps its place and gets
      the new list; a new one is appended at the end. Nothing else changes. */
  function Put(m: Categories, name: string, keywords: seq<string>): (r: Categories)
    ensures Names(r) == if name in Names(m) then Names(m) else Names(m) + [name]
    ensures Get(r, name) == Some(keywords)
    decreases |m|
  {
    if |m| == 0 then [Category(name, keywords)]
    else
      assert Names(m) == [m[0].name] + Names(m[1..]);
      if m[0].name == name then
        var r := [Category(name, keywords)] + m[1..];
        NamesCons(Category(name, keywords), m[1..]);
        r
      else
        var t := Put(m[1..], name, keywords);
        var r := [m[0]] + t;
        NamesCons(m[0], t);
        assert r[1..] == t;
        ConsSnoc(m[0].name, Names(m[1..]), name);
        r
  }

  lemma NamesCons(c: Category, t: Categories)
    ensures Names([c] + t) == [c.name] + Names(t)
  {
    assert ([c] + t)[1..] == t;
  }

  /** `put` leaves every other category's list as it was. */
  lemma {:induction false} PutOthers(m: Categories, name: string, keywords: seq<string>, n: string)
    requires n != name
    ensures Get(Put(m, name, keywords), n) == Get(m, n)
    decreases |m|
  {
    if |m| > 0 && m[0].name != name {
      PutOthers(m[1..], name, keywords, n);
    }
  }

  lemma PutKeepsDistinct(m: Categories, name: string, keywords: seq<string>)
    ensures DistinctNames(m) ==> DistinctNames(Put(m, name, keywords))
  {
    if name !in Names(m) && DistinctNames(m) {
      NoDuplicatesAppend(Names(m), name);
    }
  }

  /** `remove(name)`: that category goes; the others keep their order and
      their lists. */
  function Remove(m: Categories, name: string): (r: Categories)
    ensures Names(r) == Without(Names(m), name)
    ensures Get(r, name) == None
    ensures forall n :: n != name ==> Get(r, n) == Get(m, n)
    ensures DistinctNames(m) ==> DistinctNames(r)
    decreases |m|
  {
    if |m| == 0 then []
    else
      assert Names(m) == [m[0].name] + Names(m[1..]);
      var t := Remove(m[1..], name);
      if m[0].name == name then t
      else
        var r := [m[0]] + t;
        assert Names(r) == [m[0].name] + Names(t);
        assert r[1..] == t;
        r
  }

  /** `renameCategory(oldName, newName)`: when `oldName` is present, its
      list moves to `newName` (taking `newName`'s place if that already
      existed, otherwise going to the end, even when the two names are the
      same); when it is absent nothing changes. */
  function Rename(m: Categories, oldName: string, newName: string): (r: Categories)
    ensures oldName !in Names(m) ==> r == m
    ensures oldName in Names(m) ==>
      Get(r, newName) == Get(m, oldName)
      && (oldName != newName ==> Get(r, oldName) == None)
      && (forall n :: n != oldName && n != newName ==> Get(r, n) == Get(m, n))
    ensures oldName in Names(m) ==>
      var rest := Without(Names(m), oldName);
      Names(r) == if newName in rest then rest else rest + [newName]
    ensures DistinctNames(m) ==> DistinctNames(r)
  {
    if oldName in Names(m) then
      PutKeepsDistinct(Remove(m, oldName), newName, Get(m, oldName).value);
      assert forall n :: n != newName ==>
        Get(Put(Remove(m, oldName), newName, Get(m, oldName).value), n) == Get(Remove(m, oldName), n) by {
        forall n | n != newName {
          PutOthers(Remove(m, oldName), newName, Get(m, oldName).value, n);
        }
      }
      Put(Remove(m, oldName), newName, Get(m, oldName).value)
    else m
  }

  // ------------------------------------------------------------ flattening

  /** All lists, concatenated in category order. */
  function Flatten(m: Categories): (r: seq<string>)
    ensures forall k :: k in r <==> exists i :: 0 <= i < |m| && k in m[i].keywords
    decreases |m|
  {
    if |m| == 0 then []
    else
      var t := Flatten(m[1..]);
      assert forall i :: 1 <= i < |m| ==> m[i] == m[1..][i - 1];
      m[0].keywords + t
  }

  /** `distinct()`: each element once, at its first occurrence. */
  function Distinct(xs: seq<string>): (r: seq<string>)
    ensures forall x :: x in r <==> x in xs
    ensures NoDuplicates(r)
    decreases |xs|
  {
    if |xs| == 0 then []
    else
      var p := Distinct(xs[..|xs| - 1]);
      if xs[|xs| - 1] in xs[..|xs| - 1] then p else p + [xs[|xs| - 1]]
  }

  /** Where `x` first occurs in `xs`. */
  function IndexOf(xs: seq<string>, x: string): (k: nat)
    requires x in xs
    ensures k < |xs| && xs[k] == x && x !in xs[..k]
    decreases |xs|
  {
    if xs[0] == x then 0
    else
      var k := 1 + IndexOf(xs[1..], x);
      assert xs[..k] == [xs[0]] + xs[1..][..k - 1];
      k
  }

  lemma IndexOfUnique(xs: seq<string>, x: string, k: nat)
    requires k < |xs| && xs[k] == x && x !in xs[..k]
    ensures IndexOf(xs, x) == k
  {
  }

  /** `distinct()` keeps the elements in the order of their first
      occurrences. */
  lemma {:induction false} DistinctFirstOccurrences(xs: seq<string>)
    ensures forall i, j :: 0 <= i < j < |Distinct(xs)| ==>
      IndexOf(xs, Distinct(xs)[i]) < IndexOf(xs, Distinct(xs)[j])
    decreases |xs|
  {
    if |xs| > 0 {
      var n := |xs|;
      var init := xs[..n - 1];
      assert xs == init + [xs[n - 1]];
      DistinctFirstOccurrences(init);
      var p := Distinct(init);
      forall x | x in init ensures IndexOf(xs, x) == IndexOf(init, x) {
        var k := IndexOf(init, x);
        assert xs[..k] == init[..k];
        IndexOfUnique(xs, x, k);
      }
      if xs[n - 1] !in init {
        assert xs[..n - 1] == init;
        IndexOfUnique(xs, xs[n - 1], n - 1);
        var r := p + [xs[n - 1]];
        forall i, j | 0 <= i < j < |r| ensures IndexOf(xs, r[i]) < IndexOf(xs, r[j]) {
          assert r[i] == p[i] && p[i] in init;
          if j < |p| {
            assert r[j] == p[j] && p[j] in init;
          }
        }
      } else {
        forall i, j | 0 <= i < j < |p| ensures IndexOf(xs, p[i]) < IndexOf(xs, p[j]) {
          assert p[i] in init && p[j] in init;
        }
      }
    }
  }

  /** `getKeywords()`: every keyword of every category, once, in category
      order. */
  function Keywords(m: Categories): (r: seq<string>)
    ensures NoDuplicates(r)
    ensures forall k :: k in r <==> exists i :: 0 <= i < |m| && k in m[i].keywords
  {
    Distinct(Flatten(m))
  }

  // --------------------------------------------------------------- loading

  /** `keywords.json`: absent, unreadable, or the map it holds. */
  datatype JsonFile = NoJson | JsonUnreadable | JsonMap(categories: Categories)

  /** The legacy `keywords.txt`: absent, unreadable, or its lines. */
  datatype LegacyFile = NoTxt | TxtUnreadable | TxtLines(lines: seq<string>)

  /** The name of the category the migration creates ("默认", "default"). */
  const DefaultCategory: string := "\U{9ED8}\U{8BA4}"

  /** The lines that are not blank after `trim()`, kept untrimmed and in
      order. */
  function NonBlank(lines: seq<string>): (r: seq<string>)
    ensures forall l :: l in r <==> l in lines && Trim(l) != ""
    ensures |r| <= |lines|
    decreases |lines|
  {
    if |lines| == 0 then []
    else if Trim(lines[0]) != "" then [lines[0]] + NonBlank(lines[1..])
    else NonBlank(lines[1..])
  }

  /** `loadKeywords()`: the map afterwards, and whether it is saved. The JSON
      file wins; an unreadable one gives an empty map. Without it, the text
      file's non-blank lines become the single default category (no
      category when there are none) and the result is saved; an unreadable
      text file leaves the map as it was. */
  function Load(json: JsonFile, txt: LegacyFile, current: Categories): (Categories, bool) {
    match json
    case JsonMap(m) => (m, false)
    case JsonUnreadable => ([], false)
    case NoJson =>
      match txt
      case TxtLines(lines) =>
        var kept := NonBlank(lines);
        (if |kept| == 0 then [] else [Category(DefaultCategory, kept)], true)
      case TxtUnreadable => (current, false)
      case NoTxt => ([], false)
  }

  /** Migration keeps exactly the non-blank legacy lines as keywords, and
      saves the result. */
  lemma MigrationKeepsNonBlankLines(lines: seq<string>, current: Categories)
    ensures Load(NoJson, TxtLines(lines), current).1
    ensures DistinctNames(Load(NoJson, TxtLines(lines), current).0)
    ensures forall l :: l in Keywords(Load(NoJson, TxtLines(lines), current).0) <==> l in lines && Trim(l) != ""
  {
    var m := Load(NoJson, TxtLines(lines), current).0;
    forall l ensures l in Keywords(m) <==> l in lines && Trim(l) != "" {
      if |NonBlank(lines)| > 0 {
        assert m[0].keywords == NonBlank(lines);
      }
    }
  }

  // --------------------------------------------------------------- manager

  class KeywordManager {
    var categories: Categories
    /** What `keywords.json` holds after this manager's last save, if it
        saved at all. */
    var saved: Option<Categories>

    predicate Valid()
      reads this
    {
      DistinctNames(categories)
    }

    /** `getKeywords()`. */
    function GetKeywords(): (r: seq<string>)
      reads this
      ensures NoDuplicates(r)
      ensures forall k :: k in r <==> exists i :: 0 <= i < |categories| && k in categories[i].keywords
    {
      Keywords(categories)
    }

    /** `new KeywordManager()`, which loads. */
    constructor (json: JsonFile, txt: LegacyFile)
      requires json.JsonMap? ==> DistinctNames(json.categories)
      ensures Valid()
      ensures categories == Load(json, txt, []).0
      ensures saved == if Load(json, txt, []).1 then Some(categories) else None
    {
      var (m, save) := Load(json, txt, []);
      categories := m;
      saved := if save then Some(m) else None;
    }

    method LoadKeywords(json: JsonFile, txt: LegacyFile)
      requires Valid()
      requires json.JsonMap? ==> DistinctNames(json.categories)
      modifies this
      ensures Valid()
      ensures categories == Load(json, txt, old(categories)).0
      ensures saved == if Load(json, txt, old(categories)).1 then Some(categories) else old(saved)
    {
      var (m, save) := Load(json, txt, categories);
      categories := m;
      if save {
        saved := Some(m);
      }
    }

    /** `addCategory(name)`: a new name is appended with an empty list and
        saved; an existing one changes nothing and is not saved. */
    method AddCategory(name: string)
      requires Valid()
      modifies this
      ensures Valid()
      ensures name in Names(old(categories)) ==> categories == old(categories) && saved == old(saved)
      ensures name !in Names(old(categories)) ==>
        categories == old(categories) + [Category(name, [])] && saved == Some(categories)
      ensures name !in Names(old(categories)) ==> categories == Put(old(categories), name, [])
    {
      if name !in Names(categories) {
        categories := Put(categories, name, []);
        assert Names(categories) == Names(old(categories)) + [name];
        AppendNew(old(categories), name, []);
        saved := Some(categories);
      }
    }

    method RemoveCategory(name: string)
      requires Valid()
      modifies this
      ensures Valid()
      ensures categories == Remove(old(categories), name)
      ensures saved == Some(categories)
    {
      categories := Remove(categories, name);
      saved := Some(categories);
    }

    method UpdateCategory(name: string, keywords: seq<string>)
      requires Valid()
      modifies this
      ensures Valid()
      ensures categories == Put(old(categories), name, keywords)
      ensures saved == Some(categories)
    {
      PutKeepsDistinct(categories, name, keywords);
      categories := Put(categories, name, keywords);
      saved := Some(categories);
    }

    method RenameCategory(oldName: string, newName: string)
      requires Valid()
      modifies this
      ensures Valid()
      ensures categories == Rename(old(categories), oldName, newName)
      ensures saved == if oldName in Names(old(categories)) then Some(categories) else old(saved)
    {
      if oldName in Names(categories) {
        var renamed := Rename(categories, oldName, newName);
        assert DistinctNames(renamed);
        categories := renamed;
        saved := Some(renamed);
      }
    }
  }

  /** Putting a new name appends exactly one category. */
  lemma {:induction false} AppendNew(m: Categories, name: string, keywords: seq<string>)
    requires name !in Names(m)
    ensures Put(m, name, keywords) == m + [Category(name, keywords)]
    decreases |m|
  {
    if |m| > 0 {
      NamesTail(m);
      AppendNew(m[1..], name, keywords);
      PutCons(m, name, keywords);
      HeadTailSnoc(m, Category(name, keywords));
    }
  }

  lemma NamesTail(m: Categories)
    requires |m| > 0
    ensures Names(m) == [m[0].name] + Names(m[1..])
  {
  }

  /** `put` walks past a first category of another name. */
  lemma PutCons(m: Categories, name: string, keywords: seq<string>)
    requires |m| > 0 && m[0].name != name
    ensures Put(m, name, keywords) == [m[0]] + Put(m[1..], name, keywords)
  {
  }
}

=== FILE: lines.dfy ===
/** Cutting text into lines the way `BufferedReader.readLine` (and with it
    `Files.readAllLines` and commons-io `FileUtils.readLines`) and Node's
    `readline` with `crlfDelay: Infinity` do: a line ends at "\n", "\r" or
    "\r\n"; the terminator is not part of the line; a last line without a
    terminator still counts, and empty text has no lines. */
module Lines {
  import opened Strings

  predicate IsBreak(c: char) { c == '\n' || c == '\r' }

  predicate NoBreak(s: string) {
    forall i :: 0 <= i < |s| ==> !IsBreak(s[i])
  }

  /** Where the first line of `s` ends. */
  function LineEnd(s: string): (k: nat)
    ensures k <= |s| && NoBreak(s[..k])
    ensures k < |s| ==> IsBreak(s[k])
    decreases |s|
  {
    if |s| == 0 || IsBreak(s[0]) then 0
    else
      var k := 1 + LineEnd(s[1..]);
      assert forall i :: 1 <= i < k ==> s[..k][i] == s[1..][..k - 1][i - 1];
      k
  }

  /** The text after the first line and its terminator. */
  function AfterLine(s: string): (r: string)
    ensures |r| < |s| || |s| == 0
  {
    var k := LineEnd(s);
    if k == |s| then []
    else if s[k] == '\r' && k + 1 < |s| && s[k + 1] == '\n' then s[k + 2..]
    else s[k + 1..]
  }

  function ReadLines(s: string): (lines: seq<string>)
    decreases |s|
  {
    if |s| == 0 then [] else [s[..LineEnd(s)]] + ReadLines(AfterLine(s))
  }

  /** No line holds a terminator. */
  lemma {:induction false} ReadLinesNoBreak(s: string)
    ensures forall i :: 0 <= i < |ReadLines(s)| ==> NoBreak(ReadLines(s)[i])
    decreases |s|
  {
    if |s| > 0 {
      ReadLinesNoBreak(AfterLine(s));
    }
  }

  /** Lines each followed by "\n", as a file written line by line holds them. */
  function Unlines(lines: seq<string>): string
    decreases |lines|
  {
    if |lines| == 0 then "" else lines[0] + "\n" + Unlines(lines[1..])
  }

  /** Reading back text written line by line gives the lines, provided none
      holds a terminator. */
  lemma {:induction false} ReadUnlines(lines: seq<string>)
    requires forall i :: 0 <= i < |lines| ==> NoBreak(lines[i])
    ensures ReadLines(Unlines(lines)) == lines
    decreases |lines|
  {
    if |lines| > 0 {
      var s := Unlines(lines);
      var l := lines[0];
      LineEndOf(l, "\n" + Unlines(lines[1..]));
      assert s == l + ("\n" + Unlines(lines[1..]));
      assert LineEnd(s) == |l|;
      assert s[..|l|] == l;
      assert AfterLine(s) == Unlines(lines[1..]);
      ReadUnlines(lines[1..]);
    }
  }

  lemma {:induction false} LineEndOf(l: string, rest: string)
    requires NoBreak(l)
    requires |rest| > 0 && IsBreak(rest[0])
    ensures LineEnd(l + rest) == |l|
    decreases |l|
  {
    if |l| > 0 {
      assert (l + rest)[1..] == l[1..] + rest;
      LineEndOf(l[1..], rest);
    }
  }
}

=== FILE: model.dfy ===
/** The project data model: one `FileMetadata` object per extracted file and
    one `ProjectManifest` per ingested archive. Both are plain mutable
    records; their values are captured by the datatype `FileRecord` and by
    the function `Values`. */
module Model {
  import opened Wrappers

  /** What a file of the project is. */
  datatype FileType = BUGREPORT | VIDEO | OTHER

  /** The value a `FileMetadata` object holds at one moment. `splitParts`
      is `None` (Java `null`) until the splitter's names are stored, which
      is different from `Some([])`. */
  datatype FileRecord = FileRecord(
    fileName: string,
    fileSize: int,
    relativePath: string,
    originalPath: string,
    fileType: FileType,
    splitParts: Option<seq<string>>)

  class FileMetadata {
    var fileName: string
    var fileSize: int
    var relativePath: string
    var originalPath: string
    var fileType: FileType
    var splitParts: Option<seq<string>>

    function Value(): FileRecord
      reads this
    {
      FileRecord(fileName, fileSize, relativePath, originalPath, fileType, splitParts)
    }

    /** The five-argument constructor: the given fields, and no split parts. */
    constructor (fileName: string, fileSize: int, relativePath: string, originalPath: string, fileType: FileType)
      ensures Value() == FileRecord(fileName, fileSize, relativePath, originalPath, fileType, None)
    {
      this.fileName := fileName;
      this.fileSize := fileSize;
      this.relativePath := relativePath;
      this.originalPath := originalPath;
      this.fileType := fileType;
      this.splitParts := None;
    }

    method SetFileName(v: string)
      modifies this
      ensures Value() == old(Value()).(fileName := v)
    {
      fileName := v;
    }

    method SetFileSize(v: int)
      modifies this
      ensures Value() == old(Value()).(fileSize := v)
    {
      fileSize := v;
    }

    method SetRelativePath(v: string)
      modifies this
      ensures Value() == old(Value()).(relativePath := v)
    {
      relativePath := v;
    }

    method SetOriginalPath(v: string)
      modifies this
      ensures Value() == old(Value()).(originalPath := v)
    {
      originalPath := v;
    }

    method SetType(v: FileType)
      modifies this
      ensures Value() == old(Value()).(fileType := v)
    {
      fileType := v;
    }

    method SetSplitParts(v: Option<seq<string>>)
      modifies this
      ensures Value() == old(Value()).(splitParts := v)
    {
      splitParts := v;
    }
  }

  /** The values of a list of metadata objects, in list order. */
  function Values(fs: seq<FileMetadata>): seq<FileRecord>
    reads set f | f in fs
  {
    seq(|fs|, i requires 0 <= i < |fs| reads fs => fs[i].Value())
  }

  lemma ValuesAppend(fs: seq<FileMetadata>, f: FileMetadata)
    ensures Values(fs + [f]) == Values(fs) + [f.Value()]
  {
  }

  class ProjectManifest {
    var projectName: string
    var displayName: Option<string>
    var originalZipPath: string
    var createdDate: int
    var files: seq<FileMetadata>

    /** `now` stands for the clock reading the constructor stores. */
    constructor (projectName: string, originalZipPath: string, now: int)
      ensures this.projectName == projectName && this.originalZipPath == originalZipPath
      ensures createdDate == now && displayName == None && files == []
    {
      this.projectName := projectName;
      this.originalZipPath := originalZipPath;
      this.createdDate := now;
      this.displayName := None;
      this.files := [];
    }

    method AddFile(f: FileMetadata)
      modifies this
      ensures files == old(files) + [f]
      ensures projectName == old(projectName) && displayName == old(displayName)
      ensures originalZipPath == old(originalZipPath) && createdDate == old(createdDate)
    {
      files := files + [f];
    }

    /** Only the alias changes: `projectName`, which names the JSON file and
        the project directory, stays. */
    method SetDisplayName(v: Option<string>)
      modifies this
      ensures displayName == v
      ensures projectName == old(projectName) && files == old(files)
      ensures originalZipPath == old(originalZipPath) && createdDate == old(createdDate)
    {
      displayName := v;
    }

    method SetFiles(fs: seq<FileMetadata>)
      modifies this
      ensures files == fs
      ensures projectName == old(projectName) && displayName == old(displayName)
      ensures originalZipPath == old(originalZipPath) && createdDate == old(createdDate)
    {
      files := fs;
    }
  }
}

=== FILE: paths.dfy ===
/** Files and paths as the Java application sees them: `java.io.File`
    (`getName`, `getParentFile`, `new File(dir, name)`), the name helpers of
    Apache commons-io `FilenameUtils`, and a file system that maps the path of
    every regular file to its bytes. */
module Paths {
  import opened Wrappers
  import opened Seqs
  import opened Strings

  /** A path: absolute (rooted at `/`) or relative, and its name components. */
  datatype Path = Path(absolute: bool, parts: seq<string>)

  /** The regular files that exist, with their contents. */
  type FileSystem = map<Path, seq<bv8>>

  /** `new File(dir, name)` for a name without separators. */
  function Child(dir: Path, name: string): Path {
    Path(dir.absolute, dir.parts + [name])
  }

  /** `File.getParentFile()`: `null` for `/` and for a one-component
      relative path. */
  function Parent(p: Path): (r: Option<Path>)
    ensures r.Some? <==> (|p.parts| >= 2 || (|p.parts| == 1 && p.absolute))
    ensures r.Some? ==> Child(r.value, Name(p)) == p
  {
    if |p.parts| == 0 || (|p.parts| == 1 && !p.absolute) then None
    else Some(Path(p.absolute, p.parts[..|p.parts| - 1]))
  }

  /** `File.getName()`: the last component, or "" for `/`. */
  function Name(p: Path): string {
    if |p.parts| == 0 then "" else p.parts[|p.parts| - 1]
  }

  lemma ParentOfChild(dir: Path, name: string)
    ensures Parent(Child(dir, name)) == Some(dir) || (!dir.absolute && |dir.parts| == 0)
    ensures Name(Child(dir, name)) == name
  {
    assert (dir.parts + [name])[..|dir.parts|] == dir.parts;
  }

  /** A name that is one path component: what a directory listing can
      hold. */
  predicate IsPlainName(s: string) {
    s != "" && s != "." && s != ".." && '/' !in s
  }

  /** `p` lies strictly inside directory `d`. */
  predicate Under(p: Path, d: Path) {
    p.absolute == d.absolute && |d.parts| < |p.parts| && p.parts[..|d.parts|] == d.parts
  }

  /** Node's `path.basename(p, ext)` for a non-empty `ext`: the last
      component without a trailing `ext` (compared case-sensitively). A
      component that is `ext` and nothing more is kept whole, except when
      the whole path is `ext`, which gives "". */
  function NodeBaseName(p: Path, ext: string): (b: string)
    requires |ext| > 0
    ensures EndsWith(Name(p), ext) && |Name(p)| > |ext| ==> b + ext == Name(p)
    ensures !EndsWith(Name(p), ext) ==> b == Name(p)
  {
    var n := Name(p);
    if !p.absolute && p.parts == [ext] then ""
    else if EndsWith(n, ext) && |n| > |ext| then n[..|n| - |ext|]
    else n
  }

  /** `File.getAbsolutePath()` of an absolute path, as a string. */
  function PathString(p: Path): string {
    (if p.absolute then "/" else "") + Join(p.parts, "/")
  }

  /** `p` is a file directly inside directory `d`. */
  predicate InDir(p: Path, d: Path) {
    |p.parts| > 0 && p == Child(d, Name(p))
  }

  lemma ChildInDir(d: Path, n: string)
    ensures InDir(Child(d, n), d) && Name(Child(d, n)) == n
  {
  }

  /** The files directly inside directory `d`, by name. */
  function FilesIn(fs: FileSystem, d: Path): (r: map<string, seq<bv8>>)
    ensures forall n :: n in r <==> Child(d, n) in fs
    ensures forall n :: n in r ==> r[n] == fs[Child(d, n)]
  {
    var names := set p | p in fs && InDir(p, d) :: Name(p);
    assert forall n :: Child(d, n) in fs ==> n in names by {
      forall n | Child(d, n) in fs ensures n in names {
        ChildInDir(d, n);
      }
    }
    map n | n in names :: fs[Child(d, n)]
  }

  /** Writing one file of a directory changes that file of its listing. */
  lemma FilesInWrite(fs: FileSystem, d: Path, n: string, v: seq<bv8>)
    ensures FilesIn(fs[Child(d, n) := v], d) == FilesIn(fs, d)[n := v]
  {
    var l, r := FilesIn(fs[Child(d, n) := v], d), FilesIn(fs, d)[n := v];
    forall m ensures m in l <==> m in r {
      ChildInDir(d, m);
    }
    forall m | m in l ensures l[m] == r[m] {
      ChildInDir(d, m);
    }
  }

  /** The file system once directory `d` holds exactly the files of
      `contents`, by name; files anywhere else stay as they were. */
  function WithDir(fs: FileSystem, d: Path, contents: map<string, seq<bv8>>): (r: FileSystem)
    ensures FilesIn(r, d) == contents
    ensures forall p :: !InDir(p, d) ==> (p in r <==> p in fs) && (p in fs ==> r[p] == fs[p])
  {
    var kept := map p | p in fs && !InDir(p, d) :: fs[p];
    var places := set n | n in contents :: Child(d, n);
    assert forall p :: p in places ==> InDir(p, d) && Name(p) in contents;
    var added := map p | p in places :: contents[Name(p)];
    var r := kept + added;
    assert forall n :: Child(d, n) in r <==> n in contents by {
      forall n ensures Child(d, n) in r <==> n in contents {
        ChildInDir(d, n);
      }
    }
    assert forall n :: n in contents ==> r[Child(d, n)] == contents[n] by {
      forall n | n in contents ensures r[Child(d, n)] == contents[n] {
        ChildInDir(d, n);
        assert Child(d, n) in places;
      }
    }
    r
  }

  // --------------------------------------------------- names inside archives

  /** The position of the last character satisfying `sep`, or -1. */
  function LastIndexWhere(s: string, sep: char -> bool): (r: int)
    ensures -1 <= r < |s|
    ensures r >= 0 ==> sep(s[r])
    ensures forall j :: r < j < |s| ==> !sep(s[j])
    decreases |s|
  {
    if |s| == 0 then -1
    else if sep(s[|s| - 1]) then |s| - 1
    else LastIndexWhere(s[..|s| - 1], sep)
  }

  predicate IsSlash(c: char) { c == '/' }

  predicate IsAnySeparator(c: char) { c == '/' || c == '\\' }

  /** `new File(entryName).getName()` on a Unix-like system: the text after
      the last '/'. */
  function EntryBaseName(entryName: string): (r: string)
    ensures '/' !in r
    ensures EndsWith(entryName, r)
  {
    var i := LastIndexWhere(entryName, IsSlash);
    entryName[i + 1..]
  }

  /** `FilenameUtils.getName`: the text after the last '/' or '\'. */
  function FuName(s: string): (r: string)
    ensures '/' !in r && '\\' !in r
    ensures EndsWith(s, r)
  {
    var i := LastIndexWhere(s, IsAnySeparator);
    s[i + 1..]
  }

  /** `FilenameUtils.getExtension`: the text after the last '.' of the
      name part, or "" when the name has no '.'. */
  function FuExtension(s: string): (r: string)
    ensures '.' !in r && EndsWith(FuName(s), r)
  {
    var n := FuName(s);
    var d := LastIndex(n, '.');
    if d == -1 then "" else n[d + 1..]
  }

  /** `FilenameUtils.getBaseName`: the name part without its extension. */
  function FuBaseName(s: string): string {
    var n := FuName(s);
    var d := LastIndex(n, '.');
    if d == -1 then n else n[..d]
  }

  function LastIndex(s: string, c: char): int {
    LastIndexOf(s, c)
  }

  /** When the name part has a '.', base name, '.' and extension rebuild it. */
  lemma FuBaseNameExtension(s: string)
    requires '.' in FuName(s)
    ensures FuBaseName(s) + "." + FuExtension(s) == FuName(s)
  {
    var n := FuName(s);
    var d := LastIndex(n, '.');
    assert d != -1 by {
      var k :| 0 <= k < |n| && n[k] == '.';
    }
    AroundIndex(n, d);
  }
}

=== FILE: patterns.dfy ===
/** The fragment of regular expressions the file classifiers use: literal
    characters compared with ASCII case folding, and `.*`, whose `.` does not
    match a line terminator. `Matches` is the reference semantics of that
    fragment; the classifiers are written directly on strings and proved
    equal to it. */
module Patterns {
  import opened Strings

  datatype Token = Lit(c: char) | DotStar

  /** The pattern that matches the word `w` literally. */
  function Lits(w: string): (p: seq<Token>)
    ensures |p| == |w|
  {
    seq(|w|, i requires 0 <= i < |w| => Lit(w[i]))
  }

  /** Whether the whole of `s` matches `p`, case-insensitively, with
      `isTerminator` the characters `.` refuses. */
  predicate Matches(p: seq<Token>, s: string, isTerminator: char -> bool)
    decreases |p| + |s|
  {
    if |p| == 0 then |s| == 0
    else match p[0]
      case Lit(c) => |s| > 0 && Lower(s[0]) == Lower(c) && Matches(p[1..], s[1..], isTerminator)
      case DotStar =>
        Matches(p[1..], s, isTerminator)
        || (|s| > 0 && !isTerminator(s[0]) && Matches(p, s[1..], isTerminator))
  }

  predicate NoTerminator(s: string, isTerminator: char -> bool) {
    forall i :: 0 <= i < |s| ==> !isTerminator(s[i])
  }

  /** A literal prefix matches exactly the strings that start with it,
      ignoring case. */
  lemma {:induction false} MatchesLits(w: string, rest: seq<Token>, s: string, isTerminator: char -> bool)
    ensures Matches(Lits(w) + rest, s, isTerminator)
      <==> StartsWith(LowerStr(s), LowerStr(w)) && Matches(rest, s[|w|..], isTerminator)
    decreases |w|
  {
    if |w| > 0 {
      var p := Lits(w) + rest;
      assert p[0] == Lit(w[0]);
      assert p[1..] == Lits(w[1..]) + rest;
      if |s| > 0 {
        MatchesLits(w[1..], rest, s[1..], isTerminator);
        if |w| <= |s| {
          assert s[1..][|w| - 1..] == s[|w|..];
        }
        if StartsWith(LowerStr(s), LowerStr(w)) {
          assert LowerStr(s)[0] == LowerStr(w)[0];
          assert LowerStr(s[1..])[..|w| - 1] == LowerStr(s)[1..|w|];
          assert LowerStr(w[1..]) == LowerStr(w)[1..];
        }
        if Lower(s[0]) == Lower(w[0]) && StartsWith(LowerStr(s[1..]), LowerStr(w[1..])) {
          assert LowerStr(s)[..|w|] == [Lower(s[0])] + LowerStr(s[1..])[..|w| - 1];
          assert LowerStr(w) == [Lower(w[0])] + LowerStr(w[1..]);
        }
      }
    } else {
      assert Lits(w) + rest == rest;
    }
  }

  /** `s` ends with `w` ignoring case, and no line terminator comes before. */
  predicate EndsWithAfterFree(s: string, w: string, isTerminator: char -> bool) {
    |w| <= |s| && EndsWith(LowerStr(s), LowerStr(w)) && NoTerminator(s[..|s| - |w|], isTerminator)
  }

  lemma EndsWithAfterFreeStep(s: string, w: string, isTerminator: char -> bool)
    requires |s| > 0
    ensures EndsWithAfterFree(s, w, isTerminator)
      <==> (|s| == |w| && StartsWith(LowerStr(s), LowerStr(w)))
           || (|s| > |w| && !isTerminator(s[0]) && EndsWithAfterFree(s[1..], w, isTerminator))
  {
    if |w| == |s| {
      assert s[..0] == [];
      assert LowerStr(s)[0..] == LowerStr(s);
    } else if |w| < |s| {
      assert LowerStr(s[1..]) == LowerStr(s)[1..];
      assert LowerStr(s[1..])[|s| - 1 - |w|..] == LowerStr(s)[|s| - |w|..];
      var whole, tail := s[..|s| - |w|], s[1..][..|s| - 1 - |w|];
      assert whole == [s[0]] + tail;
      if NoTerminator(whole, isTerminator) {
        assert !isTerminator(whole[0]);
        forall i | 0 <= i < |tail| ensures !isTerminator(tail[i]) {
          assert tail[i] == whole[i + 1];
        }
      }
      if !isTerminator(s[0]) && NoTerminator(tail, isTerminator) {
        forall i | 0 <= i < |whole| ensures !isTerminator(whole[i]) {
          if i > 0 {
            assert whole[i] == tail[i - 1];
          }
        }
      }
    }
  }

  /** `.*` followed by a literal word matches exactly the strings that end
      with the word, ignoring case, and have no line terminator before it. */
  lemma {:induction false} MatchesDotStarLits(w: string, s: string, isTerminator: char -> bool)
    ensures Matches([DotStar] + Lits(w), s, isTerminator) <==> EndsWithAfterFree(s, w, isTerminator)
    decreases |s|
  {
    var p := [DotStar] + Lits(w);
    assert p[0] == DotStar && p[1..] == Lits(w);
    MatchesLits(w, [], s, isTerminator);
    assert Lits(w) + [] == Lits(w);
    assert Matches(Lits(w), s, isTerminator) <==> StartsWith(LowerStr(s), LowerStr(w)) && |s| == |w|;
    if |s| > 0 {
      MatchesDotStarLits(w, s[1..], isTerminator);
      EndsWithAfterFreeStep(s, w, isTerminator);
    } else {
      assert s[..0] == [];
    }
  }
}

=== FILE: project_view.dfy ===
/** `ProjectView` of the Java application: the window of an open project,
    with its file list, the list of the selected file's split parts, and
    one content tab per opened file. The model covers which parts are
    listed and how opening a file reuses or adds a tab. A tab records the
    kind of its content (a text viewer or a video player); a text viewer is
    passed in where a part is loaded into it. */
module ProjectView {
  import opened Wrappers
  import opened Seqs
  import opened Model
  import KeywordManager
  import Paths
  import Lines
  import TextViewer

  // ------------------------------------------------------------ parts list

  /** The parts list shown for a file: its split parts other than the file's
      own name, in order; nothing when it has no split parts. */
  function PartsFor(file: FileRecord): (r: seq<string>)
    ensures file.splitParts.None? ==> r == []
    ensures forall p :: p in r <==> file.splitParts.Some? && p in file.splitParts.value && p != file.fileName
  {
    if file.splitParts.None? || |file.splitParts.value| == 0 then []
    else KeywordManager.Without(file.splitParts.value, file.fileName)
  }

  // ------------------------------------------------------------------ tabs

  /** What a tab shows: a video player for a video, a text viewer for
      anything else. */
  datatype TabKind = VideoTab | TextTab

  /** A content tab: its title (the file name) and the file it shows. */
  datatype Tab = Tab(title: string, file: FileRecord, kind: TabKind)

  /** The tab a file opens in when it has none yet. */
  function NewTab(file: FileRecord): (t: Tab)
    ensures t.title == file.fileName && t.file == file
    ensures t.kind == VideoTab <==> file.fileType == VIDEO
  {
    Tab(file.fileName, file, if file.fileType == VIDEO then VideoTab else TextTab)
  }

  /** The first tab with that title, or -1. */
  function FindTitle(tabs: seq<Tab>, title: string): int {
    FirstIndex(tabs, (t: Tab) => t.title, title)
  }

  /** No two tabs share a title. */
  predicate DistinctTitles(tabs: seq<Tab>) {
    forall i, j :: 0 <= i < j < |tabs| ==> tabs[i].title != tabs[j].title
  }

  class ProjectView {
    const projectPath: string
    /** The items of the parts list. */
    var partsList: seq<string>
    /** The content tabs, left to right. */
    var tabs: seq<Tab>
    /** The selected tab, or -1. */
    var selected: int

    /** Tabs are told apart by their titles, and the selection is a tab. */
    predicate Valid()
      reads this
    {
      DistinctTitles(tabs) && -1 <= selected < |tabs|
    }

    constructor (projectPath: string)
      ensures this.projectPath == projectPath
      ensures partsList == [] && tabs == [] && selected == -1
      ensures Valid()
    {
      this.projectPath := projectPath;
      partsList := [];
      tabs := [];
      selected := -1;
    }

    /** `updatePartsList(file)`: clears the list, then appends each split
        part whose name differs from the file's. */
    method UpdatePartsList(file: FileRecord)
      modifies this
      ensures partsList == PartsFor(file)
      ensures tabs == old(tabs) && selected == old(selected)
    {
      partsList := [];
      if file.splitParts.Some? && |file.splitParts.value| > 0 {
        var parts := file.splitParts.value;
        var i := 0;
        while i < |parts|
          invariant 0 <= i <= |parts|
          invariant partsList == KeywordManager.Without(parts[..i], file.fileName)
          invariant tabs == old(tabs) && selected == old(selected)
        {
          assert parts[..i + 1] == parts[..i] + [parts[i]];
          KeywordManager.WithoutAppend(parts[..i], [parts[i]], file.fileName);
          if parts[i] != file.fileName {
            partsList := partsList + [parts[i]];
          }
          i := i + 1;
        }
        assert parts[..i] == parts;
      }
    }

    /** `openFile(file)`: a tab already titled with the file's name is
        selected and nothing is added; otherwise one new tab is appended
        and selected. */
    method OpenFile(file: FileRecord)
      requires Valid()
      modifies this
      ensures Valid()
      ensures partsList == old(partsList)
      ensures var k := FindTitle(old(tabs), file.fileName);
        if k >= 0 then tabs == old(tabs) && selected == k
        else tabs == old(tabs) + [NewTab(file)] && selected == |old(tabs)|
    {
      var i := 0;
      while i < |tabs|
        invariant 0 <= i <= |tabs|
        invariant forall j :: 0 <= j < i ==> tabs[j].title != file.fileName
        invariant tabs == old(tabs) && selected == old(selected) && partsList == old(partsList)
      {
        if tabs[i].title == file.fileName {
          assert FindTitle(tabs, file.fileName) == i;
          selected := i;
          return;
        }
        i := i + 1;
      }
      assert FindTitle(tabs, file.fileName) < 0;
      tabs := tabs + [NewTab(file)];
      selected := |tabs| - 1;
    }

    /** Switching to tab `i` lists the parts of the file it shows. */
    method TabSelected(i: nat)
      requires Valid() && i < |tabs|
      modifies this
      ensures Valid()
      ensures tabs == old(tabs) && selected == i
      ensures partsList == PartsFor(tabs[i].file)
    {
      selected := i;
      UpdatePartsList(tabs[i].file);
    }

    /** Choosing a file in the file list opens it and lists its parts. */
    method FileSelected(file: FileRecord)
      requires Valid()
      modifies this
      ensures Valid()
      ensures partsList == PartsFor(file)
      ensures var k := FindTitle(old(tabs), file.fileName);
        if k >= 0 then tabs == old(tabs) && selected == k
        else tabs == old(tabs) + [NewTab(file)] && selected == |old(tabs)|
    {
      OpenFile(file);
      UpdatePartsList(file);
    }

    /** Choosing a part in the parts list loads that part into the selected
        tab when it is a text viewer; a cleared selection, no selected tab
        or a video tab changes nothing. `viewer` is the selected tab's
        content. */
    method PartSelected(part: Option<string>, viewer: TextViewer.TextViewer, fs: Paths.FileSystem,
                        utf8: seq<bv8> -> Option<string>)
      requires Valid()
      requires 0 <= selected ==> viewer.meta == tabs[selected].file
      modifies viewer
      ensures part.Some? && 0 <= selected && tabs[selected].kind == TextTab ==>
        var t := TextViewer.Target(fs, viewer.projectPath, viewer.meta, part);
        if t in fs then
          viewer.lines == Lines.ReadLines(TextViewer.Decode(fs[t], utf8)) && viewer.status == TextViewer.Loaded(t, |viewer.lines|)
        else
          viewer.lines == old(viewer.lines) && viewer.status == TextViewer.NotFound(t)
      ensures !(part.Some? && 0 <= selected && tabs[selected].kind == TextTab) ==> unchanged(viewer)
    {
      if part.Some? && 0 <= selected && tabs[selected].kind == TextTab {
        viewer.LoadContent(fs, part, utf8);
      }
    }
  }

  /** Opening is idempotent: once a file has been opened, opening it again
      finds its tab, the one that was selected. */
  lemma OpenAgainFindsTab(tabs: seq<Tab>, file: FileRecord)
    ensures var k := FindTitle(tabs, file.fileName);
      var after := if k >= 0 then tabs else tabs + [NewTab(file)];
      FindTitle(after, file.fileName) == (if k >= 0 then k else |tabs|)
  {
    var k := FindTitle(tabs, file.fileName);
    if k < 0 {
      var after := tabs + [NewTab(file)];
      var k2 := FindTitle(after, file.fileName);
      assert after[|tabs|].title == file.fileName;
      assert forall j :: 0 <= j < |tabs| ==> after[j] == tabs[j];
    }
  }
}

=== FILE: recent_projects.dfy ===
/** `RecentProjectsManager` of the Java application: the most recently used
    projects, newest first, at most ten, persisted as JSON. What the manager
    last wrote to `project_list.json` is kept as `saved`; the clock is a
    parameter. */
module RecentProjects {
  import opened Wrappers
  import opened Seqs

  const MaxRecent: nat := 10

  /** `RecentProject(name, path, timestamp)`; `path` is the project JSON's
      absolute path and identifies the entry. */
  datatype RecentProject = RecentProject(name: string, path: string, timestamp: int)

  /** `removeIf(p -> p.getPath().equals(path))`: the entries with another
      path, in order. */
  function WithoutPath(ps: seq<RecentProject>, path: string): (r: seq<RecentProject>)
    ensures forall p :: p in r <==> p in ps && p.path != path
    ensures |r| <= |ps|
    decreases |ps|
  {
    if |ps| == 0 then []
    else if ps[0].path == path then WithoutPath(ps[1..], path)
    else [ps[0]] + WithoutPath(ps[1..], path)
  }

  /** Removal works piece by piece, so the survivors keep their relative
      order. */
  lemma {:induction false} WithoutPathAppend(a: seq<RecentProject>, b: seq<RecentProject>, path: string)
    ensures WithoutPath(a + b, path) == WithoutPath(a, path) + WithoutPath(b, path)
    decreases |a|
  {
    if |a| > 0 {
      var ab := a + b;
      assert ab[0] == a[0];
      assert ab[1..] == a[1..] + b;
      WithoutPathAppend(a[1..], b, path);
      var wa, wb := WithoutPath(a[1..], path), WithoutPath(b, path);
      if a[0].path != path {
        assert [a[0]] + (wa + wb) == ([a[0]] + wa) + wb;
      }
    } else {
      assert a + b == b;
    }
  }

  /** A list without that path is left as it is. */
  lemma {:induction false} WithoutAbsentPath(ps: seq<RecentProject>, path: string)
    requires forall i :: 0 <= i < |ps| ==> ps[i].path != path
    ensures WithoutPath(ps, path) == ps
    decreases |ps|
  {
    if |ps| > 0 {
      WithoutAbsentPath(ps[1..], path);
    }
  }

  /** The list after `addProject(name, path)` at time `now`: the new entry
      first, then the older entries with other paths in their old order, cut
      to ten from the tail. */
  function Added(ps: seq<RecentProject>, name: string, path: string, now: int): (r: seq<RecentProject>)
    ensures 1 <= |r| <= MaxRecent
    ensures r[0] == RecentProject(name, path, now)
    ensures forall i :: 1 <= i < |r| ==> r[i].path != path
    ensures |r| - 1 <= |WithoutPath(ps, path)| && r[1..] == WithoutPath(ps, path)[..|r| - 1]
    ensures |WithoutPath(ps, path)| < MaxRecent ==> |r| == |WithoutPath(ps, path)| + 1
  {
    var l := [RecentProject(name, path, now)] + WithoutPath(ps, path);
    assert forall i :: 1 <= i < |l| ==> l[i] in WithoutPath(ps, path);
    if |l| > MaxRecent then l[..MaxRecent] else l
  }

  /** Where the first entry for `path` is, or -1. */
  function FindPath(ps: seq<RecentProject>, path: string): int {
    FirstIndex(ps, (r: RecentProject) => r.path, path)
  }

  /** The entries whose path still exists, in order. */
  function Existing(ps: seq<RecentProject>, pathExists: string -> bool): (r: seq<RecentProject>)
    ensures forall p :: p in r <==> p in ps && pathExists(p.path)
    ensures |r| <= |ps|
    ensures |r| == |ps| <==> forall i :: 0 <= i < |ps| ==> pathExists(ps[i].path)
    ensures |r| == |ps| ==> r == ps
    decreases |ps|
  {
    if |ps| == 0 then []
    else if pathExists(ps[0].path) then [ps[0]] + Existing(ps[1..], pathExists)
    else
      assert !pathExists(ps[0].path);
      Existing(ps[1..], pathExists)
  }

  /** `project_list.json`: absent, unreadable, or the list it holds. */
  datatype ListFile = NoFile | Unreadable | Parsed(projects: seq<RecentProject>)

  /** `loadProjects()`: a missing or unreadable file gives an empty list. */
  function Load(f: ListFile): (r: seq<RecentProject>)
    ensures !f.Parsed? ==> r == []
  {
    if f.Parsed? then f.projects else []
  }

  class RecentProjectsManager {
    var projects: seq<RecentProject>
    /** What `project_list.json` holds after this manager's last save, if
        it saved at all. */
    var saved: Option<seq<RecentProject>>

    constructor (f: ListFile)
      ensures projects == Load(f) && saved == None
    {
      projects := Load(f);
      saved := None;
    }

    method AddProject(name: string, path: string, now: int)
      modifies this
      ensures projects == Added(old(projects), name, path, now)
      ensures saved == Some(projects)
    {
      var rest := WithoutPath(projects, path);
      projects := [RecentProject(name, path, now)] + rest;
      if |projects| > MaxRecent {
        projects := projects[..MaxRecent];
      }
      saved := Some(projects);
    }

    method RemoveProject(path: string)
      modifies this
      ensures projects == WithoutPath(old(projects), path)
      ensures saved == Some(projects)
    {
      projects := WithoutPath(projects, path);
      saved := Some(projects);
    }

    /** Renames the first entry with that path; with none, the list is
        unchanged. It is saved either way. */
    method RenameProject(path: string, newName: string)
      modifies this
      ensures var k := FindPath(old(projects), path);
        projects == if k < 0 then old(projects) else old(projects)[k := old(projects)[k].(name := newName)]
      ensures saved == Some(projects)
    {
      var i := 0;
      while i < |projects|
        invariant 0 <= i <= |projects|
        invariant projects == old(projects)
        invariant forall j :: 0 <= j < i ==> projects[j].path != path
      {
        if projects[i].path == path {
          assert FindPath(projects, path) == i;
          projects := projects[i := projects[i].(name := newName)];
          break;
        }
        i := i + 1;
      }
      saved := Some(projects);
    }

    /** Drops the entries whose path does not exist; saves only if one was
        dropped. */
    method ValidateProjects(pathExists: string -> bool)
      modifies this
      ensures projects == Existing(old(projects), pathExists)
      ensures saved == if projects != old(projects) then Some(projects) else old(saved)
    {
      var kept := Existing(projects, pathExists);
      var changed := |kept| < |projects|;
      projects := kept;
      if changed {
        saved := Some(projects);
      }
    }
  }
}

=== FILE: search_engine.dfy ===
/** `SearchEngine.searchFile` of the Java application: scan a text file line
    by line and report every line that matches, with its 1-based line
    number. A regular expression is compiled before the file is opened; its
    evaluation is left to `java.util.regex` and enters the model as the
    predicate the compiled pattern's `find()` computes. */
module SearchEngine {
  import opened Wrappers
  import opened Strings
  import opened Lines

  /** One hit: the file's name (not its path), the line number, and the
      line as read, untrimmed. */
  datatype SearchResult = SearchResult(filePath: string, lineNumber: nat, lineContent: string)

  datatype SearchError = InvalidPattern | FileNotFound

  /** How a line is matched. `find` is what `pattern.matcher(line).find()`
      answers for the compiled pattern. */
  datatype Matcher = RegexFind(find: string -> bool) | Plain(query: string, ignoreCase: bool)

  /** The plain test: substring search, or substring search after lowering
      both sides. */
  predicate LineMatches(m: Matcher, line: string) {
    match m
    case RegexFind(find) => find(line)
    case Plain(query, ignoreCase) =>
      if ignoreCase then Contains(LowerStr(line), LowerStr(query)) else Contains(line, query)
  }

  /** An empty plain query matches every line. */
  lemma EmptyQueryMatchesAll(ignoreCase: bool, line: string)
    ensures LineMatches(Plain("", ignoreCase), line)
  {
    ContainsEmpty(line);
    ContainsEmpty(LowerStr(line));
    assert LowerStr("") == "";
  }

  /** The hits among the first `n` lines, in line order. */
  function Hits(name: string, lines: seq<string>, m: Matcher, n: nat): seq<SearchResult>
    requires n <= |lines|
    decreases n
  {
    if n == 0 then []
    else
      Hits(name, lines, m, n - 1)
      + (if LineMatches(m, lines[n - 1]) then [SearchResult(name, n, lines[n - 1])] else [])
  }

  /** Every hit names the file, a line between 1 and n that matches, and
      holds exactly that line. */
  lemma {:induction false} HitsSound(name: string, lines: seq<string>, m: Matcher, n: nat)
    requires n <= |lines|
    ensures forall r :: r in Hits(name, lines, m, n) ==>
      r.filePath == name && 1 <= r.lineNumber <= n
      && r.lineContent == lines[r.lineNumber - 1] && LineMatches(m, r.lineContent)
    decreases n
  {
    if n > 0 {
      HitsSound(name, lines, m, n - 1);
    }
  }

  /** Every matching line is reported. */
  lemma {:induction false} HitsComplete(name: string, lines: seq<string>, m: Matcher, n: nat, k: nat)
    requires 1 <= k <= n <= |lines| && LineMatches(m, lines[k - 1])
    ensures SearchResult(name, k, lines[k - 1]) in Hits(name, lines, m, n)
    decreases n
  {
    if k < n {
      HitsComplete(name, lines, m, n - 1, k);
    }
  }

  predicate Increasing(h: seq<SearchResult>) {
    forall i, j :: 0 <= i < j < |h| ==> h[i].lineNumber < h[j].lineNumber
  }

  /** Hits come in strictly increasing line order, so no line is reported
      twice. */
  lemma {:induction false} HitsIncreasing(name: string, lines: seq<string>, m: Matcher, n: nat)
    requires n <= |lines|
    ensures Increasing(Hits(name, lines, m, n))
    decreases n
  {
    if n > 0 {
      HitsIncreasing(name, lines, m, n - 1);
      HitsSound(name, lines, m, n - 1);
      var h := Hits(name, lines, m, n - 1);
      var full := Hits(name, lines, m, n);
      if LineMatches(m, lines[n - 1]) {
        assert full == h + [SearchResult(name, n, lines[n - 1])];
        forall i, j | 0 <= i < j < |full| ensures full[i].lineNumber < full[j].lineNumber {
          assert full[i] == h[i] && h[i] in h;
          if j < |h| {
            assert full[j] == h[j];
          }
        }
      } else {
        assert full == h;
      }
    }
  }

  /** `searchFile(file, query, isRegex, ignoreCase)`. `name` is
      `file.getName()`, `text` the file's text as `FileReader` decodes it
      (`None`: the file cannot be opened), and `compile` what
      `Pattern.compile(query, flags)` yields (`None`: a syntax error). */
  method SearchFile(name: string, text: Option<string>, query: string, isRegex: bool, ignoreCase: bool,
                    compile: (string, bool) -> Option<string -> bool>)
    returns (r: Result<seq<SearchResult>, SearchError>)
    ensures isRegex && compile(query, ignoreCase).None? ==> r == Err(InvalidPattern)
    ensures (!isRegex || compile(query, ignoreCase).Some?) && text.None? ==> r == Err(FileNotFound)
    ensures (!isRegex || compile(query, ignoreCase).Some?) && text.Some? ==>
      var m := if isRegex then RegexFind(compile(query, ignoreCase).value) else Plain(query, ignoreCase);
      var lines := ReadLines(text.value);
      r == Ok(Hits(name, lines, m, |lines|))
  {
    var m: Matcher;
    if isRegex {
      var pattern := compile(query, ignoreCase);
      if pattern.None? {
        return Err(InvalidPattern);
      }
      m := RegexFind(pattern.value);
    } else {
      m := Plain(query, ignoreCase);
    }
    if text.None? {
      return Err(FileNotFound);
    }
    var lines := ReadLines(text.value);
    var results: seq<SearchResult> := [];
    var lineNum := 0;
    while lineNum < |lines|
      invariant 0 <= lineNum <= |lines|
      invariant results == Hits(name, lines, m, lineNum)
    {
      var line := lines[lineNum];
      lineNum := lineNum + 1;
      var match_ := LineMatches(m, line);
      if match_ {
        results := results + [SearchResult(name, lineNum, line)];
      }
    }
    return Ok(results);
  }
}

=== FILE: search_engine_js.dfy ===
/** `SearchEngine` of the Electron prototype: escaping free text for a
    regular expression, turning a logcat-style query (`level:E tag:Foo
    text`) into a chain of lookaheads, building the pattern of the other
    search modes, and scanning a file's lines. Regular-expression
    evaluation itself is left to `RegExp` and enters the model as the
    predicate the pattern's `test` computes; only the pattern strings are
    built here. */
module SearchEngineJs {
  import opened Wrappers
  import opened Strings
  import opened SearchEngine

  // ---------------------------------------------------------------- escape

  /** The characters `escapeRegex` puts a backslash in front of. */
  predicate IsMeta(c: char) {
    c == '.' || c == '*' || c == '+' || c == '?' || c == '^' || c == '$' || c == '{' || c == '}'
    || c == '(' || c == ')' || c == '|' || c == '[' || c == ']' || c == '\\'
  }

  function MetaCount(s: string): nat
    decreases |s|
  {
    if |s| == 0 then 0 else (if IsMeta(s[0]) then 1 else 0) + MetaCount(s[1..])
  }

  /** `escapeRegex(string)`: every metacharacter gets a backslash in front
      of it, every other character is kept as it is. */
  function EscapeRegex(s: string): (r: string)
    ensures |r| == |s| + MetaCount(s)
    decreases |s|
  {
    if |s| == 0 then ""
    else (if IsMeta(s[0]) then ['\\', s[0]] else [s[0]]) + EscapeRegex(s[1..])
  }

  /** A pattern made of literal atoms only: characters that are not
      metacharacters, and metacharacters behind a backslash. Such a pattern
      matches exactly the text `Unescape` reads out of it. */
  predicate Literal(r: string)
    decreases |r|
  {
    |r| == 0
    || (if r[0] == '\\' then |r| >= 2 && IsMeta(r[1]) && Literal(r[2..])
        else !IsMeta(r[0]) && Literal(r[1..]))
  }

  /** The text a literal pattern stands for: the pattern with the escaping
      backslashes taken out. */
  function Unescape(r: string): string
    decreases |r|
  {
    if |r| == 0 then ""
    else if r[0] == '\\' && |r| >= 2 then [r[1]] + Unescape(r[2..])
    else [r[0]] + Unescape(r[1..])
  }

  /** Escaped text is a literal pattern, and taking the backslashes out
      again gives the text back. */
  lemma {:induction false} EscapeIsLiteral(s: string)
    ensures Literal(EscapeRegex(s))
    ensures Unescape(EscapeRegex(s)) == s
    decreases |s|
  {
    if |s| > 0 {
      EscapeIsLiteral(s[1..]);
      var rest := EscapeRegex(s[1..]);
      var r := EscapeRegex(s);
      if IsMeta(s[0]) {
        assert r == ['\\', s[0]] + rest;
        assert r[2..] == rest;
      } else {
        assert r == [s[0]] + rest;
        assert r[1..] == rest;
      }
      assert s == [s[0]] + s[1..];
    }
  }

  /** Different texts never escape to the same pattern. */
  lemma EscapeInjective(s: string, t: string)
    requires EscapeRegex(s) == EscapeRegex(t)
    ensures s == t
  {
    EscapeIsLiteral(s);
    EscapeIsLiteral(t);
  }

  // -------------------------------------------------------- logcat queries

  /** `\w` of a pattern without the `u` flag. */
  predicate IsWordChar(c: char) {
    'A' <= c <= 'Z' || 'a' <= c <= 'z' || '0' <= c <= '9' || c == '_'
  }

  /** The characters a filter's value is made of, under the `i` flag:
      `[A-Z]` (either case), `\w`, `\d` and `[\w.]`. */
  datatype ValueClass = Letter | Word | Digits | WordOrDot

  predicate InClass(v: ValueClass, c: char) {
    match v
    case Letter => 'A' <= c <= 'Z' || 'a' <= c <= 'z'
    case Word => IsWordChar(c)
    case Digits => '0' <= c <= '9'
    case WordOrDot => IsWordChar(c) || c == '.'
  }

  /** One filter of the query language: the key written before the colon,
      the class of its value, and whether the value is a single character
      (`level`) or a run of one or more. */
  datatype Filter = Filter(key: string, value: ValueClass, single: bool)

  /** The filters, in the order the query is scanned for them. */
  const Filters: seq<Filter> := [
    Filter("level", Letter, true),
    Filter("tag", Word, false),
    Filter("pid", Digits, false),
    Filter("tid", Digits, false),
    Filter("package", WordOrDot, false)
  ]

  /** `key:` starts at `i`, in any letter case, and a value character
      follows the colon. */
  predicate MatchesAt(q: string, f: Filter, i: int) {
    0 <= i && i + |f.key| + 1 < |q|
    && LowerStr(q[i..i + |f.key|]) == f.key && q[i + |f.key|] == ':'
    && InClass(f.value, q[i + |f.key| + 1])
  }

  /** The end of the run of value characters that starts at `j`. */
  function RunEnd(q: string, v: ValueClass, j: nat): (e: nat)
    requires j <= |q|
    ensures j <= e <= |q|
    ensures forall k :: j <= k < e ==> InClass(v, q[k])
    ensures e == |q| || !InClass(v, q[e])
    decreases |q| - j
  {
    if j < |q| && InClass(v, q[j]) then RunEnd(q, v, j + 1) else j
  }

  /** The leftmost position at or after `i` where the filter matches. */
  function FindFrom(q: string, f: Filter, i: nat): (r: Option<nat>)
    ensures r.Some? ==> i <= r.value && MatchesAt(q, f, r.value)
    ensures forall k :: i <= k && (r.None? || k < r.value) ==> !MatchesAt(q, f, k)
    decreases |q| - i
  {
    if i >= |q| then None
    else if MatchesAt(q, f, i) then Some(i)
    else FindFrom(q, f, i + 1)
  }

  /** What `q.match(pattern)` reports: where the match starts, where it
      ends (`match[0]` is the text between), and the value (`match[1]`). */
  datatype Match = Match(start: nat, end: nat, value: string)

  /** The filter's match in `q`: the leftmost one, with the value as long
      as the class allows (one letter for `level`). */
  function FindFilter(q: string, f: Filter): (m: Option<Match>)
    ensures m.Some? ==>
      MatchesAt(q, f, m.value.start)
      && m.value.start + |f.key| + 1 < m.value.end <= |q|
      && m.value.value == q[m.value.start + |f.key| + 1..m.value.end]
  {
    match FindFrom(q, f, 0)
    case None => None
    case Some(i) =>
      var j := i + |f.key| + 1;
      var e := if f.single then j + 1 else RunEnd(q, f.value, j);
      Some(Match(i, e, q[j..e]))
  }

  /** The match is the leftmost one, and its value a non-empty run of the
      filter's class that the match takes in full (or its one letter). */
  lemma FindFilterProperties(q: string, f: Filter)
    ensures var m := FindFilter(q, f);
      (forall k :: 0 <= k && (m.None? || k < m.value.start) ==> !MatchesAt(q, f, k))
      && (m.Some? ==>
            |m.value.value| > 0
            && (forall k :: 0 <= k < |m.value.value| ==> InClass(f.value, m.value.value[k]))
            && (f.single ==> |m.value.value| == 1)
            && (!f.single ==> m.value.end == |q| || !InClass(f.value, q[m.value.end])))
  {
  }

  /** The first occurrence of `sub` in `s` at or after `i`, or `None`. */
  function IndexOfFrom(s: string, sub: string, i: nat): (r: Option<nat>)
    ensures r.Some? ==> i <= r.value && OccursAt(s, sub, r.value)
    ensures forall k :: i <= k && (r.None? || k < r.value) ==> !OccursAt(s, sub, k)
    decreases |s| - i
  {
    if i + |sub| > |s| then None
    else if OccursAt(s, sub, i) then Some(i)
    else IndexOfFrom(s, sub, i + 1)
  }

  /** `s.replace(sub, '')` for a string `sub`: its first occurrence is cut
      out; without one `s` stays as it is. */
  function RemoveFirst(s: string, sub: string): string {
    match IndexOfFrom(s, sub, 0)
    case None => s
    case Some(i) => s[..i] + s[i + |sub|..]
  }

  /** Removing the matched text cuts out exactly the match: no earlier
      occurrence of that text exists, because the filter would already
      have matched there. */
  lemma RemoveMatch(q: string, f: Filter)
    requires FindFilter(q, f).Some?
    ensures var m := FindFilter(q, f).value;
      RemoveFirst(q, q[m.start..m.end]) == q[..m.start] + q[m.end..]
  {
    var m := FindFilter(q, f).value;
    var sub := q[m.start..m.end];
    forall k | 0 <= k < m.start ensures !OccursAt(q, sub, k) {
      FindFilterProperties(q, f);
      if OccursAt(q, sub, k) {
        OccurrenceMatches(q, f, m.start, m.end, k);
      }
    }
    RemoveFirstAt(q, sub, m.start);
  }

  /** The first occurrence is the one cut out. */
  lemma RemoveFirstAt(s: string, sub: string, i: nat)
    requires OccursAt(s, sub, i)
    requires forall k :: 0 <= k < i ==> !OccursAt(s, sub, k)
    ensures RemoveFirst(s, sub) == s[..i] + s[i + |sub|..]
  {
    var r := IndexOfFrom(s, sub, 0);
    assert r.Some? && r.value == i;
  }

  /** Wherever the text of a match occurs, the filter matches too. */
  lemma OccurrenceMatches(q: string, f: Filter, i: nat, e: nat, j: nat)
    requires MatchesAt(q, f, i) && i + |f.key| + 1 < e <= |q|
    requires OccursAt(q, q[i..e], j)
    ensures MatchesAt(q, f, j)
  {
    var sub := q[i..e];
    var n := |f.key|;
    assert q[j..j + |sub|] == sub;
    assert q[j..j + n] == sub[..n] == q[i..i + n];
    assert q[j + n] == sub[n] == q[i + n];
    assert q[j + n + 1] == sub[n + 1] == q[i + n + 1];
  }

  /** A value found for the filter with index `filter`. */
  datatype Found = Found(filter: nat, value: string)

  /** The state of the scan: the values found so far and what is left of
      the query. */
  datatype Scan = Scan(found: seq<Found>, rest: string)

  /** One round of the loop: when the filter matches, its value is recorded
      and the matched text removed from the query. */
  function ScanStep(s: Scan, k: nat): Scan
    requires k < |Filters|
  {
    match FindFilter(s.rest, Filters[k])
    case None => s
    case Some(m) => Scan(s.found + [Found(k, m.value)], RemoveFirst(s.rest, s.rest[m.start..m.end]))
  }

  /** The scan after the first `n` filters. */
  function ScanFilters(query: string, n: nat): Scan
    requires n <= |Filters|
  {
    if n == 0 then Scan([], query) else ScanStep(ScanFilters(query, n - 1), n - 1)
  }

  /** The lookahead a found value becomes. */
  function Lookahead(x: Found): string
    requires x.filter < |Filters|
  {
    "(?=.*\\b" + Filters[x.filter].key + "=[^\\n]*" + x.value + "\\b)"
  }

  predicate WellFiltered(found: seq<Found>) {
    forall i :: 0 <= i < |found| ==> found[i].filter < |Filters|
  }

  function Lookaheads(found: seq<Found>): seq<string>
    requires WellFiltered(found)
  {
    seq(|found|, i requires 0 <= i < |found| => Lookahead(found[i]))
  }

  /** The lookahead for the free text left over, if any is left after
      trimming. */
  function FreeText(rest: string): seq<string> {
    var t := JsTrim(rest);
    if t == "" then [] else ["(?=.*" + EscapeRegex(t) + ")"]
  }

  /** A recorded value: a non-empty run of its filter's value class. */
  predicate GoodFound(x: Found) {
    x.filter < |Filters| && |x.value| > 0
    && forall c :: 0 <= c < |x.value| ==> InClass(Filters[x.filter].value, x.value[c])
  }

  /** A round records nothing, or one good value for its own filter. */
  lemma ScanStepFound(s: Scan, k: nat)
    requires k < |Filters|
    ensures var t := ScanStep(s, k);
      t.found == s.found
      || (|t.found| == |s.found| + 1 && t.found[..|s.found|] == s.found
          && t.found[|s.found|].filter == k && GoodFound(t.found[|s.found|]))
  {
    var m := FindFilter(s.rest, Filters[k]);
    FindFilterProperties(s.rest, Filters[k]);
    if m.Some? {
      assert GoodFound(Found(k, m.value.value));
      assert (s.found + [Found(k, m.value.value)])[..|s.found|] == s.found;
    }
  }

  /** Good values from filters below `n`, in strictly increasing filter
      order. */
  predicate OrderedBelow(found: seq<Found>, n: nat) {
    WellFiltered(found)
    && (forall i :: 0 <= i < |found| ==> GoodFound(found[i]) && found[i].filter < n)
    && (forall i, j :: 0 <= i < j < |found| ==> found[i].filter < found[j].filter)
  }

  lemma OrderedExtend(found: seq<Found>, next: seq<Found>, n: nat)
    requires OrderedBelow(found, n)
    requires next == found
      || (|next| == |found| + 1 && next[..|found|] == found
          && next[|found|].filter == n && GoodFound(next[|found|]))
    ensures OrderedBelow(next, n + 1)
  {
    if next != found {
      assert forall i :: 0 <= i < |found| ==> next[i] == found[i];
    }
  }

  /** What each recorded value is: its filter's match, in filter order, with
      at most one value per filter, each a non-empty run of its class. */
  lemma {:induction false} ScanOrdered(query: string, n: nat)
    requires n <= |Filters|
    ensures OrderedBelow(ScanFilters(query, n).found, n)
    decreases n
  {
    if n > 0 {
      ScanOrdered(query, n - 1);
      var s := ScanFilters(query, n - 1);
      ScanStepFound(s, n - 1);
      OrderedExtend(s.found, ScanFilters(query, n).found, n - 1);
    }
  }

  /** Each round removes exactly the text its filter matched, so the query
      only ever shrinks, by at least `key:` and one value character per
      found value. */
  lemma {:induction false} ScanShrinks(query: string, n: nat)
    requires n <= |Filters|
    ensures var s := ScanFilters(query, n);
      |s.rest| + 2 * |s.found| <= |query|
    decreases n
  {
    if n > 0 {
      ScanShrinks(query, n - 1);
      var s := ScanFilters(query, n - 1);
      if FindFilter(s.rest, Filters[n - 1]).Some? {
        RemoveMatch(s.rest, Filters[n - 1]);
      }
    }
  }

  /** A query in which no filter matches anywhere is scanned unchanged. */
  lemma {:induction false} ScanPlain(query: string, n: nat)
    requires n <= |Filters|
    requires forall k, i :: 0 <= k < |Filters| ==> !MatchesAt(query, Filters[k], i)
    ensures ScanFilters(query, n) == Scan([], query)
    decreases n
  {
    if n > 0 {
      ScanPlain(query, n - 1);
    }
  }

  /** The pattern `parseLogcatQuery(query)` returns: the lookaheads of the
      filters found, in filter order, then the one for the free text. */
  function LogcatPattern(query: string): string {
    var s := ScanFilters(query, |Filters|);
    ScanOrdered(query, |Filters|);
    Join(Lookaheads(s.found) + FreeText(s.rest), "")
  }

  /** `parseLogcatQuery(query)`: one round per filter, then the free text. */
  method ParseLogcatQuery(query: string) returns (pattern: string)
    ensures pattern == LogcatPattern(query)
  {
    var regexParts: seq<string> := [];
    var remainingQuery := query;
    ghost var found: seq<Found> := [];
    var k := 0;
    while k < |Filters|
      invariant 0 <= k <= |Filters|
      invariant ScanFilters(query, k) == Scan(found, remainingQuery)
      invariant WellFiltered(found) && regexParts == Lookaheads(found)
    {
      regexParts, remainingQuery, found := ParseRound(k, regexParts, remainingQuery, found);
      k := k + 1;
    }
    ghost var rest := remainingQuery;
    remainingQuery := JsTrim(remainingQuery);
    if remainingQuery != "" {
      regexParts := regexParts + ["(?=.*" + EscapeRegex(remainingQuery) + ")"];
    } else {
      assert regexParts == regexParts + [];
    }
    assert regexParts == Lookaheads(found) + FreeText(rest);
    pattern := Join(regexParts, "");
  }

  /** One round of `parseLogcatQuery`: match the filter, record its
      lookahead and remove the matched text. */
  method ParseRound(k: nat, regexParts: seq<string>, remainingQuery: string, ghost found: seq<Found>)
    returns (parts': seq<string>, remaining': string, ghost found': seq<Found>)
    requires k < |Filters|
    requires WellFiltered(found) && regexParts == Lookaheads(found)
    ensures Scan(found', remaining') == ScanStep(Scan(found, remainingQuery), k)
    ensures WellFiltered(found') && parts' == Lookaheads(found')
  {
    parts', remaining', found' := regexParts, remainingQuery, found;
    var m := FindFilter(remainingQuery, Filters[k]);
    if m.Some? {
      found' := found + [Found(k, m.value.value)];
      parts' := regexParts + [Lookahead(Found(k, m.value.value))];
      remaining' := RemoveFirst(remainingQuery, remainingQuery[m.value.start..m.value.end]);
    }
  }

  /** Joining with nothing between is plain concatenation. */
  lemma {:induction false} JoinEmptyAppend(xs: seq<string>, x: string)
    ensures Join(xs + [x], "") == Join(xs, "") + x
    decreases |xs|
  {
    if |xs| == 0 {
      assert xs + [x] == [x];
    } else if |xs| == 1 {
      assert xs + [x] == [xs[0], x];
      assert [xs[0], x][1..] == [x];
    } else {
      JoinEmptyAppend(xs[1..], x);
      assert (xs + [x])[1..] == xs[1..] + [x];
    }
  }

  /** Trimming text made of white space only leaves nothing. */
  lemma JsTrimBlank(s: string)
    requires forall i :: 0 <= i < |s| ==> IsJsSpace(s[i])
    ensures JsTrim(s) == ""
  {
    var l := TrimLeft(s, IsJsSpace);
    TrimLeftSpaces(s, IsJsSpace);
  }

  /** A query with no filter in it becomes the lookahead for its trimmed
      text alone, escaped, and nothing when it is blank. */
  lemma PlainQueryPattern(query: string)
    requires forall k, i :: 0 <= k < |Filters| ==> !MatchesAt(query, Filters[k], i)
    ensures LogcatPattern(query) ==
      if JsTrim(query) == "" then "" else "(?=.*" + EscapeRegex(JsTrim(query)) + ")"
  {
    ScanPlain(query, |Filters|);
    assert Lookaheads([]) == [];
  }

  /** An empty or blank query gives the empty pattern. */
  lemma BlankQueryPattern(query: string)
    requires forall i :: 0 <= i < |query| ==> IsJsSpace(query[i])
    ensures LogcatPattern(query) == ""
  {
    forall k, i | 0 <= k < |Filters| ensures !MatchesAt(query, Filters[k], i) {
    }
    JsTrimBlank(query);
    PlainQueryPattern(query);
  }

  /** The pattern is the filters' lookaheads followed by the free-text
      lookahead, which is escaped: the free text is matched literally. */
  lemma LogcatPatternShape(query: string)
    ensures var s := ScanFilters(query, |Filters|);
      var t := JsTrim(s.rest);
      WellFiltered(s.found)
      && LogcatPattern(query) ==
           Join(Lookaheads(s.found), "") + (if t == "" then "" else "(?=.*" + EscapeRegex(t) + ")")
      && Literal(EscapeRegex(t)) && Unescape(EscapeRegex(t)) == t
  {
    var s := ScanFilters(query, |Filters|);
    ScanOrdered(query, |Filters|);
    var t := JsTrim(s.rest);
    if t != "" {
      JoinEmptyAppend(Lookaheads(s.found), "(?=.*" + EscapeRegex(t) + ")");
    } else {
      assert Lookaheads(s.found) + [] == Lookaheads(s.found);
    }
    EscapeIsLiteral(t);
  }

  // ------------------------------------------------------ other search modes

  /** A regular expression to be built: its source, and whether it carries
      the `i` flag. */
  datatype Pattern = Pattern(source: string, ignoreCase: bool)

  /** `createSearchPattern(query, useRegex, matchCase, wholeWord)`. In
      regular-expression mode the query is the source as it is; otherwise
      the query is escaped, and bracketed by word boundaries for a
      whole-word search. Case is ignored unless `matchCase`. */
  function CreateSearchPattern(query: string, useRegex: bool, matchCase: bool, wholeWord: bool): (p: Pattern)
    ensures p.ignoreCase == !matchCase
    ensures useRegex ==> p.source == query
    ensures !useRegex && !wholeWord ==> Literal(p.source) && Unescape(p.source) == query
    ensures !useRegex && wholeWord ==>
      |p.source| >= 4 && p.source[..2] == "\\b" && p.source[|p.source| - 2..] == "\\b"
      && Literal(p.source[2..|p.source| - 2]) && Unescape(p.source[2..|p.source| - 2]) == query
  {
    if useRegex then Pattern(query, !matchCase)
    else
      EscapeIsLiteral(query);
      var escaped := EscapeRegex(query);
      var source := if wholeWord then "\\b" + escaped + "\\b" else escaped;
      assert wholeWord ==> source[2..|source| - 2] == escaped;
      Pattern(source, !matchCase)
  }

  /** The search options; a missing one takes its default. */
  datatype Options = Options(useRegex: bool, matchCase: bool, wholeWord: bool, useLogcatSyntax: bool)

  const DefaultOptions := Options(false, false, false, true)

  /** The pattern `searchInFile` searches with: the logcat composition by
      default, `createSearchPattern` when logcat syntax is switched off. */
  function SearchPatternFor(query: string, options: Options): (p: Pattern)
    ensures options.useLogcatSyntax ==> p.source == LogcatPattern(query)
    ensures !options.useLogcatSyntax ==>
      p == CreateSearchPattern(query, options.useRegex, options.matchCase, options.wholeWord)
  {
    if options.useLogcatSyntax then Pattern(LogcatPattern(query), false)
    else CreateSearchPattern(query, options.useRegex, options.matchCase, options.wholeWord)
  }

  /** `searchInFile(filePath, query, options)`. `test` is what compiling
      the search pattern gives: the predicate its `test` computes for a
      line, or `None` when `new RegExp` throws a `SyntaxError` (an invalid
      query in regular-expression mode). `lines` are the lines `readline`
      yields for the file, or `None` when the file is missing or cannot be
      read, so that the `for await` rejects. Without logcat syntax the
      pattern is compiled before the file is opened; with it, `matchLine`
      compiles it for every line, so an invalid pattern only rejects once
      a line has been read. Each hit records the 1-based line number, the
      line as read and the path it was given; the hits are exactly those
      of the Java scan with the same test. */
  method SearchInFile(filePath: string, options: Options, test: Option<string -> bool>, lines: Option<seq<string>>)
    returns (r: Result<seq<SearchResult>, SearchError>)
    ensures !options.useLogcatSyntax && test.None? ==> r == Err(InvalidPattern)
    ensures (options.useLogcatSyntax || test.Some?) && lines.None? ==> r == Err(FileNotFound)
    ensures options.useLogcatSyntax && test.None? && lines.Some? ==>
      r == if lines.value == [] then Ok([]) else Err(InvalidPattern)
    ensures test.Some? && lines.Some? ==>
      r == Ok(Hits(filePath, lines.value, RegexFind(test.value), |lines.value|))
  {
    if !options.useLogcatSyntax && test.None? {
      return Err(InvalidPattern);
    }
    if lines.None? {
      return Err(FileNotFound);
    }
    var ls := lines.value;
    var results := [];
    var lineNumber := 1;
    var i := 0;
    while i < |ls|
      invariant 0 <= i <= |ls| && lineNumber == i + 1
      invariant test.Some? ==> results == Hits(filePath, ls, RegexFind(test.value), i)
      invariant test.None? ==> results == [] && i == 0
    {
      if test.None? {
        return Err(InvalidPattern);
      }
      if test.value(ls[i]) {
        results := results + [SearchResult(filePath, lineNumber, ls[i])];
      }
      lineNumber := lineNumber + 1;
      i := i + 1;
    }
    r := Ok(results);
  }

  /** So the hits are the matching lines, numbered from 1, in file order,
      and every matching line is reported. */
  lemma SearchInFileHits(filePath: string, lines: seq<string>, test: string -> bool)
    ensures var h := Hits(filePath, lines, RegexFind(test), |lines|);
      Increasing(h)
      && (forall r :: r in h ==>
            1 <= r.lineNumber <= |lines| && r.filePath == filePath
            && r.lineContent == lines[r.lineNumber - 1] && test(r.lineContent))
      && (forall i :: 0 <= i < |lines| && test(lines[i]) ==>
            SearchResult(filePath, i + 1, lines[i]) in h)
  {
    HitsIncreasing(filePath, lines, RegexFind(test), |lines|);
    HitsSound(filePath, lines, RegexFind(test), |lines|);
    forall i | 0 <= i < |lines| && test(lines[i])
      ensures SearchResult(filePath, i + 1, lines[i]) in Hits(filePath, lines, RegexFind(test), |lines|)
    {
      HitsComplete(filePath, lines, RegexFind(test), |lines|, i + 1);
    }
  }
}

=== FILE: search_window.dfy ===
/** `SearchWindow` of the Java application: the window that lists every
    matching line of one project file ("[Line n] text"), and lets the user
    step through that list with find-next and find-previous and select
    ranges of it with the mouse. The search runs synchronously here. */
module SearchWindow {
  import opened Wrappers
  import opened Seqs
  import opened Strings
  import opened Paths
  import opened Lines
  import opened Model
  import opened SearchEngine
  import TextViewer

  // ------------------------------------------------------ which files

  /** The split parts that exist in the project directory, in list order
      (no parent-directory fallback for parts). */
  function ExistingParts(fs: FileSystem, projectDir: Path, parts: seq<string>): (r: seq<Path>)
    decreases |parts|
  {
    if |parts| == 0 then []
    else
      var init := ExistingParts(fs, projectDir, parts[..|parts| - 1]);
      var f := Child(projectDir, parts[|parts| - 1]);
      init + (if f in fs then [f] else [])
  }

  /** The existing parts are exactly the files of the project directory
      that some listed part names. */
  lemma ExistingPartsMembers(fs: FileSystem, projectDir: Path, parts: seq<string>)
    ensures forall f :: f in ExistingParts(fs, projectDir, parts) <==>
      f in fs && exists p :: p in parts && f == Child(projectDir, p)
  {
    forall f
      ensures f in ExistingParts(fs, projectDir, parts) <==>
        f in fs && exists p :: p in parts && f == Child(projectDir, p)
    {
      ExistingPartIn(fs, projectDir, parts, f);
    }
  }

  lemma {:induction false} ExistingPartIn(fs: FileSystem, projectDir: Path, parts: seq<string>, f: Path)
    ensures f in ExistingParts(fs, projectDir, parts) <==>
      f in fs && exists p :: p in parts && f == Child(projectDir, p)
    decreases |parts|
  {
    if |parts| > 0 {
      var n := |parts| - 1;
      var init := parts[..n];
      ExistingPartIn(fs, projectDir, init, f);
      var last := Child(projectDir, parts[n]);
      var r, ri := ExistingParts(fs, projectDir, parts), ExistingParts(fs, projectDir, init);
      assert r == ri + (if last in fs then [last] else []);
      assert f in r <==> f in ri || (last in fs && f == last);
      NamedByParts(projectDir, parts, f);
    }
  }

  /** A path is named by some part when it is named by one of the earlier
      parts or by the last. */
  lemma NamedByParts(projectDir: Path, parts: seq<string>, f: Path)
    requires |parts| > 0
    ensures (exists p :: p in parts && f == Child(projectDir, p)) <==>
      (exists p :: p in parts[..|parts| - 1] && f == Child(projectDir, p)) || f == Child(projectDir, parts[|parts| - 1])
  {
    var n := |parts| - 1;
    var init := parts[..n];
    if exists p :: p in parts && f == Child(projectDir, p) {
      var p :| p in parts && f == Child(projectDir, p);
      var k :| 0 <= k < |parts| && parts[k] == p;
      if k < n {
        assert p == init[k];
      }
    }
    if exists p :: p in init && f == Child(projectDir, p) {
      var p :| p in init && f == Child(projectDir, p);
      assert p in parts;
    }
    assert parts[n] in parts;
  }

  /** The files the search task scans: the existing parts; when there are
      none (or the file was not split), the main file, taken from the
      parent directory when the project directory lacks it. */
  function FilesToSearch(fs: FileSystem, projectDir: Path, meta: FileRecord): (files: seq<Path>)
    ensures |files| >= 1
    ensures meta.splitParts.None? || |meta.splitParts.value| == 0 ==>
      files == [TextViewer.Resolve(fs, projectDir, meta.fileName)]
    ensures meta.splitParts.Some? && |ExistingParts(fs, projectDir, meta.splitParts.value)| > 0 ==>
      forall f :: f in files <==> f in fs && exists p :: p in meta.splitParts.value && f == Child(projectDir, p)
    ensures |files| > 1 || files[0] in fs ||
      files == [TextViewer.Resolve(fs, projectDir, meta.fileName)]
  {
    var main := [TextViewer.Resolve(fs, projectDir, meta.fileName)];
    if meta.splitParts.Some? && |meta.splitParts.value| > 0 then
      var existing := ExistingParts(fs, projectDir, meta.splitParts.value);
      ExistingPartsMembers(fs, projectDir, meta.splitParts.value);
      if |existing| > 0 then
        assert existing[0] in existing;
        existing
      else main
    else main
  }

  // ------------------------------------------------------ the results

  /** One line of the result list. */
  function Format(r: SearchResult): string {
    "[Line " + NatToString(r.lineNumber) + "] " + Trim(r.lineContent)
  }

  function FormatAll(rs: seq<SearchResult>): (items: seq<string>)
    ensures |items| == |rs|
    ensures forall i :: 0 <= i < |rs| ==> items[i] == Format(rs[i])
  {
    seq(|rs|, i requires 0 <= i < |rs| => Format(rs[i]))
  }

  /** The matcher `searchFile(f, query, isRegex, true)` uses; `None` for a
      regular expression that does not compile. */
  function MatcherFor(query: string, isRegex: bool, compile: (string, bool) -> Option<string -> bool>): Option<Matcher> {
    if !isRegex then Some(Plain(query, true))
    else if compile(query, true).None? then None
    else Some(RegexFind(compile(query, true).value))
  }

  /** What one file adds to the list: its formatted hits, or nothing when
      its search fails. `read` is the platform-charset decoding of
      `FileReader`. */
  function FileItems(fs: FileSystem, f: Path, query: string, isRegex: bool,
                     compile: (string, bool) -> Option<string -> bool>, read: seq<bv8> -> string): seq<string>
  {
    var m := MatcherFor(query, isRegex, compile);
    if m.None? || f !in fs then []
    else
      var lines := ReadLines(read(fs[f]));
      FormatAll(Hits(Name(f), lines, m.value, |lines|))
  }

  /** Every item of a file's hits is the formatted line of one of its
      matching lines. */
  lemma FormattedHitsSound(name: string, lines: seq<string>, m: Matcher)
    ensures forall s :: s in FormatAll(Hits(name, lines, m, |lines|)) ==>
      exists i :: 0 <= i < |lines| && LineMatches(m, lines[i])
                  && s == Format(SearchResult(name, i + 1, lines[i]))
  {
    var hits := Hits(name, lines, m, |lines|);
    var items := FormatAll(hits);
    HitsSound(name, lines, m, |lines|);
    forall s | s in items
      ensures exists i :: 0 <= i < |lines| && LineMatches(m, lines[i])
                          && s == Format(SearchResult(name, i + 1, lines[i]))
    {
      var j :| 0 <= j < |items| && items[j] == s;
      assert hits[j] in hits;
      var i := hits[j].lineNumber - 1;
      assert hits[j] == SearchResult(name, i + 1, lines[i]);
    }
  }

  /** Every matching line has its item. */
  lemma FormattedHitsComplete(name: string, lines: seq<string>, m: Matcher, k: nat)
    requires 1 <= k <= |lines| && LineMatches(m, lines[k - 1])
    ensures Format(SearchResult(name, k, lines[k - 1])) in FormatAll(Hits(name, lines, m, |lines|))
  {
    var hits := Hits(name, lines, m, |lines|);
    HitsComplete(name, lines, m, |lines|, k);
    var r := SearchResult(name, k, lines[k - 1]);
    var i :| 0 <= i < |hits| && hits[i] == r;
    assert FormatAll(hits)[i] == Format(r);
  }

  /** Each matching line of a readable file has its item in the list (the
      items a file adds are `FormatAll` of its hits, so with
      `FormattedHitsSound` it adds its matching lines, no more and no
      fewer). */
  lemma FileItemsComplete(fs: FileSystem, f: Path, query: string, isRegex: bool,
                          compile: (string, bool) -> Option<string -> bool>, read: seq<bv8> -> string, i: nat)
    requires f in fs && MatcherFor(query, isRegex, compile).Some?
    requires i < |ReadLines(read(fs[f]))|
    requires LineMatches(MatcherFor(query, isRegex, compile).value, ReadLines(read(fs[f]))[i])
    ensures Format(SearchResult(Name(f), i + 1, ReadLines(read(fs[f]))[i]))
      in FileItems(fs, f, query, isRegex, compile, read)
  {
    var m := MatcherFor(query, isRegex, compile).value;
    var lines := ReadLines(read(fs[f]));
    assert FileItems(fs, f, query, isRegex, compile, read) == FormatAll(Hits(Name(f), lines, m, |lines|));
    FormattedHitsComplete(Name(f), lines, m, i + 1);
  }

  /** Lists laid one after another. */
  function Concat(xss: seq<seq<string>>): (r: seq<string>)
    decreases |xss|
  {
    if |xss| == 0 then [] else Concat(xss[..|xss| - 1]) + xss[|xss| - 1]
  }

  lemma {:induction false} ConcatAppend(a: seq<seq<string>>, b: seq<seq<string>>)
    ensures Concat(a + b) == Concat(a) + Concat(b)
    decreases |b|
  {
    if |b| == 0 {
      assert a + b == a;
    } else {
      assert (a + b)[..|a + b| - 1] == a + b[..|b| - 1];
      ConcatAppend(a, b[..|b| - 1]);
    }
  }

  /** Each file's items, in the order the files are searched. */
  function PerFile(fs: FileSystem, files: seq<Path>, query: string, isRegex: bool,
                   compile: (string, bool) -> Option<string -> bool>, read: seq<bv8> -> string): (r: seq<seq<string>>)
    ensures |r| == |files|
    ensures forall i :: 0 <= i < |files| ==> r[i] == FileItems(fs, files[i], query, isRegex, compile, read)
  {
    seq(|files|, i requires 0 <= i < |files| => FileItems(fs, files[i], query, isRegex, compile, read))
  }

  /** The whole list: the files' items one file after another, so ordered
      by file and then by line. */
  function AllItems(fs: FileSystem, files: seq<Path>, query: string, isRegex: bool,
                    compile: (string, bool) -> Option<string -> bool>, read: seq<bv8> -> string): seq<string>
  {
    Concat(PerFile(fs, files, query, isRegex, compile, read))
  }

  /** A list that adds nothing can be dropped from the middle. */
  lemma ConcatSkipEmpty(ps: seq<seq<string>>, i: nat)
    requires i < |ps| && ps[i] == []
    ensures Concat(ps) == Concat(ps[..i]) + Concat(ps[i + 1..])
  {
    var a, b := ps[..i], ps[i + 1..];
    AroundIndex(ps, i);
    ConcatAppend(a + [ps[i]], b);
    ConcatSnoc(a, ps[i]);
    assert Concat(a) + [] == Concat(a);
  }

  lemma ConcatSnoc(a: seq<seq<string>>, x: seq<string>)
    ensures Concat(a + [x]) == Concat(a) + x
  {
    assert (a + [x])[..|a|] == a;
  }

  /** A file that is missing, or a regular expression that does not
      compile, adds nothing, and the files around it still add theirs. */
  lemma FailedFileAddsNothing(fs: FileSystem, files: seq<Path>, i: nat, query: string, isRegex: bool,
                              compile: (string, bool) -> Option<string -> bool>, read: seq<bv8> -> string)
    requires i < |files| && (files[i] !in fs || MatcherFor(query, isRegex, compile).None?)
    ensures AllItems(fs, files, query, isRegex, compile, read)
      == AllItems(fs, files[..i], query, isRegex, compile, read)
         + AllItems(fs, files[i + 1..], query, isRegex, compile, read)
  {
    var ps := PerFile(fs, files, query, isRegex, compile, read);
    assert PerFile(fs, files[..i], query, isRegex, compile, read) == ps[..i];
    assert PerFile(fs, files[i + 1..], query, isRegex, compile, read) == ps[i + 1..];
    assert ps[i] == [];
    ConcatSkipEmpty(ps, i);
  }

  // ------------------------------------------------------ find next / prev

  /** How the find bar tests a result line against the find text. A regular
      expression (whole-word mode quotes the text into one) is compiled by
      `java.util.regex` and enters as what its `find()` answers; an invalid
      regular expression matches nothing. */
  datatype FindMode =
    | RegexMode(compiled: Option<string -> bool>)
    | WholeWordMode(find: string -> bool)
    | PlainMode(caseSensitive: bool)

  predicate ItemMatches(mode: FindMode, text: string, content: string) {
    match mode
    case RegexMode(compiled) => compiled.Some? && compiled.value(content)
    case WholeWordMode(find) => find(content)
    case PlainMode(caseSensitive) => LineMatches(Plain(text, !caseSensitive), content)
  }

  /** The order `findNext` visits the indices in: cur+1, …, n-1, 0, …, cur. */
  function NextOrder(n: nat, cur: int): (order: seq<nat>)
    requires -1 <= cur < n || (n == 0 && cur == -1)
    ensures |order| == n
    ensures forall k :: 0 <= k < n ==> order[k] < n
  {
    seq(n, k requires 0 <= k < n => if cur + 1 + k < n then cur + 1 + k else cur + 1 + k - n)
  }

  /** The order `findPrev` visits the indices in: cur-1, …, 0, n-1, …, cur;
      from the top (n-1 down to 0) when cur is 0 or nothing is current. */
  function PrevOrder(n: nat, cur: int): (order: seq<nat>)
    requires -1 <= cur < n || (n == 0 && cur == -1)
    ensures |order| == n
    ensures forall k :: 0 <= k < n ==> order[k] < n
  {
    var s := if cur - 1 < 0 then n - 1 else cur - 1;
    seq(n, k requires 0 <= k < n => if s - k >= 0 then s - k else s - k + n)
  }

  /** Both orders visit every index exactly once, and the current index
      last. */
  lemma OrdersVisitAll(n: nat, cur: int, j: nat)
    requires -1 <= cur < n && j < n
    ensures exists k :: 0 <= k < n && NextOrder(n, cur)[k] == j
    ensures exists k :: 0 <= k < n && PrevOrder(n, cur)[k] == j
    ensures forall k1, k2 :: 0 <= k1 < k2 < n ==> NextOrder(n, cur)[k1] != NextOrder(n, cur)[k2]
    ensures forall k1, k2 :: 0 <= k1 < k2 < n ==> PrevOrder(n, cur)[k1] != PrevOrder(n, cur)[k2]
    ensures cur >= 0 ==> NextOrder(n, cur)[n - 1] == cur && PrevOrder(n, cur)[n - 1] == cur
  {
    var s := if cur - 1 < 0 then n - 1 else cur - 1;
    var kn := if j >= cur + 1 then j - cur - 1 else j + n - cur - 1;
    assert NextOrder(n, cur)[kn] == j;
    var kp := if j <= s then s - j else s - j + n;
    assert PrevOrder(n, cur)[kp] == j;
  }

  /** The first position in `order` whose item matches, or -1. */
  function FirstPos(order: seq<nat>, items: seq<string>, mode: FindMode, text: string): (p: int)
    requires forall k :: 0 <= k < |order| ==> order[k] < |items|
    ensures -1 <= p < |order|
    ensures p >= 0 ==> ItemMatches(mode, text, items[order[p]])
    ensures forall q :: 0 <= q < |order| && (p < 0 || q < p) ==> !ItemMatches(mode, text, items[order[q]])
    decreases |order|
  {
    if |order| == 0 then -1
    else if ItemMatches(mode, text, items[order[0]]) then 0
    else
      var p := FirstPos(order[1..], items, mode, text);
      assert forall q :: 1 <= q < |order| ==> order[q] == order[1..][q - 1];
      if p < 0 then -1 else p + 1
  }

  /** The rows from `lo` to `hi`, both included, that the list has. */
  function Rows(lo: int, hi: int, n: nat): (r: set<int>)
    ensures forall j :: j in r <==> lo <= j <= hi && 0 <= j < n
    decreases n
  {
    if n == 0 then {} else Rows(lo, hi, n - 1) + (if lo <= n - 1 <= hi then {n - 1} else {})
  }

  /** One upward scan of the find bar: the first index from `lo` up to
      `hi` (excluded) whose item matches, or -1. */
  method ScanUp(items: seq<string>, mode: FindMode, t: string, lo: int, hi: int) returns (found: int)
    requires 0 <= lo <= hi <= |items|
    ensures found == -1 || lo <= found < hi
    ensures found >= 0 ==> ItemMatches(mode, t, items[found])
    ensures forall j :: lo <= j < hi && (found < 0 || j < found) ==> !ItemMatches(mode, t, items[j])
  {
    var i := lo;
    while i < hi
      invariant lo <= i <= hi
      invariant forall j :: lo <= j < i ==> !ItemMatches(mode, t, items[j])
    {
      if ItemMatches(mode, t, items[i]) {
        return i;
      }
      i := i + 1;
    }
    return -1;
  }

  /** One downward scan of the find bar: the first index from `hi` down to
      `lo` (both included) whose item matches, or -1. */
  method ScanDown(items: seq<string>, mode: FindMode, t: string, hi: int, lo: int) returns (found: int)
    requires 0 <= lo <= hi + 1 <= |items|
    ensures found == -1 || lo <= found <= hi
    ensures found >= 0 ==> ItemMatches(mode, t, items[found])
    ensures forall j :: lo <= j <= hi && found < j ==> !ItemMatches(mode, t, items[j])
  {
    var i := hi;
    while i >= lo
      invariant lo - 1 <= i <= hi
      invariant forall j :: i < j <= hi ==> !ItemMatches(mode, t, items[j])
    {
      if ItemMatches(mode, t, items[i]) {
        return i;
      }
      i := i - 1;
    }
    return -1;
  }

  /** The two scans of `findNext`: from cur+1 to the end, then from the
      start up to cur. Answers the first matching index met, or -1. */
  method ScanNext(items: seq<string>, mode: FindMode, t: string, cur: int) returns (found: int)
    requires -1 <= cur < |items|
    ensures var order := NextOrder(|items|, cur);
      var p := FirstPos(order, items, mode, t);
      if p < 0 then found == -1 else found == order[p]
  {
    ghost var order := NextOrder(|items|, cur);
    var start := cur + 1;
    found := ScanUp(items, mode, t, start, |items|);
    if found >= 0 {
      assert order[found - start] == found;
      assert forall q :: 0 <= q < found - start ==> order[q] == start + q;
      return;
    }
    found := ScanUp(items, mode, t, 0, start);
    if found >= 0 {
      assert order[|items| - start + found] == found;
      assert forall q :: 0 <= q < |items| - start + found ==> order[q] == if q < |items| - start then start + q else q - |items| + start;
      return;
    }
    assert forall q :: 0 <= q < |order| ==> !ItemMatches(mode, t, items[order[q]]);
  }

  /** The two scans of `findPrev`: from the start index down to 0, then
      from the last index down past it. Answers the first matching index
      met, or -1. */
  method ScanPrev(items: seq<string>, mode: FindMode, t: string, cur: int) returns (found: int)
    requires -1 <= cur < |items|
    ensures var order := PrevOrder(|items|, cur);
      var p := FirstPos(order, items, mode, t);
      if p < 0 then found == -1 else found == order[p]
  {
    ghost var order := PrevOrder(|items|, cur);
    var start := cur - 1;
    if start < 0 {
      start := |items| - 1;
    }
    found := ScanDown(items, mode, t, start, 0);
    if found >= 0 {
      PrevFirstScan(items, mode, t, cur, start, found);
      return;
    }
    found := ScanDown(items, mode, t, |items| - 1, start + 1);
    PrevSecondScan(items, mode, t, cur, start, found);
  }

  /** The first position of `order` whose item matches is `p` when the item
      at `p` matches and none before it does. */
  lemma FirstPosAt(order: seq<nat>, items: seq<string>, mode: FindMode, t: string, p: int)
    requires forall k :: 0 <= k < |order| ==> order[k] < |items|
    requires 0 <= p < |order| && ItemMatches(mode, t, items[order[p]])
    requires forall q :: 0 <= q < p ==> !ItemMatches(mode, t, items[order[q]])
    ensures FirstPos(order, items, mode, t) == p
  {
  }

  /** A match in the first downward scan of `findPrev` is the first match
      of its order. */
  lemma PrevFirstScan(items: seq<string>, mode: FindMode, t: string, cur: int, start: int, found: int)
    requires -1 <= cur < |items| && start == (if cur - 1 < 0 then |items| - 1 else cur - 1)
    requires 0 <= found <= start && ItemMatches(mode, t, items[found])
    requires forall j :: 0 <= j <= start && found < j ==> !ItemMatches(mode, t, items[j])
    ensures var order := PrevOrder(|items|, cur);
      var p := FirstPos(order, items, mode, t);
      p >= 0 && found == order[p]
  {
    var order := PrevOrder(|items|, cur);
    assert order[start - found] == found;
    assert forall q :: 0 <= q < start - found ==> order[q] == start - q;
    FirstPosAt(order, items, mode, t, start - found);
  }

  /** After a fruitless first scan, the second downward scan of `findPrev`
      finds the first match of its order, or there is none. */
  lemma PrevSecondScan(items: seq<string>, mode: FindMode, t: string, cur: int, start: int, found: int)
    requires -1 <= cur < |items| && start == (if cur - 1 < 0 then |items| - 1 else cur - 1)
    requires forall j :: 0 <= j <= start ==> !ItemMatches(mode, t, items[j])
    requires found == -1 || start + 1 <= found <= |items| - 1
    requires found >= 0 ==> ItemMatches(mode, t, items[found])
    requires forall j :: start + 1 <= j <= |items| - 1 && found < j ==> !ItemMatches(mode, t, items[j])
    ensures var order := PrevOrder(|items|, cur);
      var p := FirstPos(order, items, mode, t);
      if p < 0 then found == -1 else found == order[p]
  {
    var order := PrevOrder(|items|, cur);
    if found >= 0 {
      assert order[start - found + |items|] == found;
      assert forall q :: 0 <= q < start - found + |items| ==> order[q] == if q <= start then start - q else start - q + |items|;
      FirstPosAt(order, items, mode, t, start - found + |items|);
    } else {
      assert forall q :: 0 <= q < |order| ==> !ItemMatches(mode, t, items[order[q]]);
    }
  }

  /** The first half of the search task: the files to scan. */
  method CollectFiles(fs: FileSystem, projectDir: Path, meta: FileRecord) returns (files: seq<Path>)
    ensures files == FilesToSearch(fs, projectDir, meta)
  {
    files := [];
    if meta.splitParts.Some? && |meta.splitParts.value| > 0 {
      var parts := meta.splitParts.value;
      var partsExist := false;
      var i := 0;
      while i < |parts|
        invariant 0 <= i <= |parts|
        invariant files == ExistingParts(fs, projectDir, parts[..i])
        invariant partsExist <==> |files| > 0
      {
        assert parts[..i + 1][..i] == parts[..i];
        var partFile := Child(projectDir, parts[i]);
        if partFile in fs {
          files := files + [partFile];
          partsExist := true;
        }
        i := i + 1;
      }
      assert parts[..i] == parts;
      if !partsExist {
        files := files + [TextViewer.Resolve(fs, projectDir, meta.fileName)];
      }
    } else {
      files := files + [TextViewer.Resolve(fs, projectDir, meta.fileName)];
    }
  }

  /** The second half: every file searched with `ignoreCase` on, its hits
      formatted; a failing search (missing file, bad pattern) is caught and
      the next file is searched. */
  method SearchFiles(fs: FileSystem, files: seq<Path>, query: string, isRegex: bool,
                     compile: (string, bool) -> Option<string -> bool>, read: seq<bv8> -> string)
    returns (allMatches: seq<string>)
    ensures allMatches == AllItems(fs, files, query, isRegex, compile, read)
  {
    allMatches := [];
    ghost var perFile := PerFile(fs, files, query, isRegex, compile, read);
    var j := 0;
    while j < |files|
      invariant 0 <= j <= |files|
      invariant allMatches == Concat(perFile[..j])
    {
      assert perFile[..j + 1][..j] == perFile[..j];
      var f := files[j];
      var text := if f in fs then Some(read(fs[f])) else None;
      var r := SearchFile(Name(f), text, query, isRegex, true, compile);
      if r.Ok? {
        allMatches := allMatches + FormatAll(r.value);
      }
      assert perFile[j] == if r.Ok? then FormatAll(r.value) else [];
      j := j + 1;
    }
    assert perFile[..j] == perFile;
  }

  class SearchWindow {
    const meta: FileRecord
    const projectDir: Path
    const request: TextViewer.SearchRequest
    /** The result list's items. */
    var items: seq<string>
    /** `currentSearchIndex`: the last item find-next/prev selected, or -1. */
    var current: int
    /** The indices selected in the result list. */
    var selected: set<int>
    var dragAnchor: int
    var dragging: bool

    predicate Valid()
      reads this
    {
      -1 <= current < |items| && -1 <= dragAnchor
    }

    constructor (meta: FileRecord, projectDir: Path, request: TextViewer.SearchRequest)
      ensures this.meta == meta && this.projectDir == projectDir && this.request == request
      ensures items == [] && current == -1 && selected == {} && dragAnchor == -1 && !dragging
      ensures Valid()
    {
      this.meta := meta;
      this.projectDir := projectDir;
      this.request := request;
      items := [];
      current := -1;
      selected := {};
      dragAnchor := -1;
      dragging := false;
    }

    /** The search task of `show()`: picks the files, searches each one
        case-insensitively, and appends every hit as "[Line n] text"; a
        file whose search fails adds nothing. */
    method RunSearch(fs: FileSystem, compile: (string, bool) -> Option<string -> bool>, read: seq<bv8> -> string)
      returns (files: seq<Path>)
      requires Valid()
      modifies this
      ensures Valid()
      ensures files == FilesToSearch(fs, projectDir, meta)
      ensures items == old(items) + AllItems(fs, files, request.query, request.isRegex, compile, read)
      ensures current == old(current) && selected == old(selected)
      ensures dragAnchor == old(dragAnchor) && dragging == old(dragging)
    {
      files := CollectFiles(fs, projectDir, meta);
      var allMatches := SearchFiles(fs, files, request.query, request.isRegex, compile, read);
      items := items + allMatches;
    }

    /** `selectAndScroll(index)`: that index becomes current and is the only
        one selected. */
    method SelectAndScroll(index: int)
      requires 0 <= index < |items|
      modifies this
      ensures current == index && selected == {index}
      ensures items == old(items) && dragAnchor == old(dragAnchor) && dragging == old(dragging)
    {
      current := index;
      selected := {};
      selected := selected + {index};
    }

    /** `findNext(text)`: selects the first matching item after the current
        one, wrapping round to the start; the current item is tried last.
        No text, or no match, changes nothing. */
    method FindNext(mode: FindMode, text: Option<string>)
      requires Valid()
      modifies this
      ensures Valid()
      ensures items == old(items) && dragAnchor == old(dragAnchor) && dragging == old(dragging)
      ensures text.None? || text.value == "" ==> current == old(current) && selected == old(selected)
      ensures text.Some? && text.value != "" ==>
        var order := NextOrder(|items|, old(current));
        var p := FirstPos(order, items, mode, text.value);
        if p < 0 then current == old(current) && selected == old(selected)
        else current == order[p] && selected == {current}
    {
      if text.None? || text.value == "" {
        return;
      }
      var found := ScanNext(items, mode, text.value, current);
      if found >= 0 {
        SelectAndScroll(found);
      }
    }

    /** `findPrev(text)`: selects the first matching item before the
        current one, wrapping round to the end; the current item is tried
        last. With nothing current, or the first item current, the scan
        starts at the last item. */
    method FindPrev(mode: FindMode, text: Option<string>)
      requires Valid()
      modifies this
      ensures Valid()
      ensures items == old(items) && dragAnchor == old(dragAnchor) && dragging == old(dragging)
      ensures text.None? || text.value == "" ==> current == old(current) && selected == old(selected)
      ensures text.Some? && text.value != "" ==>
        var order := PrevOrder(|items|, old(current));
        var p := FirstPos(order, items, mode, text.value);
        if p < 0 then current == old(current) && selected == old(selected)
        else current == order[p] && selected == {current}
    {
      if text.None? || text.value == "" {
        return;
      }
      var found := ScanPrev(items, mode, text.value, current);
      if found >= 0 {
        SelectAndScroll(found);
      }
    }

    /** A primary-button press on the row at `index` starts a drag there;
        without Ctrl or Shift it also makes that row the only selected one
        (none, for a row past the end). */
    method MousePressed(index: int, primary: bool, ctrl: bool, shift: bool)
      requires Valid() && -1 <= index
      modifies this
      ensures Valid()
      ensures items == old(items) && current == old(current)
      ensures !primary ==> selected == old(selected) && dragAnchor == old(dragAnchor) && dragging == old(dragging)
      ensures primary ==> dragging && dragAnchor == index
      ensures primary && !ctrl && !shift ==> selected == if 0 <= index < |items| then {index} else {}
      ensures primary && (ctrl || shift) ==> selected == old(selected)
    {
      if primary {
        dragging := true;
        dragAnchor := index;
        if !ctrl && !shift {
          selected := if 0 <= index < |items| then {index} else {};
        }
      }
    }

    /** Dragging onto the row at `index` selects every row between the
        anchor and it, both included; without Ctrl the earlier selection is
        dropped first. */
    method DragEntered(index: int, primary: bool, ctrl: bool)
      requires Valid()
      modifies this
      ensures Valid()
      ensures items == old(items) && current == old(current)
      ensures dragAnchor == old(dragAnchor) && dragging == old(dragging)
      ensures !(primary && old(dragAnchor) >= 0 && index >= 0) ==> selected == old(selected)
      ensures primary && old(dragAnchor) >= 0 && index >= 0 ==>
        forall j :: j in selected <==>
          ((ctrl && j in old(selected))
           || (0 <= j < |items| && (dragAnchor <= j <= index || index <= j <= dragAnchor)))
    {
      if primary && dragAnchor >= 0 && index >= 0 {
        if !ctrl {
          selected := {};
        }
        var lo := if dragAnchor <= index then dragAnchor else index;
        var hi := if dragAnchor <= index then index else dragAnchor;
        selected := selected + Rows(lo, hi, |items|);
      }
    }
  }
}

=== FILE: seqs.dfy ===
/** Small facts about sequences that several modules lean on, stated once
    for any element type so that the solver never has to rediscover them
    for sequences of paths, lines or chunks. */
module Seqs {

  /** The prefix one longer is the prefix plus the next element. */
  lemma TakeSnoc<T>(s: seq<T>, i: nat)
    requires i < |s|
    ensures s[..i + 1] == s[..i] + [s[i]]
  {
  }

  /** Consing and snocing commute. */
  lemma ConsSnoc<T>(x: T, s: seq<T>, y: T)
    ensures [x] + (s + [y]) == ([x] + s) + [y]
  {
  }

  /** A non-empty sequence with an element after it, rebuilt from its head
      and tail. */
  lemma HeadTailSnoc<T>(s: seq<T>, y: T)
    requires |s| > 0
    ensures [s[0]] + (s[1..] + [y]) == s + [y]
  {
    assert [s[0]] + s[1..] == s;
  }

  /** A sequence is what comes before an index, the element there, and what
      comes after. */
  lemma AroundIndex<T>(s: seq<T>, i: nat)
    requires i < |s|
    ensures s == s[..i] + [s[i]] + s[i + 1..]
  {
  }

  /** Being a prefix is transitive. */
  lemma PrefixChain<T>(r0: seq<T>, r1: seq<T>, r2: seq<T>)
    requires |r0| <= |r1| && r1[..|r0|] == r0
    requires |r1| <= |r2| && r2[..|r1|] == r1
    ensures |r0| <= |r2| && r2[..|r0|] == r0
  {
    assert r2[..|r0|] == r2[..|r1|][..|r0|];
  }

  /** Dropping the last element of a concatenation with a non-empty right
      side drops it from the right side. */
  lemma AppendInit<T>(a: seq<T>, b: seq<T>)
    requires |b| > 0
    ensures (a + b)[..|a + b| - 1] == a + b[..|b| - 1]
    ensures (a + b)[|a + b| - 1] == b[|b| - 1]
  {
  }

  /** Concatenation is associative. */
  lemma AppendAssoc<T>(a: seq<T>, b: seq<T>, c: seq<T>)
    ensures (a + b) + c == a + (b + c)
  {
  }

  /** The position of the first element whose key is `k`, or -1. */
  function FirstIndex<T, K(==)>(s: seq<T>, key: T -> K, k: K): (r: int)
    ensures -1 <= r < |s|
    ensures r >= 0 ==> key(s[r]) == k
    ensures forall j :: 0 <= j < |s| && (r < 0 || j < r) ==> key(s[j]) != k
    decreases |s|
  {
    if |s| == 0 then -1
    else if key(s[0]) == k then 0
    else
      var r := FirstIndex(s[1..], key, k);
      if r < 0 then -1 else r + 1
  }
}

=== FILE: strings.dfy ===
/** String operations of the Java and JavaScript standard libraries that the
    model relies on: prefix and suffix tests, substring search, ASCII case
    folding, the two `trim`s, splitting on one character, joining, and the
    decimal rendering of a counter (`"_sub" + i`, `"[Line " + n + "] "`). */
module Strings {

  predicate StartsWith(s: string, p: string) {
    |p| <= |s| && s[..|p|] == p
  }

  predicate EndsWith(s: string, p: string) {
    |p| <= |s| && s[|s| - |p|..] == p
  }

  /** `s.contains(sub)` (Java) and `s.includes(sub)` (JavaScript). */
  predicate Contains(s: string, sub: string) {
    exists i | 0 <= i <= |s| - |sub| :: OccursAt(s, sub, i)
  }

  predicate OccursAt(s: string, sub: string, i: int) {
    0 <= i && i + |sub| <= |s| && s[i..i + |sub|] == sub
  }

  lemma ContainsEmpty(s: string)
    ensures Contains(s, "")
  {
    assert OccursAt(s, "", 0);
  }

  /** ASCII case folding: what `Pattern.CASE_INSENSITIVE` (without
      `UNICODE_CASE`) and a `/i` flag on an ASCII pattern compare by. */
  function Lower(c: char): char {
    if 'A' <= c <= 'Z' then (c as int + 32) as char else c
  }

  function LowerStr(s: string): string {
    seq(|s|, i requires 0 <= i < |s| => Lower(s[i]))
  }

  lemma LowerStrAppend(a: string, b: string)
    ensures LowerStr(a + b) == LowerStr(a) + LowerStr(b)
  {
  }

  /** Case-insensitive suffix test: `s.toLowerCase().endsWith(p)` for a
      lower-case ASCII `p`. */
  predicate EndsWithIgnoreCase(s: string, p: string) {
    EndsWith(LowerStr(s), LowerStr(p))
  }

  predicate StartsWithIgnoreCase(s: string, p: string) {
    StartsWith(LowerStr(s), LowerStr(p))
  }

  // ---------------------------------------------------------------- decimal

  function Digit(d: nat): char
    requires d < 10
  {
    (d + '0' as int) as char
  }

  function DigitValue(c: char): nat {
    if '0' <= c <= '9' then c as int - '0' as int else 0
  }

  /** The decimal rendering of `n`, as Java's string concatenation and
      JavaScript's template literals print an integer. */
  function NatToString(n: nat): (s: string)
    ensures 1 <= |s|
    decreases n
  {
    if n < 10 then [Digit(n)] else NatToString(n / 10) + [Digit(n % 10)]
  }

  function ParseDecimal(s: string): nat
    decreases |s|
  {
    if |s| == 0 then 0 else ParseDecimal(s[..|s| - 1]) * 10 + DigitValue(s[|s| - 1])
  }

  lemma {:induction false} ParseNatToString(n: nat)
    ensures ParseDecimal(NatToString(n)) == n
    decreases n
  {
    if n >= 10 {
      var s := NatToString(n);
      assert s[..|s| - 1] == NatToString(n / 10);
      ParseNatToString(n / 10);
    }
  }

  /** Different counters render differently, so `"_sub" + i` and `"_" + k`
      names built from them are pairwise distinct. */
  lemma NatToStringInjective(m: nat, n: nat)
    ensures NatToString(m) == NatToString(n) ==> m == n
  {
    ParseNatToString(m);
    ParseNatToString(n);
  }

  /** A name with a counter in it: `base + "_" + i + "." + ext`,
      `nameOnly + "_sub" + i + ext`, `"nested_" + k + ".zip"`. */
  function Numbered(prefix: string, k: nat, suffix: string): string {
    prefix + NatToString(k) + suffix
  }

  /** Different counters give different names. */
  lemma NumberedInjective(prefix: string, suffix: string, j: nat, k: nat)
    ensures Numbered(prefix, j, suffix) == Numbered(prefix, k, suffix) ==> j == k
  {
    var x, y := NatToString(j), NatToString(k);
    if prefix + x + suffix == prefix + y + suffix {
      assert |x| == |y|;
      assert x == (prefix + x + suffix)[|prefix|..|prefix| + |x|];
      assert y == (prefix + y + suffix)[|prefix|..|prefix| + |y|];
      NatToStringInjective(j, k);
    }
  }

  // ------------------------------------------------------------------- trim

  /** The characters `String.trim()` removes in Java: every code point up to
      and including U+0020. */
  predicate IsJavaSpace(c: char) {
    c <= ' '
  }

  /** The characters `String.prototype.trim()` removes in JavaScript: the
      WhiteSpace and LineTerminator productions of ECMAScript. */
  predicate IsJsSpace(c: char) {
    var k := c as int;
    k == 0x09 || k == 0x0A || k == 0x0B || k == 0x0C || k == 0x0D || k == 0x20
    || k == 0xA0 || k == 0x1680 || (0x2000 <= k <= 0x200A) || k == 0x2028
    || k == 0x2029 || k == 0x202F || k == 0x205F || k == 0x3000 || k == 0xFEFF
  }

  function TrimLeft(s: string, space: char -> bool): (r: string)
    ensures |r| <= |s| && r == s[|s| - |r|..]
    ensures |r| == 0 || !space(r[0])
    decreases |s|
  {
    if |s| > 0 && space(s[0]) then TrimLeft(s[1..], space) else s
  }

  function TrimRight(s: string, space: char -> bool): (r: string)
    ensures |r| <= |s| && r == s[..|r|]
    ensures |r| == 0 || !space(r[|r| - 1])
    decreases |s|
  {
    if |s| > 0 && space(s[|s| - 1]) then TrimRight(s[..|s| - 1], space) else s
  }

  /** Everything `TrimLeft` drops is removable. */
  lemma {:induction false} TrimLeftSpaces(s: string, space: char -> bool)
    ensures forall i :: 0 <= i < |s| - |TrimLeft(s, space)| ==> space(s[i])
    decreases |s|
  {
    if |s| > 0 && space(s[0]) {
      var r := TrimLeft(s[1..], space);
      TrimLeftSpaces(s[1..], space);
      forall i | 1 <= i < |s| - |r| ensures space(s[i]) {
        assert s[i] == s[1..][i - 1];
      }
    }
  }

  /** Everything `TrimRight` drops is removable. */
  lemma {:induction false} TrimRightSpaces(s: string, space: char -> bool)
    ensures forall i :: |TrimRight(s, space)| <= i < |s| ==> space(s[i])
    decreases |s|
  {
    if |s| > 0 && space(s[|s| - 1]) {
      var t := s[..|s| - 1];
      TrimRightSpaces(t, space);
      forall i | |TrimRight(t, space)| <= i < |s| - 1 ensures space(s[i]) {
        assert s[i] == t[i];
      }
    }
  }

  /** Removes the leading and trailing characters that satisfy `space`. */
  function TrimBy(s: string, space: char -> bool): string {
    TrimRight(TrimLeft(s, space), space)
  }

  /** Java's `String.trim()`. */
  function Trim(s: string): string {
    TrimBy(s, IsJavaSpace)
  }

  /** JavaScript's `String.prototype.trim()`. */
  function JsTrim(s: string): string {
    TrimBy(s, IsJsSpace)
  }

  predicate IsTrimmed(s: string, space: char -> bool) {
    |s| == 0 || (!space(s[0]) && !space(s[|s| - 1]))
  }

  /** `TrimBy(s, space)` is `s[i..j]`, with only removable characters
      before `i` and from `j` on. */
  predicate TrimCut(s: string, space: char -> bool, i: int, j: int) {
    0 <= i <= j <= |s| && TrimBy(s, space) == s[i..j]
    && (forall k :: 0 <= k < i ==> space(s[k]))
    && (forall k :: j <= k < |s| ==> space(s[k]))
  }

  /** The trimmed string is a slice of the input with only removable
      characters cut off at either end. */
  lemma TrimBySlice(s: string, space: char -> bool)
    ensures exists i, j :: TrimCut(s, space, i, j)
  {
    var l := TrimLeft(s, space);
    var r := TrimRight(l, space);
    var i := |s| - |l|;
    var j := i + |r|;
    TrimLeftSpaces(s, space);
    TrimRightSpaces(l, space);
    forall m | 0 <= m < |r| ensures r[m] == s[i + m] {
      assert r[m] == l[m];
    }
    assert r == s[i..j];
    forall k | j <= k < |s| ensures space(s[k]) {
      assert s[k] == l[k - i];
    }
    assert TrimCut(s, space, i, j);
  }

  /** The result of a trim starts and ends with a kept character, and is the
      input minus a run of removable characters at each end. */
  lemma TrimByProperties(s: string, space: char -> bool)
    ensures IsTrimmed(TrimBy(s, space), space)
    ensures exists i, j :: TrimCut(s, space, i, j)
  {
    var l := TrimLeft(s, space);
    var r := TrimRight(l, space);
    if |r| > 0 {
      assert r[0] == l[0];
    }
    TrimBySlice(s, space);
  }

  /** Removable characters in front of an already trimmed string are all
      that a trim takes away. */
  lemma {:induction false} TrimPadded(pad: string, k: string, space: char -> bool)
    requires forall i :: 0 <= i < |pad| ==> space(pad[i])
    requires IsTrimmed(k, space)
    ensures TrimBy(pad + k, space) == k
    decreases |pad|
  {
    if |pad| == 0 {
      assert pad + k == k;
      if |k| > 0 {
        assert TrimLeft(k, space) == k;
        assert TrimRight(k, space) == k;
      }
    } else {
      assert (pad + k)[1..] == pad[1..] + k;
      TrimPadded(pad[1..], k, space);
    }
  }

  lemma TrimOfTrimmed(k: string, space: char -> bool)
    requires IsTrimmed(k, space)
    ensures TrimBy(k, space) == k
  {
    TrimPadded("", k, space);
    assert "" + k == k;
  }

  // ----------------------------------------------------------- split / join

  /** Cuts `s` at every occurrence of `sep`, keeping empty pieces. */
  function Split(s: string, sep: char): (r: seq<string>)
    ensures |r| >= 1
    decreases |s|
  {
    if |s| == 0 then [""]
    else
      var rest := Split(s[1..], sep);
      if s[0] == sep then [""] + rest else [[s[0]] + rest[0]] + rest[1..]
  }

  /** Every piece of a split is free of the separator. */
  lemma {:induction false} SplitPiecesFree(s: string, sep: char)
    ensures forall p :: p in Split(s, sep) ==> sep !in p
    decreases |s|
  {
    if |s| > 0 {
      SplitPiecesFree(s[1..], sep);
    }
  }

  lemma {:induction false} SplitNoSep(a: string, sep: char)
    requires sep !in a
    ensures Split(a, sep) == [a]
    decreases |a|
  {
    if |a| > 0 {
      SplitNoSep(a[1..], sep);
      assert [a[0]] + a[1..] == a;
    }
  }

  lemma {:induction false} SplitCons(a: string, sep: char, b: string)
    requires sep !in a
    ensures Split(a + [sep] + b, sep) == [a] + Split(b, sep)
    decreases |a|
  {
    if |a| == 0 {
      assert a + [sep] + b == [sep] + b;
      assert ([sep] + b)[1..] == b;
    } else {
      assert (a + [sep] + b)[1..] == a[1..] + [sep] + b;
      SplitCons(a[1..], sep, b);
      assert [a[0]] + a[1..] == a;
    }
  }

  function Join(xs: seq<string>, sep: string): string
    decreases |xs|
  {
    if |xs| == 0 then "" else if |xs| == 1 then xs[0] else xs[0] + sep + Join(xs[1..], sep)
  }

  /** Splitting a join on a separator no piece contains gives the pieces back. */
  lemma {:induction false} SplitJoin(xs: seq<string>, sep: char)
    requires |xs| >= 1
    requires forall i :: 0 <= i < |xs| ==> sep !in xs[i]
    ensures Split(Join(xs, [sep]), sep) == xs
    decreases |xs|
  {
    if |xs| == 1 {
      SplitNoSep(xs[0], sep);
    } else {
      SplitJoin(xs[1..], sep);
      SplitCons(xs[0], sep, Join(xs[1..], [sep]));
      assert [xs[0]] + xs[1..] == xs;
    }
  }

  // ---------------------------------------------------------------- indices

  /** `s.lastIndexOf(c)`: the position of the last `c`, or -1. */
  function LastIndexOf(s: string, c: char): (r: int)
    ensures -1 <= r < |s|
    ensures r >= 0 ==> s[r] == c
    ensures forall j :: r < j < |s| ==> s[j] != c
    decreases |s|
  {
    if |s| == 0 then -1
    else if s[|s| - 1] == c then |s| - 1
    else LastIndexOf(s[..|s| - 1], c)
  }

  /** Java's `.` in a regular expression matches anything but these. */
  predicate IsJavaLineTerminator(c: char) {
    c == '\n' || c == '\r' || c as int == 0x85 || c as int == 0x2028 || c as int == 0x2029
  }

  /** JavaScript's `.` matches anything but these. */
  predicate IsJsLineTerminator(c: char) {
    c == '\n' || c == '\r' || c as int == 0x2028 || c as int == 0x2029
  }
}

=== FILE: text_splitter_js.dfy ===
/** `TextSplitter.splitFile` of the Node prototype: a text file is cut into
    10 to 100 chunk files along line boundaries. The chunk count follows
    the size the file system reports, the chunk size is that size divided
    by the count, rounded up, and a new chunk starts before a line once the
    current chunk holds at least that many UTF-8 bytes. There is no size
    threshold: every file is chunked. The file's text enters already cut
    into lines (Node's `readline` cuts the way `Lines.ReadLines` does). */
module TextSplitterJs {
  import opened Strings
  import opened Paths
  import opened Lines
  import FileSplitter

  const MiB: nat := 1024 * 1024
  const MinChunks: nat := 10
  const MaxChunks: nat := 100

  // ---------------------------------------------------------- chunk count

  /** The chunk count: 100 above 1000 MiB, the size in whole 10 MiB units
      above 100 MiB, 10 otherwise, then kept within 10..100. */
  function SplitCount(size: nat): (n: nat)
    ensures MinChunks <= n <= MaxChunks
  {
    var c := if size > 1000 * MiB then 100
             else if size > 100 * MiB then size / (10 * MiB)
             else 10;
    if c > MaxChunks then MaxChunks else if c < MinChunks then MinChunks else c
  }

  lemma DivDiv(size: nat)
    ensures size / MiB / 10 == size / (10 * MiB)
  {
    var q := size / (10 * MiB);
    var r := size % (10 * MiB);
    assert size == q * (10 * MiB) + r;
    assert size == (10 * q + r / MiB) * MiB + r % MiB;
    assert size / MiB == 10 * q + r / MiB;
  }

  /** The prototype and the Java splitter agree on how many pieces a file
      of a given size gets, although they state the rule differently. */
  lemma SplitCountAgrees(size: nat)
    ensures SplitCount(size) == FileSplitter.PartCount(size)
  {
    DivDiv(size);
    if size > 1000 * MiB {
      assert size / (10 * MiB) >= 100;
    } else if size <= 100 * MiB {
      assert size / (10 * MiB) <= 10;
    }
  }

  /** `Math.ceil(fileSize / splitCount)`. */
  function ChunkSize(size: nat, count: nat): nat
    requires count > 0
  {
    (size + count - 1) / count
  }

  /** The chunk size is the smallest size of which `count` chunks hold the
      whole file. */
  lemma ChunkSizeIsCeiling(size: nat, count: nat)
    requires count > 0
    ensures ChunkSize(size, count) * count >= size
    ensures ChunkSize(size, count) > 0 ==> (ChunkSize(size, count) - 1) * count < size
  {
    var c := ChunkSize(size, count);
    var r := (size + count - 1) % count;
    assert c * count + r == size + count - 1;
  }

  // ---------------------------------------------------------- byte length

  /** The bytes the UTF-8 encoding of one character takes. */
  function CharBytes(c: char): nat {
    if c as int < 0x80 then 1
    else if c as int < 0x800 then 2
    else if c as int < 0x1_0000 then 3
    else 4
  }

  /** `Buffer.byteLength(s, 'utf8')`. */
  function Utf8Length(s: string): (n: nat)
    ensures |s| <= n <= 4 * |s|
    decreases |s|
  {
    if |s| == 0 then 0 else Utf8Length(s[..|s| - 1]) + CharBytes(s[|s| - 1])
  }

  lemma {:induction false} Utf8LengthAppend(a: string, b: string)
    ensures Utf8Length(a + b) == Utf8Length(a) + Utf8Length(b)
    decreases |b|
  {
    if |b| == 0 {
      assert a + b == a;
    } else {
      assert (a + b)[..|a + b| - 1] == a + b[..|b| - 1];
      Utf8LengthAppend(a, b[..|b| - 1]);
    }
  }

  // ------------------------------------------------------------ grouping

  /** The lines each chunk receives when `lines` are read in order: a line
      starts a new chunk when the current one already holds `chunkSize`
      bytes or more and fewer than `count` chunks exist; otherwise it joins
      the current chunk. */
  function Group(lines: seq<string>, chunkSize: nat, count: nat): (g: seq<seq<string>>)
    requires count >= 1
    ensures 1 <= |g| <= count
    decreases |lines|
  {
    if |lines| == 0 then [[]]
    else
      var g := Group(lines[..|lines| - 1], chunkSize, count);
      var line := lines[|lines| - 1];
      if Utf8Length(Unlines(g[|g| - 1])) >= chunkSize && |g| < count then g + [[line]]
      else g[..|g| - 1] + [g[|g| - 1] + [line]]
  }

  /** The last line joins the grouping of the lines before it. */
  lemma GroupLast(lines: seq<string>, chunkSize: nat, count: nat)
    requires |lines| > 0 && count >= 1
    ensures var g := Group(lines[..|lines| - 1], chunkSize, count);
      var line := lines[|lines| - 1];
      Group(lines, chunkSize, count)
        == if Utf8Length(Unlines(g[|g| - 1])) >= chunkSize && |g| < count then g + [[line]]
           else g[..|g| - 1] + [g[|g| - 1] + [line]]
  {
  }

  /** The chunks hold the lines in order: none is lost, repeated or moved. */
  lemma {:induction false} GroupFlatten(lines: seq<string>, chunkSize: nat, count: nat)
    requires count >= 1
    ensures Flatten(Group(lines, chunkSize, count)) == lines
    decreases |lines|
  {
    if |lines| > 0 {
      var init := lines[..|lines| - 1];
      var line := lines[|lines| - 1];
      assert lines == init + [line];
      var g := Group(init, chunkSize, count);
      GroupFlatten(init, chunkSize, count);
      FlattenAddLine(g, line);
    }
  }

  /** Whether the next line opens a chunk or joins the last one, it comes
      after everything before it. */
  lemma FlattenAddLine(g: seq<seq<string>>, line: string)
    requires |g| >= 1
    ensures Flatten(g + [[line]]) == Flatten(g) + [line]
    ensures Flatten(g[..|g| - 1] + [g[|g| - 1] + [line]]) == Flatten(g) + [line]
  {
    var init, cur := g[..|g| - 1], g[|g| - 1];
    FlattenSnoc(g, [line]);
    assert Flatten(g) == Flatten(init) + cur;
    FlattenSnoc(init, cur + [line]);
    assert (Flatten(init) + cur) + [line] == Flatten(init) + (cur + [line]);
  }

  lemma FlattenSnoc(g: seq<seq<string>>, c: seq<string>)
    ensures Flatten(g + [c]) == Flatten(g) + c
  {
    assert (g + [c])[..|g|] == g;
  }

  /** A chunk is closed only once it holds at least `chunkSize` bytes:
      every chunk but the last does. */
  lemma {:induction false} GroupClosedChunksFull(lines: seq<string>, chunkSize: nat, count: nat)
    requires count >= 1
    ensures var g := Group(lines, chunkSize, count);
      forall k :: 0 <= k < |g| - 1 ==> Utf8Length(Unlines(g[k])) >= chunkSize
    decreases |lines|
  {
    if |lines| > 0 {
      var g := Group(lines[..|lines| - 1], chunkSize, count);
      var g' := Group(lines, chunkSize, count);
      GroupLast(lines, chunkSize, count);
      GroupClosedChunksFull(lines[..|lines| - 1], chunkSize, count);
      forall k | 0 <= k < |g'| - 1
        ensures Utf8Length(Unlines(g'[k])) >= chunkSize
      {
        if k < |g| - 1 {
          assert g'[k] == g[k];
        }
      }
    }
  }

  /** The lines of a list of chunks, in order. */
  function Flatten(g: seq<seq<string>>): seq<string>
    decreases |g|
  {
    if |g| == 0 then [] else Flatten(g[..|g| - 1]) + g[|g| - 1]
  }

  lemma {:induction false} FlattenAppend(a: seq<seq<string>>, b: seq<seq<string>>)
    ensures Flatten(a + b) == Flatten(a) + Flatten(b)
    decreases |b|
  {
    if |b| == 0 {
      assert a + b == a;
    } else {
      assert (a + b)[..|a + b| - 1] == a + b[..|b| - 1];
      FlattenAppend(a, b[..|b| - 1]);
    }
  }

  /** The text of each chunk file: its lines, each followed by "\n". */
  function ChunkTexts(g: seq<seq<string>>): (ts: seq<string>)
    ensures |ts| == |g|
    ensures forall k :: 0 <= k < |g| ==> ts[k] == Unlines(g[k])
  {
    seq(|g|, k requires 0 <= k < |g| => Unlines(g[k]))
  }

  /** The texts of several files written one after the other. */
  function ConcatTexts(ts: seq<string>): string
    decreases |ts|
  {
    if |ts| == 0 then "" else ConcatTexts(ts[..|ts| - 1]) + ts[|ts| - 1]
  }

  lemma {:induction false} UnlinesAppend(a: seq<string>, b: seq<string>)
    ensures Unlines(a + b) == Unlines(a) + Unlines(b)
    decreases |a|
  {
    if |a| == 0 {
      assert a + b == b;
    } else {
      assert (a + b)[1..] == a[1..] + b;
      UnlinesAppend(a[1..], b);
    }
  }

  /** Lines are never cut: the chunk files, read one after the other, hold
      the input lines in order, each followed by "\n". */
  lemma {:induction false} ChunksHoldLines(g: seq<seq<string>>)
    ensures ConcatTexts(ChunkTexts(g)) == Unlines(Flatten(g))
    decreases |g|
  {
    if |g| > 0 {
      var init := g[..|g| - 1];
      assert ChunkTexts(g)[..|g| - 1] == ChunkTexts(init);
      ChunksHoldLines(init);
      UnlinesAppend(Flatten(init), g[|g| - 1]);
    }
  }

  /** Only the first chunk can be empty, and only when the chunk size is 0
      (an empty file as the file system reports it): every later chunk
      starts with a line. */
  lemma {:induction false} LaterChunksNonEmpty(lines: seq<string>, chunkSize: nat, count: nat)
    requires count >= 1
    ensures var g := Group(lines, chunkSize, count);
      forall k :: 1 <= k < |g| ==> |g[k]| > 0
    ensures chunkSize > 0 && |lines| > 0 ==> |Group(lines, chunkSize, count)[0]| > 0
    decreases |lines|
  {
    if |lines| > 0 {
      var init := lines[..|lines| - 1];
      var line := lines[|lines| - 1];
      var g := Group(init, chunkSize, count);
      var g' := Group(lines, chunkSize, count);
      GroupLast(lines, chunkSize, count);
      LaterChunksNonEmpty(init, chunkSize, count);
      var starts := Utf8Length(Unlines(g[|g| - 1])) >= chunkSize && |g| < count;
      NextNonEmpty(g, g', line, starts);
      if chunkSize > 0 && |init| == 0 {
        assert g == [[]];
      }
    }
  }

  /** Adding a line, by opening a chunk or by joining the last one, keeps
      every chunk after the first non-empty, and the first too once it
      holds a line. */
  lemma NextNonEmpty(g: seq<seq<string>>, g': seq<seq<string>>, line: string, starts: bool)
    requires |g| >= 1 && forall k :: 1 <= k < |g| ==> |g[k]| > 0
    requires g' == if starts then g + [[line]] else g[..|g| - 1] + [g[|g| - 1] + [line]]
    ensures forall k :: 1 <= k < |g'| ==> |g'[k]| > 0
    ensures |g[0]| > 0 ==> |g'[0]| > 0
    ensures !starts && |g| == 1 ==> |g'[0]| > 0
  {
    if starts {
      assert forall k :: 0 <= k < |g| ==> g'[k] == g[k];
    } else {
      assert forall k :: 0 <= k < |g| - 1 ==> g'[k] == g[k];
    }
  }

  // --------------------------------------------------------------- naming

  /** `path.basename(filePath, '.txt')`: the file name without a trailing
      ".txt" (case-sensitive); a name that is only ".txt" is kept, except
      for the relative path ".txt" itself, which gives "". */
  function BaseName(filePath: Path): (b: string)
    ensures EndsWith(Name(filePath), ".txt") && |Name(filePath)| > 4 ==> b + ".txt" == Name(filePath)
    ensures !EndsWith(Name(filePath), ".txt") ==> b == Name(filePath)
  {
    NodeBaseName(filePath, ".txt")
  }

  /** The path of chunk `k` (counting from 1). */
  function ChunkPath(outputDir: Path, base: string, k: nat): Path {
    Child(outputDir, Numbered(base + "_sub", k, ".txt"))
  }

  /** The paths of chunks 1 to `n`. */
  function ChunkPaths(outputDir: Path, base: string, n: nat): (ps: seq<Path>)
    ensures |ps| == n
    ensures forall k :: 0 <= k < n ==> ps[k] == ChunkPath(outputDir, base, k + 1)
  {
    seq(n, k requires 0 <= k < n => ChunkPath(outputDir, base, k + 1))
  }

  lemma ChunkPathsNext(outputDir: Path, base: string, n: nat)
    ensures ChunkPaths(outputDir, base, n + 1) == ChunkPaths(outputDir, base, n) + [ChunkPath(outputDir, base, n + 1)]
  {
  }

  /** Chunk files have pairwise different names. */
  lemma ChunkPathsDistinct(outputDir: Path, base: string, j: nat, k: nat)
    requires j != k
    ensures ChunkPath(outputDir, base, j) != ChunkPath(outputDir, base, k)
  {
    NumberedInjective(base + "_sub", ".txt", j, k);
    assert Name(ChunkPath(outputDir, base, j)) == Numbered(base + "_sub", j, ".txt");
    assert Name(ChunkPath(outputDir, base, k)) == Numbered(base + "_sub", k, ".txt");
  }

  // --------------------------------------------------------------- method

  /** `splitFile(filePath, outputDir)`. `size` is what `fs.statSync`
      reports, `lines` what `readline` delivers. Returns the chunk paths
      and, for each, the text written to it. */
  method SplitFile(filePath: Path, size: nat, lines: seq<string>, outputDir: Path)
    returns (chunks: seq<Path>, written: seq<string>)
    ensures var count := SplitCount(size);
      var g := Group(lines, ChunkSize(size, count), count);
      written == ChunkTexts(g) && chunks == ChunkPaths(outputDir, BaseName(filePath), |g|)
  {
    var fileName := BaseName(filePath);
    var splitCount := SplitCount(size);
    var chunkSize := ChunkSize(size, splitCount);
    chunks, written := WriteChunks(lines, chunkSize, splitCount, outputDir, fileName);
  }

  /** The line loop of `splitFile`, for a given chunk size and count. */
  method WriteChunks(lines: seq<string>, chunkSize: nat, splitCount: nat, outputDir: Path, fileName: string)
    returns (chunks: seq<Path>, written: seq<string>)
    requires splitCount >= 1
    ensures var g := Group(lines, chunkSize, splitCount);
      written == ChunkTexts(g) && chunks == ChunkPaths(outputDir, fileName, |g|)
  {
    chunks := [ChunkPath(outputDir, fileName, 1)];
    assert chunks == ChunkPaths(outputDir, fileName, 1);
    written := [""];
    var currentChunk := 1;
    var currentSize := 0;
    var i := 0;
    while i < |lines|
      invariant 0 <= i <= |lines|
      invariant Written(lines[..i], chunkSize, splitCount, outputDir, fileName, chunks, written, currentChunk, currentSize)
    {
      chunks, written, currentChunk, currentSize :=
        ReadLine(lines, i, chunkSize, splitCount, outputDir, fileName, chunks, written, currentChunk, currentSize);
      i := i + 1;
    }
    assert lines[..i] == lines;
  }

  /** What the loop has produced once the lines `read` are in: the texts
      and paths of the chunks of their grouping, the number of the current
      chunk and the byte count of its text. */
  predicate Written(read: seq<string>, chunkSize: nat, splitCount: nat, outputDir: Path, fileName: string,
                    chunks: seq<Path>, written: seq<string>, currentChunk: nat, currentSize: nat)
    requires splitCount >= 1
  {
    var g := Group(read, chunkSize, splitCount);
    written == ChunkTexts(g) && |chunks| == |g| == currentChunk
    && currentSize == Utf8Length(written[|written| - 1])
    && chunks == ChunkPaths(outputDir, fileName, currentChunk)
  }

  /** The body of the line loop for line `i`. */
  method ReadLine(lines: seq<string>, i: nat, chunkSize: nat, splitCount: nat, outputDir: Path, fileName: string,
                  chunks: seq<Path>, written: seq<string>, currentChunk: nat, currentSize: nat)
    returns (chunks': seq<Path>, written': seq<string>, currentChunk': nat, currentSize': nat)
    requires i < |lines| && splitCount >= 1
    requires Written(lines[..i], chunkSize, splitCount, outputDir, fileName, chunks, written, currentChunk, currentSize)
    ensures Written(lines[..i + 1], chunkSize, splitCount, outputDir, fileName, chunks', written', currentChunk', currentSize')
  {
    ghost var g := Group(lines[..i], chunkSize, splitCount);
    ghost var g' := Group(lines[..i + 1], chunkSize, splitCount);
    var starts := currentSize >= chunkSize && currentChunk < splitCount;
    GroupNext(lines, i, chunkSize, splitCount, written, currentSize, starts);
    chunks', currentChunk' := NextChunk(outputDir, fileName, chunks, currentChunk, starts);
    written', currentSize' := WriteLine(g, g', written, currentSize, lines[i], starts);
  }

  /** A line that starts a chunk opens the next chunk file. */
  method NextChunk(outputDir: Path, fileName: string, chunks: seq<Path>, currentChunk: nat, starts: bool)
    returns (chunks': seq<Path>, currentChunk': nat)
    requires chunks == ChunkPaths(outputDir, fileName, currentChunk)
    ensures currentChunk' == if starts then currentChunk + 1 else currentChunk
    ensures chunks' == ChunkPaths(outputDir, fileName, currentChunk')
  {
    chunks', currentChunk' := chunks, currentChunk;
    if starts {
      currentChunk' := currentChunk + 1;
      ChunkPathsNext(outputDir, fileName, currentChunk);
      chunks' := chunks + [ChunkPath(outputDir, fileName, currentChunk')];
    }
  }

  /** The grouping after line `i`, told from the byte count of the current
      chunk's text and the number of chunks. */
  lemma GroupNext(lines: seq<string>, i: nat, chunkSize: nat, count: nat, written: seq<string>, currentSize: nat,
                  starts: bool)
    requires i < |lines| && count >= 1
    requires written == ChunkTexts(Group(lines[..i], chunkSize, count))
    requires currentSize == Utf8Length(written[|written| - 1])
    requires starts == (currentSize >= chunkSize && |Group(lines[..i], chunkSize, count)| < count)
    ensures var g := Group(lines[..i], chunkSize, count);
      var g' := Group(lines[..i + 1], chunkSize, count);
      g' == (if starts then g + [[lines[i]]] else g[..|g| - 1] + [g[|g| - 1] + [lines[i]]])
      && |g'| == (if starts then |g| + 1 else |g|)
  {
    var g := Group(lines[..i], chunkSize, count);
    assert written[|written| - 1] == Unlines(g[|g| - 1]);
    GroupStep(lines, i, chunkSize, count);
  }

  /** One pass of the line loop on the chunk texts: the line and "\n" go
      to a new chunk if the line starts one, and to the end of the current
      chunk otherwise; the byte count follows. `g` and `g'` are the
      groupings before and after. */
  method WriteLine(ghost g: seq<seq<string>>, ghost g': seq<seq<string>>, written: seq<string>,
                   currentSize: nat, line: string, starts: bool)
    returns (written': seq<string>, currentSize': nat)
    requires |g| >= 1 && written == ChunkTexts(g)
    requires g' == if starts then g + [[line]] else g[..|g| - 1] + [g[|g| - 1] + [line]]
    requires currentSize == Utf8Length(written[|written| - 1])
    ensures written' == ChunkTexts(g') && currentSize' == Utf8Length(written'[|written'| - 1])
  {
    var lineContent := line + "\n";
    if starts {
      TextsStepNew(g, line);
      written' := written + [lineContent];
      currentSize' := Utf8Length(lineContent);
    } else {
      TextsStepSame(g, line);
      Utf8LengthAppend(written[|written| - 1], lineContent);
      written' := written[|written| - 1 := written[|written| - 1] + lineContent];
      currentSize' := currentSize + Utf8Length(lineContent);
    }
  }

  /** How one more line changes the grouping, in the terms the loop uses. */
  lemma GroupStep(lines: seq<string>, i: nat, chunkSize: nat, count: nat)
    requires i < |lines| && count >= 1
    ensures var g := Group(lines[..i], chunkSize, count);
      var g' := Group(lines[..i + 1], chunkSize, count);
      var starts := Utf8Length(Unlines(g[|g| - 1])) >= chunkSize && |g| < count;
      (starts ==> g' == g + [[lines[i]]])
      && (!starts ==> g' == g[..|g| - 1] + [g[|g| - 1] + [lines[i]]])
  {
    assert lines[..i + 1][..i] == lines[..i];
  }

  /** A line that starts a chunk is that chunk's whole text so far. */
  lemma TextsStepNew(g: seq<seq<string>>, line: string)
    ensures ChunkTexts(g + [[line]]) == ChunkTexts(g) + [line + "\n"]
  {
    assert Unlines([line]) == line + "\n";
  }

  /** A line that joins the current chunk is appended to its text. */
  lemma TextsStepSame(g: seq<seq<string>>, line: string)
    requires |g| >= 1
    ensures var n := |g| - 1;
      ChunkTexts(g[..n] + [g[n] + [line]]) == ChunkTexts(g)[n := Unlines(g[n]) + (line + "\n")]
  {
    UnlinesAppend(g[|g| - 1], [line]);
    assert Unlines([line]) == line + "\n";
  }
}

=== FILE: text_viewer.dfy ===
/** `TextViewer` of the Java application: the tab that shows one file of a
    project. The model covers which file it loads (the project directory
    first, then its parent), how it decodes it (UTF-8, falling back to
    ISO-8859-1), and the two ways it starts a search: the search field and
    the keyword-category search. Loading runs synchronously here. */
module TextViewer {
  import opened Wrappers
  import opened Strings
  import opened Paths
  import opened Lines
  import opened Model
  import opened KeywordManager

  /** The arguments a `SearchWindow` is opened with. */
  datatype SearchRequest = SearchRequest(query: string, isRegex: bool)

  /** The `resolve` helper: `projectPath/name` if it exists, else
      `parent/name` if that exists, else `projectPath/name` anyway. */
  function Resolve(fs: FileSystem, projectPath: Path, name: string): (f: Path)
    ensures Name(f) == name
    ensures f == Child(projectPath, name)
      || (Parent(projectPath).Some? && f == Child(Parent(projectPath).value, name))
    ensures Child(projectPath, name) in fs ==> f == Child(projectPath, name)
    ensures f in fs <==>
      Child(projectPath, name) in fs
      || (Parent(projectPath).Some? && Child(Parent(projectPath).value, name) in fs)
  {
    var f1 := Child(projectPath, name);
    if f1 in fs then f1
    else
      var parent := Parent(projectPath);
      if parent.Some? && Child(parent.value, name) in fs then Child(parent.value, name)
      else f1
  }

  /** The file `loadContent(partName)` reads: the requested part; with none
      requested, the first split part when it resolves to an existing file,
      and the main file otherwise. So without a requested part there is
      something to show exactly when the first part or the main file
      resolves to an existing file, and the first part wins. */
  function Target(fs: FileSystem, projectPath: Path, meta: FileRecord, partName: Option<string>): (t: Path)
    ensures partName.Some? ==> t == Resolve(fs, projectPath, partName.value)
    ensures partName.None? ==>
      var first := meta.splitParts.Some? && |meta.splitParts.value| > 0
                   && Resolve(fs, projectPath, meta.splitParts.value[0]) in fs;
      (t in fs <==> first || Resolve(fs, projectPath, meta.fileName) in fs)
      && (first ==> Name(t) == meta.splitParts.value[0])
      && (!first ==> Name(t) == meta.fileName)
  {
    if partName.Some? then Resolve(fs, projectPath, partName.value)
    else if meta.splitParts.Some? && |meta.splitParts.value| > 0
            && Resolve(fs, projectPath, meta.splitParts.value[0]) in fs
    then Resolve(fs, projectPath, meta.splitParts.value[0])
    else Resolve(fs, projectPath, meta.fileName)
  }

  /** ISO-8859-1 decoding: every byte is the character with that code. */
  function Latin1(bytes: seq<bv8>): (s: string)
    ensures |s| == |bytes|
    ensures forall i :: 0 <= i < |s| ==> s[i] as int == bytes[i] as int && s[i] as int < 256
  {
    seq(|bytes|, i requires 0 <= i < |bytes| => (bytes[i] as int) as char)
  }

  /** ISO-8859-1 encoding of text whose characters are all below 256. */
  function Latin1Encode(s: string): seq<bv8>
    requires forall i :: 0 <= i < |s| ==> s[i] as int < 256
  {
    seq(|s|, i requires 0 <= i < |s| => (s[i] as int) as bv8)
  }

  /** ISO-8859-1 decoding loses nothing: encoding the text gives the bytes
      back, so no two files decode to the same text. */
  lemma Latin1RoundTrip(bytes: seq<bv8>)
    ensures Latin1Encode(Latin1(bytes)) == bytes
  {
    var s := Latin1(bytes);
    var e := Latin1Encode(s);
    forall i | 0 <= i < |bytes| ensures e[i] == bytes[i] {
      assert s[i] as int == bytes[i] as int;
    }
  }

  /** The text the viewer shows for `bytes`: the UTF-8 decoding when `utf8`
      accepts the bytes, otherwise the whole file decoded again as
      ISO-8859-1. */
  function Decode(bytes: seq<bv8>, utf8: seq<bv8> -> Option<string>): (s: string)
    ensures utf8(bytes).Some? ==> s == utf8(bytes).value
    ensures utf8(bytes).None? ==>
      |s| == |bytes| && forall i :: 0 <= i < |s| ==> s[i] as int == bytes[i] as int
  {
    if utf8(bytes).Some? then utf8(bytes).value else Latin1(bytes)
  }

  /** The status line: ready, loaded (file and line count), or the
      "File not found" error. */
  datatype Status = Ready | Loading | Loaded(file: Path, lineCount: nat) | NotFound(file: Path)

  class TextViewer {
    const meta: FileRecord
    const projectPath: Path
    /** The list view's items. */
    var lines: seq<string>
    var status: Status

    /** The constructor shows nothing yet; it then loads the default target
        (see `LoadContent`). */
    constructor (meta: FileRecord, projectPath: Path)
      ensures this.meta == meta && this.projectPath == projectPath
      ensures lines == [] && status == Ready
    {
      this.meta := meta;
      this.projectPath := projectPath;
      lines := [];
      status := Ready;
    }

    /** `loadContent(partName)`. A resolved file that does not exist is an
        error and leaves the list as it was; otherwise the list holds the
        file's lines. */
    method LoadContent(fs: FileSystem, partName: Option<string>, utf8: seq<bv8> -> Option<string>)
      modifies this
      ensures var t := Target(fs, projectPath, meta, partName);
        if t in fs then
          lines == ReadLines(Decode(fs[t], utf8)) && status == Loaded(t, |lines|)
        else
          lines == old(lines) && status == NotFound(t)
    {
      status := Loading;
      var resolved: Path;
      if partName.Some? {
        resolved := Resolve(fs, projectPath, partName.value);
      } else if meta.splitParts.Some? && |meta.splitParts.value| > 0 {
        var partFile := Resolve(fs, projectPath, meta.splitParts.value[0]);
        if partFile in fs {
          resolved := partFile;
        } else {
          resolved := Resolve(fs, projectPath, meta.fileName);
        }
      } else {
        resolved := Resolve(fs, projectPath, meta.fileName);
      }
      if resolved !in fs {
        status := NotFound(resolved);
        return;
      }
      var decoded := utf8(fs[resolved]);
      var text: string;
      if decoded.Some? {
        text := decoded.value;
      } else {
        text := Latin1(fs[resolved]);
      }
      lines := ReadLines(text);
      status := Loaded(resolved, |lines|);
    }
  }

  /** `performSearch(query, isRegex)`: a missing or empty query starts no
      search. */
  function PerformSearch(query: Option<string>, isRegex: bool): (r: Option<SearchRequest>)
    ensures r.None? <==> query.None? || query.value == ""
    ensures r.Some? ==> r.value.query == query.value && r.value.isRegex == isRegex
  {
    if query.None? || query.value == "" then None else Some(SearchRequest(query.value, isRegex))
  }

  // ----------------------------------------------------- keyword search

  /** What the keyword-search button leads to. */
  datatype KeywordOutcome =
    | NoCategoriesAlert     // the map is empty; the selection dialog is not shown
    | Dismissed             // the dialog was cancelled, or nothing was selected
    | NoKeywordsAlert       // the selected categories hold no keywords
    | Search(request: SearchRequest)

  /** The keywords of the selected categories, in selection order; a name
      the map does not hold contributes nothing. */
  function Collected(m: Categories, selected: seq<string>): (ks: seq<string>)
    decreases |selected|
  {
    if |selected| == 0 then []
    else
      var last := selected[|selected| - 1];
      Collected(m, selected[..|selected| - 1]) + (if Get(m, last).Some? then Get(m, last).value else [])
  }

  /** A keyword is collected exactly when some selected category of the map
      lists it. */
  lemma {:induction false} CollectedMembers(m: Categories, selected: seq<string>, k: string)
    ensures k in Collected(m, selected) <==>
      exists i :: 0 <= i < |selected| && Get(m, selected[i]).Some? && k in Get(m, selected[i]).value
    decreases |selected|
  {
    if |selected| > 0 {
      var init := selected[..|selected| - 1];
      CollectedMembers(m, init, k);
      if k in Collected(m, selected) && k !in Collected(m, init) {
        assert Get(m, selected[|selected| - 1]).Some? && k in Get(m, selected[|selected| - 1]).value;
      }
      if exists i :: 0 <= i < |selected| && Get(m, selected[i]).Some? && k in Get(m, selected[i]).value {
        var i :| 0 <= i < |selected| && Get(m, selected[i]).Some? && k in Get(m, selected[i]).value;
        if i < |selected| - 1 {
          assert init[i] == selected[i];
        }
      }
    }
  }

  /** The keyword search button. `selection` is what the category dialog
      returned (`None`: cancelled). The query is the collected keywords
      joined with "|", searched as a regular expression. */
  method KeywordSearch(m: Categories, selection: Option<seq<string>>) returns (o: KeywordOutcome)
    ensures |m| == 0 ==> o == NoCategoriesAlert
    ensures |m| > 0 && (selection.None? || |selection.value| == 0) ==> o == Dismissed
    ensures |m| > 0 && selection.Some? && |selection.value| > 0 ==>
      o == if |Collected(m, selection.value)| == 0 then NoKeywordsAlert
           else Search(SearchRequest(Join(Collected(m, selection.value), "|"), true))
  {
    if |m| == 0 {
      return NoCategoriesAlert;
    }
    if selection.None? || |selection.value| == 0 {
      return Dismissed;
    }
    var selected := selection.value;
    var all: seq<string> := [];
    var i := 0;
    while i < |selected|
      invariant 0 <= i <= |selected|
      invariant all == Collected(m, selected[..i])
    {
      assert selected[..i + 1][..i] == selected[..i];
      var kws := Get(m, selected[i]);
      if kws.Some? {
        all := all + kws.value;
      }
      i := i + 1;
    }
    assert selected[..i] == selected;
    if |all| == 0 {
      return NoKeywordsAlert;
    }
    return Search(SearchRequest(Join(all, "|"), true));
  }

  /** When no keyword holds a '|', cutting the query at each '|' gives the
      collected keywords back: the query is one alternative per keyword. */
  lemma KeywordQueryAlternatives(m: Categories, selected: seq<string>)
    requires |Collected(m, selected)| > 0
    requires forall k :: k in Collected(m, selected) ==> '|' !in k
    ensures Split(Join(Collected(m, selected), "|"), '|') == Collected(m, selected)
  {
    var ks := Collected(m, selected);
    assert forall i :: 0 <= i < |ks| ==> ks[i] in ks;
    SplitJoin(ks, '|');
  }
}

=== FILE: welcome_view.dfy ===
/** `WelcomeView` of the Java application: the start screen that ingests a
    dropped or chosen zip, opens a project from its JSON manifest, and
    renames or deletes the entries of the recent-projects list. The model
    covers the path rules behind these actions (where a project's directory
    is, which name is shown, which directories may never be deleted) and
    what each action does to the recent list and to the file system. The
    JSON manifests enter as a map from a JSON file to what it holds, the
    user's answers to dialogs as parameters. On Unix `File.separator` is
    "/". */
module WelcomeView {
  import opened Wrappers
  import opened Strings
  import opened Paths
  import opened RecentProjects
  import opened Model
  import ZipExtractor

  /** What the application needs from a readable manifest. */
  datatype StoredManifest = StoredManifest(projectName: string, displayName: Option<string>)

  // ------------------------------------------------------ path strings

  /** The non-empty pieces, in order. */
  function NonEmptyPieces(xs: seq<string>): (r: seq<string>)
    ensures forall x :: x in r <==> x in xs && x != ""
    decreases |xs|
  {
    if |xs| == 0 then []
    else if xs[0] == "" then NonEmptyPieces(xs[1..])
    else [xs[0]] + NonEmptyPieces(xs[1..])
  }

  lemma {:induction false} NonEmptyPiecesKeep(xs: seq<string>)
    requires forall i :: 0 <= i < |xs| ==> xs[i] != ""
    ensures NonEmptyPieces(xs) == xs
    decreases |xs|
  {
    if |xs| > 0 {
      NonEmptyPiecesKeep(xs[1..]);
    }
  }

  /** `new File(s)` on Unix: absolute when it starts with "/", with empty
      components (doubled or trailing separators) dropped. */
  function ParsePath(s: string): (p: Path)
    ensures p.absolute <==> |s| > 0 && s[0] == '/'
    ensures forall c :: c in p.parts ==> c != "" && '/' !in c
  {
    SplitPiecesFree(s, '/');
    Path(|s| > 0 && s[0] == '/', NonEmptyPieces(Split(s, '/')))
  }

  /** A path string the application wrote (`getAbsolutePath()`) reads back
      as the same path. */
  lemma ParsePathString(p: Path)
    requires p.absolute
    requires forall i :: 0 <= i < |p.parts| ==> p.parts[i] != "" && '/' !in p.parts[i]
    ensures ParsePath(PathString(p)) == p
  {
    var s := PathString(p);
    assert s == "/" + Join(p.parts, "/");
    if |p.parts| == 0 {
      assert s == "/";
      assert s[1..] == "";
      assert Split(s, '/') == [""] + Split("", '/') == ["", ""];
      assert NonEmptyPieces(["", ""]) == NonEmptyPieces([""]) == [];
    } else {
      SplitJoin(p.parts, '/');
      assert s == "" + ['/'] + Join(p.parts, "/");
      SplitCons("", '/', Join(p.parts, "/"));
      assert Split(s, '/') == [""] + p.parts;
      NonEmptyPiecesKeep(p.parts);
      assert ([""] + p.parts)[1..] == p.parts;
    }
  }

  // ------------------------------------------------------ project directory

  /** Where `loadProject` (and rename) look for a project's files: the
      JSON's own directory when it is named after the project (the layout
      `.../P/P.json` ingestion writes), else the sibling directory named
      after the project (the older layout `.../P.json` next to `.../P`). */
  function LoadProjectDir(json: Path, projectName: string): (dir: Path)
    requires Parent(json).Some?
    ensures Name(dir) == projectName
    ensures dir == Parent(json).value || dir == Child(Parent(json).value, projectName)
    ensures Name(Parent(json).value) == projectName <==> dir == Parent(json).value
  {
    var parent := Parent(json).value;
    ParentOfChild(parent, projectName);
    if Name(parent) == projectName then parent
    else
      assert Child(parent, projectName) != parent by {
        assert |Child(parent, projectName).parts| == |parent.parts| + 1;
      }
      Child(parent, projectName)
  }

  /** The name a loaded project gets in the recent list: its display name,
      or its project name when it has none or an empty one. */
  function DisplayName(m: StoredManifest): (name: string)
    ensures m.displayName.Some? && m.displayName.value != "" ==> name == m.displayName.value
    ensures m.displayName.None? || m.displayName.value == "" ==> name == m.projectName
  {
    if m.displayName.None? || m.displayName.value == "" then m.projectName else m.displayName.value
  }

  /** The directory deletion removes, as the delete handler computes it: the
      JSON's directory when that is named like the recent entry; otherwise
      the sibling named after the JSON file without its ".json" suffix
      (checked case-insensitively); otherwise none. */
  function DeleteDirAsWritten(json: Path, entryName: string): (r: Option<Path>)
    requires Parent(json).Some?
    ensures r.Some? ==> r.value == Parent(json).value || Parent(r.value) == Parent(json)
    ensures Name(Parent(json).value) == entryName ==> r == Parent(json)
  {
    var parent := Parent(json).value;
    var n := Name(json);
    if Name(parent) == entryName then Some(parent)
    else if EndsWithIgnoreCase(n, ".json") then Some(Child(parent, n[..|n| - 5]))
    else None
  }

  /** The recent entry's name is the display name once the project was
      renamed, so for a renamed project in the `.../P/P.json` layout the
      handler picks `.../P/P`, not the project directory `.../P`: the
      project's files stay behind while its JSON and its entry go. */
  lemma DeleteDirAsWrittenMissesRenamed()
    ensures var json := Path(true, ["home", "u", "P", "P.json"]);
      var projectDir := Path(true, ["home", "u", "P"]);
      LoadProjectDir(json, "P") == projectDir
      && DeleteDirAsWritten(json, "Foo") == Some(Path(true, ["home", "u", "P", "P"]))
      && DeleteDirAsWritten(json, "Foo").value != projectDir
  {
    var json := Path(true, ["home", "u", "P", "P.json"]);
    var parent := Path(true, ["home", "u", "P"]);
    assert json.parts[..3] == parent.parts;
    assert Parent(json) == Some(parent);
    assert Name(parent) == "P" != "Foo";
    var n := Name(json);
    assert n == "P.json";
    assert LowerStr(".json") == ".json";
    assert LowerStr(n) == "p.json";
    assert EndsWithIgnoreCase(n, ".json");
    assert n[..|n| - 5] == "P";
    assert Child(parent, "P") == Path(true, ["home", "u", "P", "P"]);
    assert LoadProjectDir(json, "P") == parent;
  }

  /** The directory deletion removes, keyed on the project name that the
      JSON file is named after (`projectName + ".json"`), as loading
      locates it. */
  function DeleteDir(json: Path): (dir: Option<Path>)
    requires Parent(json).Some?
    ensures dir.Some? <==> EndsWithIgnoreCase(Name(json), ".json")
  {
    var n := Name(json);
    if EndsWithIgnoreCase(n, ".json") then Some(LoadProjectDir(json, n[..|n| - 5])) else None
  }

  /** Deletion removes the directory loading uses, in both layouts and
      whatever the project is called in the recent list. */
  lemma DeleteDirIsLoadDir(json: Path, projectName: string)
    requires Parent(json).Some? && Name(json) == projectName + ".json"
    ensures DeleteDir(json) == Some(LoadProjectDir(json, projectName))
  {
    var n := Name(json);
    assert n[|n| - 5..] == ".json";
    assert LowerStr(n)[|n| - 5..] == LowerStr(".json");
    assert LowerStr(".json") == ".json";
    assert n[..|n| - 5] == projectName;
  }

  /** The safety check: the home directory, its Downloads, Desktop,
      Documents and 下载 folders, and any directory without a parent are
      never deleted. */
  predicate IsProtected(dir: Path, home: string): (b: bool)
    ensures Parent(dir).None? ==> b
    ensures PathString(dir) == home ==> b
  {
    var s := PathString(dir);
    s == home || s == home + "/Downloads" || s == home + "/Desktop"
    || s == home + "/Documents" || s == home + "/\U{4E0B}\U{8F7D}" || Parent(dir).None?
  }

  /** The file system after deleting directory `d` with everything in it. */
  function RemoveTree(fs: FileSystem, d: Path): (r: FileSystem)
    ensures forall p :: p in r <==> p in fs && !Under(p, d)
    ensures forall p :: p in r ==> r[p] == fs[p]
  {
    map p | p in fs && !Under(p, d) :: fs[p]
  }

  /** What a delete request ended in. */
  datatype DeleteOutcome = NotConfirmed | Failed | Blocked(dir: Path) | Deleted

  /** A drop is taken only for the first dropped file, and only when its
      name ends in ".zip" (case-sensitively). */
  function AcceptDrop(files: seq<Path>): (zip: Option<Path>)
    ensures zip.Some? <==> |files| > 0 && EndsWith(Name(files[0]), ".zip")
    ensures zip.Some? ==> zip.value == files[0]
  {
    if |files| > 0 && EndsWith(Name(files[0]), ".zip") then Some(files[0]) else None
  }

  /** Where ingestion leaves a project's JSON: `zipDir/P/P.json` for
      `zipDir/P.zip` (P being the zip's base name). */
  function IngestedJson(absZip: Path): (json: Path)
    requires Parent(absZip).Some?
    ensures Parent(json).Some?
  {
    var name := ZipExtractor.ProjectNameOf(absZip);
    var dir := Child(Parent(absZip).value, name);
    Child(dir, name + ".json")
  }

  /** A freshly ingested project is found in the new layout: loading its
      JSON and deleting it both resolve to the directory ingestion filled,
      the zip's sibling named after it. */
  lemma IngestedJsonLoadsBack(absZip: Path)
    requires Parent(absZip).Some?
    ensures var name := ZipExtractor.ProjectNameOf(absZip);
      var json := IngestedJson(absZip);
      LoadProjectDir(json, name) == Child(Parent(absZip).value, name)
      && DeleteDir(json) == Some(Child(Parent(absZip).value, name))
  {
    var name := ZipExtractor.ProjectNameOf(absZip);
    var dir := Child(Parent(absZip).value, name);
    var json := IngestedJson(absZip);
    ParentOfChild(dir, name + ".json");
    ParentOfChild(Parent(absZip).value, name);
    DeleteDirIsLoadDir(json, name);
  }

  /** Taking a relative zip path from the working directory keeps its name
      and gives it a parent. */
  lemma AbsoluteZip(cwd: Path, zipPath: Path)
    requires |zipPath.parts| > 0
    ensures var absZip := ZipExtractor.AbsolutePath(cwd, zipPath);
      Parent(absZip).Some? && ZipExtractor.ProjectNameOf(absZip) == ZipExtractor.ProjectNameOf(zipPath)
  {
    var absZip := ZipExtractor.AbsolutePath(cwd, zipPath);
    assert absZip.parts[|absZip.parts| - 1] == zipPath.parts[|zipPath.parts| - 1];
  }

  /** `new File(path).exists()` for a JSON file the recent list names. */
  function ExistsIn(fs: FileSystem): string -> bool {
    s => ParsePath(s) in fs
  }

  /** After a successful ingestion the project directory holds exactly
      what the ingestion left there and the project's JSON. */
  lemma IngestedDirectory(fs: FileSystem, absZip: Path, dir: ZipExtractor.Dir, manifestJson: seq<bv8>)
    requires Parent(absZip).Some?
    ensures var name := ZipExtractor.ProjectNameOf(absZip);
      var projectDir := Child(Parent(absZip).value, name);
      FilesIn(WithDir(fs, projectDir, dir)[IngestedJson(absZip) := manifestJson], projectDir)
        == dir[name + ".json" := manifestJson]
  {
    var name := ZipExtractor.ProjectNameOf(absZip);
    var projectDir := Child(Parent(absZip).value, name);
    FilesInWrite(WithDir(fs, projectDir, dir), projectDir, name + ".json", manifestJson);
  }

  /** A project opened in the project view: its name and directory. */
  datatype OpenedProject = OpenedProject(projectName: string, dir: Path)

  class WelcomeView {
    const recents: RecentProjectsManager
    /** The regular files on disk. */
    var fs: FileSystem
    /** The project view this screen switched to, if any. */
    var openedProject: Option<OpenedProject>

    /** The screen starts on the recent list with every entry whose JSON
        file is gone dropped. */
    constructor (recents: RecentProjectsManager, fs: FileSystem)
      modifies recents
      ensures this.recents == recents && this.fs == fs && openedProject == None
      ensures recents.projects == Existing(old(recents.projects), ExistsIn(fs))
      ensures recents.saved == if recents.projects != old(recents.projects) then Some(recents.projects) else old(recents.saved)
    {
      this.recents := recents;
      this.fs := fs;
      openedProject := None;
      new;
      recents.ValidateProjects(ExistsIn(fs));
    }

    /** `processZipFile`: ingests the zip into the directory beside it
        named after it. Whatever the ingestion wrote stays on disk, even
        when it failed part way. On success the manifest is saved as
        `P.json` in that directory (`manifestJson` being the bytes Gson
        writes for it), the JSON's path is added to the recent list under
        the project name and the project is opened from its directory. On
        failure the list and the view are left as they were. */
    method ProcessZipFile(zipPath: Path, cwd: Path, z: Option<ZipExtractor.Archive>, manifestJson: seq<bv8>, now: int)
      returns (json: Option<Path>)
      requires |zipPath.parts| > 0
      modifies this, recents
      ensures var absZip := ZipExtractor.AbsolutePath(cwd, zipPath);
        var name := ZipExtractor.ProjectNameOf(zipPath);
        Parent(absZip).Some?
        && var projectDir := Child(Parent(absZip).value, name);
        var r := ZipExtractor.Ingest(z, ZipExtractor.Progress([], FilesIn(old(fs), projectDir), true), "");
        (r.ok ==>
              json == Some(IngestedJson(absZip))
              && fs == WithDir(old(fs), projectDir, r.dir)[json.value := manifestJson]
              && recents.projects == Added(old(recents.projects), name, PathString(json.value), now)
              && recents.saved == Some(recents.projects)
              && openedProject == Some(OpenedProject(name, projectDir)))
        && (!r.ok ==>
              json == None && fs == WithDir(old(fs), projectDir, r.dir)
              && recents.projects == old(recents.projects) && recents.saved == old(recents.saved)
              && openedProject == old(openedProject))
    {
      var absZip := ZipExtractor.AbsolutePath(cwd, zipPath);
      AbsoluteZip(cwd, zipPath);
      var name := ZipExtractor.ProjectNameOf(zipPath);
      var projectDir := Child(Parent(absZip).value, name);
      var manifest, dir, ok := ZipExtractor.ExtractProject(zipPath, cwd, z, FilesIn(fs, projectDir), now);
      fs := WithDir(fs, projectDir, dir);
      if !ok {
        return None;
      }
      var jsonFile := OpenIngested(absZip, manifestJson, now);
      json := Some(jsonFile);
    }

    /** The success half of `processZipFile`: the manifest is saved as the
        project's JSON, which goes to the front of the recent list, and
        the project is opened. */
    method OpenIngested(absZip: Path, manifestJson: seq<bv8>, now: int) returns (json: Path)
      requires Parent(absZip).Some?
      modifies this, recents
      ensures var name := ZipExtractor.ProjectNameOf(absZip);
        json == IngestedJson(absZip)
        && fs == old(fs)[json := manifestJson]
        && recents.projects == Added(old(recents.projects), name, PathString(json), now)
        && recents.saved == Some(recents.projects)
        && openedProject == Some(OpenedProject(name, Child(Parent(absZip).value, name)))
    {
      var name := ZipExtractor.ProjectNameOf(absZip);
      var projectDir := Child(Parent(absZip).value, name);
      json := Child(projectDir, name + ".json");
      fs := fs[json := manifestJson];
      recents.AddProject(name, PathString(json), now);
      openedProject := Some(OpenedProject(name, projectDir));
    }

    /** `loadProject(jsonFile)`: a readable manifest opens the project and
        puts it first in the recent list under its display name; a missing
        or unreadable one removes the JSON's path from the list. */
    method LoadProject(json: Path, stored: map<Path, StoredManifest>, now: int)
      requires json.absolute
      modifies this, recents
      ensures fs == old(fs)
      ensures recents.saved == Some(recents.projects)
      ensures json in stored && Parent(json).Some? ==>
        var m := stored[json];
        recents.projects == Added(old(recents.projects), DisplayName(m), PathString(json), now)
        && openedProject == Some(OpenedProject(m.projectName, LoadProjectDir(json, m.projectName)))
      ensures !(json in stored && Parent(json).Some?) ==>
        recents.projects == WithoutPath(old(recents.projects), PathString(json)) && openedProject == old(openedProject)
    {
      if json !in stored || Parent(json).None? {
        recents.RemoveProject(PathString(json));
        return;
      }
      var m := stored[json];
      var projectDir := LoadProjectDir(json, m.projectName);
      var display := m.displayName;
      var shown := if display.None? || display.value == "" then m.projectName else display.value;
      recents.AddProject(shown, PathString(json), now);
      openedProject := Some(OpenedProject(m.projectName, projectDir));
    }

    /** The rename handler: a blank new name does nothing. Otherwise the
        recent entry takes the new name as typed, and a readable manifest
        gets it as its display name, written back as
        `projectName + ".json"` in the JSON's directory; the project name,
        and with it every path, stays. */
    method Rename(entry: RecentProject, newName: Option<string>, stored: map<Path, StoredManifest>)
      returns (written: Option<(Path, StoredManifest)>)
      modifies recents
      ensures newName.None? || Trim(newName.value) == "" ==>
        recents.projects == old(recents.projects) && recents.saved == old(recents.saved) && written == None
      ensures newName.Some? && Trim(newName.value) != "" ==>
        var k := FindPath(old(recents.projects), entry.path);
        recents.projects == (if k < 0 then old(recents.projects)
                             else old(recents.projects)[k := old(recents.projects)[k].(name := newName.value)])
        && recents.saved == Some(recents.projects)
      ensures newName.Some? && Trim(newName.value) != "" ==>
        var json := ParsePath(entry.path);
        if json in stored && Parent(json).Some? then
          written == Some((Child(Parent(json).value, stored[json].projectName + ".json"),
                           stored[json].(displayName := newName)))
        else written == None
    {
      written := None;
      if newName.None? || Trim(newName.value) == "" {
        return;
      }
      recents.RenameProject(entry.path, newName.value);
      var json := ParsePath(entry.path);
      if json in stored && Parent(json).Some? {
        var m := stored[json].(displayName := newName);
        written := Some((Child(Parent(json).value, m.projectName + ".json"), m));
      }
    }

    /** `confirmAndDeleteProject`, with the directory located as loading
        locates it. A protected directory blocks the whole deletion;
        otherwise the directory with everything in it and the JSON file are
        removed and the entry leaves the recent list. */
    method Delete(entry: RecentProject, confirmed: bool, home: string) returns (outcome: DeleteOutcome)
      modifies this, recents
      ensures openedProject == old(openedProject)
      ensures var json := ParsePath(entry.path);
        outcome == (if !confirmed then NotConfirmed
                    else if Parent(json).None? then Failed
                    else if DeleteDir(json).Some? && IsProtected(DeleteDir(json).value, home)
                    then Blocked(DeleteDir(json).value)
                    else Deleted)
      ensures outcome != Deleted ==>
        fs == old(fs) && recents.projects == old(recents.projects) && recents.saved == old(recents.saved)
      ensures outcome == Deleted ==>
        var json := ParsePath(entry.path);
        var dir := DeleteDir(json);
        fs == (if dir.Some? then RemoveTree(old(fs), dir.value) else old(fs)) - {json}
        && recents.projects == WithoutPath(old(recents.projects), entry.path)
        && recents.saved == Some(recents.projects)
    {
      if !confirmed {
        return NotConfirmed;
      }
      var json := ParsePath(entry.path);
      if Parent(json).None? {
        return Failed;
      }
      var dir := DeleteDir(json);
      if dir.Some? && IsProtected(dir.value, home) {
        return Blocked(dir.value);
      }
      if dir.Some? {
        fs := RemoveTree(fs, dir.value);
      }
      fs := fs - {json};
      recents.RemoveProject(entry.path);
      return Deleted;
    }
  }
}

=== FILE: wrappers.dfy ===
/** Option and Result, the shapes every module below uses for Java's `null`
    and for an operation that may throw. */
module Wrappers {

  datatype Option<+T> = None | Some(value: T)

  datatype Result<+T, +E> = Ok(value: T) | Err(error: E)
}

=== FILE: zip_extractor.dfy ===
/** The archive ingester of the Java application. It walks a zip archive in
    entry order and skips directory entries. It recurses into nested `.zip`
    entries through a temporary copy in the project directory, and keeps
    bug reports (`bugreport*.txt`) and videos (`*.mp4`) under collision-free
    names. It splits large bug reports and appends one `FileMetadata` per
    kept file to the manifest.

    An archive is the sequence of its entries. Each entry carries its name,
    its bytes and what opening those bytes as a zip archive yields (`None`
    when they are not a readable archive). The project directory is a map
    from file names to contents. */
module ZipExtractor {
  import opened Wrappers
  import opened Seqs
  import opened Strings
  import opened Paths
  import opened Patterns
  import opened Model
  import FileSplitter

  datatype Archive = Archive(entries: seq<Entry>)

  datatype Entry = Entry(name: string, data: seq<bv8>, contents: Option<Archive>)

  /** The files of the project directory. */
  type Dir = map<string, seq<bv8>>

  /** Where an ingestion stands: the manifest's records so far, the project
      directory, and whether an exception has been thrown. */
  datatype Progress = Progress(records: seq<FileRecord>, dir: Dir, ok: bool)

  /** `ZipArchiveEntry.isDirectory()`: the name ends with '/'. */
  predicate IsDirectoryEntry(e: Entry) {
    EndsWith(e.name, "/")
  }

  /** `entryName.toLowerCase().endsWith(".zip")`. */
  predicate IsNestedZip(e: Entry) {
    EndsWithIgnoreCase(e.name, ".zip")
  }

  // -------------------------------------------------------- classification

  /** `bugreport.*\.txt`, compiled with `CASE_INSENSITIVE`. */
  function BugreportPattern(): seq<Token> {
    Lits("bugreport") + [DotStar] + Lits(".txt")
  }

  /** `.*\.mp4`, compiled with `CASE_INSENSITIVE`. */
  function VideoPattern(): seq<Token> {
    [DotStar] + Lits(".mp4")
  }

  /** "bugreport", anything without a character `isTerminator` accepts,
      ".txt", ignoring case. */
  predicate IsBugreportShape(n: string, isTerminator: char -> bool) {
    13 <= |n| && StartsWithIgnoreCase(n, "bugreport") && EndsWithIgnoreCase(n, ".txt")
    && NoTerminator(n[9..|n| - 4], isTerminator)
  }

  /** The whole name is "bugreport", anything without a line break, ".txt". */
  predicate IsBugreportName(n: string) {
    IsBugreportShape(n, IsJavaLineTerminator)
  }

  predicate IsVideoName(n: string) {
    4 <= |n| && EndsWithIgnoreCase(n, ".mp4") && NoTerminator(n[..|n| - 4], IsJavaLineTerminator)
  }

  /** The type a base name gets; `None` means the entry is not kept. */
  function Classify(n: string): Option<FileType> {
    if IsBugreportName(n) then Some(BUGREPORT)
    else if IsVideoName(n) then Some(VIDEO)
    else None
  }

  /** The classifier agrees with `Matcher.matches()` on both patterns: a
      bug report must START with "bugreport" and end with ".txt". */
  lemma ClassifyMatchesPatterns(n: string)
    ensures IsBugreportName(n) <==> Matches(BugreportPattern(), n, IsJavaLineTerminator)
    ensures IsVideoName(n) <==> Matches(VideoPattern(), n, IsJavaLineTerminator)
  {
    BugreportShapeMatches(n, IsJavaLineTerminator);
    MatchesDotStarLits(".mp4", n, IsJavaLineTerminator);
  }

  /** The bug report pattern, matched against the whole of `n`, whatever
      its `.` refuses. */
  lemma BugreportShapeMatches(n: string, isTerminator: char -> bool)
    ensures IsBugreportShape(n, isTerminator) <==> Matches(BugreportPattern(), n, isTerminator)
  {
    assert BugreportPattern() == Lits("bugreport") + ([DotStar] + Lits(".txt"));
    MatchesLits("bugreport", [DotStar] + Lits(".txt"), n, isTerminator);
    if |n| >= 9 {
      MatchesDotStarLits(".txt", n[9..], isTerminator);
      assert LowerStr(n[9..]) == LowerStr(n)[9..];
      if |n| >= 13 {
        assert n[9..][..|n| - 9 - 4] == n[9..|n| - 4];
        assert LowerStr(n)[9..][|n| - 9 - 4..] == LowerStr(n)[|n| - 4..];
      }
    }
  }

  // ------------------------------------------------------------ free names

  /** The first `k' >= k` whose numbered name is not taken. */
  function FirstFree(used: set<string>, prefix: string, suffix: string, k: nat): (r: nat)
    ensures k <= r <= k + |used|
    ensures Numbered(prefix, r, suffix) !in used
    ensures forall j :: k <= j < r ==> Numbered(prefix, j, suffix) in used
    decreases |used|
  {
    var name := Numbered(prefix, k, suffix);
    if name !in used then k
    else
      var r := FirstFree(used - {name}, prefix, suffix, k + 1);
      NumberedInjective(prefix, suffix, k, r);
      r
  }

  /** The name an extracted file is stored under: its own name if free,
      otherwise the first free `base_k.ext` for k = 1, 2, ... */
  function TargetName(dir: Dir, safeName: string): (r: string)
    ensures r !in dir
    ensures safeName !in dir ==> r == safeName
    ensures safeName in dir ==>
      exists k: nat :: (1 <= k && r == Numbered(FuBaseName(safeName) + "_", k, "." + FuExtension(safeName))
        && forall j :: 1 <= j < k ==> Numbered(FuBaseName(safeName) + "_", j, "." + FuExtension(safeName)) in dir)
  {
    if safeName !in dir then safeName
    else
      var prefix, suffix := FuBaseName(safeName) + "_", "." + FuExtension(safeName);
      var k := FirstFree(dir.Keys, prefix, suffix, 1);
      Numbered(prefix, k, suffix)
  }

  /** The temporary copy of a nested archive: a name of the form
      `nested_<k>.zip` that is not taken. */
  function TempName(dir: Dir): (r: string)
    ensures r !in dir && StartsWith(r, "nested_") && EndsWith(r, ".zip")
  {
    Numbered("nested_", FirstFree(dir.Keys, "nested_", ".zip", 0), ".zip")
  }

  // ---------------------------------------------------------------- ingest

  /** The split part files, written one after the other. */
  function WriteParts(dir: Dir, names: seq<string>, parts: seq<seq<bv8>>): (r: Dir)
    requires |names| == |parts|
    ensures r.Keys == dir.Keys + set n | n in names
    ensures forall n :: n in dir && n !in names ==> r[n] == dir[n]
    decreases |names|
  {
    if |names| == 0 then dir
    else
      var n := |names| - 1;
      WriteParts(dir, names[..n], parts[..n])[names[n] := parts[n]]
  }

  /** What the splitter stores for a bug report of these bytes. */
  function SplitPartsOf(target: string, data: seq<bv8>): Option<seq<string>> {
    if |data| < FileSplitter.Threshold then None
    else Some(FileSplitter.PartNames(target, FileSplitter.PartCount(|data|)))
  }

  /** The kept file written under `target`, and for a bug report its split
      parts beside it; the file itself keeps the entry's bytes. */
  function Store(dir: Dir, target: string, data: seq<bv8>, parts: Option<seq<string>>): (r: Dir)
    requires parts.Some? ==> target !in parts.value
    requires parts.Some? ==> |parts.value| == FileSplitter.PartCount(|data|)
    ensures target in r && r[target] == data
  {
    var dir1 := dir[target := data];
    if parts.Some? then WriteParts(dir1, parts.value, FileSplitter.Segments(data, |data|))
    else dir1
  }

  /** The record a kept file gets. */
  function RecordOf(e: Entry, t: FileType, target: string, prefix: string): (rec: FileRecord)
    ensures rec.fileName == rec.relativePath == target
    ensures rec.fileSize == |e.data| && rec.originalPath == prefix + e.name && rec.fileType == t
    ensures t == VIDEO ==> rec.splitParts == None
    ensures t == BUGREPORT ==> rec.splitParts == SplitPartsOf(target, e.data)
  {
    var parts := if t == BUGREPORT then SplitPartsOf(target, e.data) else None;
    FileRecord(target, |e.data|, target, prefix + e.name, t, parts)
  }

  lemma PartsAvoidTarget(target: string, data: seq<bv8>)
    ensures var parts := SplitPartsOf(target, data);
      parts.Some? ==> target !in parts.value && |parts.value| == FileSplitter.PartCount(|data|)
  {
    var parts := SplitPartsOf(target, data);
    if parts.Some? {
      forall i | 0 <= i < |parts.value| ensures parts.value[i] != target {
        assert parts.value[i] == FileSplitter.PartName(target, i + 1);
      }
    }
  }

  /** One entry that is neither a directory nor a nested archive: kept and
      recorded if its base name classifies, ignored otherwise. A kept file
      never takes the name of a file already there. */
  function Extract(e: Entry, st: Progress, prefix: string): (r: Progress)
    ensures r.ok == st.ok
    ensures Classify(EntryBaseName(e.name)).None? ==> r == st
    ensures Classify(EntryBaseName(e.name)).Some? ==>
      var target := TargetName(st.dir, EntryBaseName(e.name));
      var rec := RecordOf(e, Classify(EntryBaseName(e.name)).value, target, prefix);
      r.records == st.records + [rec] && target !in st.dir && target in r.dir && r.dir[target] == e.data
  {
    var safeName := EntryBaseName(e.name);
    match Classify(safeName)
    case None => st
    case Some(t) =>
      var target := TargetName(st.dir, safeName);
      var rec := RecordOf(e, t, target, prefix);
      PartsAvoidTarget(target, e.data);
      Progress(st.records + [rec], Store(st.dir, target, e.data, rec.splitParts), st.ok)
  }

  /** `processZip` from entry `i` on, as it continues from `st`; an
      exception ends the walk. */
  function IngestFrom(a: Archive, i: nat, st: Progress, prefix: string): Progress
    requires i <= |a.entries|
    decreases a, |a.entries| - i, 1
  {
    if !st.ok || i == |a.entries| then st
    else IngestFrom(a, i + 1, Step(a, i, st, prefix), prefix)
  }

  /** One pass of the entry loop. A directory is skipped. A nested archive
      is copied to a temporary file and processed with prefix
      `prefix + name + "/"`; the copy is deleted only when that returns
      normally, and an archive that cannot be opened throws. Anything else
      goes to `Extract`. */
  function Step(a: Archive, i: nat, st: Progress, prefix: string): (r: Progress)
    requires i < |a.entries|
    decreases a, |a.entries| - i, 0
  {
    var e := a.entries[i];
    if IsDirectoryEntry(e) then st
    else if IsNestedZip(e) then
      var temp := TempName(st.dir);
      var withTemp := st.(dir := st.dir[temp := e.data]);
      match e.contents
      case None => withTemp.(ok := false)
      case Some(inner) =>
        var q := IngestFrom(inner, 0, withTemp, prefix + e.name + "/");
        if q.ok then q.(dir := q.dir - {temp}) else q
    else Extract(e, st, prefix)
  }

  /** `processZip` on an archive that may not open. */
  function Ingest(z: Option<Archive>, st: Progress, prefix: string): Progress {
    match z
    case None => st.(ok := false)
    case Some(a) => IngestFrom(a, 0, st, prefix)
  }

  // ------------------------------------------------------------ properties

  /** What a record says about where it came from. */
  function Summaries(rs: seq<FileRecord>): seq<(string, FileType)> {
    seq(|rs|, i requires 0 <= i < |rs| => (rs[i].originalPath, rs[i].fileType))
  }

  /** The kept files of an archive from entry `i` on, depth first: each
      classified entry's path from the outermost archive and its type. */
  function Leaves(a: Archive, i: nat, prefix: string): seq<(string, FileType)>
    requires i <= |a.entries|
    decreases a, |a.entries| - i, 1
  {
    if i == |a.entries| then [] else LeavesAt(a, i, prefix) + Leaves(a, i + 1, prefix)
  }

  /** The kept files entry `i` contributes: none for a directory or an
      unclassified file, the kept files inside a nested archive, but never
      the nested archive itself. */
  function LeavesAt(a: Archive, i: nat, prefix: string): seq<(string, FileType)>
    requires i < |a.entries|
    decreases a, |a.entries| - i, 0
  {
    var e := a.entries[i];
    if IsDirectoryEntry(e) then []
    else if IsNestedZip(e) then
      match e.contents
      case None => []
      case Some(inner) => Leaves(inner, 0, prefix + e.name + "/")
    else
      match Classify(EntryBaseName(e.name))
      case None => []
      case Some(t) => [(prefix + e.name, t)]
  }

  /** Once failed, an ingestion stays failed and changes nothing more. */
  lemma {:induction false} IngestFailedStays(a: Archive, i: nat, st: Progress, prefix: string)
    requires i <= |a.entries| && !st.ok
    ensures IngestFrom(a, i, st, prefix) == st
  {
  }

  /** A successful ingestion appends exactly one record per kept file, in
      depth-first entry order, with the path inside the outermost archive
      and the classified type. */
  lemma {:induction false} IngestRecordsLeaves(a: Archive, i: nat, st: Progress, prefix: string)
    requires i <= |a.entries| && st.ok
    ensures var r := IngestFrom(a, i, st, prefix);
      r.ok ==> Summaries(r.records) == Summaries(st.records) + Leaves(a, i, prefix)
    decreases a, |a.entries| - i, 2
  {
    if i < |a.entries| {
      IngestRecordsLeavesAt(a, i, st, prefix);
    } else {
      assert IngestFrom(a, i, st, prefix) == st;
      assert Leaves(a, i, prefix) == [];
      assert Summaries(st.records) + [] == Summaries(st.records);
    }
  }

  lemma {:induction false} IngestRecordsLeavesAt(a: Archive, i: nat, st: Progress, prefix: string)
    requires i < |a.entries| && st.ok
    ensures var r := IngestFrom(a, i, st, prefix);
      r.ok ==> Summaries(r.records) == Summaries(st.records) + Leaves(a, i, prefix)
    decreases a, |a.entries| - i, 1
  {
    var x := Step(a, i, st, prefix);
    UnfoldIngest(a, i, st, prefix);
    UnfoldLeaves(a, i, prefix);
    if x.ok {
      StepRecordsLeaves(a, i, st, prefix);
      IngestRecordsLeaves(a, i + 1, x, prefix);
      var r := IngestFrom(a, i + 1, x, prefix);
      if r.ok {
        SummariesChain(st.records, x.records, r.records, LeavesAt(a, i, prefix), Leaves(a, i + 1, prefix));
      }
    } else {
      IngestFailedStays(a, i + 1, x, prefix);
    }
  }

  lemma UnfoldIngest(a: Archive, i: nat, st: Progress, prefix: string)
    requires i < |a.entries| && st.ok
    ensures IngestFrom(a, i, st, prefix) == IngestFrom(a, i + 1, Step(a, i, st, prefix), prefix)
  {
  }

  lemma UnfoldLeaves(a: Archive, i: nat, prefix: string)
    requires i < |a.entries|
    ensures Leaves(a, i, prefix) == LeavesAt(a, i, prefix) + Leaves(a, i + 1, prefix)
  {
  }

  lemma SummariesChain(r0: seq<FileRecord>, r1: seq<FileRecord>, r2: seq<FileRecord>,
                       here: seq<(string, FileType)>, rest: seq<(string, FileType)>)
    requires Summaries(r1) == Summaries(r0) + here
    requires Summaries(r2) == Summaries(r1) + rest
    ensures Summaries(r2) == Summaries(r0) + (here + rest)
  {
    assert Summaries(r0) + here + rest == Summaries(r0) + (here + rest);
  }

  lemma {:induction false} StepRecordsLeaves(a: Archive, i: nat, st: Progress, prefix: string)
    requires i < |a.entries| && st.ok
    ensures var r := Step(a, i, st, prefix);
      r.ok ==> Summaries(r.records) == Summaries(st.records) + LeavesAt(a, i, prefix)
    decreases a, |a.entries| - i, 0
  {
    var e := a.entries[i];
    var r := Step(a, i, st, prefix);
    if IsDirectoryEntry(e) {
      assert r == st;
      assert LeavesAt(a, i, prefix) == [];
      assert Summaries(st.records) + [] == Summaries(st.records);
    } else if IsNestedZip(e) {
      if e.contents.Some? {
        var inner := e.contents.value;
        var withTemp := st.(dir := st.dir[TempName(st.dir) := e.data]);
        IngestRecordsLeaves(inner, 0, withTemp, prefix + e.name + "/");
        assert r.ok ==> r.records == IngestFrom(inner, 0, withTemp, prefix + e.name + "/").records;
      }
    } else {
      assert r == Extract(e, st, prefix);
      ExtractSummaries(e, st, prefix);
    }
  }

  /** Extracting a plain entry adds its path and type to the summaries
      when it is classified, and nothing otherwise. */
  lemma ExtractSummaries(e: Entry, st: Progress, prefix: string)
    ensures var r := Extract(e, st, prefix);
      Summaries(r.records) == Summaries(st.records)
        + match Classify(EntryBaseName(e.name))
          case None => []
          case Some(t) => [(prefix + e.name, t)]
  {
    var c := Classify(EntryBaseName(e.name));
    if c.Some? {
      var rec := RecordOf(e, c.value, TargetName(st.dir, EntryBaseName(e.name)), prefix);
      SummariesSnoc(st.records, rec);
    } else {
      assert Summaries(st.records) + [] == Summaries(st.records);
    }
  }

  lemma SummariesSnoc(rs: seq<FileRecord>, rec: FileRecord)
    ensures Summaries(rs + [rec]) == Summaries(rs) + [(rec.originalPath, rec.fileType)]
  {
  }

  /** Records already in the manifest are never changed, even when the
      ingestion fails part way. */
  lemma {:induction false} IngestExtends(a: Archive, i: nat, st: Progress, prefix: string)
    requires i <= |a.entries|
    ensures var r := IngestFrom(a, i, st, prefix);
      |st.records| <= |r.records| && r.records[..|st.records|] == st.records
    decreases a, |a.entries| - i, 1
  {
    if st.ok && i < |a.entries| {
      var x := Step(a, i, st, prefix);
      UnfoldIngest(a, i, st, prefix);
      StepExtends(a, i, st, prefix);
      IngestExtends(a, i + 1, x, prefix);
      PrefixChain(st.records, x.records, IngestFrom(a, i + 1, x, prefix).records);
    } else {
      assert IngestFrom(a, i, st, prefix) == st;
    }
  }

  lemma {:induction false} StepExtends(a: Archive, i: nat, st: Progress, prefix: string)
    requires i < |a.entries|
    ensures var r := Step(a, i, st, prefix);
      |st.records| <= |r.records| && r.records[..|st.records|] == st.records
    decreases a, |a.entries| - i, 0
  {
    var e := a.entries[i];
    var r := Step(a, i, st, prefix);
    if IsDirectoryEntry(e) {
      assert r == st;
    } else if IsNestedZip(e) {
      if e.contents.Some? {
        var inner := e.contents.value;
        var withTemp := st.(dir := st.dir[TempName(st.dir) := e.data]);
        IngestExtends(inner, 0, withTemp, prefix + e.name + "/");
        assert r.records == IngestFrom(inner, 0, withTemp, prefix + e.name + "/").records;
      } else {
        assert r.records == st.records;
      }
    } else {
      assert r == Extract(e, st, prefix);
      ExtractExtends(e, st, prefix);
    }
  }

  lemma ExtractExtends(e: Entry, st: Progress, prefix: string)
    ensures var r := Extract(e, st, prefix);
      |st.records| <= |r.records| && r.records[..|st.records|] == st.records
  {
    var r := Extract(e, st, prefix);
    if Classify(EntryBaseName(e.name)).Some? {
      var rec := RecordOf(e, Classify(EntryBaseName(e.name)).value, TargetName(st.dir, EntryBaseName(e.name)), prefix);
      assert r.records == st.records + [rec];
      assert (st.records + [rec])[..|st.records|] == st.records;
    }
  }

  /** A name `TempName` makes: `nested_<k>.zip`. */
  predicate IsTempName(t: string) {
    StartsWith(t, "nested_") && EndsWith(t, ".zip")
  }

  /** How every kept file's name ends: with a character other than 'p',
      after a '.'. A temporary copy's name ends in "zip", so no kept file or
      split part is ever taken for one. */
  predicate KeptShape(n: string) {
    |n| > 0 && n[|n| - 1] != 'p' && '.' in n
  }

  lemma TempNotKept(t: string)
    requires IsTempName(t)
    ensures !KeptShape(t)
  {
    assert t[|t| - 1] == ".zip"[3];
  }

  /** Bug reports end in ".txt" and videos in ".mp4", in either case. */
  lemma ClassifiedShape(n: string)
    requires Classify(n).Some?
    ensures KeptShape(n)
  {
    if IsBugreportName(n) {
      assert LowerStr(n)[|n| - 1] == LowerStr(".txt")[3];
      assert n[|n| - 4] == '.' by {
        assert LowerStr(n)[|n| - 4] == LowerStr(".txt")[0];
      }
    } else {
      assert LowerStr(n)[|n| - 1] == LowerStr(".mp4")[3];
      assert n[|n| - 4] == '.' by {
        assert LowerStr(n)[|n| - 4] == LowerStr(".mp4")[0];
      }
    }
  }

  /** A renamed target `base_k.ext` ends like the name it replaces. */
  lemma TargetShape(dir: Dir, safeName: string)
    requires KeptShape(safeName)
    ensures KeptShape(TargetName(dir, safeName))
  {
    if safeName in dir {
      var prefix, ext := FuBaseName(safeName) + "_", FuExtension(safeName);
      var k: nat :| 1 <= k && TargetName(dir, safeName) == Numbered(prefix, k, "." + ext);
      ExtensionLast(safeName);
      NumberedShape(prefix, k, ext);
    }
  }

  /** A non-empty extension ends the name it was taken from. */
  lemma ExtensionLast(s: string)
    requires |s| > 0
    ensures var ext := FuExtension(s); |ext| > 0 ==> ext[|ext| - 1] == s[|s| - 1]
  {
    var ext, fn := FuExtension(s), FuName(s);
    if |ext| > 0 {
      assert fn[|fn| - |ext|..] == ext;
      assert ext[|ext| - 1] == fn[|fn| - 1];
      assert s[|s| - |fn|..] == fn;
    }
  }

  /** `prefix k . ext` has a '.' and ends with `ext`'s last character, or
      with the '.' itself. */
  lemma NumberedShape(prefix: string, k: nat, ext: string)
    ensures var r := Numbered(prefix, k, "." + ext);
      '.' in r && r[|r| - 1] == (if |ext| > 0 then ext[|ext| - 1] else '.')
  {
    var r := Numbered(prefix, k, "." + ext);
    assert r == (prefix + NatToString(k)) + ("." + ext);
    assert r[|r| - |ext| - 1] == '.';
  }

  /** A split part `<name>_sub<i><ext>` keeps the extension of its file. */
  lemma PartShape(name: string, i: nat)
    requires KeptShape(name)
    ensures KeptShape(FileSplitter.PartName(name, i))
  {
    var (nameOnly, ext) := FileSplitter.SplitName(name);
    var r := FileSplitter.PartName(name, i);
    assert r == nameOnly + "_sub" + NatToString(i) + ext;
    assert r[|r| - |ext|] == '.';
    assert r[|r| - 1] == ext[|ext| - 1];
    assert ext[|ext| - 1] == name[|name| - 1] by {
      assert name == nameOnly + ext;
    }
  }

  /** The files a record stands for: the kept file and its split parts. */
  function RecordFiles(rec: FileRecord): set<string> {
    {rec.fileName} + if rec.splitParts.Some? then set n | n in rec.splitParts.value else {}
  }

  /** The files a sequence of records stands for. */
  function Written(rs: seq<FileRecord>): set<string>
    decreases |rs|
  {
    if |rs| == 0 then {} else Written(rs[..|rs| - 1]) + RecordFiles(rs[|rs| - 1])
  }

  lemma {:induction false} WrittenAppend(a: seq<FileRecord>, b: seq<FileRecord>)
    ensures Written(a + b) == Written(a) + Written(b)
    decreases |b|
  {
    if |b| == 0 {
      assert a + b == a;
    } else {
      assert (a + b)[..|a + b| - 1] == a + b[..|b| - 1];
      WrittenAppend(a, b[..|b| - 1]);
    }
  }

  /** The records one step added are those added up to it, followed by
      those added after it. */
  lemma NewRecords(r0: seq<FileRecord>, r1: seq<FileRecord>, r2: seq<FileRecord>)
    requires |r0| <= |r1| && r1[..|r0|] == r0
    requires |r1| <= |r2| && r2[..|r1|] == r1
    ensures Written(r2[|r0|..]) == Written(r1[|r0|..]) + Written(r2[|r1|..])
  {
    assert r2[|r0|..] == r1[|r0|..] + r2[|r1|..];
    WrittenAppend(r1[|r0|..], r2[|r1|..]);
  }

  /** What an ingestion leaves in the project directory, as a relation
      between the state before and after. */
  predicate LeavesFiles(st: Progress, r: Progress) {
    st.dir.Keys <= r.dir.Keys && |st.records| <= |r.records|
    && (r.ok ==> r.dir.Keys <= st.dir.Keys + Written(r.records[|st.records|..]))
    && (r.ok ==> forall n :: n in Written(r.records[|st.records|..]) ==> n in r.dir && KeptShape(n))
    && (st.ok && !r.ok ==> exists t :: t in r.dir && t !in st.dir && IsTempName(t))
  }

  lemma LeavesFilesSame(st: Progress)
    ensures LeavesFiles(st, st)
  {
    assert st.records[|st.records|..] == [];
  }

  /** The relation carries over two steps when a failed state is final. */
  lemma LeavesFilesChain(st: Progress, x: Progress, r: Progress)
    requires LeavesFiles(st, x) && LeavesFiles(x, r)
    requires |x.records| <= |r.records| && r.records[..|x.records|] == x.records
    requires |st.records| <= |x.records| && x.records[..|st.records|] == st.records
    requires !x.ok ==> r == x
    ensures LeavesFiles(st, r)
  {
    if r.ok {
      NewRecords(st.records, x.records, r.records);
    }
    if r.ok {
      assert x.ok;
      forall n | n in Written(r.records[|st.records|..]) ensures n in r.dir && KeptShape(n) {
        if n in Written(x.records[|st.records|..]) {
          assert n in x.dir;
        }
      }
    }
    if st.ok && !r.ok && x.ok {
      var t :| t in r.dir && t !in x.dir && IsTempName(t);
      assert t !in st.dir;
    }
  }

  /** What an ingestion leaves in the project directory. No file that was
      there is removed. When it returns normally every temporary copy is
      gone again, and every file added is a kept file or a split part it
      recorded. When it throws, the temporary copy of the nested archive
      that failed is left behind. */
  lemma {:induction false} IngestFiles(a: Archive, i: nat, st: Progress, prefix: string)
    requires i <= |a.entries|
    ensures LeavesFiles(st, IngestFrom(a, i, st, prefix))
    decreases a, |a.entries| - i, 1
  {
    var r := IngestFrom(a, i, st, prefix);
    if st.ok && i < |a.entries| {
      var x := Step(a, i, st, prefix);
      UnfoldIngest(a, i, st, prefix);
      StepFiles(a, i, st, prefix);
      StepExtends(a, i, st, prefix);
      IngestFiles(a, i + 1, x, prefix);
      IngestExtends(a, i + 1, x, prefix);
      if !x.ok {
        IngestFailedStays(a, i + 1, x, prefix);
      }
      LeavesFilesChain(st, x, r);
    } else {
      LeavesFilesSame(st);
    }
  }

  /** `extractProject` adds to the project directory exactly the files
      it records, leaves every file that was there, and leaves a
      temporary copy behind only when a nested archive fails. */
  lemma ExtractedFiles(z: Option<Archive>, existing: Dir)
    ensures var r := Ingest(z, Progress([], existing, true), "");
      existing.Keys <= r.dir.Keys
      && (r.ok ==> r.dir.Keys == existing.Keys + Written(r.records))
      && (r.ok ==> forall t :: t in r.dir && IsTempName(t) ==> t in existing)
      && (!r.ok && z.Some? ==> exists t :: t in r.dir && t !in existing && IsTempName(t))
  {
    var st := Progress([], existing, true);
    if z.Some? {
      IngestFiles(z.value, 0, st, "");
      var r := Ingest(z, st, "");
      assert r.records[0..] == r.records;
      forall t | t in r.dir && IsTempName(t) && r.ok ensures t in existing {
        TempNotKept(t);
      }
    }
  }

  lemma {:induction false} StepFiles(a: Archive, i: nat, st: Progress, prefix: string)
    requires i < |a.entries| && st.ok
    ensures LeavesFiles(st, Step(a, i, st, prefix))
    decreases a, |a.entries| - i, 0
  {
    var e := a.entries[i];
    var r := Step(a, i, st, prefix);
    StepExtends(a, i, st, prefix);
    if IsDirectoryEntry(e) {
      assert r == st;
      assert st.records[|st.records|..] == [];
    } else if IsNestedZip(e) {
      var temp := TempName(st.dir);
      var withTemp := st.(dir := st.dir[temp := e.data]);
      if e.contents.Some? {
        var inner := e.contents.value;
        IngestFiles(inner, 0, withTemp, prefix + e.name + "/");
        NestedFiles(st, temp, e.data, IngestFrom(inner, 0, withTemp, prefix + e.name + "/"));
      } else {
        assert temp in r.dir && r.records == st.records;
      }
    } else {
      assert r == Extract(e, st, prefix);
      ExtractFiles(e, st, prefix);
    }
  }

  /** Every file a kept record names ends like a kept file. */
  lemma RecordShape(e: Entry, t: FileType, target: string, prefix: string)
    requires KeptShape(target)
    ensures forall n :: n in RecordFiles(RecordOf(e, t, target, prefix)) ==> KeptShape(n)
  {
    var rec := RecordOf(e, t, target, prefix);
    if rec.splitParts.Some? {
      forall n | n in rec.splitParts.value ensures KeptShape(n) {
        var j :| 0 <= j < |rec.splitParts.value| && rec.splitParts.value[j] == n;
        PartShape(target, j + 1);
      }
    }
  }

  /** The temporary copy of a nested archive goes again once the nested
      walk returns normally, and stays when it throws. */
  lemma NestedFiles(st: Progress, temp: string, data: seq<bv8>, q: Progress)
    requires st.ok && temp !in st.dir && IsTempName(temp)
    requires LeavesFiles(st.(dir := st.dir[temp := data]), q)
    ensures LeavesFiles(st, if q.ok then q.(dir := q.dir - {temp}) else q)
  {
    TempNotKept(temp);
    var r := if q.ok then q.(dir := q.dir - {temp}) else q;
    if q.ok {
      forall n | n in Written(r.records[|st.records|..]) ensures n in r.dir && KeptShape(n) {
        assert n != temp;
      }
    } else {
      assert temp in r.dir;
    }
  }

  /** A plain entry adds the kept file and its parts, or nothing. */
  lemma ExtractFiles(e: Entry, st: Progress, prefix: string)
    ensures var r := Extract(e, st, prefix);
      r.ok == st.ok && |st.records| <= |r.records|
      && r.dir.Keys == st.dir.Keys + Written(r.records[|st.records|..])
    ensures var r := Extract(e, st, prefix);
      forall n :: n in Written(r.records[|st.records|..]) ==> KeptShape(n)
  {
    var r := Extract(e, st, prefix);
    var c := Classify(EntryBaseName(e.name));
    if c.Some? {
      var target := TargetName(st.dir, EntryBaseName(e.name));
      var rec := RecordOf(e, c.value, target, prefix);
      assert r.records[|st.records|..] == [rec];
      assert Written([rec]) == RecordFiles(rec) by {
        assert [rec][..0] == [];
      }
      PartsAvoidTarget(target, e.data);
      ClassifiedShape(EntryBaseName(e.name));
      TargetShape(st.dir, EntryBaseName(e.name));
      RecordShape(e, c.value, target, prefix);
    } else {
      assert r.records[|st.records|..] == [];
    }
  }

  // -------------------------------------------------------------- methods

  /** `ZipExtractor.processZip`: walks the entries of `a` in order, writing
      into the project directory and appending to `manifest`. `ok` is false
      when an archive could not be opened (the `IOException`). */
  method ProcessZip(a: Archive, dir0: Dir, manifest: ProjectManifest, prefix: string)
    returns (dir: Dir, ok: bool)
    modifies manifest
    ensures var r := IngestFrom(a, 0, Progress(old(Values(manifest.files)), dir0, true), prefix);
      Values(manifest.files) == r.records && dir == r.dir && ok == r.ok
    ensures manifest.projectName == old(manifest.projectName)
    ensures manifest.displayName == old(manifest.displayName)
    ensures manifest.originalZipPath == old(manifest.originalZipPath)
    ensures manifest.createdDate == old(manifest.createdDate)
    decreases a, 1
  {
    ghost var goal := IngestFrom(a, 0, Progress(Values(manifest.files), dir0, true), prefix);
    dir := dir0;
    var i := 0;
    while i < |a.entries|
      invariant 0 <= i <= |a.entries|
      invariant IngestFrom(a, i, Progress(Values(manifest.files), dir, true), prefix) == goal
      invariant manifest.projectName == old(manifest.projectName)
      invariant manifest.displayName == old(manifest.displayName)
      invariant manifest.originalZipPath == old(manifest.originalZipPath)
      invariant manifest.createdDate == old(manifest.createdDate)
    {
      ghost var st := Progress(Values(manifest.files), dir, true);
      UnfoldIngest(a, i, st, prefix);
      var entryOk;
      dir, entryOk := ProcessEntry(a, i, manifest, prefix, dir);
      if !entryOk {
        IngestFailedStays(a, i + 1, Step(a, i, st, prefix), prefix);
        return dir, false;
      }
      i := i + 1;
    }
    ok := true;
  }

  /** One pass of the entry loop: a directory is skipped, a nested archive
      is copied to a temporary file, processed, and the copy deleted, and
      anything else goes to `ExtractEntry`. */
  method ProcessEntry(a: Archive, i: nat, manifest: ProjectManifest, prefix: string, dir0: Dir)
    returns (dir: Dir, ok: bool)
    requires i < |a.entries|
    modifies manifest
    ensures var r := Step(a, i, Progress(old(Values(manifest.files)), dir0, true), prefix);
      Values(manifest.files) == r.records && dir == r.dir && ok == r.ok
    ensures manifest.projectName == old(manifest.projectName)
    ensures manifest.displayName == old(manifest.displayName)
    ensures manifest.originalZipPath == old(manifest.originalZipPath)
    ensures manifest.createdDate == old(manifest.createdDate)
    decreases a, 0
  {
    var e := a.entries[i];
    dir, ok := dir0, true;
    if IsDirectoryEntry(e) {
      // skipped
    } else if IsNestedZip(e) {
      var temp := TempName(dir);
      dir := dir[temp := e.data];
      match e.contents {
        case None =>
          ok := false;
        case Some(inner) =>
          dir, ok := ProcessZip(inner, dir, manifest, prefix + e.name + "/");
          if ok {
            dir := dir - {temp};
          }
      }
    } else {
      dir := ExtractEntry(e, manifest, prefix, dir);
    }
  }

  /** The body of the entry loop for an entry that is neither a directory
      nor a nested archive: classify it, and for a kept file write it under
      a free name, build its metadata, split it when it is a bug report, and
      append the metadata to the manifest. */
  method ExtractEntry(e: Entry, manifest: ProjectManifest, prefix: string, dir0: Dir)
    returns (dir: Dir)
    modifies manifest
    ensures var r := Extract(e, Progress(old(Values(manifest.files)), dir0, true), prefix);
      Values(manifest.files) == r.records && dir == r.dir
    ensures manifest.projectName == old(manifest.projectName)
    ensures manifest.displayName == old(manifest.displayName)
    ensures manifest.originalZipPath == old(manifest.originalZipPath)
    ensures manifest.createdDate == old(manifest.createdDate)
  {
    dir := dir0;
    var safeName := EntryBaseName(e.name);
    var fileType := Classify(safeName);
    if fileType.Some? {
      var target := TargetName(dir, safeName);
      var metadata;
      dir, metadata := StoreEntry(e, fileType.value, target, prefix, dir);
      ValuesAppend(manifest.files, metadata);
      manifest.AddFile(metadata);
    }
  }

  /** A kept file: its bytes written under `target`, a fresh metadata
      object, and for a bug report the split parts written and named. */
  method StoreEntry(e: Entry, t: FileType, target: string, prefix: string, dir0: Dir)
    returns (dir: Dir, metadata: FileMetadata)
    ensures fresh(metadata)
    ensures metadata.Value() == RecordOf(e, t, target, prefix)
    ensures var parts := RecordOf(e, t, target, prefix).splitParts;
      parts.Some? ==> target !in parts.value && |parts.value| == FileSplitter.PartCount(|e.data|)
    ensures dir == Store(dir0, target, e.data, RecordOf(e, t, target, prefix).splitParts)
  {
    PartsAvoidTarget(target, e.data);
    dir := dir0[target := e.data];
    metadata := new FileMetadata(target, |e.data|, target, prefix + e.name, t);
    if t == BUGREPORT {
      var parts, written := FileSplitter.SplitFile(target, |e.data|, e.data);
      if parts.Some? {
        dir := WriteParts(dir, parts.value, written);
      }
      metadata.SetSplitParts(parts);
    }
  }

  /** The project name: the zip's file name without its extension. */
  function ProjectNameOf(zipPath: Path): string {
    FuBaseName(Name(zipPath))
  }

  /** The project directory: the zip's sibling named after the project. */
  function ProjectDirOf(zipPath: Path): (r: Path)
    ensures Name(r) == ProjectNameOf(zipPath)
    ensures Parent(zipPath).Some? ==> Parent(r) == Parent(zipPath)
  {
    var name := ProjectNameOf(zipPath);
    var parent := Parent(zipPath);
    if parent.Some? then
      ParentOfChild(parent.value, name);
      Child(parent.value, name)
    else Path(false, [name])
  }

  /** `File.getAbsolutePath()`: a relative path is taken from `cwd`. */
  function AbsolutePath(cwd: Path, p: Path): Path {
    if p.absolute then p else Path(true, cwd.parts + p.parts)
  }

  /** `ZipExtractor.extractProject`. `existing` is what the project
      directory already holds (nothing when it is created here), `z` what
      opening the zip yields, `now` the clock. */
  method ExtractProject(zipPath: Path, cwd: Path, z: Option<Archive>, existing: Dir, now: int)
    returns (manifest: ProjectManifest, dir: Dir, ok: bool)
    ensures fresh(manifest)
    ensures manifest.projectName == ProjectNameOf(zipPath)
    ensures manifest.originalZipPath == PathString(AbsolutePath(cwd, zipPath))
    ensures manifest.displayName == None && manifest.createdDate == now
    ensures var r := Ingest(z, Progress([], existing, true), "");
      Values(manifest.files) == r.records && dir == r.dir && ok == r.ok
  {
    var projectName := ProjectNameOf(zipPath);
    manifest := new ProjectManifest(projectName, PathString(AbsolutePath(cwd, zipPath)), now);
    assert Values(manifest.files) == [];
    match z {
      case None =>
        dir, ok := existing, false;
      case Some(a) =>
        dir, ok := ProcessZip(a, existing, manifest, "");
    }
  }
}
